=== FILE: README.md ===
# cascade, modelled in Dafny

cascade (the `block_cascade` package) runs a Python function somewhere else: on a Vertex AI custom job, possibly a distributed one or a hyperparameter tuning job, on a Databricks cluster, or locally. Its `remote` decorator finds a resource description, either given or looked up in `cascade.yml`. It then picks an executor. The executor pickles the function to storage, submits a job whose bootstrap script unpickles and runs it, and polls the job until it stops. Finally it reads the pickled result back.

This project models that core as pure functions over immutable data.
- Payloads and configuration are `Json.Value` trees.
- Storage is a map from path to blob (`Codec.Store`).
- Pickling is an opaque codec with `decode(encode(x)) == x`.
- Every query to a cloud service is an oracle parameter: a function from the query's number to its answer, or from a request to a response.
- Sleeps are dropped; retry and poll loops keep their structure and their counts.

Each source file has its own Dafny module, or several where the file is long:
- `Config`: config.py.
- `Utils`: utils.py.
- `BaseExecutor`: executors/executor.py.
- `LocalExecutor`: executors/local/executor.py.
- `VertexResource`, `Tune`, `VertexJob`, `VertexExecutor` and `VertexTuneResult`, `VertexRun`: the Vertex executor package.
- `DistributedJob` and `DistributedRun`, `TorchJob`, `TorchrunTarget`: the distributed bootstraps.
- `DatabricksResource`, `DatabricksJob`, `DatabricksRun`: the Databricks executor package.
- `DatabricksStatus` (run status and polling), `DatabricksAccess` (the secret, the S3 filesystem, the modules pickled by value), `DatabricksExecutor` (the executor's state, the cluster policy, the job) and `DatabricksLifecycle` (staging to result): executors/databricks/executor.py.
- `DatabricksSession` (requests), `DatabricksFilesystem` (`open`, `upload`, `rm`) and `DatabricksVolume` (the ideal volume): executors/databricks/filesystem.py.
- `DecoratorArguments` (decorating and overrides), `DecoratorEnvironment` (filling a Vertex environment) and `Decorators` (choosing the executor): decorators.py and remote.py.
- `Gcp`: gcp/__init__.py.
- `Monitoring`: gcp/monitoring.py.
- `Crud`: cli/crud.py.
- `Prefect` and `PrefectEnvironment`: prefect/v2 and prefect/v3.
- `Context`: context/__init__.py.

Shared modules:
- `Wrappers`: `Option`, `Result` and the Python exceptions as an `Error` datatype.
- `Strings`: split, join, strip, `os.path.join`, integer parsing.
- `Json`: the value tree and dictionary access that raises `KeyError`.
- `Codec`: pickling, storage and the trace of effects.
- `Slug`: a stand-in for python-slugify.

Where the repository has several copies of a file, `block_cascade/` is modelled. The `cascade/` copy is used where no `block_cascade/` one exists: `tune.py`, `databricks/job.py` and `torchrun_target.py`.

## Model

| member | source | states |
|---|---|---|
| Utils.WrappedPartial | block_cascade/utils.py:67-75 | the partial exists exactly when the wrapped callable has a `__name__`; it carries that name and wraps the callable, otherwise `AttributeError` |
| Utils.WrappedPartialCall | block_cascade/utils.py:67-75 | calling the wrapped partial with no arguments is calling the function with the bound arguments |
| Utils.InferBaseModule | block_cascade/utils.py:51-64 | `None` exactly when the callable has no module; otherwise a dot-free name that is the whole module name or its first dotted component |
| Utils.MaybeConvert | block_cascade/utils.py:31-36 | a literal is returned as parsed, a `ValueError` falls back to the raw string, and every other exception of `literal_eval` propagates |
| Utils.Tokens | block_cascade/utils.py:41 | no token of the flattened argument list holds an `=` |
| Utils.TokensAppend | block_cascade/utils.py:41 | splitting distributes over concatenated argument lists |
| Utils.TokensIdempotent | block_cascade/utils.py:41 | splitting already split tokens again changes nothing |
| Utils.ParseHyperparameters | block_cascade/utils.py:39-44 | a parsed dictionary came from an even token count; its keys are exactly the even-position tokens with leading dashes stripped (so none starts with a dash), and each key holds the converted token after the last pair naming it |
| Utils.ParseHyperparametersSpellings | block_cascade/utils.py:40-41 | `--a=3` and `--a 3` spellings give the same dictionary |
| Utils.CollectPairsTotal | block_cascade/utils.py:42-44 | when no value raises a non-`ValueError`, parsing fails exactly when the token count is odd |
| Utils.CollectPairsLastWins | block_cascade/utils.py:42-44 | the final pair's stripped key is present and holds its converted value, whatever came earlier |
| Utils.CollectPairsKeys | block_cascade/utils.py:42-44 | the keys are exactly the even-position tokens with leading dashes stripped |
| Utils.CollectPairsValues | block_cascade/utils.py:42-44 | every pair whose key no later pair repeats gives that key its converted value: later duplicates win |
| Utils.CollectPairsKept | block_cascade/utils.py:42-44 | an entry already in the dictionary that no pair names keeps its value |
| Utils.KeyHasLastPair | block_cascade/utils.py:42-44 | every key the token list names has a pair naming it that no later pair repeats |
| Utils.ParsedKeyPair | block_cascade/utils.py:39-44 | every parsed key comes from a last pair naming it and holds the converted token after that pair |
| BaseExecutor.FuncName | block_cascade/executors/executor.py:56-63 | an explicit non-empty name wins, else the function's `__name__`, else "unnamed" when the callable has none |
| BaseExecutor.RunLayout | block_cascade/executors/executor.py:73-84 | the staged and output files are different paths, both inside the run's storage directory |
| BaseExecutor.Stage | block_cascade/executors/executor.py:86-92 | after staging, the staged path loads back the function; the staged path is the only key added and every other path keeps its contents |
| BaseExecutor.TryStage | block_cascade/executors/executor.py:86-92 | staging fails exactly when `cloudpickle` raises, with that error; then the staged file exists but is empty and does not load; otherwise storage is as `Stage` leaves it; no other path changes |
| BaseExecutor.CollectResult | block_cascade/executors/executor.py:112-121 | a missing output raises `FileNotFoundError` naming the output path and leaves storage alone; a success returns what the output file holds and removes the run's directory tree |
| BaseExecutor.CollectResultCleansUp | block_cascade/executors/executor.py:112-121 | after a successful collection neither the staged nor the output file is left |
| BaseExecutor.With | block_cascade/executors/executor.py:123-131 | attributes that are not set keep their values, so a copy shares the original's storage key unless it is set |
| BaseExecutor.WithAppend | block_cascade/executors/executor.py:123-131 | setting attributes in two `with_` calls is setting them all in one |
| LocalExecutor.StorageLocation | block_cascade/executors/local/executor.py:17-24 | the storage location lies under the home directory and ends in `/cascade-storage/` |
| LocalExecutor.Run | block_cascade/executors/local/executor.py:26-47 | the function is called once; the run succeeds exactly when the call succeeds and its result pickles, and then returns that result, readable at the output path; a raising function writes nothing; an unpicklable result raises the pickling error and leaves an empty, unreadable output file; no other path changes |
| Codec.Dump | block_cascade/executors/local/executor.py:45-46 | the output file is created; it loads back the value exactly when pickling succeeds, and otherwise is empty, does not load, and the pickling error is raised; every other path keeps its contents |
| Codec.CallPayload | block_cascade/executors/vertex/run.py:74 | calling a loaded function gives its call's outcome; calling any other loaded object raises `TypeError` |
| LocalExecutor.RunTwice | tests/test_local_executor.py:31-42 | running the same executor twice gives the same result (or the same error), calls the function twice, and leaves storage as the first run left it |
| LocalExecutor.WithCopyRunsAlike | tests/test_local_executor.py:45-59 | a `with_()` copy without attributes runs exactly like the original |
| LocalExecutor.AdditionExample | tests/test_local_executor.py:20-28 | running `wrapped_partial(addition, 1, 2)` returns 3 |
| LocalExecutor.StagedPathExample | tests/test_local_executor.py:62-76 | the staged path of a run keyed "12345" is `<home>/cascade-storage/12345/function.pkl` |
| Config.Merge | block_cascade/config.py:24-50 | the merged keys are both inputs' keys; a key only in the defaults keeps its value, an override wins unless both sides hold dictionaries, and two dictionaries merge into one holding both key sets |
| Config.MergeSelf | block_cascade/config.py:24-50 | merging a dictionary into itself changes nothing |
| Config.MergeIdentity | block_cascade/config.py:24-50 | an empty side is a neutral element on both sides of the merge |
| Config.MergeOverridesIdempotent | block_cascade/config.py:24-50 | applying the same overrides a second time changes nothing |
| Config.MergeExample | block_cascade/config.py:29 | the documented example: "goodbye" overrides "world", and nested dictionaries merge key by key |
| Config.Lookup | block_cascade/config.py:69 | a missing key gives the default; a present key gives the value of its first entry, which for a loaded dictionary is its only one |
| Config.ClassDefaults | block_cascade/config.py:75-84 | the defaults of a resource class are the `default` entry's value under the class name, an empty mapping when absent, and `AttributeError` when the `default` entry is not a mapping |
| Config.ConfigureEntry | block_cascade/config.py:69-88 | a list definition raises `TypeError` and another non-mapping `AttributeError`; a definition without `type` raises `KeyError`, an unaccepted type `ValueError`, and non-mapping defaults `AttributeError`; otherwise the job is the named class with its definition (minus `type`) merged over that class's defaults |
| Config.ConfigureEntries | block_cascade/config.py:66-89 | the loop succeeds exactly when every job configures, and otherwise raises the first failing job's error; on success the keys are the job names other than `default` and each holds the configuration of its definition; names are distinct, as in the loaded dictionary |
| Config.FindDefaultConfiguration | block_cascade/config.py:53-90 | no configuration file gives `None`; `cascade.yaml` is preferred over `cascade.yml`; a file that is not a mapping raises `AttributeError`; otherwise the result exists exactly when every job configures, and then holds one entry per job name, the configuration of its definition over the file's one `default` entry; names are distinct, as in the loaded dictionary |
| Config.ConfiguredJobOverridesDefaults | block_cascade/config.py:69-88 | for either resource class, a job's own scalar setting overrides the class default, a default fills what the job leaves out, a mapping set on both sides is merged, and no other key appears |
| Config.MergeNested | block_cascade/config.py:44-47 | where both sides hold a mapping under a key, the merge holds the merge of the two mappings |
| Context.KindName | block_cascade/context/__init__.py:55-59 | the kind is "Context" exactly for the base class |
| Context.NewContextAsWritten | block_cascade/context/__init__.py:10-23 | as written, an import that raises inside the `try` surfaces as `UnboundLocalError` for `MissingContextError`; every other probe behaves as intended |
| Context.NewContext | block_cascade/context/__init__.py:10-23 | the Prefect context exactly when the run logger is available; on `MissingContextError` the VM metadata context exactly when `VERTEX_PRODUCT` is set, else the base context; `ImportError` gives the base context; any other exception propagates unchanged |
| Context.NoPrefectInstalled | block_cascade/context/__init__.py:11-23 | without Prefect installed the factory as written fails where the intended one returns the base context |
| Context.PlainContextKnowsNothing | block_cascade/context/__init__.py:25-59 | outside a Prefect run and off Vertex the context is the base one, with no tags and no image, project, service account or region |
| Gcp.Fetch | block_cascade/gcp/__init__.py:45-49 | a fetch succeeds exactly when the server answers with a non-error status; no connection raises `ConnectionError` and a 4xx/5xx status raises `HTTPError` for that URL |
| Gcp.GetContainerImage | block_cascade/gcp/__init__.py:44-52 | the image is the `container` attribute of the recursive attribute listing; a fetch error propagates and a listing without it raises `KeyError("container")` |
| Gcp.GetNetwork | block_cascade/gcp/__init__.py:54-60 | succeeds exactly when the fetch does and the reply has four slash-separated parts; any other part count raises `ValueError` |
| Gcp.NetworkOfReply | block_cascade/gcp/__init__.py:54-60 | a reply `projects/<number>/networks/<name>` reads back as `projects/<number>/global/networks/<name>` |
| Gcp.GetProject | block_cascade/gcp/__init__.py:62-67 | the project is the reply text, whenever the fetch succeeds |
| Gcp.RegionOfZone | block_cascade/gcp/__init__.py:74-75 | the region holds no slash |
| Gcp.RegionOfZonePath | block_cascade/gcp/__init__.py:74-75 | `<path>/<region>-<zone>` reads back as `<region>`, dashes inside the region included |
| Gcp.RegionExample | block_cascade/gcp/__init__.py:74 | the zone `us-central1-a` lies in region `us-central1` |
| Gcp.GetRegion | block_cascade/gcp/__init__.py:69-75 | succeeds exactly when the fetch does, with a slash-free region |
| Gcp.GetServiceAccount | block_cascade/gcp/__init__.py:77-82 | the service account is the reply text, whenever the fetch succeeds |
| Gcp.MetadataProvider | block_cascade/gcp/__init__.py:34-82 | the metadata client answers each of the five getters of the provider interface from its own URL |
| Gcp.UnreachableServer | block_cascade/gcp/__init__.py:34-82 | off a GCP VM, where no metadata server answers, every getter raises `ConnectionError` |
| Prefect.GetFromPrefectContextAsWritten | block_cascade/prefect/v2/__init__.py:49-63 | as written, the only error is a `RuntimeError` carrying the uninterpolated text `Unsupported attribute: {attr}.`; otherwise it agrees with the corrected lookup |
| Prefect.GetFromPrefectContext | block_cascade/prefect/v2/__init__.py:49-63 | the default whenever either run context is missing; inside a run, success exactly for the seven supported attribute names, each alias pair reading the same run field, and an error naming the attribute otherwise |
| Prefect.UnsupportedAttributeNotNamed | block_cascade/prefect/v2/__init__.py:63 | asking for `flow` inside a run reports the placeholder text where the corrected message names `flow` |
| Prefect.UnsupportedAttributeNamed | block_cascade/prefect/v2/__init__.py:63 | the corrected message lets the attribute be read back from it |
| Prefect.GetCurrentDeployment | block_cascade/prefect/v2/__init__.py:66-76 | no deployment id gives `None` without a request; a cached deployment is returned without a request; otherwise exactly one read of that id, whose result is cached only on success |
| Prefect.StorageBlockName | block_cascade/prefect/v2/__init__.py:88 | the name is `block_document_name` of the `pull_with_block` entry of the first pull step |
| Prefect.GetStorageBlock | block_cascade/prefect/v2/__init__.py:79-94 | no deployment gives `None` without a request; a cached block is returned as is; a block that is returned is the cached one afterwards |
| Prefect.EmptyDeploymentId | block_cascade/prefect/v2/__init__.py:66-69 | an empty deployment id counts as a cloud deployment yet no deployment or storage block is read for it |
| Prefect.DeploymentReadOnce | block_cascade/prefect/v2/__init__.py:71-76 | after one successful read a second call makes no request and returns the same deployment, even for another id |
| Prefect.StorageBlockReadOnce | block_cascade/prefect/v2/__init__.py:84-94 | once a block was found, a second call makes no request and returns it again |
| Prefect.StorageBlockRequest | block_cascade/prefect/v2/__init__.py:85-93 | with pull steps the block is read by the name in the first step as a `gcs-bucket`, without them by the storage document id |
| PrefectEnvironment.CurrentDeployment | block_cascade/prefect/v2/environment.py:104-113 | no deployment id gives `None` without a request; a cached deployment is reused; otherwise one read, cached only on success |
| PrefectEnvironment.JobVariables | block_cascade/prefect/v2/environment.py:84-91 | no deployment gives `None`; cached non-empty job variables are kept, empty ones are replaced by the deployment's; the infrastructure cache is untouched |
| PrefectEnvironment.Infrastructure | block_cascade/prefect/v2/environment.py:93-102 | no deployment gives `None`; a cached block is reused without a request; otherwise the deployment's infrastructure document is read, and a block found is cached |
| PrefectEnvironment.JobVariableOf | block_cascade/prefect/v2/environment.py:30-82 | from job variables: image, network and region under their own keys, the project under `credentials`, the service account as `service_account_name`, a missing key as `None` |
| PrefectEnvironment.JobVariable | block_cascade/prefect/v2/environment.py:32-33 | job variables that are not a dictionary have no `get` and raise `AttributeError` |
| PrefectEnvironment.InfrastructureOf | block_cascade/prefect/v2/environment.py:35-80 | from the infrastructure block: the project under `gcp_credentials`, the service account as `service_account`, block data that is not a dictionary raises |
| PrefectEnvironment.NoDeploymentNoAnswer | block_cascade/prefect/v3/environment.py:57-75 | without a deployment id every getter of either version answers `None` and asks the API nothing |
| PrefectEnvironment.JobVariablesAnswer | block_cascade/prefect/v3/environment.py:22-55 | non-empty job variables answer every getter of both versions alike and the infrastructure block is never read |
| PrefectEnvironment.InfrastructureFallback | block_cascade/prefect/v2/environment.py:30-38 | with empty job variables Prefect 2 answers from the infrastructure block after reading it once, while Prefect 3 answers `None` |
| PrefectEnvironment.ReadsAppend | block_cascade/prefect/v2/environment.py:93-113 | request counts add up over concatenated request logs |
| PrefectEnvironment.GetV2Cached | block_cascade/prefect/v2/environment.py:84-113 | a getter on a client whose caches agree with the API answers as a fresh client would, keeps its caches consistent, and reads the deployment and the block only when they are not cached |
| PrefectEnvironment.GetManyV2Caches | block_cascade/prefect/v2/environment.py:25-113 | one client asked several times answers as fresh clients would, yet reads the deployment at most once and an existing infrastructure block at most once |
| PrefectEnvironment.ProviderV2 | block_cascade/prefect/v2/environment.py:19-82 | a Prefect 2 client answers the five provider getters as a fresh client does |
| PrefectEnvironment.ProviderV3 | block_cascade/prefect/v3/environment.py:11-55 | a Prefect 3 client answers the five provider getters from job variables alone |
| VertexResource.DefaultMachine | block_cascade/executors/vertex/resource.py:67-73 | a default machine is one `n2-standard-4` with no accelerator, disk size or NFS mounts |
| VertexResource.NormaliseImage | block_cascade/executors/vertex/resource.py:116-127 | no image stays unset; a non-empty value with a slash is kept as a full URL; anything else becomes `us.gcr.io/<project>/<value>` |
| VertexResource.NormaliseImageIdempotent | block_cascade/executors/vertex/resource.py:116-127 | normalising an already normalised image changes nothing, so re-validation on assignment is harmless |
| VertexResource.MakeEnvironment | block_cascade/executors/vertex/resource.py:98-107 | the storage location defaults to `gs://cascade-<project>/`, the image is normalised, and the other fields are kept |
| VertexResource.WithSharedVpc | block_cascade/executors/vertex/resource.py:109-114 | the shared VPC network is preselected and everything else is built as usual |
| VertexResource.SetImage | block_cascade/executors/vertex/resource.py:76 | assigning an image runs the validator again and changes nothing else |
| VertexResource.IsCompleteImage | block_cascade/executors/vertex/resource.py:129-136 | clearing the image makes an environment incomplete, the network plays no part, and a complete environment with a project stays complete when given a short image name |
| VertexResource.ImageExamples | tests/test_resources.py:50-62 | `cascade:latest` becomes `us.gcr.io/test-project/cascade:latest`, `gcr.io/test-project/rapids` is kept, and no image stays unset |
| VertexResource.DefaultResource | block_cascade/executors/vertex/resource.py:158-162 | a default resource has the default chief and no workers, environment, distributed job or persistent resource |
| DistributedJob.DefaultDask | block_cascade/executors/vertex/distributed/distributed_job.py:147-150 | a default Dask job listens on port 8786, passes no extra arguments, and has neither a caller's logger nor a label yet |
| DistributedJob.PoolNumber | block_cascade/executors/vertex/distributed/distributed_job.py:40-59 | no CLUSTER_SPEC gives no pool number; an unparsable one raises the JSON error; a number comes only from a parsed spec |
| DistributedJob.PoolNumberOfWorkerpool | block_cascade/executors/vertex/distributed/distributed_job.py:56-59 | the node of task type `workerpool<n>` reads back pool number `n` |
| DistributedJob.SetState | block_cascade/executors/vertex/distributed/distributed_job.py:192-211 | unpickling only sets the Dask logger label: "chief" on pool 0, some label on any other pool; without a pool number the job stays as pickled, with the caller's logger if it had one; other jobs are untouched |
| DistributedJob.ChiefAddress | block_cascade/executors/vertex/distributed/distributed_job.py:220-225 | splitting the address at its first colon gives back the chief's IP and port |
| DistributedJob.FirstRead | block_cascade/executors/vertex/distributed/distributed_job.py:174-190 | the reference wait makes at most the allowed reads, ends on the first read that finds the file, and gives up only after all reads missed |
| DistributedJob.ChiefIp | block_cascade/executors/vertex/distributed/distributed_job.py:179-185 | a wait that found the file yields its text without trailing newlines; a wait that did not raises the chief timeout |
| DistributedJob.FirstReadFound | block_cascade/executors/vertex/distributed/distributed_job.py:179-180 | a wait whose first hit is read `j` ends there with `j + 1` reads |
| DistributedJob.FirstReadTimeout | block_cascade/executors/vertex/distributed/distributed_job.py:181-185 | a wait whose reads all miss uses every read and finds nothing |
| DistributedJob.WaitForChiefIp | block_cascade/executors/vertex/distributed/distributed_job.py:168-190 | the worker makes between 1 and 37 reads, fails exactly when all 37 miss, and agrees with the reference wait |
| DistributedJob.SchedulerCommand | block_cascade/executors/vertex/distributed/distributed_job.py:250-261 | the scheduler command listens on the chief port over TCP, keeps the user's scheduler arguments in order, and serves the dashboard on port 8888 |
| DistributedJob.WorkerCommand | block_cascade/executors/vertex/distributed/distributed_job.py:275-281 | the worker command points `dask worker` at the chief's address followed by the user's worker arguments in order |
| TorchJob.IsHost | block_cascade/executors/vertex/distributed/torch_job.py:79-82 | the `is_host` flag is the text "true" exactly on rank "0" and "false" everywhere else |
| TorchJob.ChiefHostPort | block_cascade/executors/vertex/distributed/torch_job.py:75 | host and port come from splitting the first `workerpool0` address at its only colon, and joined back they give that address |
| TorchJob.SplitJoin2 | block_cascade/executors/vertex/distributed/torch_job.py:75 | a string that splits into exactly two parts is those parts joined by the separator |
| TorchJob.CliArgs | block_cascade/executors/vertex/distributed/torch_job.py:43-108 | the arguments start with `torchrun`, end with the target module and the run's input and output paths, come in the 7-word or the 11-word form, and a node without CLUSTER_SPEC raises its `KeyError` |
| TorchJob.CliArgsMultiNode | block_cascade/executors/vertex/distributed/torch_job.py:72-96 | with a `workerpool1` the rendezvous is the chief's host at port 3333 whatever port the spec gives, `is_host` is true exactly on rank "0", and `nnodes` is the worker count plus one |
| TorchJob.CliArgsStandalone | block_cascade/executors/vertex/distributed/torch_job.py:97-108 | without `workerpool1` the arguments are the standalone single-node form |
| TorchJob.Run | block_cascade/executors/vertex/distributed/torch_job.py:110-132 | every node launches the download first when an input path is set and then `torchrun` with the derived arguments; it fails exactly when the arguments cannot be derived |
| TorchrunTarget.DistributedSetup | cascade/executors/vertex/distributed/torchrun_target.py:34-43 | MASTER_ADDR and MASTER_PORT are the two halves of the first `workerpool0` address, LOCAL_RANK must read as an integer, and a node without CLUSTER_SPEC raises its `KeyError` |
| TorchrunTarget.SetupKeepsSpecPort | cascade/executors/vertex/distributed/torchrun_target.py:36-41 | the port the cluster spec names reaches MASTER_PORT unchanged, even when it differs from the launcher's fixed rendezvous port |
| TorchrunTarget.CallFunc | cascade/executors/vertex/distributed/torchrun_target.py:67 | the loaded partial's wrapped function is called with no arguments; a plain function or any other loaded object has no `func` attribute and raises `AttributeError` |
| TorchrunTarget.MoveToCpu | cascade/executors/vertex/distributed/torchrun_target.py:77-83 | moving succeeds exactly when the model state is a dictionary; every state entry goes through the CPU move, and the keys and all other entries stay |
| TorchrunTarget.RunJobFunction | cascade/executors/vertex/distributed/torchrun_target.py:52-87 | fewer than three arguments raise `IndexError`; only rank "0" writes, and only to the output path; every other path keeps its contents; a success calls the function once; the process group is torn down after it is set up, the final dump coming after the teardown |
| TorchrunTarget.InvalidReturnRaises | cascade/executors/vertex/distributed/torchrun_target.py:69-72 | a result that is not a dictionary with MODEL_STATE raises the invalid-return error after teardown and writes nothing |
| TorchrunTarget.RankZeroWrites | cascade/executors/vertex/distributed/torchrun_target.py:74-87 | a successful run on rank "0" called a staged partial, and the returned dictionary, with its model state on the CPU, could be pickled and is at the output path |
| TorchrunTarget.RankZeroUnpicklable | cascade/executors/vertex/distributed/torchrun_target.py:84-86 | on rank "0" a dictionary that cannot be pickled raises the pickling error and leaves the opened output empty and unreadable |
| TorchrunTarget.NotAJobFailsAfterSetup | cascade/executors/vertex/distributed/torchrun_target.py:62-67 | a loaded object without `func` fails with `AttributeError` only inside the process group: set-up runs, the group is torn down, nothing is called or written |
| TorchrunTarget.OtherRanksWriteNothing | cascade/executors/vertex/distributed/torchrun_target.py:76 | a rank other than "0" never changes the store |
| DistributedRun.RunFunction | block_cascade/executors/vertex/distributed/distributed_job.py:61-74 | a loaded function is called exactly once and any other object raises `TypeError`; the step succeeds exactly when the call does and, with dumping on, the result pickles; only a successful call with dumping on writes, to `output.pkl` under the storage path and nothing else: the result when it pickles, otherwise an empty file, with the pickling error raised |
| DistributedRun.BasicRun | block_cascade/executors/vertex/distributed/distributed_job.py:115-124 | only pools 0 and 1 call the function; only the chief (pool 0) can change the store, and a successful call whose result pickles is saved there; pool 1 succeeds exactly when the call does and writes nothing; an unreadable pool number is the step's error |
| DistributedRun.DaskChief | block_cascade/executors/vertex/distributed/distributed_job.py:227-264 | the chief first publishes its host IP in the chief IP file, then launches the scheduler, and then calls the function once; its outcome is that of running the function over the store with the IP published |
| DistributedRun.ChiefIpFileIsNotOutput | block_cascade/executors/vertex/distributed/distributed_job.py:213-218 | the chief IP file and the output object are different paths, so saving the output keeps the published IP |
| DistributedRun.DaskWorker | block_cascade/executors/vertex/distributed/distributed_job.py:266-284 | a worker never calls the function and never writes; on success it made two waits and one launch |
| DistributedRun.WorkerSteps | block_cascade/executors/vertex/distributed/distributed_job.py:266-284 | a worker's events contain no call of the function, and a successful start ends in a launch |
| DistributedRun.WorkerTimesOut | block_cascade/executors/vertex/distributed/distributed_job.py:174-185 | a worker whose chief never publishes gives up with the chief timeout after 37 reads and launches nothing |
| DistributedRun.WorkerJoinsChief | block_cascade/executors/vertex/distributed/distributed_job.py:266-284 | a worker that finds the chief's IP on read `j` launches `dask worker` at that IP and the chief's port |
| DistributedRun.DaskRun | block_cascade/executors/vertex/distributed/distributed_job.py:286-298 | a Dask job with neither the caller's logger nor a label fails at its first log call; otherwise pool 0 runs as chief, pool 1 as worker, no pool number does nothing, and only the chief calls the function |
| DistributedRun.DaskOffCluster | block_cascade/executors/vertex/distributed/distributed_job.py:192-211 | unpickled without CLUSTER_SPEC, a caller-built Dask job is unchanged; its run returns without calling or writing when the caller gave it a logger, and fails at the log call otherwise |
| DistributedRun.JobRun | block_cascade/executors/vertex/distributed/distributed_job.py:76-85 | a basic job changes the store only on the chief; a PyTorch node never calls the function or writes here, and fails exactly when its `torchrun` arguments cannot be derived |
| VertexJob.ConvertLabel | block_cascade/executors/vertex/job.py:23-31 | a label is its slug in the label alphabet (at most 63 characters); only a key can fail, exactly when its slug is empty or does not start with a letter, with a `RuntimeError`; a converted key is a valid label key |
| VertexJob.KeysConvertAll | block_cascade/executors/vertex/job.py:86-91 | the recursive "every key converts" agrees with the statement about every index |
| VertexJob.ConvertLabels | block_cascade/executors/vertex/job.py:86-91 | the label dictionary is built exactly when every key converts (otherwise `RuntimeError`); its keys are the earlier keys plus the converted label keys, each converted key holds the converted value of the last label giving it, earlier entries no label reaches are kept, and all keys and values are valid |
| VertexJob.LabelValueExample | tests/test_vertex_job.py:20-29 | the label value "WORLD" becomes "world" |
| VertexJob.LabelKeyExamples | tests/test_vertex_job.py:37-55 | the label keys "1key" and "" are refused |
| VertexJob.ContainerCommand | block_cascade/executors/vertex/job.py:184-196 | the container runs the bootstrap module on the storage path with the distributed flag "True" or "False" and the code package path, empty when there is none |
| VertexJob.ContainerSpec | block_cascade/executors/vertex/job.py:178-202 | the container spec has exactly the image, the bootstrap command on the storage path with the distributed flag and code package, and empty arguments |
| VertexJob.MachineSpec | block_cascade/executors/vertex/job.py:204-213 | the machine type is always present; the accelerator type and count are present exactly when the machine has an accelerator, and hold its type and count; nothing else is present |
| VertexJob.NfsSpecs | block_cascade/executors/vertex/job.py:215-224 | there is one NFS spec per mount, in order, and none without mounts |
| VertexJob.PoolSpec | block_cascade/executors/vertex/job.py:136-153 | a pool spec has the replica count, the container spec, the machine spec and the NFS mounts, plus a disk spec with the boot disk size exactly when a disk size is set |
| VertexJob.PoolSpecs | block_cascade/executors/vertex/job.py:155-176 | a chief with other than one replica raises `ValueError`; otherwise the chief's pool comes first and the worker pool follows exactly when there are workers |
| VertexJob.JobSpecOptions | block_cascade/executors/vertex/job.py:117-132 | network, service account, dashboard, web access and persistent resource each appear exactly when set, with the value set (the flags as `true`), and nothing else does |
| VertexJob.JobSpec | block_cascade/executors/vertex/job.py:108-134 | the job spec exists exactly when the pool specs do; it holds those pools, and its other fields are exactly the set optional fields with their values |
| VertexJob.ParameterSpec | block_cascade/executors/vertex/job.py:249-269 | a parameter spec has its id, the scale type exactly when the parameter has a scale, and the one value spec of its kind: the bounds for a double or integer, the categories or the discrete values in order |
| VertexJob.LabelsValue | block_cascade/executors/vertex/job.py:86-91 | the labels value holds exactly the converted labels, each as a string |
| VertexJob.StudySpec | block_cascade/executors/vertex/job.py:236-247 | the study has the one metric with its goal, one spec per parameter in order, and an algorithm exactly when one is set |
| VertexJob.CreatePayload | block_cascade/executors/vertex/job.py:81-106 | the payload fails with `RuntimeError` on a bad label key and otherwise exactly when the job spec does; without tuning it is a custom job, with tuning a tuning job carrying the trial counts and study |
| Tune.ScaleNameInjective | cascade/executors/vertex/tune.py:6-9 | the three scales have distinct names, so the `scale_type` sent to Vertex identifies the scale |
| Tune.DefaultTune | cascade/executors/vertex/tune.py:40-48 | a tuning request with only a metric and parameters maximises, runs one trial at a time and one in all, and resumes nothing |
| VertexTuneResult.Filter | block_cascade/executors/vertex/executor.py:355-366 | the filter keeps exactly the elements that pass, and no more than there were |
| VertexTuneResult.Insert | block_cascade/executors/vertex/executor.py:350-354 | inserting adds exactly the one trial to the multiset of trials |
| VertexTuneResult.InsertSorted | block_cascade/executors/vertex/executor.py:350-354 | inserting into a sorted list of trials keeps it sorted |
| VertexTuneResult.SortTrials | block_cascade/executors/vertex/executor.py:350-354 | sorting is a permutation of the trials, ordered by first metric, descending when the goal maximises |
| VertexTuneResult.InsertStable | block_cascade/executors/vertex/executor.py:350-354 | an inserted trial goes before the earlier-inserted trials with the same metric |
| VertexTuneResult.SortTrialsStable | block_cascade/executors/vertex/executor.py:350-354 | the sort is stable: trials with equal metrics keep their order |
| VertexTuneResult.FilterSorted | block_cascade/executors/vertex/executor.py:355-366 | keeping only the successful trials of a sorted list leaves it sorted |
| VertexTuneResult.FilterNone | block_cascade/executors/vertex/executor.py:365 | when no trial passes, nothing is kept |
| VertexTuneResult.ParamsMap | block_cascade/executors/vertex/executor.py:359-362 | the parameter dictionary has exactly the ids of the trial's parameters |
| VertexTuneResult.Flatten | block_cascade/executors/vertex/executor.py:356-363 | a flattened trial has its id, its metric and its parameters, with parameters replacing same-named fields; it fails exactly when the id conversion fails |
| VertexTuneResult.FlattenAll | block_cascade/executors/vertex/executor.py:355-366 | every kept trial is flattened in order, and the list fails exactly when one trial does |
| VertexTuneResult.Hyperparameters | block_cascade/executors/vertex/executor.py:369-373 | the hyperparameters are the best trial's fields except its id and metric |
| VertexTuneResult.TuneResultOf | block_cascade/executors/vertex/executor.py:345-374 | a trial without a final metric raises `IndexError`, whatever its state; otherwise the result exists exactly when some trial succeeded and all kept trials flatten; its trials are the flattened successful ones in sorted order, and its metric and hyperparameters come from the first |
| VertexTuneResult.NoSuccessNoResult | block_cascade/executors/vertex/executor.py:367 | without any successful trial, taking the best raises `IndexError` |
| VertexTuneResult.UnmeasuredFailsAll | block_cascade/executors/vertex/executor.py:350-354 | one trial without a final metric makes the whole result raise `IndexError`, even when other trials succeeded |
| VertexTuneResult.Measured | block_cascade/executors/vertex/executor.py:352 | each trial's sort key is its first final metric, trial by trial |
| VertexTuneResult.BestIsOptimal | block_cascade/executors/vertex/executor.py:348-368 | a result implies every trial was measured, and no successful trial beats the reported metric in the goal's direction |
| VertexRun.ParseArgv | block_cascade/executors/vertex/run.py:32-37 | unpacking succeeds exactly when argv has the first three arguments and raises `IndexError` otherwise; the parts put back together are argv |
| VertexRun.ModuleArgv | block_cascade/executors/vertex/run.py:23-37 | the script's argv is the module, the rest of the container command, then the container's arguments |
| VertexRun.ContainerArgvParses | block_cascade/executors/vertex/run.py:32-37 | the command the job gives its container unpacks here to its storage path, distributed flag, code package and hyperparameter arguments |
| VertexRun.DistributedFlag | block_cascade/executors/vertex/run.py:64 | the flag reads "True" in the container exactly when the job was built as distributed |
| VertexRun.PathsAgree | block_cascade/executors/vertex/run.py:39-41 | the files the script reads and writes are the ones the executor stages and collects, for a relative storage key without a trailing slash |
| VertexRun.Fetch | block_cascade/executors/vertex/run.py:44-47 | the code is fetched exactly when a code path is given |
| VertexRun.Tune | block_cascade/executors/vertex/run.py:55-61 | a tuning trial calls the function once with the hyperparameters and reports the returned metrics; it fails exactly when the call fails or returns no dictionary |
| VertexRun.Distributed | block_cascade/executors/vertex/run.py:64-68 | the distributed branch runs the unpickled job on this node with the loaded object, whatever it is; a missing or non-job distributed object raises before anything runs |
| VertexRun.Single | block_cascade/executors/vertex/run.py:73-78 | the single-node branch calls a loaded function once, and any other object raises `TypeError` and writes nothing; it succeeds exactly when the call does and the result pickles; after a successful call the output file exists, holding the result, or empty with the pickling error raised; nothing else changes |
| VertexRun.Run | block_cascade/executors/vertex/run.py:23-78 | too short an argv raises `IndexError`; the code fetch comes first; a missing staged file calls nothing and writes nothing; only a run without hyperparameters writes |
| VertexRun.Dispatch | block_cascade/executors/vertex/run.py:49-78 | a missing staged file is the error; storage changes only when no hyperparameters were given; the distributed branch hands the loaded object to the job unchecked, while the other branches raise `TypeError` for an object that is not a function |
| VertexRun.TuneReports | block_cascade/executors/vertex/run.py:55-61 | a tuning trial reports its metrics and leaves storage as it was |
| VertexRun.NoHyperparameters | block_cascade/executors/vertex/run.py:52 | no hyperparameter arguments parse to no hyperparameters |
| VertexRun.SingleNodeDelivers | block_cascade/executors/vertex/run.py:73-78 | once the executor has staged its function, and the call's value pickles, the container run leaves that value where the executor reads its result |
| VertexRun.SingleNodeUnpicklable | block_cascade/executors/vertex/run.py:73-78 | when the call's value does not pickle, the container run raises the pickling error and the executor's read of the result fails to unpickle |
| VertexExecutor.StatusClassesDisjoint | block_cascade/executors/vertex/executor.py:43-62 | executing, cancelled and successful never overlap, and the states outside all three are exactly failed, expired, updating and partially succeeded |
| VertexExecutor.MakeVertex | block_cascade/executors/vertex/executor.py:118-141 | a code package that names a file is refused with `RuntimeError`; otherwise the storage location is the resource environment's and no job is set yet |
| VertexExecutor.DisplayName | block_cascade/executors/vertex/executor.py:161-167 | an explicit name is used as is; otherwise the function's name gets "-cascade" exactly without tuning and "-hyperparameter-tuning" exactly with it |
| VertexExecutor.DeploymentModule | block_cascade/executors/vertex/executor.py:191-198 | the module is a leading part of the entrypoint without slashes; it stops before the first colon when there is no slash, and is the whole entrypoint when there is neither |
| VertexExecutor.PackagePath | block_cascade/executors/vertex/executor.py:183-211 | an explicit package is uploaded under the run's code directory; under Prefect 2 a deployment's package is `bucket/path/module`; it fails exactly when a deployment has no usable storage block |
| VertexExecutor.CreateJob | block_cascade/executors/vertex/executor.py:177-223 | the job carries the executor's display name, resource, storage path, tuning, labels and package; the dashboard is on exactly when asked for or for a Dask job |
| VertexExecutor.Parent | block_cascade/executors/vertex/executor.py:299 | the parent resource is `projects/<project>/locations/<region>` |
| VertexExecutor.Start | block_cascade/executors/vertex/executor.py:274-323 | a given job is used as is, else the created one; the submission sends its payload to the endpoint its tuning selects; the returned name has six segments; the last effect is the submission |
| VertexExecutor.Submission | block_cascade/executors/vertex/executor.py:290-323 | a submission keeps its job, sends the job's payload under the parent resource, and returns the name the API gave, which has six segments |
| VertexExecutor.FirstSettled | block_cascade/executors/vertex/executor.py:259-262 | the first status no longer executing, with every status before it executing |
| VertexExecutor.Poll | block_cascade/executors/vertex/executor.py:259-262 | polling queries until the first settled status and returns it with the number of queries, which is a poll outcome of the statuses |
| VertexExecutor.PolledFromFirstSettled | block_cascade/executors/vertex/executor.py:259-262 | for statuses that eventually settle, the only poll outcome is the first settled status after one query per status up to it |
| VertexExecutor.Settle | block_cascade/executors/vertex/executor.py:264-270 | only a successful job passes; a cancelled job raises `VertexCancelledError` and any other `VertexError`, each with the job's name and message |
| VertexExecutor.VertexResult | block_cascade/executors/vertex/executor.py:325-343 | a tuning job's result is assembled from its trials and written to the output path; any other job's output is read; nothing is deleted |
| VertexExecutor.StageAll | block_cascade/executors/vertex/executor.py:225-254 | the distributed job, if any, is staged before the function, and the function is left at the staged path; a job that cannot be pickled raises its error, leaves its file empty, and stages no function |
| VertexExecutor.RunJobUnpicklable | block_cascade/executors/vertex/executor.py:225-254 | a distributed job that cannot be pickled fails the run before anything is submitted, with only its empty file written |
| VertexExecutor.Run | block_cascade/executors/vertex/executor.py:243-272 | for statuses that settle and `polled` the outcome of polling them (the first status that is not executing, and the number of queries up to it): a distributed job that cannot be pickled ends the run with that error, before the start; a failed start leaves only staging behind; a result requires a successful start and a successful settled status; nothing in storage is removed |
| VertexExecutor.RunSettles | block_cascade/executors/vertex/executor.py:264-270 | after a start, if the polled statuses settle cancelled the run raises `VertexCancelledError`, and if they settle otherwise unsuccessful it raises `VertexError` |
| VertexExecutor.RunSucceeds | block_cascade/executors/vertex/executor.py:243-272 | a successful job's effects are staging, submission, the status queries, then the result, in that order |
| VertexExecutor.RunStagesBeforeSubmitting | block_cascade/executors/vertex/executor.py:251-256 | a successful run submits only after the function is staged, and the staged function stays in storage |
| VertexExecutor.TuningNameExample | block_cascade/executors/vertex/executor.py:237 | a tuning job's resource name selects the tuning branch |
| DatabricksResource.DefaultAutoscale | block_cascade/executors/databricks/resource.py:33-34 | an autoscale config with no bounds given scales between 1 and 8 workers |
| DatabricksResource.PostInit | block_cascade/executors/databricks/resource.py:121-123 | after construction a storage location is always set; a given one is kept, and a missing one becomes the environment's lakehouse bucket for the group |
| DatabricksResource.PostInitIdempotent | block_cascade/executors/databricks/resource.py:121-123 | running the defaulting again changes nothing |
| DatabricksResource.MakeResource | block_cascade/executors/databricks/resource.py:104-123 | a resource built from a group and a location has one `i3.xlarge` worker, Spark 11.3, single-user mode, the production environment and no policy, cluster, secret, task arguments or libraries |
| DatabricksResource.DefaultLocationExample | block_cascade/executors/databricks/resource.py:122-123 | without a location, group "ml" stores under `s3://lakehouse-data-production/ml/production/cascade/` |
| DatabricksResource.OfInt | block_cascade/executors/databricks/resource.py:33-34 | no bound is written as null and a bound as its integer |
| DatabricksJob.TaskKey | cascade/executors/databricks/job.py:82 | the task key is at most 67 characters: the first and the last 32 characters of the name around three dashes, or the short name twice |
| DatabricksJob.LibraryNames | cascade/executors/databricks/job.py:95-100 | the installed names are the resource's list, in order, plus "cloudpickle" and "prefect" when missing, and nothing else |
| DatabricksJob.LibraryNamesIdempotent | cascade/executors/databricks/job.py:97-100 | a list that already has both defaults is kept as it is |
| DatabricksJob.Pin | cascade/executors/databricks/job.py:103-108 | a name that pins a version with "==" is used as given; any other name is pinned to its installed version, and fails exactly when that version cannot be found |
| DatabricksJob.LibraryEntries | cascade/executors/databricks/job.py:102-117 | there is one entry per name, in order, each the pinned package from the package index; a failure comes from some name's version lookup |
| DatabricksJob.Libraries | cascade/executors/databricks/job.py:92-117 | the entries are those of the completed name list; the resource's own list is extended in place only when it was non-empty |
| DatabricksJob.TaskFields | cascade/executors/databricks/job.py:81-88 | the generated task has its key, a description, no dependencies, and a Python task running `run.py` on the storage path and key |
| DatabricksJob.LibrariesIn | cascade/executors/databricks/job.py:77-79 | a missing or null "libraries" entry counts as an empty list, a list is itself, and any other value cannot be extended |
| DatabricksJob.WithLibraries | cascade/executors/databricks/job.py:74-79 | with an existing cluster id nothing is added; otherwise the step fails exactly when the list cannot be extended or a version is missing; only "libraries" can change |
| DatabricksJob.WithLibrariesAppends | cascade/executors/databricks/job.py:77-79 | a successful library step leaves the earlier list followed by one entry per library |
| DatabricksJob.TaskSpec | cascade/executors/databricks/job.py:73-90 | with an existing cluster id the task always builds and the resource is untouched; otherwise it fails exactly when the library step does; the task arguments are spread over the generated fields |
| DatabricksJob.TaskArgsOverride | cascade/executors/databricks/job.py:81-90 | every task argument overrides the generated field of the same name, and every other generated field is kept |
| DatabricksJob.ArgsOf | cascade/executors/databricks/job.py:74 | the task arguments are the resource's own, or empty |
| DatabricksJob.WorkerFields | cascade/executors/databricks/job.py:134-153 | an integer gives `num_workers`; an autoscale config, or an object of any class whose name mentions `DatabricksAutoscaleConfig`, gives its bounds; such an object without bounds raises `AttributeError`; any other type raises `TypeError` |
| DatabricksJob.ForeignAutoscaleAlike | cascade/executors/databricks/job.py:135-144 | a config from another copy of the package (same class name) gives the same cluster fields as the package's own |
| DatabricksJob.AutoscaleFields | cascade/executors/databricks/job.py:139-144 | the autoscale fields hold exactly the minimum and maximum worker counts |
| DatabricksJob.ClusterBase | cascade/executors/databricks/job.py:127-133 | the base cluster has the Spark version, the machine, the policy found, the security mode and no single user |
| DatabricksJob.ClusterSpec | cascade/executors/databricks/job.py:119-156 | a non-empty existing cluster id gives no cluster; otherwise it fails exactly when the worker count does; its keys are the base fields', the worker fields' and the overrides'; the overrides win over the worker fields, which win over the base fields |
| DatabricksJob.Payload | cascade/executors/databricks/job.py:60-71 | the payload has exactly one task, the run name, the timeout, the idempotency token and the access list |
| DatabricksJob.CreatePayload | cascade/executors/databricks/job.py:54-71 | the payload builds exactly when the task and the cluster do; the task gets the existing cluster id and the new cluster; changes to the resource stay even when the cluster fails |
| DatabricksJob.PayloadClusterKeys | cascade/executors/databricks/job.py:57-58 | the one task names both cluster keys, and its new cluster is null exactly when a non-empty existing cluster id is set |
| DatabricksRun.SplitS3 | block_cascade/executors/databricks/run.py:37 | with every "s3://" removed, the bucket is the text before the first slash and the object path the text after it; without a slash the unpacking raises |
| DatabricksRun.ReadObject | block_cascade/executors/databricks/run.py:41-46 | a missing object raises `NoSuchKey` naming its key; a present one is loaded |
| DatabricksRun.CallLoaded | block_cascade/executors/databricks/run.py:49 | only a loaded function is called, exactly once; a load error is passed on |
| DatabricksRun.Save | block_cascade/executors/databricks/run.py:52-62 | a value that pickles is written to the output; one that does not re-raises the error, writing nothing on S3 and leaving an empty file on a volume |
| DatabricksRun.Execute | block_cascade/executors/databricks/run.py:39-65 | the function is called once when it loaded; a failed call writes nothing; a returned value goes to the save step |
| DatabricksRun.RunS3 | block_cascade/executors/databricks/run.py:33-65 | the S3 branch loads `function.pkl` and saves to `output.pkl` under the object path in the bucket; a location without a slash raises before anything is read |
| DatabricksRun.RunVolumes | block_cascade/executors/databricks/run.py:68-99 | the volume branch loads and saves the files joined to the storage location |
| DatabricksRun.Run | block_cascade/executors/databricks/run.py:18-30 | an "s3://" location takes the S3 branch, a "/Volumes/" location the volume branch, and any other location raises the unsupported-location `ValueError` |
| DatabricksRun.RunCallsAtMostOnce | block_cascade/executors/databricks/run.py:18-99 | a task calls the function at most once |
| DatabricksRun.StorageKeyIgnored | block_cascade/executors/databricks/run.py:19 | the storage key argument plays no part in the run |
| DatabricksRun.CallWithoutWriteFails | block_cascade/executors/databricks/run.py:52-62 | a run that called the function but wrote nothing failed and left storage as it was |
| DatabricksRun.TaskArgv | block_cascade/executors/databricks/run.py:19 | the script's arguments are the task's Python file and its two parameters, the storage path and the storage key |
| DatabricksRun.S3Split | block_cascade/executors/databricks/run.py:37 | a plain S3 path is the scheme, the bucket, a slash and the object path |
| DatabricksRun.S3Addresses | block_cascade/executors/databricks/run.py:43-53 | on a plain S3 path, the objects read and written are exactly the files joined to the storage path |
| DatabricksRun.VolumeDelivers | block_cascade/executors/databricks/run.py:68-99 | once the executor has staged its function on a volume, the task calls it once and leaves its value where the executor reads the result |
| DatabricksRun.S3Delivers | block_cascade/executors/databricks/run.py:33-65 | the same on S3, for a plain storage path |
| DatabricksSession.Send | block_cascade/executors/databricks/filesystem.py:65 | every request sent is recorded after the earlier ones, and the answer is the workspace's |
| DatabricksSession.RaiseForStatus | block_cascade/executors/databricks/filesystem.py:66 | an answer raises an HTTP error naming its URL exactly when its status is a failure |
| DatabricksSession.UrlsParse | block_cascade/executors/databricks/filesystem.py:61 | file and directory URLs are told apart and give back their path |
| DatabricksFilesystem.ParentToCreate | block_cascade/executors/databricks/filesystem.py:53-59 | a parent directory is created exactly when automatic creation is on and the parent is neither empty nor `/Volumes` |
| DatabricksFilesystem.ParentExamples | block_cascade/executors/databricks/filesystem.py:58-59 | a bare name and a file directly under `/Volumes` need no parent; a file in a volume directory needs that directory, when automatic creation is on |
| DatabricksFilesystem.EnsureParentDir | block_cascade/executors/databricks/filesystem.py:53-67 | nothing is sent when no parent is needed; otherwise one directory PUT is sent and its failure raises |
| DatabricksFilesystem.Open | block_cascade/executors/databricks/filesystem.py:69-105 | "rb" downloads the file and fails exactly when the download does; "wb" makes sure of the parent and hands out an empty upload file; any other mode raises before anything is sent |
| DatabricksFilesystem.Write | block_cascade/executors/databricks/filesystem.py:188-200 | writes are appended to the buffer, and a closed file refuses them |
| DatabricksFilesystem.Close | block_cascade/executors/databricks/filesystem.py:202-226 | an open file uploads its whole buffer with overwriting on and ends closed even when the upload fails; a closed file sends nothing |
| DatabricksFilesystem.CloseUploadsOnce | block_cascade/executors/databricks/filesystem.py:202-205 | closing twice uploads once |
| DatabricksFilesystem.Exit | block_cascade/executors/databricks/filesystem.py:231-234 | leaving the block closes the file; an exception from the block propagates, and a failed upload takes its place |
| DatabricksFilesystem.OverwriteParam | block_cascade/executors/databricks/filesystem.py:137 | the overwrite flag is sent as "true" or "false" |
| DatabricksFilesystem.Upload | block_cascade/executors/databricks/filesystem.py:107-139 | an upload makes sure of the parent, then a missing local file raises, else one PUT carries its content and fails exactly when the answer does |
| DatabricksFilesystem.Items | block_cascade/executors/databricks/filesystem.py:163-166 | a listed `contents` list gives its items, and only an empty value other than a list gives none |
| DatabricksFilesystem.ItemPath | block_cascade/executors/databricks/filesystem.py:167-168 | an entry is skipped exactly when it has no true `path`; a path to delete is a non-empty string |
| DatabricksFilesystem.DeletablePaths | block_cascade/executors/databricks/filesystem.py:166-171 | at most one path per listed entry |
| DatabricksFilesystem.Deletes | block_cascade/executors/databricks/filesystem.py:169-171 | one file DELETE per path, in order |
| DatabricksFilesystem.DeletesCons | block_cascade/executors/databricks/filesystem.py:166-171 | the deletes of a listing are those of its first entry followed by those of the rest |
| DatabricksFilesystem.DeleteItem | block_cascade/executors/databricks/filesystem.py:167-171 | a successful entry sends exactly its own delete, after the earlier requests |
| DatabricksFilesystem.DeleteEach | block_cascade/executors/databricks/filesystem.py:166-171 | a successful loop sends exactly one delete per listed path, in order, and keeps the earlier requests |
| DatabricksFilesystem.RmTree | block_cascade/executors/databricks/filesystem.py:153-176 | a recursive removal first lists the directory |
| DatabricksFilesystem.Rm | block_cascade/executors/databricks/filesystem.py:141-185 | a recursive removal is the directory removal; otherwise one file DELETE is sent and fails exactly when its answer does |
| DatabricksFilesystem.RmTreeOrder | block_cascade/executors/databricks/filesystem.py:153-176 | a successful recursive removal sends, in order, the listing, one delete per listed path and the directory's delete |
| DatabricksVolume.LookupAfterWrite | block_cascade/executors/databricks/filesystem.py:217-222 | after an overwrite, the file on the ideal volume holds what was written last |
| DatabricksVolume.WriteThenRead | block_cascade/executors/databricks/filesystem.py:69-105 | on the ideal volume, a file opened with "wb", written and closed reads back with "rb" as exactly the bytes written |
| DatabricksVolume.UploadThenRead | block_cascade/executors/databricks/filesystem.py:107-139 | on the ideal volume, an upload followed by a download reads back the local file's content |
| DatabricksVolume.DeleteEachIdeal | block_cascade/executors/databricks/filesystem.py:166-171 | on the ideal volume, deleting the listed files always succeeds and leaves exactly the other files |
| DatabricksVolume.RmTreeIdeal | block_cascade/executors/databricks/filesystem.py:153-176 | on the ideal volume, a recursive removal succeeds, removes every file directly in the directory and keeps every other file |
| DatabricksStatus.ParseStatus | block_cascade/executors/databricks/executor.py:49-60 | an answer reads as a status exactly when it has a `state` mapping with a `life_cycle_state`; a missing `result_state` reads as the empty string |
| DatabricksStatus.Executing | block_cascade/executors/databricks/executor.py:62-63 | a run is executing exactly when its life-cycle state is PENDING or RUNNING; an unhashable state raises `TypeError` |
| DatabricksStatus.StatusClasses | block_cascade/executors/databricks/executor.py:65-69 | a run is never both cancelled and successful, and a run without a result state is neither |
| DatabricksStatus.PendingYetCancelled | block_cascade/executors/databricks/executor.py:58-66 | a pending run can already carry a cancelled result state, since the two states are read independently |
| DatabricksStatus.Poll | block_cascade/executors/databricks/executor.py:255-256 | polling stops on the first answer from its start on that is not a run still executing, and every earlier answer was one |
| DatabricksStatus.Settle | block_cascade/executors/databricks/executor.py:255-264 | success needs a fresh answer that is not cancelled and then a fresh one that is successful; each error message quotes the answer after the one that decided it |
| DatabricksStatus.LateCancelReportsFailure | block_cascade/executors/databricks/executor.py:258-264 | a run cancelled between the cancellation check and the success check is reported as failed, not cancelled |
| DatabricksAccess.ResolveSecret | block_cascade/executors/databricks/executor.py:108-128 | the resource's own secret wins; otherwise the secret comes from the environment exactly when both variables are set and non-empty, and otherwise `ValueError` is raised |
| DatabricksAccess.AcquireFrom | block_cascade/executors/databricks/executor.py:130-157 | at most seven attempts; only `KeyError` is retried; a built handle is kept and returned; once the retries are spent the old handle is returned, or the initialisation error is raised when there is none |
| DatabricksAccess.AccessFs | block_cascade/executors/databricks/executor.py:139-157 | the retry loop computes exactly what the recursive definition of the access does |
| DatabricksAccess.SkipKeyErrors | block_cascade/executors/databricks/executor.py:141-152 | the loop stops at the first attempt that does not raise `KeyError`, or after seven, without changing the access's outcome |
| DatabricksAccess.FsFirstAttemptDecides | block_cascade/executors/databricks/executor.py:141-157 | the first attempt that does not raise `KeyError` decides the access: its handle is returned and kept, or its error is raised |
| DatabricksAccess.FsAllKeyErrors | block_cascade/executors/databricks/executor.py:141-157 | seven `KeyError`s in a row fall back to the handle kept from an earlier access, and raise only when there never was one |
| DatabricksAccess.CollectModules | block_cascade/executors/databricks/executor.py:181-192 | collection succeeds exactly when every module imports; the result holds each named module once |
| DatabricksAccess.ModulesByValue | block_cascade/executors/databricks/executor.py:163-192 | the modules pickled by value are exactly the distinct names the resource lists, and are known only when every one imports |
| DatabricksAccess.CollectModulesFirstFailure | block_cascade/executors/databricks/executor.py:182-191 | the first module that fails to import decides the error: `RuntimeError` naming it, or the import's own error |
| DatabricksExecutor.PolicyName | block_cascade/executors/databricks/executor.py:99-104 | the resource's cluster policy wins; otherwise the name is the group name followed by `_default`, and a missing group raises `TypeError` |
| DatabricksExecutor.MakeExecutor | block_cascade/executors/databricks/executor.py:73-106 | construction succeeds exactly when the policy name can be worked out; the executor keeps the function, name, resource and storage location, with no filesystem handle yet |
| DatabricksExecutor.FindPolicy | block_cascade/executors/databricks/executor.py:216-219 | a policy id is found only when some listed policy carries the name |
| DatabricksExecutor.FindPolicyFirst | block_cascade/executors/databricks/executor.py:216-218 | the first policy with the name gives the id, when every earlier policy has a different name |
| DatabricksExecutor.FindPolicyNone | block_cascade/executors/databricks/executor.py:216-219 | a listing whose policies all have other names raises `ValueError` |
| DatabricksExecutor.PolicyId | block_cascade/executors/databricks/executor.py:214-219 | a listing without `policies` raises `KeyError`; a listed sequence of policies is searched in order |
| DatabricksExecutor.CreateJob | block_cascade/executors/databricks/executor.py:225-244 | a job is built exactly when the policy id is found; the executor takes the function's name, the job is named by its slug, and the job carries the resource, storage paths, run path, policy id and existing cluster |
| DatabricksExecutor.SharedToken | block_cascade/executors/databricks/executor.py:234-244 | any two jobs built with the class-level default carry the same idempotency token |
| DatabricksExecutor.JobNameIsSlug | block_cascade/executors/databricks/executor.py:235 | the job's name is a slug, so slugifying it again leaves it unchanged |
| DatabricksLifecycle.StageTraceOrder | block_cascade/executors/databricks/executor.py:280-296 | the upload comes first; every by-value module is registered before the function is pickled and unregistered after |
| DatabricksLifecycle.StageSteps | block_cascade/executors/databricks/executor.py:268-296 | a failed filesystem access stages nothing; a failed import stops after the upload; otherwise the bootstrap script is uploaded and the function loads back from the staged path |
| DatabricksLifecycle.StageRun | block_cascade/executors/databricks/executor.py:280-296 | staging runs on the outcome of one filesystem acquisition and keeps its handle, whatever the staging's outcome |
| DatabricksLifecycle.Start | block_cascade/executors/databricks/executor.py:298-314 | a missing secret is the error; a started run has the job that `create_job` built, submitted with a payload that could be built, and an answer that is a mapping |
| DatabricksLifecycle.Finish | block_cascade/executors/databricks/executor.py:246-266 | the first failure among staging, starting and the checks wins, and a failed start keeps the events it caused; only a run past every check reads its output and deletes the run's directory |
| DatabricksLifecycle.StartEvents | block_cascade/executors/databricks/executor.py:298-314 | a start records nothing until its payload is built; then it records the submission, followed by one `get_run` exactly when the submission answered with a mapping |
| DatabricksLifecycle.SubmittedBody | block_cascade/executors/databricks/executor.py:298-309 | a payload is submitted exactly when the secret resolves, the job is created and its payload builds, and it is that payload |
| DatabricksLifecycle.StartedEvents | block_cascade/executors/databricks/executor.py:298-314 | a successful start submitted the run and read one answer |
| DatabricksLifecycle.RunSubmittedThenFails | block_cascade/executors/databricks/executor.py:307-312 | a submission answered with something other than a mapping fails the run with `TypeError` after the submission is recorded, with nothing polled, read or deleted |
| DatabricksLifecycle.RunSucceeds | block_cascade/executors/databricks/executor.py:246-266 | a successful run stages, submits once, reads `k + 3` answers, and then returns the stored output and deletes the run's directory |
| DatabricksLifecycle.FinishSucceeds | block_cascade/executors/databricks/executor.py:258-266 | finishing succeeds only past every check, and its queries are then the ones the verdict read |
| DatabricksLifecycle.RunCancelled | block_cascade/executors/databricks/executor.py:258-261 | once staging and the start succeed, a run reported cancelled after polling raises `DatabricksCancelledError` quoting the next answer, and storage stays as staging left it |
| DatabricksLifecycle.RunCleansUp | block_cascade/executors/databricks/executor.py:221-223 | after a successful run neither the pickled function, the output nor the bootstrap script is left in storage |
| DatabricksLifecycle.TreeRemoved | block_cascade/executors/databricks/executor.py:221-223 | removing the run's directory removes the bootstrap script, the pickled function and the output alike |
| DatabricksLifecycle.RunPathUnder | block_cascade/executors/databricks/executor.py:221-223 | the bootstrap script lies inside the run's directory |
| DecoratorArguments.LocalNames | block_cascade/decorators.py:27-93 | `remote_args` always holds the five overridable parameters, holds the configuration table exactly when it was looked up, and holds `config_name` exactly in the current variant |
| DecoratorArguments.Decorate | block_cascade/decorators.py:86-112 | a truthy resource is kept; otherwise the configuration is searched under `config_name` when given, else `job_name`; with a function the parameters hold the resource found, job name, tune (or `None`), code package and console flag; without one the result is a partial carrying the resource found, job name, console flag, tune and code package |
| DecoratorArguments.DeferredKeepsFound | block_cascade/decorators.py:102-112 | a partial that found its resource decorates the function exactly as the direct call does, whatever the configuration says later |
| DecoratorArguments.DeferredFallsBackToJobName | block_cascade/decorators.py:88-112 | the partial drops `config_name`, so applying it searches under the job name and can find a resource the direct call did not |
| DecoratorArguments.LegacyIgnoresConfigName | block_cascade/remote.py:81-83 | the older variant searches only under the job name, so `config_name` never changes the decoration |
| DecoratorArguments.ApplyOverrides | block_cascade/decorators.py:123-127 | every `remote_<name>` keyword for a name in `remote_args` replaces that parameter and is removed from the keywords; other keywords stay as given |
| DecoratorArguments.OverridesNotPassedOn | block_cascade/decorators.py:124-149 | the function never receives an overriding keyword, and every other plain keyword reaches it unchanged |
| Decorators.OverrideSticks | block_cascade/decorators.py:123-130 | an override is written into `remote_args`, so it also holds for later calls that do not override again |
| Decorators.Labels | block_cascade/decorators.py:139-168 | five labels in order; outside a flow or task run every run-context label is `LOCAL` and the last is the package version |
| Decorators.LabelsInRun | block_cascade/decorators.py:139-168 | inside a flow and task run the labels are the flow run's id and name, the task run's name and id, as the run context reports them, then the package version |
| DecoratorEnvironment.FillImage | block_cascade/decorators.py:189-190 | a set image is kept; an empty one takes the provider's string, normalised; no other field changes |
| DecoratorEnvironment.FillProject | block_cascade/decorators.py:191-192 | a set project is kept; an empty one takes the provider's string; only the project can change |
| DecoratorEnvironment.FillServiceAccount | block_cascade/decorators.py:193-196 | a set service account is kept; an empty one takes the provider's string; only the account can change |
| DecoratorEnvironment.FillRegion | block_cascade/decorators.py:197-198 | a set region is kept; an empty one takes the provider's string; only the region can change |
| DecoratorEnvironment.Fill | block_cascade/decorators.py:188-205 | fields already set keep their values, a complete environment is left untouched, and a `ConnectionError` on the first getter ends the filling quietly |
| DecoratorEnvironment.FillDisconnected | block_cascade/decorators.py:188-205 | a provider that cannot connect leaves an incomplete environment exactly as it was, and the error is swallowed |
| DecoratorEnvironment.FillFromFullProvider | block_cascade/decorators.py:188-198 | a provider answering every getter completes an empty environment; the image is normalised against the still-empty project |
| Decorators.VertexBranch | block_cascade/decorators.py:156-222 | a missing version or environment raises; a complete environment is used as given; otherwise the filled environment is kept on the resource and the Vertex executor is chosen only when it became complete |
| Decorators.CloudDeploymentAsksPrefect | block_cascade/decorators.py:182-186 | from a Prefect Cloud deployment the environment comes from the Prefect client; the metadata server makes no difference |
| Decorators.ElsewhereAsksMetadataServer | block_cascade/decorators.py:182-186 | anywhere else the environment comes from the metadata server; the Prefect client makes no difference |
| Decorators.CompleteEnvironmentAsGiven | block_cascade/decorators.py:169-180 | a complete environment is used as given, whichever providers there are and wherever the call runs from |
| Decorators.OutsideGcpIncomplete | block_cascade/decorators.py:181-212 | outside a GCP VM and not from a deployment, an incomplete environment raises the incomplete-environment `RuntimeError` and the resource stays as it was |
| Decorators.DatabricksBranch | block_cascade/decorators.py:223-245 | with inference on, the function's base module is appended to the resource's own by-value list unless it is missing or starts with `__`; the Databricks executor gets the packed function and that resource |
| Decorators.BaseModuleEachCall | block_cascade/decorators.py:233-239 | each call appends the base module again, so the by-value list grows by one entry per call |
| Decorators.ModulelessFunction | block_cascade/remote.py:225-231 | the older variant raises `AttributeError` for a function without a module, where the current variant skips the inference |
| Decorators.CallWrapper | block_cascade/decorators.py:114-250 | overrides persist in `remote_args`; no resource runs locally, a `GcpResource` on Vertex, a Databricks resource or a class named like one on Databricks, and any other value raises `ValueError` |
| Crud.GcpProject | block_cascade/cli/crud.py:14-16 | the project is read from `core.project`; a missing section or key raises `KeyError` |
| Crud.GcpRegion | block_cascade/cli/crud.py:19-21 | the region is read from `compute.region`; a missing section or key raises `KeyError` |
| Crud.SettingsApart | block_cascade/cli/crud.py:14-21 | the project depends only on the `core` section and the region only on the `compute` section of the gcloud configuration |
| Crud.CpuPoolOf | block_cascade/cli/crud.py:27-58 | the CPU pool has the chief's machine type and count, and is autoscaled exactly when one replica bound (missing bounds reading as 0) is positive |
| Crud.GpuPoolOf | block_cascade/cli/crud.py:31-40 | with an accelerator the GPU pool repeats the chief's machine type and count with the accelerator; without one it is empty |
| Crud.ResourcePools | block_cascade/cli/crud.py:70-77 | a pool is sent exactly when its replica count is positive, the CPU pool first |
| Crud.PoolJson | block_cascade/cli/crud.py:43-68 | every pool carries the fixed boot disk and its replica count; only an autoscaled CPU pool has an autoscaling spec |
| Crud.PersistentResourcePayload | block_cascade/cli/crud.py:24-84 | the payload holds exactly a display name, the persistent resource id, and the pools sent, in order |
| Crud.AcceleratedChiefTwoPools | block_cascade/cli/crud.py:31-71 | a chief with an accelerator is sent twice, as CPU and GPU pool, with the same machine type and count |
| Crud.PayloadPools | block_cascade/cli/crud.py:43-84 | every pool sent has the fixed boot disk and a positive replica count, and only a CPU pool can be autoscaled |
| Crud.ParentOf | block_cascade/cli/crud.py:87-91 | a parent string exists exactly when the resource has an environment |
| Crud.ParentParts | block_cascade/cli/crud.py:87-91 | the parent string names the project and the region in its second and fourth parts, so both can be read back from it |
| Crud.Endpoint | block_cascade/cli/crud.py:94-96 | the endpoint is the region and the service host, split at the last dash |
| Crud.Matching | block_cascade/cli/crud.py:277-283 | the kept jobs are exactly the listed jobs that run on the persistent resource |
| Crud.MatchingAppend | block_cascade/cli/crud.py:277-283 | filtering keeps the order of the listing: filtering a concatenation concatenates the filtered parts |
| Crud.Iterate | block_cascade/cli/crud.py:277 | a list gives its items; a string gives its characters, all strings; a mapping gives no items, where the source's keys, all strings, would all be skipped; anything else is not iterable |
| Crud.ActiveJobs | block_cascade/cli/crud.py:268-285 | a listing without `customJobs` gives no jobs; a listed job list gives exactly the jobs that run on the resource |
| Crud.NonJobsNeverMatch | block_cascade/cli/crud.py:271-281 | a mapping or string in place of the job list yields no jobs |
| Monitoring.CpuQuotaSuffix | block_cascade/gcp/monitoring.py:49-73 | exactly the six supported families have a CPU quota, each ending in `cpus` and named after the family except `n1`'s plain `cpus`; any other family raises `KeyError` |
| Monitoring.GpuQuotaSuffix | block_cascade/gcp/monitoring.py:76-90 | every accelerator type has a GPU quota: the lower-cased type followed by `_gpus` |
| Monitoring.CpuGpuDistinct | block_cascade/gcp/monitoring.py:62-90 | a CPU quota and a GPU quota are never the same metric |
| Monitoring.MostRecentPoint | block_cascade/gcp/monitoring.py:93-109 | no point reads `unknown`; a first value above a million reads `unlimited`; any other value reads as its decimal string, which parses back to it |
| Monitoring.Tally | block_cascade/gcp/monitoring.py:172-195 | the tally has one entry per metric that was added to, holding the sum of that metric's amounts |
| Monitoring.CpuContribution | block_cascade/gcp/monitoring.py:186-189 | a pool contributes exactly when its machine type has three dash-separated parts, a supported family and a numeric core count; the amount is cores times machines |
| Monitoring.GpuContributions | block_cascade/gcp/monitoring.py:178-195 | at most the chief's and the workers' accelerators contribute, each to a GPU quota |
| Monitoring.CpuContributions | block_cascade/gcp/monitoring.py:185-189 | every pool contributes in order, and the first pool that fails stops the loop |
| Monitoring.ResourcesByMetric | block_cascade/gcp/monitoring.py:161-197 | the units per quota metric are the tally of the CPU pools' contributions followed by the accelerators', and exist exactly when every CPU pool contributes |
| Monitoring.TotalIgnoresOtherKeys | block_cascade/gcp/monitoring.py:187-193 | contributions to other metrics do not change a metric's total |
| Monitoring.GpuIgnoresReplicaCount | block_cascade/gcp/monitoring.py:192-195 | a GPU quota counts accelerators, not machines: changing the chief's machine count changes no GPU amount |
| Monitoring.TotalGpuOnly | block_cascade/gcp/monitoring.py:185-195 | a GPU metric's total over CPU contributions followed by GPU ones is the GPU ones' total |
| Monitoring.KeysOfAppend | block_cascade/gcp/monitoring.py:185-195 | a metric no CPU pool uses is in the tally exactly when an accelerator uses it |
| Monitoring.ChiefOnlyCpuTotal | block_cascade/gcp/monitoring.py:174-189 | a chief-only resource without accelerator asks for cores times machines under its family's CPU quota and nothing else |
| Monitoring.ChiefContribution | block_cascade/gcp/monitoring.py:186-189 | a pool of `<family>-<kind>-<cores>` machines contributes cores times machines to its family's quota |
| Monitoring.LogUnit | block_cascade/gcp/monitoring.py:216-218 | the unit is the metric without one trailing `s`; an empty metric raises `IndexError` |
| Monitoring.QuotaMetric | block_cascade/gcp/monitoring.py:228-237 | the queried metric is the service and category prefix followed by the suffix, which can be read back from it |
| Monitoring.QuotaMetricInjective | block_cascade/gcp/monitoring.py:228-237 | different suffixes are queried as different metrics |
| Monitoring.ConsumptionMessage | block_cascade/gcp/monitoring.py:216-222 | the log sentence exists exactly when the metric is not empty |
| Monitoring.LogUnitExamples | block_cascade/gcp/monitoring.py:216-218 | the `n1` quota's unit is `cpu` and a GPU quota's is `<type>_gpu` |

## Left out

- Cloud services are oracle parameters, never modelled code:
  - the aiplatform job and persistent-resource clients;
  - the `databricks_cli` Runs, ClusterPolicy and Cluster APIs;
  - gcsfs and s3fs transfers;
  - the `requests` sessions of the metadata client and of the volume filesystem;
  - `importlib.import_module`;
  - `importlib.metadata.version`;
  - `ast.literal_eval`.
- Clocks, sleeps and back-off:
  - `time.sleep`, the ×1.5 back-off of the S3 retry loop and `GcpMetrics.get_interval` are dropped;
  - retry and poll loops keep only their attempt counts.
- Floating point is not modelled:
  - tuning metric values and `ParamDouble` bounds are integers;
  - the back-off wait is dropped.
- Concurrency is not modelled:
  - the module-level lock around by-value registration is absent, and staging is the sequential upload, register, dump, unregister;
  - `run_async` and `asyncio.gather` are left out;
  - the async `_make_metric_request` and `log_quotas_for_resource` are left out. Only their pure parts are kept: the metric names, the units, the log sentence and the point reading.
- Pickle formats are not modelled. Pickling is an opaque codec, and whether a dump raises is an oracle parameter. A dump that raises leaves the file it opened empty; a partly written pickle is not modelled.
- Processes, sockets and torch are observed only as commands and effects in a trace:
  - `Popen`, `check_call` and gsutil are not run;
  - `socket.gethostbyname` is a parameter;
  - `torch.distributed` setup and the record decorator are not modelled;
  - tensor `.cpu()` is a function parameter.
- `os.makedirs` in `get_data_from_gcs` creates nothing in the model's flat path store.
- YAML parsing of `cascade.yml` is not modelled: the configuration arrives already parsed as a value tree, with its entries in file order.
- python-slugify is replaced by `Slug.Slugify`, a stand-in with the library's visible contract:
  - lower case;
  - runs of other characters become one dash;
  - no leading or trailing dash;
  - an optional maximum length.
- `uuid4` job keys and the Databricks class-level idempotency token are parameters.
- `get_prefect_logger` and all logging are left out, and so is the import-time switch between the Prefect v2 and v3 modules. The Prefect v1 clients are not part of this model.
- `PrefectEnvironment` models both the v2 and v3 environment clients. The v3 `get_from_prefect_context` is the v2 one and is modelled once.
- block_cascade/consts.py is not part of this model. The Vertex service host name is a parameter of `Crud.Endpoint`.
- The `create`, `list` and `delete` CLI command bodies and their click wiring are left out; their pure helpers are modelled.
- `DatabricksExecutor.list_runtime_versions` is left out: it is a pass-through to the Cluster API.
- `api_client`, `runs_api` and `get_cluster_policies` are reduced to the listing and answers they return.
- The bootstrap script's text is the stand-in `DatabricksLifecycle.RunScript`. The upload is recorded, not the file contents.
- The Databricks filesystem records each request with its API path; the workspace host prefix is dropped.
- The older cascade/executors/databricks/run.py, which reads through the Databricks runtime's `dbutils` mount, is not modelled. Only the block_cascade/ version is.
- Copies of modelled files under `block/cascade/` and `cascade/` are not modelled separately.
- Integer parsing follows `int()` on plain decimal digits with an optional sign. Surrounding whitespace, underscores and non-ASCII digits are not accepted.
- Set iteration order is not modelled: a Python set is taken in first-occurrence order.
- Several pydantic behaviours are not modelled:
  - coercion of field values;
  - validation beyond the `Optional[str]` checks in environment filling.
- DatabricksStatus.Poll: assumes some answer ends the polling, because the source polls forever otherwise.
- DatabricksLifecycle.Run: assumes some answer ends the polling, for the same reason.
- VertexExecutor.Poll: assumes some status in the sequence is settled, for the same reason.
- VertexExecutor.Run: requires statuses that settle, with `polled` their poll outcome, for the same reason.
- VertexExecutor.FirstSettled: assumes some status in the sequence is settled, for the same reason.
- BaseExecutor.Stage: states the successful dump only. The Vertex and Databricks run models stage through it. A function that cannot be pickled is modelled by `BaseExecutor.TryStage` on its own and is not threaded through those runs.
- DatabricksAccess.AcquireFrom: covers which attempt builds the handle; the s3fs credentials passed are not modelled.
- DatabricksExecutor.MakeExecutor: takes the resource after `__post_init__`, which always sets the storage location, and so requires one.
- DatabricksAccess.ModulesByValue: returns module names, not module objects, in first-occurrence order.
- VertexTuneResult.Flatten: takes parameter values as already converted to their Python types.
- DatabricksLifecycle.StageRun: acquires the filesystem once for all of staging. The source re-runs the seven-attempt acquisition on each `self.fs` read: the upload (block_cascade/executors/databricks/executor.py:278) and the staged dump (:292). Once the first read has set `_fs`, a later read cannot raise, because a failed retry loop returns the cached handle. So only the later reads' attempt counts and fresh handles are not modelled.
- DatabricksLifecycle.Finish: the result read and the directory removal (block_cascade/executors/executor.py:114-116) also re-acquire the filesystem on each read. As in staging, these reads cannot raise once a handle is cached, and their attempts are not modelled.
- Config.ConfigureEntries, Config.FindDefaultConfiguration: take each loaded mapping's entry names as distinct, as the dictionary the YAML loader returns has them. How the loader resolves a duplicated key in the file is not modelled.
- DistributedRun.DaskChief: does not model the scheduler's local `__scheduler__` file or the chief's log lines.
- Decorators.CallWrapper: ends with the executor it chooses; running that executor is modelled by the executor modules and is not composed here.
- Decorators.CallWrapper: the function receives only plain keyword values; resource and `Tune` objects passed as ordinary keywords are dropped.
- Decorators.CallWrapper: reads a non-string job name or code package as `None`.
- DecoratorArguments.Decorate: does not model decorator-level `*args` and `**kwargs`, nor building resources from configuration entries (see `Config`).

## Findings

| source | as written | input that shows it | evidently intended | confidence | as-written member | corrected member |
|---|---|---|---|---|---|---|
| block_cascade/context/__init__.py:10-23 | `MissingContextError` is imported inside the `try`, so when the Prefect import itself fails, evaluating the first `except` clause raises `UnboundLocalError` | Prefect not installed: the `ImportError` from `from prefect import get_run_logger` | the `except ImportError` branch returns the base `Context` | not executed | Context.NewContextAsWritten (shown by Context.NoPrefectInstalled) | Context.NewContext |
| block_cascade/prefect/v2/__init__.py:63 | the error message lacks the `f` prefix, so it reads `Unsupported attribute: {attr}.` | `get_from_prefect_context("flow")` inside a flow and task run | the message names the attribute asked for | not executed | Prefect.GetFromPrefectContextAsWritten (shown by Prefect.UnsupportedAttributeNotNamed) | Prefect.GetFromPrefectContext (with Prefect.UnsupportedAttributeNamed) |
| block_cascade/remote.py:228 | `base_module_name.startswith("__")` is evaluated before `base_module_name is None`, so a function without a module raises `AttributeError` | a Databricks resource with `cloud_pickle_infer_base_module=True` and a callable whose `__module__` is `None` | test for `None` first and skip the inference, as block_cascade/decorators.py:236 does | not executed | Decorators.ModulelessFunction (the `Legacy` branch of Decorators.DatabricksBranch) | Decorators.DatabricksBranch (the `Current` branch) |

=== FILE: codec.dfy ===
/** Object storage and serialisation as the executors see them.

    Pickling is opaque: an encoded object is a `Pickled` blob and decoding
    gives the object back, so `decode(encode(x)) == x` holds by
    construction. A bucket, a volume or a local directory is a map from path
    to blob. Side effects that matter for ordering arguments are recorded as
    a trace of events. */
module Codec {
  import opened Wrappers
  import opened Strings
  import opened Json
  import opened Utils
  import opened Tune
  import opened DistributedJob

  /** Everything the system pickles. */
  datatype Payload =
    | PFunc(f: Callable)
    | PValue(v: Value)
    | PTune(t: TuneResult)
    | PJob(job: Job)

  /** A stored object: a pickle, or plain text (the chief IP file, a script). */
  datatype Blob = Pickled(payload: Payload) | Text(text: string)

  function Encode(p: Payload): Blob {
    Pickled(p)
  }

  /** Unpickling; text that is not a pickle fails. */
  function Decode(b: Blob): (r: Result<Payload>)
    ensures r.Ok? <==> b.Pickled?
  {
    match b
    case Pickled(p) => Ok(p)
    case Text(_) => Err(UnpicklingError)
  }

  lemma DecodeEncode(p: Payload)
    ensures Decode(Encode(p)) == Ok(p)
  {
  }

  type Store = map<string, Blob>

  /** What pickling a value raises, if anything (a lock or a Spark session,
      say). */
  type Pickler = Value -> Option<Error>

  /** What `cloudpickle` raises for a function, if anything. */
  type FuncPickler = Callable -> Option<Error>

  /** What `cloudpickle` raises for a distributed job, if anything. */
  type JobPickler = Job -> Option<Error>

  /** `open(path, "rb")` followed by a load. */
  function Load(store: Store, path: string): (r: Result<Payload>)
    ensures path !in store ==> r == Err(FileNotFoundError(path))
    ensures path in store && store[path].Pickled? ==> r == Ok(store[path].payload)
  {
    if path in store then Decode(store[path]) else Err(FileNotFoundError(path))
  }

  /** `p` lies in the directory tree rooted at `dir`. */
  predicate Under(p: string, dir: string) {
    p == dir || StartsWith(p, if EndsWith(dir, "/") then dir else dir + "/")
  }

  /** A relative name joined under a non-empty directory lies in its tree. */
  lemma UnderJoin(dir: string, name: string)
    requires dir != "" && !StartsWith(name, "/")
    ensures Under(PathJoin(dir, name), dir)
  {
    var p := PathJoin(dir, name);
    if EndsWith(dir, "/") {
      assert p == dir + name;
      assert p[..|dir|] == dir;
    } else {
      assert p == dir + "/" + name;
      assert p[..|dir + "/"|] == dir + "/";
    }
  }

  /** `fs.rm(dir, recursive=True)`: every object under `dir` goes, every
      other object stays. */
  function RemoveTree(store: Store, dir: string): (r: Store)
    ensures forall p :: p in r <==> p in store && !Under(p, dir)
    ensures forall p | p in r :: r[p] == store[p]
  {
    map p | p in store && !Under(p, dir) :: store[p]
  }

  /** Side effects recorded in traces. */
  datatype Event =
    | Wrote(path: string)
    | Removed(dir: string)
    | Invoked
    | Submitted(endpoint: string)
    | Queried
    | Launched(command: seq<string>)
    | FetchedCode(path: string)
    | Reported(metrics: map<string, Value>)
    | WaitedForFile(path: string, attempts: nat)
    | SetDevice(rank: int)
    | InitProcessGroup
    | DestroyProcessGroup
    | Registered(moduleName: string)
    | Unregistered(moduleName: string)
    | Uploaded(path: string)

  /** How many times user code was invoked in a trace. */
  function Invocations(trace: seq<Event>): nat {
    if |trace| == 0 then 0
    else (if trace[0].Invoked? then 1 else 0) + Invocations(trace[1..])
  }

  lemma {:induction false} InvocationsAppend(a: seq<Event>, b: seq<Event>)
    ensures Invocations(a + b) == Invocations(a) + Invocations(b)
    decreases |a|
  {
    if |a| == 0 {
      assert a + b == b;
    } else {
      assert (a + b)[1..] == a[1..] + b;
      InvocationsAppend(a[1..], b);
    }
  }

  /** A one-event trace invokes user code iff the event is the call. */
  lemma InvocationsOne(e: Event)
    ensures Invocations([e]) == if e.Invoked? then 1 else 0
  {
    assert [e][1..] == [];
  }

  /** Two events that are not calls invoke nothing. */
  lemma InvocationsTwo(a: Event, b: Event)
    requires !a.Invoked? && !b.Invoked?
    ensures Invocations([a, b]) == 0
  {
    assert [a, b][1..] == [b];
    InvocationsOne(b);
  }

  /** A trace invokes user code exactly when one of its events is the call. */
  lemma {:induction false} InvocationsZero(trace: seq<Event>)
    ensures Invocations(trace) == 0 <==> forall k | 0 <= k < |trace| :: !trace[k].Invoked?
    decreases |trace|
  {
    if |trace| > 0 {
      InvocationsZero(trace[1..]);
      assert forall k | 1 <= k < |trace| :: trace[k] == trace[1..][k - 1];
    }
  }

  /** `n` status queries in a trace. */
  function Queries(n: nat): (r: seq<Event>)
    ensures |r| == n && forall k | 0 <= k < n :: r[k] == Queried
  {
    seq(n, _ => Queried)
  }

  /** The result of one effectful step: an outcome, the storage after it,
      and the effects in order. */
  datatype Step<T> = Step(result: Result<T>, store: Store, trace: seq<Event>)

  /** `with fs.open(out, "wb") as f: pickle.dump(v, f)`: the file is created
      before the dump, so a value that cannot be pickled leaves it empty and
      the error propagates; a value that pickles is readable there. Every
      other path keeps what it held. */
  function Dump(pickle: Pickler, v: Value, out: string, store: Store): (r: Step<()>)
    ensures r.result.Ok? <==> pickle(v).None?
    ensures r.result.Err? ==> r.result.error == pickle(v).value
    ensures r.store.Keys == store.Keys + {out}
    ensures r.result.Ok? ==> Load(r.store, out) == Ok(PValue(v))
    ensures r.result.Err? ==> Load(r.store, out) == Err(UnpicklingError)
    ensures forall p | p in store && p != out :: p in r.store && r.store[p] == store[p]
    ensures r.trace == [Wrote(out)]
  {
    match pickle(v)
    case None => Step(Ok(()), store[out := Encode(PValue(v))], [Wrote(out)])
    case Some(err) => Step(Err(err), store[out := Text("")], [Wrote(out)])
  }

  /** Calling a loaded object with no arguments: a function is called, and
      anything else is not callable. */
  function CallPayload(sem: Semantics, p: Payload): (r: Result<Value>)
    ensures p.PFunc? ==> r == Call(sem, p.f)
    ensures !p.PFunc? ==> r == Err(TypeError("object is not callable"))
  {
    if p.PFunc? then Call(sem, p.f) else Err(TypeError("object is not callable"))
  }
}

=== FILE: config.dfy ===
/** Default resource configuration read from `cascade.yaml` / `cascade.yml`
    (block_cascade/config.py): the deep merge of a job's resource definition
    over the file's defaults, and the lookup of the configuration file. */
module Config {
  import opened Wrappers
  import opened Strings
  import opened Json

  const GcpResourceName := "GcpResource"
  const DatabricksResourceName := "DatabricksResource"
  /** Configuration files, in the order they are tried. */
  const SupportedFilenames := ["cascade.yaml", "cascade.yml"]

  /** `_merge(a, b)`: the keys of both dictionaries; where both hold a
      dictionary the two are merged recursively, otherwise `b`'s value wins
      and `a`'s survives only where `b` has no such key. */
  function Merge(a: map<string, Value>, b: map<string, Value>): (r: map<string, Value>)
    ensures r.Keys == a.Keys + b.Keys
    ensures forall k | k in a && k !in b :: r[k] == a[k]
    ensures forall k | k in b && !(k in a && a[k].JObj? && b[k].JObj?) :: r[k] == b[k]
    ensures forall k | k in a && k in b && a[k].JObj? && b[k].JObj? ::
      r[k].JObj? && r[k].fields.Keys == a[k].fields.Keys + b[k].fields.Keys
    decreases JObj(b)
  {
    map k | k in a.Keys + b.Keys ::
      if k !in b then a[k]
      else if k in a && a[k].JObj? && b[k].JObj? then
        assert b[k] in b.Values;
        JObj(Merge(a[k].fields, b[k].fields))
      else b[k]
  }

  /** Where both sides hold a dictionary, the merged value is their merge. */
  lemma MergeNested(a: map<string, Value>, b: map<string, Value>, k: string)
    requires k in a && k in b && a[k].JObj? && b[k].JObj?
    ensures Merge(a, b)[k] == JObj(Merge(a[k].fields, b[k].fields))
  {
  }

  /** Merging a dictionary into itself changes nothing. */
  lemma {:induction false} MergeSelf(a: map<string, Value>)
    ensures Merge(a, a) == a
    decreases JObj(a)
  {
    forall k | k in a && a[k].JObj?
      ensures Merge(a, a)[k] == a[k]
    {
      assert a[k] in a.Values;
      MergeSelf(a[k].fields);
    }
  }

  /** Without overrides the defaults come back unchanged; without defaults
      the overrides do. */
  lemma MergeIdentity(a: map<string, Value>)
    ensures Merge(a, map[]) == a && Merge(map[], a) == a
  {
  }

  /** Applying the same overrides a second time changes nothing. */
  lemma {:induction false} MergeOverridesIdempotent(a: map<string, Value>, b: map<string, Value>)
    ensures Merge(Merge(a, b), b) == Merge(a, b)
    decreases JObj(b)
  {
    var m := Merge(a, b);
    forall k | k in b && m[k].JObj? && b[k].JObj?
      ensures Merge(m, b)[k] == m[k]
    {
      assert b[k] in b.Values;
      if k in a && a[k].JObj? {
        MergeOverridesIdempotent(a[k].fields, b[k].fields);
      } else {
        MergeSelf(b[k].fields);
      }
    }
  }

  /** The example of `_merge`'s documentation: a scalar override replaces the
      default, and nested dictionaries are merged key by key. */
  lemma MergeExample()
    ensures Merge(map["hello" := JStr("world")], map["hello" := JStr("goodbye")]) == map["hello" := JStr("goodbye")]
    ensures var d := map["env" := JObj(map["project" := JStr("dev"), "region" := JStr("us")])];
      var o := map["env" := JObj(map["project" := JStr("prod")])];
      Merge(d, o) == map["env" := JObj(map["project" := JStr("prod"), "region" := JStr("us")])]
  {
    var d := map["env" := JObj(map["project" := JStr("dev"), "region" := JStr("us")])];
    var o := map["env" := JObj(map["project" := JStr("prod")])];
    assert Merge(d["env"].fields, o["env"].fields) == map["project" := JStr("prod"), "region" := JStr("us")];
  }

  /** Which resource class a definition names. */
  datatype ResourceKind = GcpKind | DatabricksKind

  function KindName(k: ResourceKind): string {
    match k
    case GcpKind => GcpResourceName
    case DatabricksKind => DatabricksResourceName
  }

  /** A configured job: the resource class and the keyword arguments its
      constructor receives. */
  datatype Configured = Configured(kind: ResourceKind, definition: map<string, Value>)

  /** A loaded YAML document: a mapping, in file order, or anything else
      (an empty file loads as `None`, a list as a list). */
  datatype Document = Mapping(entries: seq<(string, Value)>) | NotMapping(v: Value)

  /** `configuration.get(key, dflt)` on the file's top-level mapping: the
      value of the entry named `key`, or `dflt` when there is none. The
      loaded mapping is a dictionary, so under `DistinctNames` the first
      entry with the name is the only one. */
  function Lookup(entries: seq<(string, Value)>, key: string, dflt: Value): (r: Value)
    ensures (forall i | 0 <= i < |entries| :: entries[i].0 != key) ==> r == dflt
    ensures forall i | 0 <= i < |entries| && FirstWithKey(entries, key, i) :: r == entries[i].1
  {
    if |entries| == 0 then dflt
    else if entries[0].0 == key then entries[0].1
    else
      FirstWithKeyShift(entries, key);
      Lookup(entries[1..], key, dflt)
  }

  /** Entry `i` is the first with the name `key`. */
  predicate FirstWithKey(entries: seq<(string, Value)>, key: string, i: int)
    requires 0 <= i < |entries|
  {
    entries[i].0 == key && forall j | 0 <= j < i :: entries[j].0 != key
  }

  lemma FirstWithKeyShift(entries: seq<(string, Value)>, key: string)
    requires |entries| > 0 && entries[0].0 != key
    ensures forall i | 0 < i < |entries| && FirstWithKey(entries, key, i) :: FirstWithKey(entries[1..], key, i - 1) && entries[1..][i - 1] == entries[i]
    ensures (forall i | 0 <= i < |entries[1..]| :: entries[1..][i].0 != key) ==> forall i | 0 <= i < |entries| :: entries[i].0 != key
  {
    forall i | 0 < i < |entries| && FirstWithKey(entries, key, i)
      ensures FirstWithKey(entries[1..], key, i - 1) && entries[1..][i - 1] == entries[i]
    {
      forall j | 0 <= j < i - 1 ensures entries[1..][j].0 != key {
        assert entries[1..][j] == entries[j + 1];
      }
    }
    assert forall i | 0 < i < |entries| :: entries[i] == entries[1..][i - 1];
  }

  /** `default_resource_definition.get(<class name>, {})`: the defaults of
      one resource class, `AttributeError` when the `default` entry is not a
      mapping. */
  function ClassDefaults(defaults: Value, kind: ResourceKind): (r: Result<Value>)
    ensures r.Ok? <==> defaults.JObj?
    ensures defaults.JObj? ==> r.value == if KindName(kind) in defaults.fields then defaults.fields[KindName(kind)] else JObj(map[])
  {
    GetOr(defaults, KindName(kind), JObj(map[]))
  }

  /** A definition's `type` names an accepted resource class. */
  predicate Accepted(definition: Value) {
    definition.JObj? && "type" in definition.fields
    && definition.fields["type"] in {JStr(GcpResourceName), JStr(DatabricksResourceName)}
  }

  /** The class an accepted definition names. */
  function KindOf(definition: Value): ResourceKind
    requires Accepted(definition)
  {
    if definition.fields["type"] == JStr(GcpResourceName) then GcpKind else DatabricksKind
  }

  /** One job of the file: pop `type` from its definition, check it names an
      accepted resource class, and merge the definition over that class's
      defaults. `pop` on a list is a `TypeError` (its argument must be an
      index) and on any other non-mapping an `AttributeError`. */
  function ConfigureEntry(defaults: Value, definition: Value): (r: Result<Configured>)
    ensures definition.JList? ==> r.Err? && r.error.TypeError?
    ensures !definition.JObj? && !definition.JList? ==> r == Err(AttributeError("pop"))
    ensures definition.JObj? && "type" !in definition.fields ==> r == Err(KeyError("type"))
    ensures (definition.JObj? && "type" in definition.fields && !Accepted(definition)) ==>
      r.Err? && r.error.ValueError?
    ensures Accepted(definition) && !defaults.JObj? ==> r == Err(AttributeError("get"))
    ensures r.Ok? <==>
      && Accepted(definition) && ClassDefaults(defaults, KindOf(definition)).Ok?
      && ClassDefaults(defaults, KindOf(definition)).value.JObj?
    ensures r.Ok? ==>
      && r.value.kind == KindOf(definition)
      && r.value.definition == Merge(ClassDefaults(defaults, r.value.kind).value.fields, definition.fields - {"type"})
  {
    if definition.JList? then Err(TypeError("'str' object cannot be interpreted as an integer"))
    else if !definition.JObj? then Err(AttributeError("pop"))
    else if "type" !in definition.fields then Err(KeyError("type"))
    else
      var resourceType := definition.fields["type"];
      var rest := definition.fields - {"type"};
      if resourceType != JStr(GcpResourceName) && resourceType != JStr(DatabricksResourceName) then
        Err(ValueError("Only types: GcpResource,DatabricksResource "
          + "are supported for resource definitions."))
      else
        var kind := if resourceType == JStr(GcpResourceName) then GcpKind else DatabricksKind;
        var base :- ClassDefaults(defaults, kind);
        if !base.JObj? then Err(AttributeError("items"))
        else Ok(Configured(kind, Merge(base.fields, rest)))
  }

  /** No two entries share a name, as in the dictionary the YAML loader
      returns. */
  predicate DistinctNames(entries: seq<(string, Value)>) {
    forall i, j | 0 <= i < j < |entries| :: entries[i].0 != entries[j].0
  }

  /** The job names of a file, without the `default` entry. */
  function JobNames(entries: seq<(string, Value)>): set<string> {
    set i | 0 <= i < |entries| && entries[i].0 != "default" :: entries[i].0
  }

  /** The file's `default` entry, `{}` when it has none. */
  function DefaultsOf(all: seq<(string, Value)>): Value {
    Lookup(all, "default", JObj(map[]))
  }

  /** An entry the loop configures without raising: the `default` entry,
      which it skips, or a job whose definition configures. */
  predicate EntryConfigures(all: seq<(string, Value)>, e: (string, Value)) {
    e.0 == "default" || ConfigureEntry(DefaultsOf(all), e.1).Ok?
  }

  /** No later entry has the name of entry `i`. */
  predicate LastEntryAt(entries: seq<(string, Value)>, i: int)
    requires 0 <= i < |entries|
  {
    forall j | i < j < |entries| :: entries[j].0 != entries[i].0
  }

  /** Every job of `entries` configures. */
  predicate AllConfigure(all: seq<(string, Value)>, entries: seq<(string, Value)>) {
    forall i | 0 <= i < |entries| :: EntryConfigures(all, entries[i])
  }

  /** `e` is the error of the first job of `entries` that does not
      configure. */
  ghost predicate FailsFirstWith(all: seq<(string, Value)>, entries: seq<(string, Value)>, e: Error) {
    exists i | 0 <= i < |entries| ::
      && !EntryConfigures(all, entries[i])
      && (forall j | 0 <= j < i :: EntryConfigures(all, entries[j]))
      && e == ConfigureEntry(DefaultsOf(all), entries[i].1).error
  }

  /** `m` is what configuring `entries` into `acc` leaves: the keys of `acc`
      and the job names; each job name holds the configuration of its last
      definition; an entry of `acc` that no job names is kept. */
  ghost predicate ConfiguredAs(all: seq<(string, Value)>, entries: seq<(string, Value)>, acc: map<string, Configured>, m: map<string, Configured>) {
    && m.Keys == acc.Keys + JobNames(entries)
    && (forall i | 0 <= i < |entries| && entries[i].0 != "default" && LastEntryAt(entries, i) ::
         ConfigureEntry(DefaultsOf(all), entries[i].1).Ok?
         && m[entries[i].0] == ConfigureEntry(DefaultsOf(all), entries[i].1).value)
    && (forall n | n in acc && n !in JobNames(entries) :: m[n] == acc[n])
  }

  /** The loop over the file's entries, in order, whose names are distinct
      as a dictionary's keys are. It succeeds exactly when every job
      configures, and then each job name holds the configuration of its
      definition; otherwise the first failing job's error is raised. */
  function ConfigureEntries(all: seq<(string, Value)>, entries: seq<(string, Value)>, acc: map<string, Configured>): (r: Result<map<string, Configured>>)
    requires DistinctNames(entries)
    ensures r.Ok? <==> AllConfigure(all, entries)
    ensures r.Err? ==> FailsFirstWith(all, entries, r.error)
    ensures r.Ok? ==> ConfiguredAs(all, entries, acc, r.value)
    ensures r.Ok? ==> forall i | 0 <= i < |entries| && entries[i].0 != "default" ::
      entries[i].0 in r.value && ConfigureEntry(DefaultsOf(all), entries[i].1).Ok?
      && r.value[entries[i].0] == ConfigureEntry(DefaultsOf(all), entries[i].1).value
    decreases |entries|
  {
    if |entries| == 0 then Ok(acc)
    else
      var (name, definition) := entries[0];
      var rest := entries[1..];
      AllConfigureCons(all, entries);
      if name == "default" then
        var r := ConfigureEntries(all, rest, acc);
        if r.Err? then FailsFirstCons(all, entries, r.error); r
        else ConfiguredAsCons(all, entries, acc, r.value); r
      else
        var c := ConfigureEntry(DefaultsOf(all), definition);
        if c.Err? then
          FailsFirstHead(all, entries);
          Err(c.error)
        else
          var r := ConfigureEntries(all, rest, acc[name := c.value]);
          if r.Err? then FailsFirstCons(all, entries, r.error); r
          else ConfiguredAsCons(all, entries, acc, r.value); r
  }

  lemma AllConfigureCons(all: seq<(string, Value)>, entries: seq<(string, Value)>)
    requires |entries| > 0
    ensures AllConfigure(all, entries) <==> EntryConfigures(all, entries[0]) && AllConfigure(all, entries[1..])
  {
    assert forall i | 0 < i < |entries| :: entries[i] == entries[1..][i - 1];
  }

  lemma FailsFirstHead(all: seq<(string, Value)>, entries: seq<(string, Value)>)
    requires |entries| > 0 && !EntryConfigures(all, entries[0])
    ensures FailsFirstWith(all, entries, ConfigureEntry(DefaultsOf(all), entries[0].1).error)
  {
    assert !EntryConfigures(all, entries[0]);
  }

  lemma FailsFirstCons(all: seq<(string, Value)>, entries: seq<(string, Value)>, e: Error)
    requires |entries| > 0 && EntryConfigures(all, entries[0]) && FailsFirstWith(all, entries[1..], e)
    ensures FailsFirstWith(all, entries, e)
  {
    var rest := entries[1..];
    var i :| 0 <= i < |rest| && !EntryConfigures(all, rest[i])
      && (forall j | 0 <= j < i :: EntryConfigures(all, rest[j]))
      && e == ConfigureEntry(DefaultsOf(all), rest[i].1).error;
    assert entries[i + 1] == rest[i];
    forall j | 0 <= j < i + 1 ensures EntryConfigures(all, entries[j]) {
      if j > 0 {
        assert entries[j] == rest[j - 1];
      }
    }
  }

  /** One step of the loop: configuring the first entry into `acc` and the
      rest over that gives what configuring all of them into `acc` gives. */
  lemma ConfiguredAsCons(all: seq<(string, Value)>, entries: seq<(string, Value)>, acc: map<string, Configured>, m: map<string, Configured>)
    requires |entries| > 0 && EntryConfigures(all, entries[0])
    requires ConfiguredAs(all, entries[1..],
      if entries[0].0 == "default" then acc else acc[entries[0].0 := ConfigureEntry(DefaultsOf(all), entries[0].1).value], m)
    ensures ConfiguredAs(all, entries, acc, m)
  {
    JobNamesCons(entries);
    LastEntriesShift(entries);
    FirstEntryLast(entries);
    assert forall i | 0 < i < |entries| :: entries[i] == entries[1..][i - 1];
  }

  /** The job names of a file are the first entry's name, unless it is
      `default`, and the names of the rest. */
  lemma JobNamesCons(entries: seq<(string, Value)>)
    requires |entries| > 0
    ensures JobNames(entries) == (if entries[0].0 == "default" then {} else {entries[0].0}) + JobNames(entries[1..])
  {
    var name := entries[0].0;
    forall n | n in JobNames(entries) ensures n in (if name == "default" then {} else {name}) + JobNames(entries[1..]) {
      var i :| 0 <= i < |entries| && entries[i].0 != "default" && entries[i].0 == n;
      if i > 0 {
        assert entries[1..][i - 1] == entries[i];
      }
    }
    forall n | n in JobNames(entries[1..]) ensures n in JobNames(entries) {
      var i :| 0 <= i < |entries[1..]| && entries[1..][i].0 != "default" && entries[1..][i].0 == n;
      assert entries[i + 1] == entries[1..][i];
    }
  }

  /** A later entry that is the last of its name is the last of its name in
      the rest. */
  lemma LastEntriesShift(entries: seq<(string, Value)>)
    requires |entries| > 0
    ensures forall i | 0 < i < |entries| && LastEntryAt(entries, i) :: LastEntryAt(entries[1..], i - 1)
  {
    forall i | 0 < i < |entries| && LastEntryAt(entries, i) ensures LastEntryAt(entries[1..], i - 1) {
      forall j | i - 1 < j < |entries[1..]| ensures entries[1..][j].0 != entries[1..][i - 1].0 {
        assert entries[1..][j] == entries[j + 1];
      }
    }
  }

  /** A first entry that is the last of its name is named by no job of the
      rest. */
  lemma FirstEntryLast(entries: seq<(string, Value)>)
    requires |entries| > 0
    ensures LastEntryAt(entries, 0) ==> entries[0].0 !in JobNames(entries[1..])
  {
    var rest := entries[1..];
    if LastEntryAt(entries, 0) {
      forall i | 0 <= i < |rest| ensures rest[i].0 != entries[0].0 {
        assert rest[i] == entries[i + 1];
      }
    }
  }

  /** `find_default_configuration(root)`: the first supported file that
      exists under `root` is read; `None` when there is none. `files` maps
      each existing path to its loaded document. A file that is not a
      mapping raises `AttributeError`; otherwise every job is configured
      over the file's `default` entry. */
  function FindDefaultConfiguration(root: string, files: map<string, Document>): (r: Result<Option<map<string, Configured>>>)
    requires forall path | path in files && files[path].Mapping? :: DistinctNames(files[path].entries)
    ensures PathJoin(root, "cascade.yaml") !in files && PathJoin(root, "cascade.yml") !in files ==> r == Ok(None)
    ensures var path := if PathJoin(root, "cascade.yaml") in files then PathJoin(root, "cascade.yaml") else PathJoin(root, "cascade.yml");
      path in files ==>
        && (files[path].NotMapping? ==> r == Err(AttributeError("items")))
        && (files[path].Mapping? ==> var entries := files[path].entries;
             && (r.Ok? <==> AllConfigure(entries, entries))
             && (r.Ok? ==> r.value.Some? && r.value.value.Keys == JobNames(entries))
             && (r.Ok? ==> forall i | 0 <= i < |entries| && entries[i].0 != "default" ::
                  r.value.value[entries[i].0] == ConfigureEntry(DefaultsOf(entries), entries[i].1).value)
             && (forall i | 0 <= i < |entries| && entries[i].0 == "default" :: DefaultsOf(entries) == entries[i].1))
  {
    var yaml := PathJoin(root, SupportedFilenames[0]);
    var yml := PathJoin(root, SupportedFilenames[1]);
    var path := if yaml in files then yaml else yml;
    if path !in files then Ok(None)
    else
      match files[path]
      case NotMapping(_) => Err(AttributeError("items"))
      case Mapping(entries) =>
        var configured :- ConfigureEntries(entries, entries, map[]);
        Ok(Some(configured))
  }

  /** A job's own settings override the file's defaults for its class, and
      the defaults fill in what the job leaves out; nested mappings present
      on both sides are merged. This holds for both resource classes, and a
      class without defaults takes the job's settings as they are. */
  lemma {:induction false} ConfiguredJobOverridesDefaults(defaults: map<string, Value>, job: map<string, Value>, kind: ResourceKind, k: string)
    requires "type" in job && job["type"] == JStr(KindName(kind))
    requires KindName(kind) in defaults ==> defaults[KindName(kind)].JObj?
    ensures var r := ConfigureEntry(JObj(defaults), JObj(job));
      var base := if KindName(kind) in defaults then defaults[KindName(kind)].fields else map[];
      && r.Ok? && r.value.kind == kind
      && (k in r.value.definition <==> k in base || (k in job && k != "type"))
      && (k !in job && k in base ==> r.value.definition[k] == base[k])
      && (k in job && k != "type" && !(k in base && base[k].JObj? && job[k].JObj?) ==> r.value.definition[k] == job[k])
      && (k in job && k != "type" && k in base && base[k].JObj? && job[k].JObj? ==>
           r.value.definition[k] == JObj(Merge(base[k].fields, job[k].fields)))
  {
    var rest := job - {"type"};
    var base := if KindName(kind) in defaults then defaults[KindName(kind)].fields else map[];
    var m := Merge(base, rest);
    if k in rest && k in base && base[k].JObj? && rest[k].JObj? {
      MergeNested(base, rest, k);
    }
  }
}

=== FILE: context.dfy ===
/** The execution-context factory of block_cascade/context/__init__.py:
    `Context()` picks the Prefect context when a Prefect run logger is
    available, the VM metadata context on Vertex, and the base context
    otherwise; the base context knows nothing. */
module Context {
  import opened Wrappers

  /** What the factory's probe does: one of its imports (the Prefect
      context class, `get_run_logger`, `MissingContextError`) raises, or the
      imports succeed and `get_run_logger()` returns or raises. */
  datatype Probe = ImportRaises(e: Error) | LoggerReady | LoggerRaises(e: Error)

  /** The class `Context()` instantiates. */
  datatype Kind = BaseContext | PrefectContext | VMMetadataServer

  /** `kind()`: the name of the instantiated class. */
  function KindName(k: Kind): (name: string)
    ensures k == BaseContext <==> name == "Context"
  {
    match k
    case BaseContext => "Context"
    case PrefectContext => "PrefectContext"
    case VMMetadataServer => assert "VMMetadataServer"[0] == 'V'; "VMMetadataServer"
  }

  /** The name the handler refers to. It is bound by an import inside the
      `try`, which makes it a local of `__new__`. */
  const MissingContextName := "MissingContextError"

  /** `Context.__new__` as written. The handler `except MissingContextError`
      names a local that is bound only once its import has run; when an
      import raises first, evaluating that handler raises
      `UnboundLocalError`, so the later `except ImportError` is never
      reached. */
  function NewContextAsWritten(probe: Probe, vertexProduct: bool): (r: Result<Kind>)
    ensures probe.ImportRaises? ==> r == Err(UnboundLocalError(MissingContextName))
    ensures !probe.ImportRaises? ==> r == NewContext(probe, vertexProduct)
  {
    match probe
    case ImportRaises(_) => Err(UnboundLocalError(MissingContextName))
    case LoggerReady => Ok(PrefectContext)
    case LoggerRaises(e) => Handle(e, vertexProduct)
  }

  /** The handlers of `Context.__new__` applied to what the probe raised. */
  function Handle(e: Error, vertexProduct: bool): Result<Kind> {
    if e == MissingContextError then Ok(if vertexProduct then VMMetadataServer else BaseContext)
    else if e.ImportError? then Ok(BaseContext)
    else Err(e)
  }

  /** `Context.__new__` as its handlers mean it: the Prefect context when
      the run logger is available; on `MissingContextError` the VM metadata
      context iff `VERTEX_PRODUCT` is set, else the base context; on
      `ImportError` the base context; any other exception propagates. */
  function NewContext(probe: Probe, vertexProduct: bool): (r: Result<Kind>)
    ensures r == Ok(PrefectContext) <==> probe == LoggerReady
    ensures r == Ok(VMMetadataServer) <==> probe != LoggerReady && probe.e == MissingContextError && vertexProduct
    ensures r == Ok(BaseContext) <==>
      probe != LoggerReady && ((probe.e == MissingContextError && !vertexProduct) || probe.e.ImportError?)
    ensures r.Err? <==> probe != LoggerReady && probe.e != MissingContextError && !probe.e.ImportError?
    ensures r.Err? ==> r.error == probe.e
  {
    match probe
    case LoggerReady => Ok(PrefectContext)
    case ImportRaises(e) => Handle(e, vertexProduct)
    case LoggerRaises(e) => Handle(e, vertexProduct)
  }

  /** Without Prefect installed the factory as written fails, where the
      handler for exactly this case means to return the base context. */
  lemma NoPrefectInstalled(vertexProduct: bool)
    ensures NewContextAsWritten(ImportRaises(ImportError("prefect")), vertexProduct) == Err(UnboundLocalError("MissingContextError"))
    ensures NewContext(ImportRaises(ImportError("prefect")), vertexProduct) == Ok(BaseContext)
  {
  }

  /** What a context answers: tags, image, project, service account and region. */
  datatype Answers = Answers(
    tags: map<string, string>,
    image: Option<string>,
    project: Option<string>,
    serviceAccount: Option<string>,
    region: Option<string>)

  /** The base context's getters. */
  function BaseAnswers(): Answers {
    Answers(map[], None, None, None, None)
  }

  /** Outside any Prefect run and off Vertex the factory yields the base
      context, which has no tags and knows no image, project, service
      account or region. */
  lemma PlainContextKnowsNothing(probe: Probe)
    requires probe == LoggerRaises(MissingContextError) || (probe != LoggerReady && probe.e.ImportError?)
    ensures NewContext(probe, false) == Ok(BaseContext)
    ensures KindName(NewContext(probe, false).value) == "Context"
    ensures var a := BaseAnswers();
      a.tags == map[] && a.image.None? && a.project.None? && a.serviceAccount.None? && a.region.None?
  {
  }
}

=== FILE: crud.dfy ===
/** The pure helpers of the persistent-resource commands
    (block_cascade/cli/crud.py): reading the project and region from the
    gcloud configuration, the persistent-resource payload built from a
    `GcpResource`, the parent and endpoint strings, and the filter that
    keeps the custom jobs running on one persistent resource. */
module Crud {
  import opened Wrappers
  import opened Strings
  import opened Json
  import opened VertexResource

  /** `config.get(section, {})[key]`: a missing section reads as an empty
      one, so a missing section and a missing key both raise `KeyError`. */
  function Setting(config: Value, section: string, key: string): (r: Result<Value>)
    ensures r.Ok? <==> (config.JObj? && section in config.fields && config.fields[section].JObj?
                        && key in config.fields[section].fields)
    ensures r.Ok? ==> r.value == config.fields[section].fields[key]
    ensures config.JObj? && section !in config.fields ==> r == Err(KeyError(key))
    ensures (config.JObj? && section in config.fields && config.fields[section].JObj?
             && key !in config.fields[section].fields) ==> r == Err(KeyError(key))
  {
    var part :- GetOr(config, section, JObj(map[]));
    Get(part, key)
  }

  /** `get_gcp_project`: `core.project` of the gcloud configuration. */
  function GcpProject(config: Value): (r: Result<Value>)
    ensures r.Ok? <==> (config.JObj? && "core" in config.fields && config.fields["core"].JObj?
                        && "project" in config.fields["core"].fields)
    ensures r.Ok? ==> r.value == config.fields["core"].fields["project"]
    ensures config.JObj? && "core" !in config.fields ==> r == Err(KeyError("project"))
  {
    Setting(config, "core", "project")
  }

  /** `get_gcp_region`: `compute.region` of the gcloud configuration. */
  function GcpRegion(config: Value): (r: Result<Value>)
    ensures r.Ok? <==> (config.JObj? && "compute" in config.fields && config.fields["compute"].JObj?
                        && "region" in config.fields["compute"].fields)
    ensures r.Ok? ==> r.value == config.fields["compute"].fields["region"]
    ensures config.JObj? && "compute" !in config.fields ==> r == Err(KeyError("region"))
  {
    Setting(config, "compute", "region")
  }

  /** The project is read from the `core` section alone and the region from
      the `compute` section alone: replacing the other section changes
      neither. */
  lemma SettingsApart(config: Value, section: Value)
    requires config.JObj?
    ensures GcpProject(JObj(config.fields["compute" := section])) == GcpProject(config)
    ensures GcpRegion(JObj(config.fields["core" := section])) == GcpRegion(config)
  {
  }

  /** A worker pool of the persistent resource: the CPU pool (with
      autoscaling bounds only when one of them is positive) or the GPU pool
      (never autoscaled). */
  datatype Pool =
    | CpuPool(machineType: string, replicaCount: int, autoscaling: Option<(int, int)>)
    | GpuPool(gpuMachineType: Option<string>, acceleratorType: Option<string>, acceleratorCount: int, replicaCount: int)

  /** `x or 0` for an optional replica bound. */
  function OrZero(x: Option<int>): (r: int)
    ensures x.None? ==> r == 0
    ensures x.Some? ==> r == x.value
  {
    match x
    case Some(v) => v
    case None => 0
  }

  /** The CPU pool: the chief's machine type and count. */
  function CpuPoolOf(chief: Machine): (p: Pool)
    ensures p.CpuPool? && p.machineType == chief.machineType && p.replicaCount == chief.count
    ensures p.autoscaling.Some? <==> OrZero(chief.minReplicaCount) > 0 || OrZero(chief.maxReplicaCount) > 0
    ensures p.autoscaling.Some? ==> p.autoscaling.value == (OrZero(chief.minReplicaCount), OrZero(chief.maxReplicaCount))
  {
    var lo := OrZero(chief.minReplicaCount);
    var hi := OrZero(chief.maxReplicaCount);
    CpuPool(chief.machineType, chief.count, if lo > 0 || hi > 0 then Some((lo, hi)) else None)
  }

  /** The GPU pool: the chief again, with its accelerator, when it has one;
      otherwise an empty pool. */
  function GpuPoolOf(chief: Machine): (p: Pool)
    ensures p.GpuPool?
    ensures chief.accelerator.Some? ==>
      p == GpuPool(Some(chief.machineType), Some(chief.accelerator.value.acceleratorType), chief.accelerator.value.count, chief.count)
    ensures chief.accelerator.None? ==> p == GpuPool(None, None, 0, 0)
  {
    match chief.accelerator
    case Some(a) => GpuPool(Some(chief.machineType), Some(a.acceleratorType), a.count, chief.count)
    case None => GpuPool(None, None, 0, 0)
  }

  /** The pools with a positive replica count, CPU first. */
  function ResourcePools(chief: Machine): (pools: seq<Pool>)
    ensures CpuPoolOf(chief) in pools <==> chief.count > 0
    ensures GpuPoolOf(chief) in pools <==> chief.count > 0 && chief.accelerator.Some?
    ensures forall k | 0 <= k < |pools| :: pools[k] == CpuPoolOf(chief) || pools[k] == GpuPoolOf(chief)
    ensures forall k | 0 <= k < |pools| :: pools[k].replicaCount > 0
    ensures |pools| == 2 ==> pools[0].CpuPool? && pools[1].GpuPool?
  {
    var cpu := CpuPoolOf(chief);
    var gpu := GpuPoolOf(chief);
    if cpu.replicaCount > 0 && gpu.replicaCount > 0 then [cpu, gpu]
    else if cpu.replicaCount > 0 then [cpu]
    else if gpu.replicaCount > 0 then [gpu]
    else []
  }

  /** The boot disk every pool gets, as jobs do by default. */
  const DiskSpec := JObj(map["boot_disk_type" := JStr("pd-ssd"), "boot_disk_size_gb" := JInt(100)])

  /** A pool as it is sent. */
  function PoolJson(p: Pool): (v: Value)
    ensures v.JObj? && "disk_spec" in v.fields && v.fields["disk_spec"] == DiskSpec
    ensures "replica_count" in v.fields && v.fields["replica_count"] == JInt(p.replicaCount)
    ensures "autoscaling_spec" in v.fields <==> p.CpuPool? && p.autoscaling.Some?
  {
    match p
    case CpuPool(machineType, replicas, autoscaling) =>
      var base := map[
        "machine_spec" := JObj(map["machine_type" := JStr(machineType)]),
        "replica_count" := JInt(replicas),
        "disk_spec" := DiskSpec];
      (match autoscaling
       case None => JObj(base)
       case Some((lo, hi)) =>
         JObj(base["autoscaling_spec" := JObj(map["min_replica_count" := JInt(lo), "max_replica_count" := JInt(hi)])]))
    case GpuPool(machineType, acceleratorType, acceleratorCount, replicas) =>
      JObj(map[
        "machine_spec" := JObj(map[
          "machine_type" := OfOption(machineType),
          "accelerator_type" := OfOption(acceleratorType),
          "accelerator_count" := JInt(acceleratorCount)]),
        "replica_count" := JInt(replicas),
        "disk_spec" := DiskSpec])
  }

  /** `get_persistent_resource_payload`: the display name is the persistent
      resource id, and the pools are the chief's. Workers are not part of
      a persistent resource. */
  function PersistentResourcePayload(r: GcpResource): (v: Value)
    ensures v.JObj? && v.fields.Keys == {"display_name", "resource_pools"}
    ensures v.fields["display_name"] == OfOption(r.persistentResourceId)
    ensures var pools := v.fields["resource_pools"];
      pools.JList? && |pools.items| == |ResourcePools(r.chief)|
      && forall k | 0 <= k < |pools.items| :: pools.items[k] == PoolJson(ResourcePools(r.chief)[k])
  {
    var pools := ResourcePools(r.chief);
    JObj(map[
      "display_name" := OfOption(r.persistentResourceId),
      "resource_pools" := JList(seq(|pools|, k requires 0 <= k < |pools| => PoolJson(pools[k])))])
  }

  /** A chief with an accelerator is sent twice: once as the CPU pool and
      once as the GPU pool, with the same machine type and count. */
  lemma AcceleratedChiefTwoPools(chief: Machine)
    requires chief.count > 0 && chief.accelerator.Some?
    ensures ResourcePools(chief) == [CpuPoolOf(chief), GpuPoolOf(chief)]
    ensures ResourcePools(chief)[1].gpuMachineType == Some(ResourcePools(chief)[0].machineType)
    ensures ResourcePools(chief)[1].replicaCount == ResourcePools(chief)[0].replicaCount
  {
  }

  /** Whatever the chief, every pool sent has the fixed boot disk and a
      positive replica count, and only a CPU pool may be autoscaled. */
  lemma {:induction false} PayloadPools(r: GcpResource)
    ensures var pools := PersistentResourcePayload(r).fields["resource_pools"].items;
      forall k | 0 <= k < |pools| ::
        pools[k].JObj? && pools[k].fields["disk_spec"] == DiskSpec
        && pools[k].fields["replica_count"].JInt? && pools[k].fields["replica_count"].i > 0
        && ("autoscaling_spec" in pools[k].fields ==> ResourcePools(r.chief)[k].CpuPool?)
  {
    var pools := PersistentResourcePayload(r).fields["resource_pools"].items;
    forall k | 0 <= k < |pools|
      ensures pools[k].JObj? && pools[k].fields["disk_spec"] == DiskSpec
      ensures pools[k].fields["replica_count"].JInt? && pools[k].fields["replica_count"].i > 0
      ensures "autoscaling_spec" in pools[k].fields ==> ResourcePools(r.chief)[k].CpuPool?
    {
      var p := ResourcePools(r.chief)[k];
      assert pools[k] == PoolJson(p);
      assert p.replicaCount > 0;
    }
  }

  /** `get_parent_str`: `projects/<project>/locations/<region>`. Without an
      environment the attribute access fails; a missing region prints as
      `None`. */
  function ParentOf(r: GcpResource): (s: Result<string>)
    ensures s.Ok? <==> r.environment.Some?
    ensures r.environment.None? ==> s == Err(AttributeError("project"))
  {
    match r.environment
    case None => Err(AttributeError("project"))
    case Some(env) => Ok(Join(["projects", env.project, "locations", PyStr(env.region)], '/'))
  }

  /** The parent string names its project and region in the second and
      fourth place, so both can be read back from it. */
  lemma ParentParts(r: GcpResource, project: string, region: string)
    requires r.environment.Some? && r.environment.value.project == project && r.environment.value.region == Some(region)
    requires '/' !in project && '/' !in region
    ensures ParentOf(r).Ok? && Split(ParentOf(r).value, '/') == ["projects", project, "locations", region]
  {
    var parts := ["projects", project, "locations", region];
    assert '/' !in parts[0] by {
      assert forall k | 0 <= k < |parts[0]| :: parts[0][k] != '/';
    }
    assert '/' !in parts[2] by {
      assert forall k | 0 <= k < |parts[2]| :: parts[2][k] != '/';
    }
    SplitJoin(parts, '/');
  }

  /** `get_endpoint_str`: `<region>-<service>`. The service host name comes
      from `block_cascade/consts.py`, which is not part of this model, so it
      is a parameter. */
  function Endpoint(region: Option<string>, service: string): (s: string)
    ensures '-' !in service ==> AfterLast(s, '-') == service && BeforeLast(s, '-') == PyStr(region)
  {
    var s := PyStr(region) + "-" + service;
    assert '-' !in service ==> AfterLast(s, '-') == service && BeforeLast(s, '-') == PyStr(region) by {
      if '-' !in service {
        SplitAtLast(PyStr(region), '-', service);
      }
    }
    s
  }

  /** `customJob["jobSpec"]["persistentResourceId"]`; any failure skips
      the job. */
  function PersistentResourceIdOf(job: Value): Result<Value> {
    var spec :- Get(job, "jobSpec");
    Get(spec, "persistentResourceId")
  }

  /** Whether a job runs on the persistent resource `id`. */
  predicate RunsOn(id: string, job: Value) {
    PersistentResourceIdOf(job) == Ok(JStr(id))
  }

  /** The loop of `list_active_jobs`: the jobs that run on `id`, in order. */
  function Matching(id: string, jobs: seq<Value>): (r: seq<Value>)
    ensures |r| <= |jobs|
    ensures forall k | 0 <= k < |r| :: r[k] in jobs && RunsOn(id, r[k])
    ensures forall k | 0 <= k < |jobs| :: RunsOn(id, jobs[k]) ==> jobs[k] in r
  {
    if jobs == [] then []
    else
      var rest := Matching(id, jobs[1..]);
      assert forall k | 1 <= k < |jobs| :: jobs[k] == jobs[1..][k - 1];
      if RunsOn(id, jobs[0]) then [jobs[0]] + rest else rest
  }

  /** Filtering a concatenation is concatenating the filtered parts: the
      order of the listed jobs is kept. */
  lemma {:induction false} MatchingAppend(id: string, a: seq<Value>, b: seq<Value>)
    ensures Matching(id, a + b) == Matching(id, a) + Matching(id, b)
  {
    if a != [] {
      assert (a + b)[0] == a[0];
      assert (a + b)[1..] == a[1..] + b;
      MatchingAppend(id, a[1..], b);
    } else {
      assert a + b == b;
    }
  }

  /** What `for customJob in customJobs` iterates over, as far as the
      loop can tell: a list's items and a string's characters. A dict
      iterates over its keys, which are strings and so have no `jobSpec`
      and are all skipped (`NonJobsNeverMatch`); the model gives it no items,
      which the loop treats alike. Anything else is not iterable. */
  function Iterate(v: Value): (r: Result<seq<Value>>)
    ensures v.JList? ==> r == Ok(v.items)
    ensures r.Ok? ==> forall k | 0 <= k < |r.value| :: r.value[k].JStr? || v.JList?
  {
    match v
    case JList(items) => Ok(items)
    case JObj(fields) => Ok([])
    case JStr(s) => Ok(seq(|s|, k requires 0 <= k < |s| => JStr([s[k]])))
    case _ => Err(TypeError("object is not iterable"))
  }

  /** `list_active_jobs` after the listing: `{"customJobs": [...]}` with
      the listed jobs that run on `id`; no `customJobs` in the listing
      gives none. */
  function ActiveJobs(id: string, listing: Value): (r: Result<Value>)
    ensures !(listing.JObj? && "customJobs" in listing.fields) ==> r == Ok(JObj(map["customJobs" := JList([])]))
    ensures listing.JObj? && "customJobs" in listing.fields && listing.fields["customJobs"].JList? ==>
      r == Ok(JObj(map["customJobs" := JList(Matching(id, listing.fields["customJobs"].items))]))
    ensures r.Ok? ==> r.value.JObj? && "customJobs" in r.value.fields && r.value.fields["customJobs"].JList?
  {
    var jobs := match Get(listing, "customJobs") case Ok(v) => v case Err(_) => JObj(map[]);
    var items :- Iterate(jobs);
    Ok(JObj(map["customJobs" := JList(Matching(id, items))]))
  }

  /** Only list entries can match: a dict or a string in place of the job
      list yields no jobs. */
  lemma {:induction false} NonJobsNeverMatch(id: string, items: seq<Value>)
    requires forall k | 0 <= k < |items| :: items[k].JStr?
    ensures Matching(id, items) == []
  {
    if items != [] {
      assert forall k | 0 <= k < |items[1..]| :: items[1..][k] == items[k + 1];
      NonJobsNeverMatch(id, items[1..]);
      assert Get(items[0], "jobSpec").Err?;
    }
  }
}

=== FILE: databricks_access.dfy ===
/** What the Databricks executor acquires before staging
    (block_cascade/executors/databricks/executor.py): the workspace secret,
    the S3 filesystem with its retries, and the modules pickled by value. */
module DatabricksAccess {
  import opened Wrappers
  import opened Strings
  import opened Json
  import opened DatabricksResource

  /** An environment variable that is set and not empty. */
  predicate EnvSet(env: map<string, string>, key: string) {
    key in env && env[key] != ""
  }

  /** `databricks_secret`: the resource's own secret, else the host and
      token from the environment when both are set and non-empty, else a
      `ValueError`. */
  function ResolveSecret(r: Resource, env: map<string, string>): (s: Result<Secret>)
    ensures r.secret.Some? ==> s == Ok(r.secret.value)
    ensures r.secret.None? ==> (s.Ok? <==> EnvSet(env, "DATABRICKS_HOST") && EnvSet(env, "DATABRICKS_TOKEN"))
    ensures r.secret.None? && s.Ok? ==> s.value == Secret(env["DATABRICKS_HOST"], env["DATABRICKS_TOKEN"])
    ensures s.Err? ==> s.error.ValueError?
  {
    if r.secret.Some? then Ok(r.secret.value)
    else if EnvSet(env, "DATABRICKS_HOST") && EnvSet(env, "DATABRICKS_TOKEN") then
      Ok(Secret(env["DATABRICKS_HOST"], env["DATABRICKS_TOKEN"]))
    else Err(NoSecret())
  }

  function NoSecret(): (e: Error)
    ensures e.ValueError?
  {
    ValueError("Cannot locate Databricks secret. "
      + "Databricks secret must be set in DatabricksResource "
      + "or as environment variables DATABRICKS_HOST and DATABRICKS_TOKEN")
  }

  /** An S3 filesystem handle; which one it is matters only for telling a
      freshly built handle from one kept from an earlier access. */
  datatype FileSystem = FileSystem(id: nat)

  /** What one attempt to build the filesystem does: build one, fail with
      the `KeyError` concurrent credential lookups raise, or fail otherwise. */
  datatype FsAttempt = Built(fs: FileSystem) | KeyFailure | Failure(error: Error)

  /** `while n_retries <= 6`: seven attempts. */
  const FsAttempts := 7

  function FsInitError(): Error {
    RuntimeError("Failed to initialize S3 filesystem; "
      + "job pickle cannot be staged.")
  }

  /** The outcome of one `fs` access: the handle or error, the handle the
      executor keeps afterwards, and how many attempts were made. */
  datatype Acquired = Acquired(result: Result<FileSystem>, current: Option<FileSystem>, tries: nat)

  /** Attempts `n` onwards of the `fs` property, with `current` the handle
      kept so far. Only a `KeyError` is retried; after the last attempt the
      kept handle, however old, is returned if there is one. */
  function AcquireFrom(attempts: nat -> FsAttempt, n: nat, current: Option<FileSystem>): (a: Acquired)
    requires n <= FsAttempts
    ensures n <= a.tries <= FsAttempts
    ensures forall j | n <= j && j + 1 < a.tries :: attempts(j).KeyFailure?
    ensures a.result.Ok? ==> a.current == Some(a.result.value)
    ensures a.result.Ok? ==>
      (a.tries > n && attempts(a.tries - 1) == Built(a.result.value))
      || (a.tries == FsAttempts && current == a.current && forall j | n <= j < FsAttempts :: attempts(j).KeyFailure?)
    ensures a.result.Err? ==> a.current == current
    ensures a.result.Err? ==>
      (a.tries > n && attempts(a.tries - 1) == Failure(a.result.error))
      || (a.tries == FsAttempts && current.None? && a.result.error == FsInitError()
          && forall j | n <= j < FsAttempts :: attempts(j).KeyFailure?)
    decreases FsAttempts - n
  {
    if n == FsAttempts then
      match current
      case None => Acquired(Err(FsInitError()), current, n)
      case Some(fs) => Acquired(Ok(fs), current, n)
    else
      match attempts(n)
      case Built(fs) => Acquired(Ok(fs), Some(fs), n + 1)
      case Failure(e) => Acquired(Err(e), current, n + 1)
      case KeyFailure => AcquireFrom(attempts, n + 1, current)
  }

  /** The `fs` property as the loop it is: retry while the attempt raises
      `KeyError`, then act on the attempt that did not, or on the kept
      handle once the retries are spent. */
  method AccessFs(attempts: nat -> FsAttempt, prior: Option<FileSystem>) returns (a: Acquired)
    ensures a == AcquireFrom(attempts, 0, prior)
  {
    var n := SkipKeyErrors(attempts, prior);
    if n < FsAttempts {
      AcquireStep(attempts, n, prior);
      match attempts(n)
      case Built(fs) =>
        a := Acquired(Ok(fs), Some(fs), n + 1);
      case Failure(e) =>
        a := Acquired(Err(e), prior, n + 1);
    } else if prior.None? {
      a := Acquired(Err(FsInitError()), prior, n);
    } else {
      a := Acquired(Ok(prior.value), prior, n);
    }
  }

  /** The retry loop of the `fs` property: the number of the first attempt
      that does not raise `KeyError`, or seven. */
  method SkipKeyErrors(attempts: nat -> FsAttempt, prior: Option<FileSystem>) returns (n: nat)
    ensures n <= FsAttempts && (n < FsAttempts ==> !attempts(n).KeyFailure?)
    ensures AcquireFrom(attempts, n, prior) == AcquireFrom(attempts, 0, prior)
  {
    n := 0;
    while n <= 6 && attempts(n).KeyFailure?
      invariant 0 <= n <= FsAttempts
      invariant AcquireFrom(attempts, n, prior) == AcquireFrom(attempts, 0, prior)
    {
      AcquireStep(attempts, n, prior);
      n := n + 1;
    }
  }

  /** One attempt of the `fs` property, unfolded. */
  lemma AcquireStep(attempts: nat -> FsAttempt, n: nat, current: Option<FileSystem>)
    requires n < FsAttempts
    ensures attempts(n).KeyFailure? ==> AcquireFrom(attempts, n, current) == AcquireFrom(attempts, n + 1, current)
    ensures attempts(n).Built? ==> AcquireFrom(attempts, n, current) == Acquired(Ok(attempts(n).fs), Some(attempts(n).fs), n + 1)
    ensures attempts(n).Failure? ==> AcquireFrom(attempts, n, current) == Acquired(Err(attempts(n).error), current, n + 1)
  {
  }

  /** The first attempt that does not raise `KeyError` decides the access. */
  lemma {:induction false} FsFirstAttemptDecides(attempts: nat -> FsAttempt, prior: Option<FileSystem>, n: nat, j: nat)
    requires n <= j < FsAttempts && !attempts(j).KeyFailure?
    requires forall i | n <= i < j :: attempts(i).KeyFailure?
    ensures var a := AcquireFrom(attempts, n, prior);
      a.tries == j + 1
      && (attempts(j).Built? ==> a.result == Ok(attempts(j).fs) && a.current == Some(attempts(j).fs))
      && (attempts(j).Failure? ==> a.result == Err(attempts(j).error) && a.current == prior)
    decreases j - n
  {
    if n < j {
      assert attempts(n).KeyFailure?;
      FsFirstAttemptDecides(attempts, prior, n + 1, j);
    }
  }

  /** Seven `KeyError`s in a row fall back to the handle kept from an
      earlier access, and raise only when there never was one. */
  lemma FsAllKeyErrors(attempts: nat -> FsAttempt, prior: Option<FileSystem>)
    requires forall i | 0 <= i < FsAttempts :: attempts(i).KeyFailure?
    ensures var a := AcquireFrom(attempts, 0, prior);
      a.tries == FsAttempts
      && (prior.Some? ==> a.result == Ok(prior.value))
      && (prior.None? ==> a.result == Err(FsInitError()))
  {
    var a := AcquireFrom(attempts, 0, prior);
    assert !(a.tries > 0 && attempts(a.tries - 1).Built?);
    assert !(a.tries > 0 && attempts(a.tries - 1).Failure?);
  }

  /** How importing a module by name ends. */
  datatype ImportOutcome = Imported | NotFound | ImportFailed | Crashed(error: Error)

  /** The error a failed import becomes: both kinds of `ImportError` are
      re-raised as `RuntimeError` naming the module; anything else
      propagates as it is. */
  function ImportFailure(name: string, outcome: ImportOutcome): Error
    requires !outcome.Imported?
  {
    match outcome
    case NotFound => RuntimeError("Unable to pickle " + name + " due to module not being found in current Python environment.")
    case ImportFailed => RuntimeError("Unable to pickle " + name + " due to import error.")
    case Crashed(e) => e
  }

  predicate Distinct(xs: seq<string>) {
    forall i, j | 0 <= i < j < |xs| :: xs[i] != xs[j]
  }

  /** The imports after `acc`: each name is imported in order; the first
      one that fails stops the collection. */
  function CollectModules(names: seq<string>, importer: string -> ImportOutcome, acc: seq<string>): (r: Result<seq<string>>)
    requires Distinct(acc)
    ensures r.Ok? <==> forall k | 0 <= k < |names| :: importer(names[k]).Imported?
    ensures r.Ok? ==> Distinct(r.value) && acc <= r.value
    ensures r.Ok? ==> forall m :: m in r.value <==> m in acc || m in names
    decreases |names|
  {
    if |names| == 0 then Ok(acc)
    else
      match importer(names[0])
      case Imported =>
        var next := if names[0] in acc then acc else acc + [names[0]];
        var r := CollectModules(names[1..], importer, next);
        assert forall k | 1 <= k < |names| :: names[k] == names[1..][k - 1];
        assert forall m | m in names :: m == names[0] || m in names[1..];
        r
      case other => Err(ImportFailure(names[0], other))
  }

  /** `cloudpickle_by_value`: the distinct modules named by the resource's
      `cloud_pickle_by_value`, each imported. Registration order is that of
      a Python set, which the model takes as first occurrence. */
  function ModulesByValue(r: Resource, importer: string -> ImportOutcome): (m: Result<seq<string>>)
    ensures var names := r.cloudPickleByValue.GetOr([]);
      m.Ok? <==> forall k | 0 <= k < |names| :: importer(names[k]).Imported?
    ensures m.Ok? ==> Distinct(m.value) && forall x :: x in m.value <==> x in r.cloudPickleByValue.GetOr([])
  {
    CollectModules(r.cloudPickleByValue.GetOr([]), importer, [])
  }

  /** The first module that fails to import decides the error. */
  lemma {:induction false} CollectModulesFirstFailure(names: seq<string>, importer: string -> ImportOutcome, acc: seq<string>, j: nat)
    requires Distinct(acc)
    requires j < |names| && !importer(names[j]).Imported?
    requires forall i | 0 <= i < j :: importer(names[i]).Imported?
    ensures CollectModules(names, importer, acc) == Err(ImportFailure(names[j], importer(names[j])))
    decreases |names|
  {
    if j > 0 {
      assert importer(names[0]).Imported?;
      var next := if names[0] in acc then acc else acc + [names[0]];
      assert forall i | 0 <= i < j - 1 :: names[1..][i] == names[i + 1];
      CollectModulesFirstFailure(names[1..], importer, next, j - 1);
    }
  }

}

=== FILE: databricks_executor.dfy ===
/** The Databricks executor (block_cascade/executors/databricks/executor.py):
    its state, the cluster policy lookup and building the job. Run status,
    the secret, the filesystem and the modules pickled by value are in
    `DatabricksStatus` and `DatabricksAccess`; staging, submitting,
    polling and reading back the result are in `DatabricksLifecycle`. */
module DatabricksExecutor {
  import opened Wrappers
  import opened Strings
  import opened Json
  import opened Utils
  import opened Codec
  import opened BaseExecutor
  import opened Slug
  import opened DatabricksResource
  import opened DatabricksAccess
  import DatabricksJob

  /** The Runs API version every submission names; runs submitted with an
      older version do not show in the Databricks UI. */
  const ApiVersion := "2.1"

  /** The endpoint `submit_run` posts to. */
  function SubmitEndpoint(): string {
    "/api/" + ApiVersion + "/jobs/runs/submit"
  }



  /** The executor's state: the base state, the resource, the cluster
      policy name worked out at construction, the storage location taken
      from the resource, and the filesystem handle kept so far. */
  datatype Databricks = Databricks(
    base: Executor,
    resource: Resource,
    clusterPolicy: string,
    location: string,
    fs: Option<FileSystem>)

  /** The cluster policy's name: the resource's own, else the group's
      default policy. Adding "_default" to a missing group raises
      `TypeError`. */
  function PolicyName(r: Resource): (n: Result<string>)
    ensures r.clusterPolicy.Some? ==> n == Ok(r.clusterPolicy.value)
    ensures r.clusterPolicy.None? ==> (n.Ok? <==> r.groupName.Some?)
    ensures r.clusterPolicy.None? && n.Ok? ==>
      StartsWith(n.value, r.groupName.value) && EndsWith(n.value, "_default")
      && n.value[..|r.groupName.value|] + "_default" == n.value
    ensures n.Err? ==> n.error.TypeError?
  {
    if r.clusterPolicy.Some? then Ok(r.clusterPolicy.value)
    else if r.groupName.None? then Err(TypeError("unsupported operand type(s) for +: 'NoneType' and 'str'"))
    else
      var n := r.groupName.value + "_default";
      assert n[..|r.groupName.value|] == r.groupName.value;
      assert n[|n| - |"_default"|..] == "_default";
      Ok(n)
  }

  /** `DatabricksExecutor(func, resource, name)`. The storage location is
      the one `__post_init__` always fills in. */
  function MakeExecutor(func: Callable, resource: Resource, name: Option<string>, storageKey: string): (r: Result<Databricks>)
    requires resource.storageLocation.Some?
    ensures r.Ok? <==> PolicyName(resource).Ok?
    ensures r.Ok? ==> r.value.base == Executor(func, name, storageKey) && r.value.resource == resource
    ensures r.Ok? ==> r.value.clusterPolicy == PolicyName(resource).value && r.value.fs.None?
    ensures r.Ok? ==> r.value.location == resource.storageLocation.value
  {
    var policy :- PolicyName(resource);
    Ok(Databricks(Executor(func, name, storageKey), resource, policy, resource.storageLocation.value, None))
  }

  /** Iterating a value: a list gives its items; an empty mapping or
      string gives nothing; a non-empty mapping or string gives strings,
      which cannot be indexed by a key; anything else is not iterable. */
  function Entries(v: Value): (r: Result<seq<Value>>)
    ensures v.JList? ==> r == Ok(v.items)
    ensures r.Ok? ==> v.JList? || r.value == []
  {
    match v
    case JList(items) => Ok(items)
    case JObj(fields) => if fields == map[] then Ok([]) else Err(TypeError("string indices must be integers"))
    case JStr(s) => if s == "" then Ok([]) else Err(TypeError("string indices must be integers"))
    case _ => Err(TypeError("object is not iterable"))
  }

  /** A listed policy with the given name. */
  predicate Matches(policy: Value, name: string) {
    policy.JObj? && "name" in policy.fields && policy.fields["name"] == JStr(name)
  }

  /** A listed policy that has a name, but a different one. */
  predicate Other(policy: Value, name: string) {
    policy.JObj? && "name" in policy.fields && policy.fields["name"] != JStr(name)
  }

  function NoPolicy(): Error {
    ValueError("No policy with provided name found")
  }

  /** The loop of `get_cluster_policy_id_from_policy_name`: the first
      policy with the name gives its `policy_id`. */
  function FindPolicy(policies: seq<Value>, name: string): (r: Result<Value>)
    ensures r.Ok? ==> exists k | 0 <= k < |policies| :: Matches(policies[k], name)
    decreases |policies|
  {
    if |policies| == 0 then Err(NoPolicy())
    else
      var n :- Get(policies[0], "name");
      if n == JStr(name) then Get(policies[0], "policy_id")
      else
        var r := FindPolicy(policies[1..], name);
        assert r.Ok? ==> exists k | 1 <= k < |policies| :: Matches(policies[k], name) by {
          if r.Ok? {
            var k :| 0 <= k < |policies[1..]| && Matches(policies[1..][k], name);
            assert policies[k + 1] == policies[1..][k];
          }
        }
        r
  }

  /** The first policy with the name wins, provided every policy before it
      has a (different) name. */
  lemma {:induction false} FindPolicyFirst(policies: seq<Value>, name: string, j: nat)
    requires j < |policies| && Matches(policies[j], name)
    requires forall i | 0 <= i < j :: Other(policies[i], name)
    ensures FindPolicy(policies, name) == Get(policies[j], "policy_id")
    decreases |policies|
  {
    if j > 0 {
      assert Other(policies[0], name);
      assert forall i | 0 <= i < j - 1 :: policies[1..][i] == policies[i + 1];
      FindPolicyFirst(policies[1..], name, j - 1);
    }
  }

  /** A listing whose policies all have other names raises `ValueError`. */
  lemma {:induction false} FindPolicyNone(policies: seq<Value>, name: string)
    requires forall i | 0 <= i < |policies| :: Other(policies[i], name)
    ensures FindPolicy(policies, name) == Err(NoPolicy())
    decreases |policies|
  {
    if |policies| > 0 {
      assert Other(policies[0], name);
      assert forall i | 0 <= i < |policies| - 1 :: policies[1..][i] == policies[i + 1];
      FindPolicyNone(policies[1..], name);
    }
  }

  /** `get_cluster_policy_id_from_policy_name`: the listing's `policies`
      (a listing without them raises `KeyError`), searched in order. */
  function PolicyId(listing: Value, name: string): (r: Result<Value>)
    ensures listing.JObj? && "policies" !in listing.fields ==> r == Err(KeyError("policies"))
    ensures listing.JObj? && "policies" in listing.fields && listing.fields["policies"].JList? ==>
      r == FindPolicy(listing.fields["policies"].items, name)
  {
    var policies :- Get(listing, "policies");
    var entries :- Entries(policies);
    FindPolicy(entries, name)
  }

  /** `run_path`: where the bootstrap script is uploaded. */
  function RunPath(d: Databricks): string {
    PathJoin(StoragePath(d.location, d.base), "run.py")
  }

  /** `create_job`: the executor's name becomes its function name (as
      `func_name` works it out), and the job is named by its slug. The
      job's idempotency token is the class-level default, `classToken`,
      drawn once when the module was imported. */
  function CreateJob(d: Databricks, listing: Value, classToken: string): (r: Result<(Databricks, DatabricksJob.Job)>)
    ensures r.Ok? <==> PolicyId(listing, d.clusterPolicy).Ok?
    ensures r.Ok? ==> r.value.0 == d.(base := d.base.(name := Some(FuncName(d.base))))
    ensures r.Ok? ==> var job := r.value.1;
      job.name == Slugify(FuncName(d.base), false, 0)
      && job.resource == d.resource
      && job.storagePath == StoragePath(d.location, d.base) && job.storageKey == d.base.storageKey
      && job.runPath == RunPath(d) && job.clusterPolicyId == PolicyId(listing, d.clusterPolicy).value
      && job.existingClusterId == d.resource.existingClusterId
      && job.idempotencyToken == classToken && job.timeoutSeconds == DatabricksJob.DefaultTimeoutSeconds
  {
    var named := d.(base := d.base.(name := Some(FuncName(d.base))));
    var policyId :- PolicyId(listing, d.clusterPolicy);
    Ok((named, DatabricksJob.Job(
      Slugify(FuncName(d.base), false, 0), d.resource, StoragePath(d.location, d.base), d.base.storageKey,
      RunPath(d), policyId, classToken, d.resource.existingClusterId, DatabricksJob.DefaultTimeoutSeconds)))
  }

  /** Every job built with the default token carries the same one, whatever
      executor built it. */
  lemma SharedToken(d1: Databricks, d2: Databricks, listing1: Value, listing2: Value, classToken: string)
    requires CreateJob(d1, listing1, classToken).Ok? && CreateJob(d2, listing2, classToken).Ok?
    ensures CreateJob(d1, listing1, classToken).value.1.idempotencyToken
      == CreateJob(d2, listing2, classToken).value.1.idempotencyToken
  {
  }

  /** The job's name is a slug, so building it again from its own name
      names it the same. */
  lemma JobNameIsSlug(d: Databricks, listing: Value, classToken: string)
    requires CreateJob(d, listing, classToken).Ok?
    ensures var n := CreateJob(d, listing, classToken).value.1.name;
      IsSlug(n, false, 0) && Slugify(n, false, 0) == n
  {
    var n := CreateJob(d, listing, classToken).value.1.name;
    SlugifyOfSlug(n, false, 0);
  }
}

=== FILE: databricks_filesystem.dfy ===
/** The Unity Catalog volume filesystem
    (block_cascade/executors/databricks/filesystem.py): `open`, `upload` and
    `rm` over the workspace's Files API, and the file object that uploads
    its buffer when it is closed. The requests themselves are in
    `DatabricksSession`; an ideal volume, in `DatabricksVolume`, gives the
    round trips. */
module DatabricksFilesystem {
  import opened Wrappers
  import opened Strings
  import opened Json
  import opened DatabricksSession

  /** `DatabricksFilesystem(api_client, auto_mkdir)`. */
  datatype Filesystem = Filesystem(autoMkdir: bool)

  /** The directory `_ensure_parent_dir` creates before a write: the
      parent, when `auto_mkdir` is on and the parent is neither empty nor
      the volumes root itself. */
  function ParentToCreate(fs: Filesystem, path: string): (r: Option<string>)
    ensures r.Some? <==> fs.autoMkdir && Dirname(path) != "" && Dirname(path) != "/Volumes"
    ensures r.Some? ==> r.value == Dirname(path)
  {
    var parent := Dirname(path);
    if fs.autoMkdir && parent != "" && parent != "/Volumes" then Some(parent) else None
  }

  /** A file right under the volumes root, or a bare file name, needs no
      directory; a file deeper in a volume asks for its own directory. */
  lemma ParentExamples(fs: Filesystem, name: string, dir: string)
    requires name != "" && '/' !in name
    requires StartsWith(dir, "/Volumes/") && dir[|dir| - 1] != '/'
    ensures ParentToCreate(fs, name).None?
    ensures ParentToCreate(fs, PathJoin("/Volumes", name)).None?
    ensures ParentToCreate(fs, PathJoin(dir, name)) == (if fs.autoMkdir then Some(dir) else None)
  {
    DirnameOfJoin("/Volumes", name);
    DirnameOfJoin(dir, name);
    assert |dir| > |"/Volumes"|;
  }

  /** `_ensure_parent_dir(path)`: at most one `PUT` on the Directories API. */
  function EnsureParentDir<S>(serve: Serve<S>, fs: Filesystem, path: string, c: Conn<S>): (r: (Result<()>, Conn<S>))
    ensures ParentToCreate(fs, path).None? ==> r == (Ok(()), c)
    ensures ParentToCreate(fs, path).Some? ==> var req := MakeDirectory(ParentToCreate(fs, path).value);
      r.1 == Send(serve, c, req).1 && (r.0.Err? <==> Failed(Send(serve, c, req).0))
  {
    match ParentToCreate(fs, path)
    case None => (Ok(()), c)
    case Some(parent) =>
      var req := MakeDirectory(parent);
      var (resp, c') := Send(serve, c, req);
      (RaiseForStatus(req.url, resp), c')
  }

  /** `_DatabricksUploadFile`: the remote path, what was written so far,
      and whether it has been closed. */
  datatype UploadFile = UploadFile(remotePath: string, buffer: Bytes, closed: bool)

  /** What `open` returns: the downloaded bytes, or a file to write into. */
  datatype Handle = Reader(content: Bytes) | Writer(file: UploadFile)

  function UnsupportedMode(mode: string): Error {
    ValueError("Unsupported mode: " + mode + ". Only 'rb' and 'wb' are supported.")
  }

  /** `open(path, mode)`: "rb" downloads the file, "wb" makes sure the
      parent exists and hands out an empty upload file, and any other mode
      is refused before anything is sent. */
  function Open<S>(serve: Serve<S>, fs: Filesystem, path: string, mode: string, c: Conn<S>): (r: (Result<Handle>, Conn<S>))
    ensures mode != "rb" && mode != "wb" ==> r == (Err(UnsupportedMode(mode)), c)
    ensures mode == "rb" ==> var (resp, c') := Send(serve, c, Download(path));
      r.1 == c' && (r.0.Ok? <==> !Failed(resp)) && (r.0.Ok? ==> r.0.value == Reader(resp.content))
    ensures mode == "wb" ==> var (made, c') := EnsureParentDir(serve, fs, path, c);
      r.1 == c' && (r.0.Ok? <==> made.Ok?) && (r.0.Ok? ==> r.0.value == Writer(UploadFile(path, [], false)))
  {
    if mode == "rb" then
      var req := Download(path);
      var (resp, c') := Send(serve, c, req);
      match RaiseForStatus(req.url, resp)
      case Err(e) => (Err(e), c')
      case Ok(_) => (Ok(Reader(resp.content)), c')
    else if mode == "wb" then
      var (made, c') := EnsureParentDir(serve, fs, path, c);
      match made
      case Err(e) => (Err(e), c')
      case Ok(_) => (Ok(Writer(UploadFile(path, [], false))), c')
    else (Err(UnsupportedMode(mode)), c)
  }

  /** `f.write(data)`: buffered until the file is closed; a closed file
      refuses writes. */
  function Write(f: UploadFile, data: Bytes): (r: Result<UploadFile>)
    ensures f.closed <==> r.Err?
    ensures r.Ok? ==> r.value.buffer == f.buffer + data && r.value.remotePath == f.remotePath && !r.value.closed
  {
    if f.closed then Err(ValueError("I/O operation on closed file.")) else Ok(f.(buffer := f.buffer + data))
  }

  /** What closing leaves: the file, the outcome and the session. */
  datatype Closing<S> = Closing(file: UploadFile, result: Result<()>, conn: Conn<S>)

  /** `close()`: an open file uploads its whole buffer, overwriting, and is
      marked closed whether or not the upload succeeded; a closed file does
      nothing. */
  function Close<S>(serve: Serve<S>, f: UploadFile, c: Conn<S>): (r: Closing<S>)
    ensures r.file == f.(closed := true)
    ensures f.closed ==> r.result == Ok(()) && r.conn == c
    ensures !f.closed ==> var (resp, c') := Send(serve, c, UploadTo(f.remotePath, f.buffer, "true"));
      r.conn == c' && (r.result.Err? <==> Failed(resp))
  {
    if f.closed then Closing(f, Ok(()), c)
    else
      var req := UploadTo(f.remotePath, f.buffer, "true");
      var (resp, c') := Send(serve, c, req);
      Closing(f.(closed := true), RaiseForStatus(req.url, resp), c')
  }

  /** Closing twice uploads once. */
  lemma CloseUploadsOnce<S>(serve: Serve<S>, f: UploadFile, c: Conn<S>)
    ensures var first := Close(serve, f, c);
      var second := Close(serve, first.file, first.conn);
      second == Closing(first.file, Ok(()), first.conn)
      && |first.conn.sent| == |c.sent| + (if f.closed then 0 else 1)
  {
  }

  /** `__exit__`: close the file if it is still open, and return `False`,
      so an exception raised in the block propagates; an upload failure
      raised while closing takes its place. */
  function Exit<S>(serve: Serve<S>, f: UploadFile, pending: Option<Error>, c: Conn<S>): (r: Closing<S>)
    ensures r.file.closed
    ensures pending.Some? ==> r.result.Err?
    ensures r.result.Ok? <==> pending.None? && Close(serve, f, c).result.Ok?
  {
    var closing := if !f.closed then Close(serve, f, c) else Closing(f, Ok(()), c);
    if closing.result.Err? then closing
    else match pending
      case Some(e) => closing.(result := Err(e))
      case None => closing
  }

  /** `str(overwrite).lower()`. */
  function OverwriteParam(overwrite: bool): (r: string)
    ensures r == (if overwrite then "true" else "false")
  {
    var shown := if overwrite then "True" else "False";
    var r := Lower(shown);
    assert r == (if overwrite then "true" else "false");
    r
  }

  /** `upload(local_path, remote_path, overwrite)`: make sure the parent
      exists, read the local file (which may be missing), and put its
      content in one request. */
  function Upload<S>(serve: Serve<S>, fs: Filesystem, local: string -> Option<Bytes>, localPath: string,
                     remotePath: string, overwrite: bool, c: Conn<S>): (r: (Result<()>, Conn<S>))
    ensures var (made, c') := EnsureParentDir(serve, fs, remotePath, c);
      (made.Err? ==> r == (made, c'))
      && (made.Ok? && local(localPath).None? ==> r == (Err(FileNotFoundError(localPath)), c'))
      && (made.Ok? && local(localPath).Some? ==>
            var (resp, c'') := Send(serve, c', UploadTo(remotePath, local(localPath).value, OverwriteParam(overwrite)));
            r.1 == c'' && (r.0.Ok? <==> !Failed(resp)))
  {
    var (made, c') := EnsureParentDir(serve, fs, remotePath, c);
    match made
    case Err(e) => (Err(e), c')
    case Ok(_) =>
      match local(localPath)
      case None => (Err(FileNotFoundError(localPath)), c')
      case Some(content) =>
        var req := UploadTo(remotePath, content, OverwriteParam(overwrite));
        var (resp, c'') := Send(serve, c', req);
        (RaiseForStatus(req.url, resp), c'')
  }

  /** Iterating over `contents`: a list gives its items; an empty string or
      dict gives none; a non-empty one yields strings, which have no
      `.get`; anything else is not iterable. */
  function Items(v: Value): (r: Result<seq<Value>>)
    ensures v.JList? ==> r == Ok(v.items)
    ensures r.Ok? ==> v.JList? || !Truthy(v)
  {
    match v
    case JList(items) => Ok(items)
    case JStr(s) => if s == "" then Ok([]) else Err(AttributeError("get"))
    case JObj(fields) => if |fields| == 0 then Ok([]) else Err(AttributeError("get"))
    case _ => Err(TypeError("object is not iterable"))
  }

  /** `item.get('path')` followed by the truthiness test: the path to
      delete, if any. */
  function ItemPath(item: Value): (r: Result<Option<string>>)
    ensures r == Ok(None) <==> item.JObj? && ("path" !in item.fields || !Truthy(item.fields["path"]))
    ensures r.Ok? && r.value.Some? ==>
      (item.JObj? && "path" in item.fields && item.fields["path"] == JStr(r.value.value) && r.value.value != "")
  {
    match item
    case JObj(fields) =>
      if "path" !in fields || !Truthy(fields["path"]) then Ok(None)
      else if fields["path"].JStr? then Ok(Some(fields["path"].s))
      else Err(TypeError("can only concatenate str to str"))
    case _ => Err(AttributeError("get"))
  }

  /** The paths of the listed entries that have one, in listing order. */
  function DeletablePaths(items: seq<Value>): (ps: seq<string>)
    requires forall i | 0 <= i < |items| :: ItemPath(items[i]).Ok?
    ensures |ps| <= |items|
  {
    if |items| == 0 then []
    else
      var rest := DeletablePaths(items[1..]);
      match ItemPath(items[0]).value
      case None => rest
      case Some(p) => [p] + rest
  }

  /** A `DELETE` on the Files API for each path, in order. */
  function Deletes(ps: seq<string>): (reqs: seq<Request>)
    ensures |reqs| == |ps|
    ensures forall i | 0 <= i < |ps| :: reqs[i] == DeleteFile(ps[i])
  {
    if |ps| == 0 then [] else [DeleteFile(ps[0])] + Deletes(ps[1..])
  }

  /** The requests deleting one listed entry sends: one `DELETE` when it
      has a path, none otherwise. */
  function ItemDeletes(item: Value): seq<Request>
    requires ItemPath(item).Ok?
  {
    match ItemPath(item).value
    case None => []
    case Some(p) => [DeleteFile(p)]
  }

  /** The deletable paths of a list, one entry at a time. */
  lemma {:induction false} DeletesCons(items: seq<Value>)
    requires |items| > 0 && forall i | 0 <= i < |items| :: ItemPath(items[i]).Ok?
    ensures Deletes(DeletablePaths(items)) == ItemDeletes(items[0]) + Deletes(DeletablePaths(items[1..]))
  {
    var tail := DeletablePaths(items[1..]);
    if ItemPath(items[0]).value.Some? {
      var p := ItemPath(items[0]).value.value;
      assert DeletablePaths(items) == [p] + tail;
      assert ([p] + tail)[1..] == tail;
    }
  }

  /** One step of the loop: delete the entry if it has a path. */
  function DeleteItem<S>(serve: Serve<S>, item: Value, c: Conn<S>): (r: (Result<()>, Conn<S>))
    ensures r.0.Ok? ==> ItemPath(item).Ok? && r.1.sent == c.sent + ItemDeletes(item)
    ensures |r.1.sent| >= |c.sent| && r.1.sent[..|c.sent|] == c.sent
  {
    match ItemPath(item)
    case Err(e) => (Err(e), c)
    case Ok(None) => (Ok(()), c)
    case Ok(Some(p)) =>
      var req := DeleteFile(p);
      var (resp, c') := Send(serve, c, req);
      (RaiseForStatus(req.url, resp), c')
  }

  /** What the loop's recursive step needs: the requests of the first
      entry followed by those of the rest are those of the whole list, and
      the rest's requests extend the first's. */
  lemma {:induction false} DeleteEachStep(items: seq<Value>, sent: seq<Request>, sent1: seq<Request>, rest: Result<()>, sent2: seq<Request>)
    requires |items| > 0 && ItemPath(items[0]).Ok? && sent1 == sent + ItemDeletes(items[0])
    requires rest.Ok? ==> (forall i | 0 <= i < |items[1..]| :: ItemPath(items[1..][i]).Ok?)
    requires rest.Ok? ==> sent2 == sent1 + Deletes(DeletablePaths(items[1..]))
    requires |sent2| >= |sent1| && sent2[..|sent1|] == sent1
    ensures rest.Ok? ==> (forall i | 0 <= i < |items| :: ItemPath(items[i]).Ok?)
    ensures rest.Ok? ==> sent2 == sent + Deletes(DeletablePaths(items))
    ensures |sent2| >= |sent| && sent2[..|sent|] == sent
  {
    assert sent2[..|sent|] == sent1[..|sent|];
    if rest.Ok? {
      PathsOkCons(items);
      DeletesCons(items);
      var first := ItemDeletes(items[0]);
      var others := Deletes(DeletablePaths(items[1..]));
      Associate(sent, first, others);
    }
  }

  /** Concatenation of requests regroups. */
  lemma Associate(a: seq<Request>, b: seq<Request>, c: seq<Request>)
    ensures (a + b) + c == a + (b + c)
  {
  }

  /** Every entry has a readable path when the first and the rest do. */
  lemma {:induction false} PathsOkCons(items: seq<Value>)
    requires |items| > 0 && ItemPath(items[0]).Ok?
    requires forall i | 0 <= i < |items[1..]| :: ItemPath(items[1..][i]).Ok?
    ensures forall i | 0 <= i < |items| :: ItemPath(items[i]).Ok?
  {
    forall i | 0 <= i < |items| ensures ItemPath(items[i]).Ok? {
      if i > 0 {
        assert items[i] == items[1..][i - 1];
      }
    }
  }

  /** The loop over the listed entries: delete each one that has a path,
      stopping at the first failure. */
  function DeleteEach<S>(serve: Serve<S>, items: seq<Value>, c: Conn<S>): (r: (Result<()>, Conn<S>))
    ensures r.0.Ok? ==> (forall i | 0 <= i < |items| :: ItemPath(items[i]).Ok?)
    ensures r.0.Ok? ==> r.1.sent == c.sent + Deletes(DeletablePaths(items))
    ensures |r.1.sent| >= |c.sent| && r.1.sent[..|c.sent|] == c.sent
    decreases |items|
  {
    if |items| == 0 then (Ok(()), c)
    else
      var (first, c') := DeleteItem(serve, items[0], c);
      if first.Err? then (first, c')
      else
        var rest := DeleteEach(serve, items[1..], c');
        DeleteEachStep(items, c.sent, c'.sent, rest.0, rest.1.sent);
        rest
  }

  /** The recursive branch of `rm`: list the directory, delete the listed
      entries, then delete the directory itself. */
  function RmTree<S>(serve: Serve<S>, path: string, c: Conn<S>): (r: (Result<()>, Conn<S>))
    ensures |r.1.sent| > |c.sent| && r.1.sent[..|c.sent|] == c.sent && r.1.sent[|c.sent|] == ListDirectory(path)
  {
    var list := ListDirectory(path);
    var (listing, c1) := Send(serve, c, list);
    match RaiseForStatus(list.url, listing)
    case Err(e) => (Err(e), c1)
    case Ok(_) =>
      match GetOr(listing.json, "contents", JList([]))
      case Err(e) => (Err(e), c1)
      case Ok(files) =>
        match Items(files)
        case Err(e) => (Err(e), c1)
        case Ok(items) =>
          var (deleted, c2) := DeleteEach(serve, items, c1);
          assert c2.sent[..|c.sent|] == c1.sent[..|c.sent|];
          match deleted
          case Err(e) => (Err(e), c2)
          case Ok(_) =>
            var removal := DeleteDirectory(path);
            var (resp, c3) := Send(serve, c2, removal);
            assert c3.sent[..|c.sent|] == c2.sent[..|c.sent|];
            (RaiseForStatus(removal.url, resp), c3)
  }

  /** `rm(path, recursive)`. */
  function Rm<S>(serve: Serve<S>, path: string, recursive: bool, c: Conn<S>): (r: (Result<()>, Conn<S>))
    ensures recursive ==> r == RmTree(serve, path, c)
    ensures !recursive ==> var (resp, c') := Send(serve, c, DeleteFile(path));
      r.1 == c' && (r.0.Ok? <==> !Failed(resp))
  {
    if recursive then RmTree(serve, path, c)
    else
      var req := DeleteFile(path);
      var (resp, c') := Send(serve, c, req);
      (RaiseForStatus(req.url, resp), c')
  }

  /** A recursive `rm` that succeeds sent, in this order, the listing, one
      `DELETE` per listed path, and the directory's `DELETE`. */
  lemma {:induction false} RmTreeOrder<S>(serve: Serve<S>, path: string, c: Conn<S>)
    requires RmTree(serve, path, c).0.Ok?
    ensures var listing := serve(c.state, ListDirectory(path)).0;
      listing.json.JObj?
      && var files := GetOr(listing.json, "contents", JList([])).value;
      Items(files).Ok?
      && var items := Items(files).value;
      (forall i | 0 <= i < |items| :: ItemPath(items[i]).Ok?)
      && RmTree(serve, path, c).1.sent
         == c.sent + [ListDirectory(path)] + Deletes(DeletablePaths(items)) + [DeleteDirectory(path)]
  {
    var (listing, c1) := Send(serve, c, ListDirectory(path));
    var files := GetOr(listing.json, "contents", JList([])).value;
    var items := Items(files).value;
    var (deleted, c2) := DeleteEach(serve, items, c1);
    assert c2.sent == c.sent + [ListDirectory(path)] + Deletes(DeletablePaths(items));
  }

  /** `RmTree` once the listing answer and its items are known. */
  lemma RmTreeSteps<S>(serve: Serve<S>, dir: string, c: Conn<S>, listing: Response, items: seq<Value>)
    requires serve(c.state, ListDirectory(dir)).0 == listing && !Failed(listing)
    requires GetOr(listing.json, "contents", JList([])).Ok?
    requires Items(GetOr(listing.json, "contents", JList([])).value) == Ok(items)
    ensures var c1 := Send(serve, c, ListDirectory(dir)).1;
      var (deleted, c2) := DeleteEach(serve, items, c1);
      RmTree(serve, dir, c) == (if deleted.Err? then (deleted, c2)
        else var (resp, c3) := Send(serve, c2, DeleteDirectory(dir)); (RaiseForStatus(DeleteDirectory(dir).url, resp), c3))
  {
  }
}

=== FILE: databricks_job.dfy ===
/** The Databricks run-submission payload (cascade/executors/databricks/job.py):
    one task that runs the staged `run.py` with the storage path and key,
    the libraries to install on a new cluster, and the cluster description.
    Building the payload mutates the resource's own `task_args` dict and
    `python_libraries` list when they are non-empty; the model returns the
    resource as it is afterwards. */
module DatabricksJob {
  import opened Wrappers
  import opened Strings
  import opened Json
  import opened DatabricksResource

  /** The package index every library is installed from. */
  const Artifactory := "https://artifactory.global.square/artifactory/api/pypi/block-pypi/simple"

  /** Twenty-four hours, in seconds. */
  const DefaultTimeoutSeconds := 86400

  /** `DatabricksJob`. `clusterPolicyId` is whatever the policy lookup
      returned. */
  datatype Job = Job(
    name: string,
    resource: Resource,
    storagePath: string,
    storageKey: string,
    runPath: string,
    clusterPolicyId: Value,
    idempotencyToken: string,
    existingClusterId: Option<string>,
    timeoutSeconds: int)

  /** `f"{name[:32]}---{name[-32:]}"`: the first and last 32 characters
      around three dashes (the whole name twice when it is short). */
  function TaskKey(name: string): (k: string)
    ensures |k| <= 67
    ensures |name| <= 32 ==> k == name + "---" + name
    ensures |name| >= 32 ==> k == name[..32] + "---" + name[|name| - 32..]
  {
    var n := if |name| < 32 then |name| else 32;
    name[..n] + "---" + name[|name| - n..]
  }

  /** The names `_libraries` installs: the resource's own list with
      "cloudpickle" and then "prefect" appended when not already listed. */
  function LibraryNames(libs: seq<string>): (r: seq<string>)
    ensures "cloudpickle" in r && "prefect" in r
    ensures libs <= r
    ensures forall p | p in r :: p in libs || p == "cloudpickle" || p == "prefect"
    ensures |r| <= |libs| + 2
  {
    var withPickle := if "cloudpickle" in libs then libs else libs + ["cloudpickle"];
    if "prefect" in withPickle then withPickle else withPickle + ["prefect"]
  }

  /** Appending the two defaults is idempotent: a list that already has
      them is kept as it is. */
  lemma LibraryNamesIdempotent(libs: seq<string>)
    ensures LibraryNames(LibraryNames(libs)) == LibraryNames(libs)
  {
  }

  /** One library entry: a name that already pins a version with "==" is
      used as given, any other name is pinned to the installed version. */
  function Pin(name: string, version: string -> Result<string>): (r: Result<string>)
    ensures Contains(name, "==") ==> r == Ok(name)
    ensures !Contains(name, "==") ==> (r.Ok? <==> version(name).Ok?)
    ensures !Contains(name, "==") && r.Ok? ==> r.value == name + "==" + version(name).value
  {
    if Contains(name, "==") then Ok(name)
    else
      var v :- version(name);
      Ok(name + "==" + v)
  }

  /** `{"pypi": {"package": ..., "repo": ARTIFACTORY}}`. */
  function LibraryEntry(package: string): Value {
    JObj(map["pypi" := JObj(map["package" := JStr(package), "repo" := JStr(Artifactory)])])
  }

  /** The entries for a list of names, in order; the first name whose
      version cannot be found stops the list. */
  function LibraryEntries(names: seq<string>, version: string -> Result<string>): (r: Result<seq<Value>>)
    ensures r.Ok? ==> |r.value| == |names|
    ensures r.Ok? ==> forall k | 0 <= k < |names| :: Pin(names[k], version).Ok? && r.value[k] == LibraryEntry(Pin(names[k], version).value)
    ensures r.Err? ==> exists k | 0 <= k < |names| :: Pin(names[k], version).Err?
    decreases |names|
  {
    if |names| == 0 then Ok([])
    else
      var first :- Pin(names[0], version);
      var rest :- LibraryEntries(names[1..], version);
      assert forall k | 1 <= k < |names| :: names[k] == names[1..][k - 1];
      Ok([LibraryEntry(first)] + rest)
  }

  /** `_libraries()`: the entries to install, and the resource's library
      list afterwards (extended in place only when it was non-empty). */
  function Libraries(r: Resource, version: string -> Result<string>): (out: (Result<seq<Value>>, Resource))
    ensures var libs := if r.pythonLibraries.Some? then r.pythonLibraries.value else [];
      out.0 == LibraryEntries(LibraryNames(libs), version)
    ensures r.pythonLibraries.Some? && r.pythonLibraries.value != [] ==>
      out.1 == r.(pythonLibraries := Some(LibraryNames(r.pythonLibraries.value)))
    ensures !(r.pythonLibraries.Some? && r.pythonLibraries.value != []) ==> out.1 == r
  {
    var libs := if r.pythonLibraries.Some? then r.pythonLibraries.value else [];
    var names := LibraryNames(libs);
    var after := if libs != [] then r.(pythonLibraries := Some(names)) else r;
    (LibraryEntries(names, version), after)
  }

  /** The fields `_task_spec` always generates. */
  function TaskFields(job: Job): (t: map<string, Value>)
    ensures t.Keys == {"task_key", "description", "depends_on", "spark_python_task"}
    ensures t["task_key"] == JStr(TaskKey(job.name))
    ensures t["spark_python_task"] == JObj(map[
      "python_file" := JStr(job.runPath),
      "parameters" := JList([JStr(job.storagePath), JStr(job.storageKey)])])
  {
    map[
      "task_key" := JStr(TaskKey(job.name)),
      "description" := JStr("A function submitted from Cascade"),
      "depends_on" := JList([]),
      "spark_python_task" := JObj(map[
        "python_file" := JStr(job.runPath),
        "parameters" := JList([JStr(job.storagePath), JStr(job.storageKey)])])]
  }

  /** The task arguments' "libraries" list as `_task_spec` finds it: a
      missing or null entry is an empty list, a list is itself, and any
      other value has no `extend`. */
  function LibrariesIn(args: map<string, Value>): (r: Option<seq<Value>>)
    ensures "libraries" !in args || args["libraries"] == JNull ==> r == Some([])
    ensures "libraries" in args && args["libraries"].JList? ==> r == Some(args["libraries"].items)
    ensures r.None? <==> "libraries" in args && !args["libraries"].JList? && args["libraries"] != JNull
  {
    if "libraries" !in args || args["libraries"] == JNull then Some([])
    else if args["libraries"].JList? then Some(args["libraries"].items)
    else None
  }

  /** The outcome of adding the libraries: whether it succeeded, the task
      arguments afterwards (a missing or null "libraries" is set to an empty
      list before anything can fail) and the resource afterwards. */
  datatype Extended = Extended(result: Result<()>, args: map<string, Value>, resource: Resource)

  /** The library step of `_task_spec()`: only when no existing cluster id
      is set (not even an empty one), the library entries are appended to
      the task arguments' "libraries" list. */
  function WithLibraries(args: map<string, Value>, job: Job, version: string -> Result<string>): (x: Extended)
    ensures job.existingClusterId.Some? ==> x == Extended(Ok(()), args, job.resource)
    ensures x.args.Keys <= args.Keys + {"libraries"}
    ensures forall k | k in args && k != "libraries" :: k in x.args && x.args[k] == args[k]
    ensures job.existingClusterId.None? ==>
      (x.result.Ok? <==> LibrariesIn(args).Some? && Libraries(job.resource, version).0.Ok?)
    ensures job.existingClusterId.None? ==> x.resource == Libraries(job.resource, version).1 || LibrariesIn(args).None?
  {
    if job.existingClusterId.Some? then Extended(Ok(()), args, job.resource)
    else match LibrariesIn(args)
      case None => Extended(Err(AttributeError("extend")), args, job.resource)
      case Some(current) =>
        var (entries, resource) := Libraries(job.resource, version);
        match entries
        case Err(e) => Extended(Err(e), args["libraries" := JList(current)], resource)
        case Ok(added) => Extended(Ok(()), args["libraries" := JList(current + added)], resource)
  }

  /** Without an existing cluster id, a successful library step leaves the
      list that was there followed by one entry per library name. */
  lemma WithLibrariesAppends(args: map<string, Value>, job: Job, version: string -> Result<string>)
    requires job.existingClusterId.None?
    requires WithLibraries(args, job, version).result.Ok?
    ensures var x := WithLibraries(args, job, version);
      "libraries" in x.args && x.args["libraries"].JList?
      && x.args["libraries"].items == LibrariesIn(args).value + Libraries(job.resource, version).0.value
  {
  }

  /** `_task_spec()`: the generated fields overridden by the task
      arguments, and the resource afterwards (its own `task_args` dict is
      the one extended when it is non-empty, even when a later step
      fails). */
  function TaskSpec(job: Job, version: string -> Result<string>): (out: (Result<map<string, Value>>, Resource))
    ensures job.existingClusterId.Some? ==> out.0.Ok? && out.1 == job.resource
    ensures out.0.Ok? <==> WithLibraries(ArgsOf(job.resource), job, version).result.Ok?
    ensures out.0.Ok? ==> out.0.value == TaskFields(job) + WithLibraries(ArgsOf(job.resource), job, version).args
  {
    var x := WithLibraries(ArgsOf(job.resource), job, version);
    var after := if job.resource.taskArgs.Some? && job.resource.taskArgs.value != map[] then x.resource.(taskArgs := Some(x.args)) else x.resource;
    match x.result
    case Err(e) => (Err(e), after)
    case Ok(_) => (Ok(TaskFields(job) + x.args), after)
  }

  /** Every task argument other than "libraries" overrides the generated
      field of the same name, and every generated field that no argument
      names is kept. */
  lemma TaskArgsOverride(job: Job, version: string -> Result<string>)
    requires TaskSpec(job, version).0.Ok?
    ensures var task := TaskSpec(job, version).0.value;
      var args := ArgsOf(job.resource);
      (forall k | k in args && k != "libraries" :: k in task && task[k] == args[k])
      && (forall k | k in TaskFields(job) && k !in args && k != "libraries" :: k in task && task[k] == TaskFields(job)[k])
  {
  }

  /** `self.resource.task_args or {}`. */
  function ArgsOf(r: Resource): (args: map<string, Value>)
    ensures r.taskArgs.Some? ==> args == r.taskArgs.value
    ensures r.taskArgs.None? ==> args == map[]
  {
    if r.taskArgs.Some? then r.taskArgs.value else map[]
  }

  /** The worker part of the cluster description. A value whose class name
      mentions `DatabricksAutoscaleConfig` is read as an autoscale config
      whatever module defined it, and one without the two bounds raises
      `AttributeError` on the first; a value that is neither that nor an
      int is a `TypeError`. */
  function WorkerFields(w: WorkerCount): (r: Result<map<string, Value>>)
    ensures w.Workers? ==> r == Ok(map["num_workers" := JInt(w.n)])
    ensures w.Scaled? ==> r == Ok(AutoscaleFields(w.config))
    ensures w.OtherType? && Contains(w.typeName, "DatabricksAutoscaleConfig") && w.bounds.Some? ==>
      r == Ok(AutoscaleFields(w.bounds.value))
    ensures r.Err? <==> w.OtherType? && !(Contains(w.typeName, "DatabricksAutoscaleConfig") && w.bounds.Some?)
    ensures r.Err? ==> (r.error.AttributeError? <==> Contains(w.typeName, "DatabricksAutoscaleConfig"))
    ensures r.Err? ==> r.error.TypeError? || r.error.AttributeError?
  {
    match w
    case Scaled(a) => Ok(AutoscaleFields(a))
    case Workers(n) => Ok(map["num_workers" := JInt(n)])
    case OtherType(typeName, bounds) =>
      if Contains(typeName, "DatabricksAutoscaleConfig") then
        match bounds
        case Some(a) => Ok(AutoscaleFields(a))
        case None => Err(AttributeError("min_workers"))
      else Err(TypeError("Expected `worker_count` of type `DatabricksAutoscaleConfig` "
        + "or `int` but received " + typeName))
  }

  /** A config of the same class name from another copy of the package
      describes the cluster as one of this package's own does. */
  lemma ForeignAutoscaleAlike(typeName: string, a: Autoscale)
    requires Contains(typeName, "DatabricksAutoscaleConfig")
    ensures WorkerFields(OtherType(typeName, Some(a))) == WorkerFields(Scaled(a))
  {
  }

  /** `{"autoscale": {"min_workers": ..., "max_workers": ...}}`. */
  function AutoscaleFields(a: Autoscale): (r: map<string, Value>)
    ensures r.Keys == {"autoscale"} && r["autoscale"].JObj?
    ensures r["autoscale"].fields == map["min_workers" := OfInt(a.minWorkers), "max_workers" := OfInt(a.maxWorkers)]
  {
    map["autoscale" := JObj(map["min_workers" := OfInt(a.minWorkers), "max_workers" := OfInt(a.maxWorkers)])]
  }

  /** The fixed part of a new cluster's description. */
  function ClusterBase(job: Job): (c: map<string, Value>)
    ensures c.Keys == {"spark_version", "node_type_id", "policy_id", "data_security_mode", "single_user_name"}
    ensures c["policy_id"] == job.clusterPolicyId && c["single_user_name"] == JNull
    ensures c["node_type_id"] == OfOption(job.resource.machine)
    ensures c["spark_version"] == OfOption(job.resource.sparkVersion)
  {
    map[
      "spark_version" := OfOption(job.resource.sparkVersion),
      "node_type_id" := OfOption(job.resource.machine),
      "policy_id" := job.clusterPolicyId,
      "data_security_mode" := OfOption(job.resource.dataSecurityMode),
      "single_user_name" := JNull]
  }

  /** `_cluster_spec()`: `None` for a (non-empty) existing cluster id;
      otherwise the base description, then the workers, then the overrides,
      each later part winning. */
  function ClusterSpec(job: Job): (r: Result<Value>)
    ensures NonEmpty(job.existingClusterId) ==> r == Ok(JNull)
    ensures !NonEmpty(job.existingClusterId) ==> (r.Ok? <==> WorkerFields(job.resource.workerCount).Ok?)
    ensures !NonEmpty(job.existingClusterId) && r.Ok? ==> r.value.JObj?
    ensures !NonEmpty(job.existingClusterId) && r.Ok? ==>
      var overrides := if job.resource.clusterSpecOverrides.Some? then job.resource.clusterSpecOverrides.value else map[];
      forall k | k in overrides :: k in r.value.fields && r.value.fields[k] == overrides[k]
    ensures !NonEmpty(job.existingClusterId) && r.Ok? ==>
      var overrides := if job.resource.clusterSpecOverrides.Some? then job.resource.clusterSpecOverrides.value else map[];
      forall k | k in WorkerFields(job.resource.workerCount).value && k !in overrides ::
        k in r.value.fields && r.value.fields[k] == WorkerFields(job.resource.workerCount).value[k]
    ensures !NonEmpty(job.existingClusterId) && r.Ok? ==>
      var overrides := if job.resource.clusterSpecOverrides.Some? then job.resource.clusterSpecOverrides.value else map[];
      var workers := WorkerFields(job.resource.workerCount).value;
      (forall k | k in ClusterBase(job) && k !in workers && k !in overrides :: k in r.value.fields && r.value.fields[k] == ClusterBase(job)[k])
      && r.value.fields.Keys == ClusterBase(job).Keys + workers.Keys + overrides.Keys
  {
    if NonEmpty(job.existingClusterId) then Ok(JNull)
    else
      var workers :- WorkerFields(job.resource.workerCount);
      var overrides := if job.resource.clusterSpecOverrides.Some? then job.resource.clusterSpecOverrides.value else map[];
      Ok(JObj(ClusterBase(job) + workers + overrides))
  }

  /** The payload's access list: the group may manage the run. */
  function AccessControl(job: Job): Value {
    JList([JObj(map["group_name" := OfOption(job.resource.groupName), "permission_level" := JStr("CAN_MANAGE")])])
  }

  /** The payload around one finished task: the run name, the timeout,
      the idempotency token and the access list. */
  function Payload(job: Job, task: map<string, Value>): (p: Value)
    ensures p.JObj? && p.fields.Keys == {"tasks", "run_name", "timeout_seconds", "idempotency_token", "access_control_list"}
    ensures p.fields["tasks"] == JList([JObj(task)])
    ensures p.fields["run_name"] == JStr(job.name) && p.fields["idempotency_token"] == JStr(job.idempotencyToken)
    ensures p.fields["timeout_seconds"] == JInt(job.timeoutSeconds)
  {
    JObj(map[
      "tasks" := JList([JObj(task)]),
      "run_name" := JStr(job.name),
      "timeout_seconds" := JInt(job.timeoutSeconds),
      "idempotency_token" := JStr(job.idempotencyToken),
      "access_control_list" := AccessControl(job)])
  }

  /** `create_payload()`: the task spec with the existing cluster id and
      the new cluster description written over it, wrapped in the payload;
      and the resource as it is after the call. The task spec is built
      first, so its effect on the resource stays when the cluster
      description fails. */
  function CreatePayload(job: Job, version: string -> Result<string>): (out: (Result<Value>, Resource))
    ensures out.0.Ok? <==> TaskSpec(job, version).0.Ok? && ClusterSpec(job).Ok?
    ensures out.1 == TaskSpec(job, version).1
    ensures out.0.Ok? ==>
      out.0.value == Payload(job, TaskSpec(job, version).0.value
        ["existing_cluster_id" := OfOption(job.existingClusterId)]["new_cluster" := ClusterSpec(job).value])
  {
    var (spec, resource) := TaskSpec(job, version);
    match spec
    case Err(e) => (Err(e), resource)
    case Ok(task) =>
      match ClusterSpec(job)
      case Err(e) => (Err(e), resource)
      case Ok(cluster) =>
        (Ok(Payload(job, task["existing_cluster_id" := OfOption(job.existingClusterId)]["new_cluster" := cluster])), resource)
  }

  /** The one task of a payload has both cluster keys, and its new cluster
      is `None` exactly when a (non-empty) existing cluster id is set. */
  lemma PayloadClusterKeys(job: Job, version: string -> Result<string>)
    requires CreatePayload(job, version).0.Ok?
    ensures var tasks := CreatePayload(job, version).0.value.fields["tasks"];
      tasks.JList? && |tasks.items| == 1 && tasks.items[0].JObj?
      && "existing_cluster_id" in tasks.items[0].fields && "new_cluster" in tasks.items[0].fields
      && tasks.items[0].fields["existing_cluster_id"] == OfOption(job.existingClusterId)
      && (tasks.items[0].fields["new_cluster"] == JNull <==> NonEmpty(job.existingClusterId))
  {
    var c := ClusterSpec(job);
    if !NonEmpty(job.existingClusterId) {
      assert c.value.JObj?;
    }
  }
}

=== FILE: databricks_lifecycle.dfy ===
/** A Databricks run from staging to the result
    (block_cascade/executors/databricks/executor.py): staging, submitting,
    polling and reading back the result.

    The workspace is a set of oracles: the environment variables, the policy
    listing, installed package versions, the submission endpoint, and the
    answers successive `get_run` calls give. */
module DatabricksLifecycle {
  import opened Wrappers
  import opened Strings
  import opened Json
  import opened Utils
  import opened Codec
  import opened BaseExecutor
  import opened DatabricksResource
  import opened DatabricksStatus
  import opened DatabricksAccess
  import opened DatabricksExecutor
  import DatabricksJob

  /** Stands for the bootstrap script's text. */
  const RunScript := Text("block_cascade/executors/databricks/run.py")

  /** Everything outside the process the executor deals with. */
  datatype Workspace = Workspace(
    fsAttempts: nat -> FsAttempt,
    importer: string -> ImportOutcome,
    env: map<string, string>,
    listing: Value,
    classToken: string,
    version: string -> Result<string>,
    submit: Value -> Result<Value>,
    answers: nat -> Value,
    repr: Value -> string)

  function Registrations(modules: seq<string>): (t: seq<Event>)
    ensures |t| == |modules| && forall k | 0 <= k < |modules| :: t[k] == Registered(modules[k])
  {
    seq(|modules|, k requires 0 <= k < |modules| => Registered(modules[k]))
  }

  function Unregistrations(modules: seq<string>): (t: seq<Event>)
    ensures |t| == |modules| && forall k | 0 <= k < |modules| :: t[k] == Unregistered(modules[k])
  {
    seq(|modules|, k requires 0 <= k < |modules| => Unregistered(modules[k]))
  }

  /** The effects of a successful `_stage`, in order. */
  function StageTrace(runPath: string, stagedPath: string, modules: seq<string>): seq<Event> {
    [Uploaded(runPath)] + Registrations(modules) + [Wrote(stagedPath)] + Unregistrations(modules)
  }

  /** The function is pickled while every by-value module is registered:
      the upload comes first, each registration comes before the write and
      each unregistration after it. */
  lemma StageTraceOrder(runPath: string, stagedPath: string, modules: seq<string>)
    ensures var t := StageTrace(runPath, stagedPath, modules);
      var w := 1 + |modules|;
      w < |t| && t[0] == Uploaded(runPath) && t[w] == Wrote(stagedPath)
      && (forall i | 0 <= i < |t| && t[i].Registered? :: 0 < i < w)
      && (forall i | 0 <= i < |t| && t[i].Unregistered? :: w < i)
      && (forall m | m in modules :: Registered(m) in t[..w] && Unregistered(m) in t[w + 1..])
  {
    var t := StageTrace(runPath, stagedPath, modules);
    var w := 1 + |modules|;
    var regs, unregs := Registrations(modules), Unregistrations(modules);
    StageTraceParts(runPath, stagedPath, modules);
    assert t[..w] == [Uploaded(runPath)] + regs;
    assert t[w + 1..] == unregs;
    forall m | m in modules
      ensures Registered(m) in t[..w] && Unregistered(m) in t[w + 1..]
    {
      var k :| 0 <= k < |modules| && modules[k] == m;
      assert t[..w][k + 1] == regs[k];
      assert unregs[k] == Unregistered(m);
    }
  }

  /** Where each event of a staging trace sits. */
  lemma StageTraceParts(runPath: string, stagedPath: string, modules: seq<string>)
    ensures var t := StageTrace(runPath, stagedPath, modules);
      var w := 1 + |modules|;
      |t| == 2 * |modules| + 2 && t[0] == Uploaded(runPath) && t[w] == Wrote(stagedPath)
      && (forall i | 1 <= i < w :: t[i] == Registered(modules[i - 1]))
      && (forall i | w < i < |t| :: t[i] == Unregistered(modules[i - w - 1]))
  {
    var regs, unregs := Registrations(modules), Unregistrations(modules);
    var head := [Uploaded(runPath)] + regs;
    var t := head + [Wrote(stagedPath)] + unregs;
    assert t == StageTrace(runPath, stagedPath, modules);
    var w := 1 + |modules|;
    assert forall i | 1 <= i < w :: t[i] == head[i] == regs[i - 1];
    assert forall i | w < i < |t| :: t[i] == unregs[i - w - 1];
  }

  /** `_stage` given how the filesystem access and the imports end: upload
      the bootstrap script, register the by-value modules, pickle the
      function to the staged path, and unregister them. A failed import
      stops staging after the upload. */
  function StageSteps(d: Databricks, fs: Result<FileSystem>, modules: Result<seq<string>>, store: Store): (r: Step<()>)
    ensures fs.Err? ==> r == Step(Err(fs.error), store, [])
    ensures fs.Ok? && modules.Err? ==> r == Step(Err(modules.error), store[RunPath(d) := RunScript], [Uploaded(RunPath(d))])
    ensures r.result.Ok? <==> fs.Ok? && modules.Ok?
    ensures r.result.Ok? ==> r.trace == StageTrace(RunPath(d), StagedPath(d.location, d.base), modules.value)
    ensures r.result.Ok? ==> Load(r.store, StagedPath(d.location, d.base)) == Ok(PFunc(d.base.func))
    ensures r.result.Ok? ==> RunPath(d) in r.store && r.store[RunPath(d)] == RunScript
  {
    match fs
    case Err(e) => Step(Err(e), store, [])
    case Ok(_) =>
      var runPath := RunPath(d);
      var uploaded := store[runPath := RunScript];
      match modules
      case Err(e) => Step(Err(e), uploaded, [Uploaded(runPath)])
      case Ok(ms) =>
        assert "run.py"[0] == 'r' && InputFilename[0] == 'f';
        assert !StartsWith("run.py", "/") && !StartsWith(InputFilename, "/");
        PathJoinInjective(StoragePath(d.location, d.base), "run.py", InputFilename);
        Step(Ok(()), BaseExecutor.Stage(d.location, d.base, uploaded), StageTrace(runPath, StagedPath(d.location, d.base), ms))
  }

  /** The outcome of staging and the filesystem handle kept afterwards. */
  datatype Staged = Staged(step: Step<()>, fs: Option<FileSystem>)

  /** `_stage` against the workspace: the filesystem is acquired once for
      all of it, and the by-value modules are imported. */
  function StageRun(d: Databricks, ws: Workspace, store: Store): (s: Staged)
    ensures var fs := AcquireFrom(ws.fsAttempts, 0, d.fs);
      s == Staged(StageSteps(d, fs.result, ModulesByValue(d.resource, ws.importer), store), fs.current)
  {
    var fs := AcquireFrom(ws.fsAttempts, 0, d.fs);
    Staged(StageSteps(d, fs.result, ModulesByValue(d.resource, ws.importer), store), fs.current)
  }

  /** What `_start` produced: the executor (renamed by `create_job`, with
      the resource as building the payload left it) and the submitted job. */
  datatype Started = Started(executor: Databricks, job: DatabricksJob.Job)

  /** `_start`: resolve the secret, build the job and its payload, submit
      it, and read the run's page URL from a first `get_run` (answer 0). */
  function Start(d: Databricks, ws: Workspace): (r: Result<Started>)
    ensures ResolveSecret(d.resource, ws.env).Err? ==> r == Err(ResolveSecret(d.resource, ws.env).error)
    ensures r.Ok? ==> ResolveSecret(d.resource, ws.env).Ok? && CreateJob(d, ws.listing, ws.classToken).Ok?
    ensures r.Ok? ==> r.value.job == CreateJob(d, ws.listing, ws.classToken).value.1
    ensures r.Ok? ==> var payload := DatabricksJob.CreatePayload(r.value.job, ws.version);
      payload.0.Ok? && ws.submit(payload.0.value).Ok? && ws.submit(payload.0.value).value.JObj?
      && r.value.executor == CreateJob(d, ws.listing, ws.classToken).value.0.(resource := payload.1)
  {
    var _ :- ResolveSecret(d.resource, ws.env);
    var (named, job) :- CreateJob(d, ws.listing, ws.classToken);
    var (payload, resource) := DatabricksJob.CreatePayload(job, ws.version);
    var body :- payload;
    var active :- ws.submit(body);
    if !active.JObj? then Err(TypeError("argument after ** must be a mapping"))
    else
      var _ :- Get(ws.answers(0), "run_page_url");
      Ok(Started(named.(resource := resource), job))
  }

  /** What `_start` does to the workspace up to its outcome, given the
      payload it built (`None` when it failed before that) and the
      submission endpoint: the submission, and, when the submission answered
      with a mapping, the first `get_run`. A start that fails after the
      submission has still submitted the run. */
  function StartEvents(body: Option<Value>, submit: Value -> Result<Value>): (t: seq<Event>)
    ensures t != [] <==> body.Some?
    ensures t != [] ==> t[0] == Submitted(SubmitEndpoint())
    ensures t != [] ==> |t| == (if submit(body.value).Ok? && submit(body.value).value.JObj? then 2 else 1)
    ensures forall i | 1 <= i < |t| :: t[i] == Queried
  {
    match body
    case None => []
    case Some(b) =>
      if submit(b).Ok? && submit(b).value.JObj? then [Submitted(SubmitEndpoint()), Queried]
      else [Submitted(SubmitEndpoint())]
  }

  /** The payload `_start` submits, if it gets that far: the secret
      resolves, the job is created and its payload builds. */
  function SubmittedBody(d: Databricks, ws: Workspace): (b: Option<Value>)
    ensures ResolveSecret(d.resource, ws.env).Err? ==> b.None?
    ensures b.Some? <==>
      && ResolveSecret(d.resource, ws.env).Ok? && CreateJob(d, ws.listing, ws.classToken).Ok?
      && DatabricksJob.CreatePayload(CreateJob(d, ws.listing, ws.classToken).value.1, ws.version).0.Ok?
    ensures b.Some? ==> b.value == DatabricksJob.CreatePayload(CreateJob(d, ws.listing, ws.classToken).value.1, ws.version).0.value
  {
    if ResolveSecret(d.resource, ws.env).Err? || CreateJob(d, ws.listing, ws.classToken).Err? then None
    else
      var body := DatabricksJob.CreatePayload(CreateJob(d, ws.listing, ws.classToken).value.1, ws.version).0;
      if body.Err? then None else Some(body.value)
  }

  /** A start that succeeds submitted the run and read one answer. */
  lemma StartedEvents(d: Databricks, ws: Workspace)
    requires Start(d, ws).Ok?
    ensures StartEvents(SubmittedBody(d, ws), ws.submit) == [Submitted(SubmitEndpoint()), Queried]
  {
    var body := SubmittedBody(d, ws);
    assert body.Some?;
    assert ws.submit(body.value).Ok? && ws.submit(body.value).value.JObj?;
  }

  /** The answer the poll loop stops on: the first one from answer 1 on
      (answer 0 is read by `_start`). */
  predicate FirstHalt(answers: nat -> Value, k: nat) {
    1 <= k && Halts(answers(k)) && forall j | 1 <= j < k :: !Halts(answers(j))
  }

  /** How `_run` ends once staging, the start and the checks after polling
      are known: the first failure wins, and only a run that passed every
      check reaches the base executor's `_result`, which reads the output
      and deletes the run's directory. Every `get_run` answer read counts as
      a query, the one `_start` reads included. */
  function Finish(d: Databricks, staged: Step<()>, started: Result<Started>, startEvents: seq<Event>, verdict: Verdict): (r: Step<Payload>)
    ensures staged.result.Err? ==> r == Step(Err(staged.result.error), staged.store, staged.trace)
    ensures staged.result.Ok? && started.Err? ==> r == Step(Err(started.error), staged.store, staged.trace + startEvents)
    ensures staged.result.Ok? && started.Ok? && verdict.result.Err? ==>
      r == Step(Err(verdict.result.error), staged.store, staged.trace + [Submitted(SubmitEndpoint())] + Queries(verdict.read))
    ensures r.result.Ok? ==> staged.result.Ok? && started.Ok? && verdict.result.Ok?
    ensures r.result.Ok? ==>
      r.result == Load(staged.store, OutputPath(d.location, d.base))
      && r.store == RemoveTree(staged.store, StoragePath(d.location, d.base))
      && r.trace == staged.trace + [Submitted(SubmitEndpoint())] + Queries(verdict.read) + [Removed(StoragePath(d.location, d.base))]
  {
    match staged.result
    case Err(e) => Step(Err(e), staged.store, staged.trace)
    case Ok(_) =>
      match started
      case Err(e) => Step(Err(e), staged.store, staged.trace + startEvents)
      case Ok(s) =>
        var polled := staged.trace + [Submitted(SubmitEndpoint())] + Queries(verdict.read);
        match verdict.result
        case Err(e) => Step(Err(e), staged.store, polled)
        case Ok(_) =>
          var res := CollectResult(d.location, d.base, staged.store);
          Step(res.result, res.store, polled + res.trace)
  }

  /** `run()` → `_run()`: stage, start, poll until the run stops executing
      (at answer `k`), settle, and finish. */
  function Run(d: Databricks, ws: Workspace, k: nat, store: Store): Step<Payload>
    requires FirstHalt(ws.answers, k)
  {
    Finish(d, StageRun(d, ws, store).step, Start(d, ws), StartEvents(SubmittedBody(d, ws), ws.submit), Settle(FuncName(d.base), ws.answers, k, ws.repr))
  }

  /** A successful run stages, submits once, reads `k + 3` answers (the
      start's, the polls', and the two checks') and then deletes the run's
      directory. */
  lemma RunSucceeds(d: Databricks, ws: Workspace, k: nat, store: Store)
    requires FirstHalt(ws.answers, k)
    ensures var r := Run(d, ws, k, store);
      var staged := StageRun(d, ws, store).step;
      r.result.Ok? ==>
      staged.result.Ok? && Start(d, ws).Ok?
      && r.trace == staged.trace + [Submitted(SubmitEndpoint())] + Queries(k + 3) + [Removed(StoragePath(d.location, d.base))]
      && r.result == Load(staged.store, OutputPath(d.location, d.base))
      && r.store == RemoveTree(staged.store, StoragePath(d.location, d.base))
  {
    var staged := StageRun(d, ws, store).step;
    var verdict := Settle(FuncName(d.base), ws.answers, k, ws.repr);
    if Run(d, ws, k, store).result.Ok? {
      FinishSucceeds(d, staged, Start(d, ws), StartEvents(SubmittedBody(d, ws), ws.submit), verdict, k);
    }
  }

  /** `Finish` succeeds only past every check, and then its queries are
      the ones the verdict read. */
  lemma FinishSucceeds(d: Databricks, staged: Step<()>, started: Result<Started>, startEvents: seq<Event>, verdict: Verdict, k: nat)
    requires Finish(d, staged, started, startEvents, verdict).result.Ok?
    requires verdict.result.Ok? ==> verdict.read == k + 3
    ensures var r := Finish(d, staged, started, startEvents, verdict);
      staged.result.Ok? && started.Ok?
      && r.trace == staged.trace + [Submitted(SubmitEndpoint())] + Queries(k + 3) + [Removed(StoragePath(d.location, d.base))]
      && r.result == Load(staged.store, OutputPath(d.location, d.base))
      && r.store == RemoveTree(staged.store, StoragePath(d.location, d.base))
  {
  }

  /** A run whose poll loop ended on a run that was then reported
      cancelled raises `DatabricksCancelledError`, and nothing is read or
      deleted. */
  lemma RunCancelled(d: Databricks, ws: Workspace, k: nat, store: Store)
    requires FirstHalt(ws.answers, k)
    requires ParseStatus(ws.answers(k)).Ok? && Executing(ParseStatus(ws.answers(k)).value).Ok?
    requires ParseStatus(ws.answers(k + 1)).Ok? && Cancelled(ParseStatus(ws.answers(k + 1)).value)
    requires ParseStatus(ws.answers(k + 2)).Ok?
    ensures var r := Run(d, ws, k, store);
      var staged := StageRun(d, ws, store).step;
      staged.result.Ok? && Start(d, ws).Ok? ==>
      r.result == Err(DatabricksCancelledError("Job " + FuncName(d.base) + " was cancelled: " + ws.repr(ws.answers(k + 2))))
      && r.store == staged.store
  {
  }

  /** A submission whose answer is not a mapping fails the start with a
      `TypeError`, but the run was submitted: the trace records it, and
      nothing is polled, read or deleted. */
  lemma RunSubmittedThenFails(d: Databricks, ws: Workspace, k: nat, store: Store)
    requires FirstHalt(ws.answers, k)
    requires ResolveSecret(d.resource, ws.env).Ok? && CreateJob(d, ws.listing, ws.classToken).Ok?
    requires var body := DatabricksJob.CreatePayload(CreateJob(d, ws.listing, ws.classToken).value.1, ws.version).0;
      body.Ok? && ws.submit(body.value).Ok? && !ws.submit(body.value).value.JObj?
    ensures var r := Run(d, ws, k, store);
      var staged := StageRun(d, ws, store).step;
      staged.result.Ok? ==>
      r.result == Err(TypeError("argument after ** must be a mapping"))
      && r.store == staged.store && r.trace == staged.trace + [Submitted(SubmitEndpoint())]
  {
  }

  /** After a successful run nothing of it is left in storage, not even the
      bootstrap script. */
  lemma RunCleansUp(d: Databricks, ws: Workspace, k: nat, store: Store)
    requires FirstHalt(ws.answers, k)
    requires d.base.storageKey != "" && !StartsWith(d.base.storageKey, "/")
    ensures var r := Run(d, ws, k, store);
      r.result.Ok? ==>
      StagedPath(d.location, d.base) !in r.store && OutputPath(d.location, d.base) !in r.store
      && RunPath(d) !in r.store
  {
    RunSucceeds(d, ws, k, store);
    TreeRemoved(d, StageRun(d, ws, store).step.store);
  }

  /** Removing the run's directory removes the bootstrap script, the
      pickled function and the output alike. */
  lemma TreeRemoved(d: Databricks, st: Store)
    requires d.base.storageKey != "" && !StartsWith(d.base.storageKey, "/")
    ensures var left := RemoveTree(st, StoragePath(d.location, d.base));
      StagedPath(d.location, d.base) !in left && OutputPath(d.location, d.base) !in left
      && RunPath(d) !in left
  {
    RunLayout(d.location, d.base);
    RunPathUnder(d);
  }

  /** The bootstrap script lies in the run's directory. */
  lemma RunPathUnder(d: Databricks)
    requires d.base.storageKey != "" && !StartsWith(d.base.storageKey, "/")
    ensures Under(RunPath(d), StoragePath(d.location, d.base))
  {
    var sp := StoragePath(d.location, d.base);
    assert sp != "" by {
      assert EndsWith(sp, d.base.storageKey);
    }
    assert "run.py"[0] == 'r';
    UnderJoin(sp, "run.py");
  }
}

=== FILE: databricks_resource.dfy ===
/** The Databricks resource description
    (block_cascade/executors/databricks/resource.py): the secret, the
    autoscale bounds, and the cluster description with its defaults and the
    storage location derived when none is given. */
module DatabricksResource {
  import opened Wrappers
  import opened Strings
  import opened Json

  /** The host and token that authenticate against the workspace. */
  datatype Secret = Secret(host: string, token: string)

  /** `DatabricksAutoscaleConfig`: the bounds the cluster scales between. */
  datatype Autoscale = Autoscale(minWorkers: Option<int>, maxWorkers: Option<int>)

  function DefaultAutoscale(): (a: Autoscale)
    ensures a.minWorkers == Some(1) && a.maxWorkers == Some(8)
  {
    Autoscale(Some(1), Some(8))
  }

  /** `worker_count`: a fixed number of workers, an autoscale config, or a
      value of some other type: `None`, which the `Optional` field admits,
      or an object assigned after construction (the type is not checked
      again then). `typeName` is its class name, and `bounds` holds its
      `min_workers` and `max_workers` attributes when it has both, as a
      `DatabricksAutoscaleConfig` from another copy of the package does. */
  datatype WorkerCount =
    | Workers(n: int)
    | Scaled(config: Autoscale)
    | OtherType(typeName: string, bounds: Option<Autoscale>)

  /** `DatabricksResource`, after `__post_init__` has run. */
  datatype Resource = Resource(
    workerCount: WorkerCount,
    machine: Option<string>,
    sparkVersion: Option<string>,
    dataSecurityMode: Option<string>,
    clusterSpecOverrides: Option<map<string, Value>>,
    clusterPolicy: Option<string>,
    existingClusterId: Option<string>,
    groupName: Option<string>,
    secret: Option<Secret>,
    environment: Option<string>,
    storageLocation: Option<string>,
    s3Credentials: Option<map<string, Value>>,
    cloudPickleByValue: Option<seq<string>>,
    inferBaseModule: Option<bool>,
    taskArgs: Option<map<string, Value>>,
    pythonLibraries: Option<seq<string>>)

  /** The S3 directory used when no storage location is given; a missing
      environment or group prints as "None", as the f-string does. */
  function DefaultStorageLocation(environment: Option<string>, groupName: Option<string>): string {
    "s3://lakehouse-data-" + PyStr(environment) + "/" + PyStr(groupName) + "/" + PyStr(environment) + "/cascade/"
  }

  /** `__post_init__`: fill in the storage location only when it is unset. */
  function PostInit(r: Resource): (p: Resource)
    ensures p.storageLocation.Some?
    ensures r.storageLocation.Some? ==> p == r
    ensures r.storageLocation.None? ==> p == r.(storageLocation := Some(DefaultStorageLocation(r.environment, r.groupName)))
  {
    if r.storageLocation.None? then r.(storageLocation := Some(DefaultStorageLocation(r.environment, r.groupName)))
    else r
  }

  /** Running the defaulting again changes nothing. */
  lemma PostInitIdempotent(r: Resource)
    ensures PostInit(PostInit(r)) == PostInit(r)
  {
  }

  /** `DatabricksResource(group_name=..., storage_location=...)` with every
      other field at its default. */
  function MakeResource(groupName: Option<string>, storageLocation: Option<string>): (r: Resource)
    ensures r.workerCount == Workers(1) && r.machine == Some("i3.xlarge")
    ensures r.sparkVersion == Some("11.3.x-scala2.12") && r.dataSecurityMode == Some("SINGLE_USER")
    ensures r.cloudPickleByValue == Some([]) && r.inferBaseModule == Some(true)
    ensures r.environment == Some("production") && r.groupName == groupName
    ensures r.clusterPolicy.None? && r.existingClusterId.None? && r.secret.None?
    ensures r.taskArgs.None? && r.pythonLibraries.None? && r.clusterSpecOverrides.None?
    ensures storageLocation.Some? ==> r.storageLocation == storageLocation
  {
    PostInit(Resource(
      Workers(1), Some("i3.xlarge"), Some("11.3.x-scala2.12"), Some("SINGLE_USER"), None, None, None,
      groupName, None, Some("production"), storageLocation, None, Some([]), Some(true), None, None))
  }

  /** Without a storage location, the team's production lakehouse bucket. */
  lemma DefaultLocationExample()
    ensures MakeResource(Some("ml"), None).storageLocation == Some("s3://lakehouse-data-production/ml/production/cascade/")
  {
    var loc := DefaultStorageLocation(Some("production"), Some("ml"));
    assert MakeResource(Some("ml"), None).storageLocation == Some(loc);
    assert loc == "s3://lakehouse-data-" + "production" + "/" + "ml" + "/" + "production" + "/cascade/";
    assert "s3://lakehouse-data-" + "production" == "s3://lakehouse-data-production";
    assert "s3://lakehouse-data-production" + "/" + "ml" == "s3://lakehouse-data-production/ml";
    assert "s3://lakehouse-data-production/ml" + "/" + "production" == "s3://lakehouse-data-production/ml/production";
    assert "s3://lakehouse-data-production/ml/production" + "/cascade/" == "s3://lakehouse-data-production/ml/production/cascade/";
  }

  /** An optional integer as a JSON-like value. */
  function OfInt(o: Option<int>): (v: Value)
    ensures o.None? <==> v == JNull
    ensures o.Some? ==> v == JInt(o.value)
  {
    match o
    case Some(n) => JInt(n)
    case None => JNull
  }
}

=== FILE: databricks_run.dfy ===
/** The script a Databricks task runs (block_cascade/executors/databricks/run.py):
    take the storage location from argv, pick the S3 or the Unity Catalog
    volume backend by its prefix, load the staged function, call it once and
    pickle its value next to it. An S3 bucket and a volume are both part of
    the one path-to-blob store; an S3 object is addressed by its URL. */
module DatabricksRun {
  import opened Wrappers
  import opened Strings
  import opened Json
  import opened Utils
  import opened Codec
  import opened BaseExecutor
  import DatabricksJob

  const S3Scheme := "s3://"
  const VolumesRoot := "/Volumes/"

  /** The message of the `ValueError` for a location of neither kind. */
  function UnsupportedLocation(location: string): Error {
    ValueError("Unsupported storage location: " + location
      + ". Must be /Volumes/ (serverless) or s3:// (cluster compute).")
  }

  /** What unpacking a one-element `split` into two names raises. */
  function TooFewValues(): Error {
    ValueError("not enough values to unpack (expected 2, got 1)")
  }

  /** `bucket_location.replace("s3://", "").split("/", 1)` unpacked: the
      bucket is everything before the first slash and the object path
      everything after it. Every occurrence of the scheme is removed, not
      only the leading one. */
  function SplitS3(location: string): (r: Result<(string, string)>)
    ensures var rest := ReplaceAll(location, S3Scheme, "");
      (r.Ok? <==> '/' in rest)
      && (r.Ok? ==> rest == r.value.0 + "/" + r.value.1 && '/' !in r.value.0)
    ensures r.Err? ==> r.error == TooFewValues()
  {
    var parts := SplitOnce(ReplaceAll(location, S3Scheme, ""), '/');
    if |parts| != 2 then Err(TooFewValues()) else Ok((parts[0], parts[1]))
  }

  /** The URL of `{object_path}/{name}` in a bucket. */
  function S3Object(bucket: string, objectPath: string, name: string): string {
    S3Scheme + bucket + "/" + objectPath + ("/" + name)
  }

  /** `Object(key).get()["Body"].read()` followed by `cloudpickle.loads`: a
      missing object raises `NoSuchKey` naming the key. */
  function ReadObject(store: Store, bucket: string, objectPath: string, name: string): (r: Result<Payload>)
    ensures S3Object(bucket, objectPath, name) !in store ==> r == Err(NoSuchKey(objectPath + "/" + name))
    ensures S3Object(bucket, objectPath, name) in store ==> r == Load(store, S3Object(bucket, objectPath, name))
  {
    var url := S3Object(bucket, objectPath, name);
    if url in store then Load(store, url) else Err(NoSuchKey(objectPath + "/" + name))
  }

  /** `func()` on what was loaded: only a pickled function can be called. */
  function CallLoaded(sem: Semantics, loaded: Result<Payload>): (r: (Result<Value>, seq<Event>))
    ensures Invocations(r.1) == (if loaded.Ok? && loaded.value.PFunc? then 1 else 0)
    ensures loaded.Err? ==> r.0 == Err(loaded.error)
    ensures loaded.Ok? && loaded.value.PFunc? ==> r.0 == Call(sem, loaded.value.f)
    ensures loaded.Ok? && !loaded.value.PFunc? ==> r.0.Err?
  {
    InvocationsOne(Invoked);
    InvocationsZero([]);
    match loaded
    case Err(e) => (Err(e), [])
    case Ok(p) =>
      if p.PFunc? then (Call(sem, p.f), [Invoked])
      else (Err(TypeError("object is not callable")), [])
  }

  /** Pickling the returned value and writing it to `output`. S3's
      `put(Body=pickle.dumps(result))` pickles before anything is written;
      `open(path, "wb")` creates the file before `pickle.dump` writes into
      it, so on a volume (`createsFirst`) a value that cannot be pickled
      leaves an empty file behind. Either way the error is re-raised as it
      was. */
  function Save(pickle: Pickler, v: Value, output: string, store: Store, createsFirst: bool): (r: Step<()>)
    ensures pickle(v).None? ==> r == Step(Ok(()), store[output := Encode(PValue(v))], [Wrote(output)])
    ensures pickle(v).Some? ==> r.result == Err(pickle(v).value)
    ensures pickle(v).Some? && !createsFirst ==> r.store == store && r.trace == []
    ensures pickle(v).Some? && createsFirst ==> r.store == store[output := Text("")] && r.trace == [Wrote(output)]
  {
    match pickle(v)
    case None => Step(Ok(()), store[output := Encode(PValue(v))], [Wrote(output)])
    case Some(e) =>
      if createsFirst then Step(Err(e), store[output := Text("")], [Wrote(output)])
      else Step(Err(e), store, [])
  }

  /** Load, call once, and save; nothing is written unless the call
      returned. */
  function Execute(sem: Semantics, pickle: Pickler, loaded: Result<Payload>, output: string, store: Store, createsFirst: bool): (r: Step<()>)
    ensures Invocations(r.trace) == (if loaded.Ok? && loaded.value.PFunc? then 1 else 0)
    ensures CallLoaded(sem, loaded).0.Err? ==> r == Step(Err(CallLoaded(sem, loaded).0.error), store, CallLoaded(sem, loaded).1)
    ensures CallLoaded(sem, loaded).0.Ok? ==>
      var saved := Save(pickle, CallLoaded(sem, loaded).0.value, output, store, createsFirst);
      r == Step(saved.result, saved.store, [Invoked] + saved.trace)
  {
    var (called, trace) := CallLoaded(sem, loaded);
    match called
    case Err(e) => Step(Err(e), store, trace)
    case Ok(v) =>
      var saved := Save(pickle, v, output, store, createsFirst);
      InvocationsAppend([Invoked], saved.trace);
      InvocationsOne(Invoked);
      assert Invocations(saved.trace) == 0 by {
        assert saved.trace == [] || saved.trace == [Wrote(output)];
        InvocationsOne(Wrote(output));
        InvocationsZero([]);
      }
      Step(saved.result, saved.store, [Invoked] + saved.trace)
  }

  /** `_run_s3(bucket_location)`: split the location into bucket and object
      path, then load `{object_path}/function.pkl` from the bucket, call the
      function, and put its pickle at `{object_path}/output.pkl`. */
  function RunS3(sem: Semantics, pickle: Pickler, location: string, store: Store): (r: Step<()>)
    ensures SplitS3(location).Err? ==> r == Step(Err(TooFewValues()), store, [])
    ensures SplitS3(location).Ok? ==> var (bucket, objectPath) := SplitS3(location).value;
      r == Execute(sem, pickle, ReadObject(store, bucket, objectPath, InputFilename),
                   S3Object(bucket, objectPath, OutputFilename), store, false)
  {
    match SplitS3(location)
    case Err(e) => Step(Err(e), store, [])
    case Ok((bucket, objectPath)) =>
      Execute(sem, pickle, ReadObject(store, bucket, objectPath, InputFilename),
              S3Object(bucket, objectPath, OutputFilename), store, false)
  }

  /** `_run_volumes(storage_location)`: the same against the files
      `os.path.join` names in the volume directory. */
  function RunVolumes(sem: Semantics, pickle: Pickler, location: string, store: Store): (r: Step<()>)
    ensures r == Execute(sem, pickle, Load(store, PathJoin(location, InputFilename)),
                         PathJoin(location, OutputFilename), store, true)
  {
    Execute(sem, pickle, Load(store, PathJoin(location, InputFilename)), PathJoin(location, OutputFilename), store, true)
  }

  /** `run()`: unpack `sys.argv[1]` and `sys.argv[2]` (the storage key,
      unused), then dispatch on the location's prefix. */
  function Run(sem: Semantics, pickle: Pickler, argv: seq<string>, store: Store): (r: Step<()>)
    ensures |argv| < 3 ==> r == Step(Err(IndexError), store, [])
    ensures |argv| >= 3 && StartsWith(argv[1], S3Scheme) ==> r == RunS3(sem, pickle, argv[1], store)
    ensures |argv| >= 3 && !StartsWith(argv[1], S3Scheme) && StartsWith(argv[1], VolumesRoot) ==>
      r == RunVolumes(sem, pickle, argv[1], store)
    ensures |argv| >= 3 && !StartsWith(argv[1], S3Scheme) && !StartsWith(argv[1], VolumesRoot) ==>
      r == Step(Err(UnsupportedLocation(argv[1])), store, [])
  {
    if |argv| < 3 then Step(Err(IndexError), store, [])
    else if StartsWith(argv[1], S3Scheme) then RunS3(sem, pickle, argv[1], store)
    else if StartsWith(argv[1], VolumesRoot) then RunVolumes(sem, pickle, argv[1], store)
    else Step(Err(UnsupportedLocation(argv[1])), store, [])
  }

  /** The function is called at most once, and only a store that held the
      pickled function at the input path sees it called. */
  lemma RunCallsAtMostOnce(sem: Semantics, pickle: Pickler, argv: seq<string>, store: Store)
    ensures Invocations(Run(sem, pickle, argv, store).trace) <= 1
  {
    InvocationsZero([]);
  }

  /** The storage key in `sys.argv[2]` plays no part. */
  lemma StorageKeyIgnored(sem: Semantics, pickle: Pickler, argv: seq<string>, key: string, store: Store)
    requires |argv| >= 3
    ensures Run(sem, pickle, argv[2 := key], store) == Run(sem, pickle, argv, store)
  {
  }

  /** A run that called the function and wrote nothing failed, and left
      storage as it was. */
  lemma CallWithoutWriteFails(sem: Semantics, pickle: Pickler, argv: seq<string>, store: Store)
    requires |argv| >= 3
    requires Run(sem, pickle, argv, store).trace == [Invoked]
    ensures Run(sem, pickle, argv, store).store == store
    ensures Run(sem, pickle, argv, store).result.Err?
  {
  }

  /** The bootstrap's argv as Databricks builds it for a Python-file task:
      the file, then the task's parameters. */
  function TaskArgv(job: DatabricksJob.Job): (argv: seq<string>)
    ensures |argv| == 3
    ensures var task := DatabricksJob.TaskFields(job)["spark_python_task"];
      task == JObj(map["python_file" := JStr(argv[0]), "parameters" := JList([JStr(argv[1]), JStr(argv[2])])])
  {
    [job.runPath, job.storagePath, job.storageKey]
  }

  /** Replacing a pattern at the front of a string replaces it, then goes on
      with the rest. */
  lemma ReplaceLeading(pat: string, s: string, rep: string)
    requires |pat| > 0
    ensures ReplaceAll(pat + s, pat, rep) == rep + ReplaceAll(s, pat, rep)
  {
    assert StartsWith(pat + s, pat) by {
      assert (pat + s)[..|pat|] == pat;
    }
    assert (pat + s)[|pat|..] == s;
  }

  /** An S3 storage path without a trailing slash, a slash after the
      bucket, and no second scheme. */
  predicate PlainS3Path(sp: string) {
    StartsWith(sp, S3Scheme) && '/' in sp[|S3Scheme|..] && !Contains(sp[|S3Scheme|..], S3Scheme) && !EndsWith(sp, "/")
  }

  /** On such a path the S3 branch splits off the bucket and the object
      path and nothing else. */
  lemma S3Split(sp: string)
    requires PlainS3Path(sp)
    ensures SplitS3(sp).Ok?
    ensures sp == S3Scheme + (SplitS3(sp).value.0 + "/" + SplitS3(sp).value.1)
  {
    var rest := sp[|S3Scheme|..];
    assert sp == S3Scheme + rest by {
      assert sp[..|S3Scheme|] == S3Scheme;
    }
    ReplaceLeading(S3Scheme, rest, "");
    ReplaceAbsent(rest, S3Scheme, "");
    assert ReplaceAll(sp, S3Scheme, "") == rest by {
      assert "" + rest == rest;
    }
    var r := SplitS3(sp);
    assert r.Ok? && rest == r.value.0 + "/" + r.value.1;
  }

  /** On such a path the S3 branch addresses exactly the files
      `os.path.join` names under it, the ones the executor stages and reads
      back. */
  lemma S3Addresses(sp: string, name: string)
    requires PlainS3Path(sp) && !StartsWith(name, "/")
    ensures SplitS3(sp).Ok?
    ensures var (bucket, objectPath) := SplitS3(sp).value;
      S3Object(bucket, objectPath, name) == PathJoin(sp, name)
  {
    S3Split(sp);
    var (bucket, objectPath) := SplitS3(sp).value;
    Concat4(S3Scheme, bucket, objectPath, "/" + name);
    assert sp != "" by {
      assert StartsWith(sp, S3Scheme);
    }
    assert PathJoin(sp, name) == sp + "/" + name;
    assert sp + "/" + name == sp + ("/" + name);
  }

  /** Regrouping the pieces of an S3 URL. */
  lemma Concat4(scheme: string, bucket: string, objectPath: string, tail: string)
    ensures scheme + bucket + "/" + objectPath + tail == scheme + (bucket + "/" + objectPath) + tail
  {
  }

  /** End to end on a volume: after the executor has staged its function,
      the task it submits calls the function once and leaves the value
      where the executor's `_result` reads it. */
  lemma VolumeDelivers(sem: Semantics, pickle: Pickler, job: DatabricksJob.Job, location: string, e: Executor, store: Store)
    requires job.storagePath == StoragePath(location, e) && StartsWith(job.storagePath, VolumesRoot)
    requires Call(sem, e.func).Ok? && pickle(Call(sem, e.func).value).None?
    ensures var r := Run(sem, pickle, TaskArgv(job), Stage(location, e, store));
      r.result.Ok? && Invocations(r.trace) == 1
      && CollectResult(location, e, r.store).result == Ok(PValue(Call(sem, e.func).value))
  {
    var sp := job.storagePath;
    assert !StartsWith(sp, S3Scheme) by {
      assert sp[0] == '/' && S3Scheme[0] == 's';
    }
    var staged := Stage(location, e, store);
    assert Load(staged, PathJoin(sp, InputFilename)) == Ok(PFunc(e.func));
    var r := Run(sem, pickle, TaskArgv(job), staged);
    assert Load(r.store, OutputPath(location, e)) == Ok(PValue(Call(sem, e.func).value));
  }

  /** End to end on S3, for a storage path of the plain form. */
  lemma S3Delivers(sem: Semantics, pickle: Pickler, job: DatabricksJob.Job, location: string, e: Executor, store: Store)
    requires job.storagePath == StoragePath(location, e) && PlainS3Path(job.storagePath)
    requires Call(sem, e.func).Ok? && pickle(Call(sem, e.func).value).None?
    ensures var r := Run(sem, pickle, TaskArgv(job), Stage(location, e, store));
      r.result.Ok? && Invocations(r.trace) == 1
      && CollectResult(location, e, r.store).result == Ok(PValue(Call(sem, e.func).value))
  {
    var sp := job.storagePath;
    assert InputFilename[0] == 'f' && OutputFilename[0] == 'o';
    S3Addresses(sp, InputFilename);
    S3Addresses(sp, OutputFilename);
    var staged := Stage(location, e, store);
    var (bucket, objectPath) := SplitS3(sp).value;
    var loaded := ReadObject(staged, bucket, objectPath, InputFilename);
    assert loaded == Ok(PFunc(e.func));
    var out := S3Object(bucket, objectPath, OutputFilename);
    assert out == OutputPath(location, e);
    var argv := TaskArgv(job);
    assert argv[1] == sp && StartsWith(sp, S3Scheme);
    var r := Run(sem, pickle, argv, staged);
    assert r == RunS3(sem, pickle, sp, staged);
    assert r == Execute(sem, pickle, loaded, out, staged, false);
    var v := Call(sem, e.func).value;
    assert CallLoaded(sem, loaded).0 == Ok(v);
    assert r.store == staged[out := Encode(PValue(v))];
    assert Load(r.store, out) == Ok(PValue(v));
  }
}

=== FILE: databricks_session.dfy ===
/** The HTTP layer under the Unity Catalog volume filesystem
    (block_cascade/executors/databricks/filesystem.py): the requests the
    Files and Directories APIs take, and raising on a failed answer. The
    HTTP session is a state machine the caller supplies; every request sent
    is recorded in order. */
module DatabricksSession {
  import opened Wrappers
  import opened Strings
  import opened Json

  type Bytes = seq<bv8>

  datatype Method = GET | PUT | DELETE

  /** One call on the session: the method, the API path (the host prefix
      `get_url` adds is left out), the body of an upload and the `overwrite`
      query parameter. */
  datatype Request = Request(verb: Method, url: string, data: Option<Bytes>, overwrite: Option<string>)

  /** The status, the raw content and the JSON body of an answer. */
  datatype Response = Response(status: int, content: Bytes, json: Value)

  /** How the workspace, in state `S`, answers a request. */
  type Serve<!S> = (S, Request) -> (Response, S)

  /** The workspace's state and every request sent to it so far. */
  datatype Conn<S> = Conn(state: S, sent: seq<Request>)

  function Send<S>(serve: Serve<S>, c: Conn<S>, req: Request): (r: (Response, Conn<S>))
    ensures r.1.sent == c.sent + [req]
    ensures (r.0, r.1.state) == serve(c.state, req)
  {
    var (resp, s) := serve(c.state, req);
    (resp, Conn(s, c.sent + [req]))
  }

  /** A 4xx or 5xx status: `raise_for_status()` raises. */
  predicate Failed(resp: Response) {
    400 <= resp.status < 600
  }

  function RaiseForStatus(url: string, resp: Response): (r: Result<()>)
    ensures r.Err? <==> Failed(resp)
    ensures r.Err? ==> r.error == HttpError(url)
  {
    if Failed(resp) then Err(HttpError(url)) else Ok(())
  }

  const FilesApi := "/fs/files"
  const DirectoriesApi := "/fs/directories"

  function FilesUrl(path: string): string {
    FilesApi + path
  }

  function DirectoriesUrl(path: string): string {
    DirectoriesApi + path
  }

  /** The path a Files API URL names; `None` for any other URL. */
  function FilePathOf(url: string): (r: Option<string>)
    ensures r.Some? ==> url == FilesUrl(r.value)
  {
    if StartsWith(url, FilesApi) then
      assert url == FilesApi + url[|FilesApi|..];
      Some(url[|FilesApi|..])
    else None
  }

  /** The path a Directories API URL names; `None` for any other URL. */
  function DirectoryPathOf(url: string): (r: Option<string>)
    ensures r.Some? ==> url == DirectoriesUrl(r.value)
  {
    if StartsWith(url, DirectoriesApi) then
      assert url == DirectoriesApi + url[|DirectoriesApi|..];
      Some(url[|DirectoriesApi|..])
    else None
  }

  /** A URL names its path under exactly one of the two APIs. */
  lemma UrlsParse(path: string)
    ensures FilePathOf(FilesUrl(path)) == Some(path) && DirectoryPathOf(FilesUrl(path)).None?
    ensures DirectoryPathOf(DirectoriesUrl(path)) == Some(path) && FilePathOf(DirectoriesUrl(path)).None?
  {
    assert FilesUrl(path)[..|FilesApi|] == FilesApi;
    assert DirectoriesUrl(path)[..|DirectoriesApi|] == DirectoriesApi;
    assert FilesUrl(path)[4] == 'f' && DirectoriesUrl(path)[4] == 'd';
  }

  function Download(path: string): Request {
    Request(GET, FilesUrl(path), None, None)
  }

  function UploadTo(path: string, data: Bytes, overwrite: string): Request {
    Request(PUT, FilesUrl(path), Some(data), Some(overwrite))
  }

  function DeleteFile(path: string): Request {
    Request(DELETE, FilesUrl(path), None, None)
  }

  function MakeDirectory(path: string): Request {
    Request(PUT, DirectoriesUrl(path), None, None)
  }

  function ListDirectory(path: string): Request {
    Request(GET, DirectoriesUrl(path), None, None)
  }

  function DeleteDirectory(path: string): Request {
    Request(DELETE, DirectoriesUrl(path), None, None)
  }
}

=== FILE: databricks_status.dfy ===
/** Run status as the Databricks executor reads it
    (block_cascade/executors/databricks/executor.py): parsing a `get_run`
    answer, the poll loop, and the checks made once the run has stopped. */
module DatabricksStatus {
  import opened Wrappers
  import opened Strings
  import opened Json


  /** `Status`: a `get_run` answer with the two states read out of it. */
  datatype Status = Status(raw: Value, resultState: Value, lifeCycleState: Value)

  /** `Status(status)`: the answer must have a `state` mapping with a
      `life_cycle_state`; a missing `result_state` reads as "". */
  function ParseStatus(raw: Value): (r: Result<Status>)
    ensures r.Ok? <==> (raw.JObj? && "state" in raw.fields && raw.fields["state"].JObj?
      && "life_cycle_state" in raw.fields["state"].fields)
    ensures r.Ok? ==> (r.value.raw == raw
      && r.value.lifeCycleState == raw.fields["state"].fields["life_cycle_state"])
    ensures r.Ok? ==>
      var state := raw.fields["state"].fields;
      r.value.resultState == (if "result_state" in state then state["result_state"] else JStr(""))
  {
    var state :- Get(raw, "state");
    var resultState :- GetOr(state, "result_state", JStr(""));
    var lifeCycle :- Get(state, "life_cycle_state");
    Ok(Status(raw, resultState, lifeCycle))
  }

  /** `is_executing()`: the life-cycle state is PENDING or RUNNING. Looking
      a list or a mapping up in a set raises `TypeError`. */
  function Executing(s: Status): (r: Result<bool>)
    ensures r.Err? <==> s.lifeCycleState.JList? || s.lifeCycleState.JObj?
    ensures r.Ok? ==> (r.value <==> s.lifeCycleState == JStr("PENDING") || s.lifeCycleState == JStr("RUNNING"))
  {
    if s.lifeCycleState.JList? || s.lifeCycleState.JObj? then Err(TypeError("unhashable type"))
    else Ok(s.lifeCycleState in {JStr("PENDING"), JStr("RUNNING")})
  }

  /** `is_cancelled()`. */
  predicate Cancelled(s: Status) {
    s.resultState == JStr("CANCELED")
  }

  /** `is_succesful()`. */
  predicate Successful(s: Status) {
    s.resultState == JStr("SUCCESS")
  }

  /** The result state decides cancelled and successful on its own: the two
      never hold together, a run without a result state is neither, and
      either can hold while the life-cycle state still says executing. */
  lemma StatusClasses(s: Status)
    ensures !(Cancelled(s) && Successful(s))
    ensures s.resultState == JStr("") ==> !Cancelled(s) && !Successful(s)
  {
  }

  /** A run that is still pending can already carry a result state: the
      life-cycle and result states are read independently. */
  lemma PendingYetCancelled()
    ensures var s := ParseStatus(JObj(map["state" := JObj(map[
      "life_cycle_state" := JStr("PENDING"), "result_state" := JStr("CANCELED")])]));
      s.Ok? && Executing(s.value) == Ok(true) && Cancelled(s.value)
  {
  }

  /** A `get_run` answer on which the poll loop stops: it cannot be read as
      a status, its life-cycle state cannot be looked up, or the run is no
      longer executing. */
  predicate Halts(raw: Value) {
    ParseStatus(raw).Err? || Executing(ParseStatus(raw).value) != Ok(true)
  }

  /** The poll loop of `_run`: ask again from answer `from` on while the run
      is executing. `bound` is an answer the loop stops on; without one it
      would poll forever. */
  method Poll(answers: nat -> Value, from: nat, bound: nat) returns (k: nat)
    requires from <= bound && Halts(answers(bound))
    ensures from <= k <= bound && Halts(answers(k))
    ensures forall j | from <= j < k :: !Halts(answers(j))
  {
    k := from;
    while !Halts(answers(k))
      invariant from <= k <= bound
      invariant forall j | from <= j < k :: !Halts(answers(j))
      decreases bound - k
    {
      k := k + 1;
    }
  }

  /** What `_run` decides after polling, and how many answers it has read
      by then (the answers are numbered from 0). */
  datatype Verdict = Verdict(result: Result<()>, read: nat)

  /** The checks after the poll loop stopped on answer `k`: its own error,
      if any, propagates; then a fresh answer is asked whether the run was
      cancelled (and another one supplies the message), then a fresh answer
      whether it succeeded (and another one the message). */
  function Settle(name: string, answers: nat -> Value, k: nat, repr: Value -> string): (v: Verdict)
    ensures k < v.read <= k + 4
    ensures v.result.Ok? ==> v.read == k + 3
    ensures v.result.Ok? ==> ParseStatus(answers(k + 1)).Ok? && !Cancelled(ParseStatus(answers(k + 1)).value)
    ensures v.result.Ok? ==> ParseStatus(answers(k + 2)).Ok? && Successful(ParseStatus(answers(k + 2)).value)
    ensures v.result.Err? && v.result.error.DatabricksCancelledError? ==>
      ParseStatus(answers(k + 1)).Ok? && Cancelled(ParseStatus(answers(k + 1)).value)
      && ParseStatus(answers(k + 2)).Ok?
      && v.result.error.message == "Job " + name + " was cancelled: " + repr(answers(k + 2))
    ensures v.result.Err? && v.result.error.DatabricksError? ==>
      ParseStatus(answers(k + 2)).Ok? && !Successful(ParseStatus(answers(k + 2)).value)
      && ParseStatus(answers(k + 3)).Ok?
      && v.result.error.message == "Job " + name + " failed: " + repr(answers(k + 3))
  {
    match ParseStatus(answers(k))
    case Err(e) => Verdict(Err(e), k + 1)
    case Ok(s) =>
      match Executing(s)
      case Err(e) => Verdict(Err(e), k + 1)
      case Ok(_) =>
        match ParseStatus(answers(k + 1))
        case Err(e) => Verdict(Err(e), k + 2)
        case Ok(s1) =>
          if Cancelled(s1) then
            match ParseStatus(answers(k + 2))
            case Err(e) => Verdict(Err(e), k + 3)
            case Ok(s2) => Verdict(Err(DatabricksCancelledError("Job " + name + " was cancelled: " + repr(s2.raw))), k + 3)
          else
            match ParseStatus(answers(k + 2))
            case Err(e) => Verdict(Err(e), k + 3)
            case Ok(s2) =>
              if Successful(s2) then Verdict(Ok(()), k + 3)
              else
                match ParseStatus(answers(k + 3))
                case Err(e) => Verdict(Err(e), k + 4)
                case Ok(s3) => Verdict(Err(DatabricksError("Job " + name + " failed: " + repr(s3.raw))), k + 4)
  }

  /** A well-formed answer with the given states. */
  function Answer(lifeCycle: string, result: string): Value {
    JObj(map["state" := JObj(map["life_cycle_state" := JStr(lifeCycle), "result_state" := JStr(result)])])
  }

  /** Because every check asks again, a run that is cancelled between the
      cancellation check and the success check is reported as failed, not
      as cancelled. */
  lemma LateCancelReportsFailure(name: string, answers: nat -> Value, k: nat, repr: Value -> string)
    requires answers(k) == Answer("TERMINATED", "") && answers(k + 1) == Answer("TERMINATED", "")
    requires answers(k + 2) == Answer("TERMINATED", "CANCELED") && answers(k + 3) == Answer("TERMINATED", "CANCELED")
    ensures Settle(name, answers, k, repr).result == Err(DatabricksError("Job " + name + " failed: " + repr(answers(k + 3))))
  {
    assert ParseStatus(answers(k + 1)).value.resultState == JStr("");
    assert ParseStatus(answers(k + 2)).value.resultState == JStr("CANCELED");
  }
}

=== FILE: databricks_volume.dfy ===
/** An ideal Unity Catalog volume: a server that keeps files in the order
    they were last written. Against it the filesystem of
    block_cascade/executors/databricks/filesystem.py reads back what it
    wrote and removes what `rm` names. */
module DatabricksVolume {
  import opened Wrappers
  import opened Strings
  import opened Json
  import opened DatabricksSession
  import opened DatabricksFilesystem

  /** A file on the ideal volume. */
  datatype Entry = Entry(path: string, data: Bytes)

  /** The ideal volume: its files in the order they were last written;
      directories exist implicitly. */
  datatype Volume = Volume(entries: seq<Entry>)

  /** The content of the first file at `p`. */
  function Lookup(es: seq<Entry>, p: string): (r: Option<Bytes>)
    ensures r.None? <==> forall i | 0 <= i < |es| :: es[i].path != p
    ensures r.Some? ==> Entry(p, r.value) in es
  {
    if |es| == 0 then None
    else if es[0].path == p then Some(es[0].data)
    else
      var r := Lookup(es[1..], p);
      assert forall i | 1 <= i < |es| :: es[i] == es[1..][i - 1];
      r
  }

  /** The files other than the one at `p`, in order. */
  function Without(es: seq<Entry>, p: string): (r: seq<Entry>)
    ensures forall e :: e in r <==> e in es && e.path != p
  {
    if |es| == 0 then []
    else if es[0].path == p then Without(es[1..], p)
    else [es[0]] + Without(es[1..], p)
  }

  /** The files whose path is none of `ps`. */
  function WithoutAll(es: seq<Entry>, ps: seq<string>): (r: seq<Entry>)
    ensures forall e :: e in r <==> e in es && e.path !in ps
    decreases |ps|
  {
    if |ps| == 0 then es else WithoutAll(Without(es, ps[0]), ps[1..])
  }

  /** The paths of the files directly in `dir`, in order. */
  function Children(es: seq<Entry>, dir: string): (ps: seq<string>)
    ensures forall p | p in ps :: Dirname(p) == dir
    ensures forall e | e in es && Dirname(e.path) == dir :: e.path in ps
    ensures forall p | p in ps :: exists e | e in es :: e.path == p
  {
    if |es| == 0 then []
    else
      var rest := Children(es[1..], dir);
      assert forall e | e in es[1..] :: e in es;
      if Dirname(es[0].path) == dir then [es[0].path] + rest else rest
  }

  /** A directory none of whose files is left lists nothing. */
  lemma {:induction false} ChildrenNone(es: seq<Entry>, dir: string)
    requires forall e | e in es :: Dirname(e.path) != dir
    ensures Children(es, dir) == []
    decreases |es|
  {
    if |es| > 0 {
      assert forall e | e in es[1..] :: e in es;
      ChildrenNone(es[1..], dir);
    }
  }

  /** A listing entry for each path. */
  function PathItems(ps: seq<string>): (items: seq<Value>)
    ensures |items| == |ps|
    ensures forall i | 0 <= i < |ps| :: items[i] == JObj(map["path" := JStr(ps[i])])
  {
    seq(|ps|, i requires 0 <= i < |ps| => JObj(map["path" := JStr(ps[i])]))
  }

  function Answer(status: int): Response {
    Response(status, [], JNull)
  }

  /** How the ideal volume answers the Files API: a download finds the
      file or answers 404, an upload stores the body unless `overwrite` is
      "false" and the file exists (409), and a delete removes the file. */
  function ServeFile(v: Volume, p: string, req: Request): (Response, Volume) {
    match req.verb
    case GET =>
      (match Lookup(v.entries, p)
       case Some(d) => (Response(200, d, JNull), v)
       case None => (Answer(404), v))
    case PUT =>
      if req.data.None? then (Answer(400), v)
      else if req.overwrite == Some("false") && Lookup(v.entries, p).Some? then (Answer(409), v)
      else (Answer(204), Volume(Without(v.entries, p) + [Entry(p, req.data.value)]))
    case DELETE => (Answer(204), Volume(Without(v.entries, p)))
  }

  /** How the ideal volume answers the Directories API: a listing names
      the files directly inside, creating a directory always succeeds, and
      only an empty directory can be deleted. */
  function ServeDirectory(v: Volume, d: string, req: Request): (Response, Volume) {
    match req.verb
    case GET => (Response(200, [], JObj(map["contents" := JList(PathItems(Children(v.entries, d)))])), v)
    case PUT => (Answer(201), v)
    case DELETE => if |Children(v.entries, d)| == 0 then (Answer(204), v) else (Answer(409), v)
  }

  function IdealServe(v: Volume, req: Request): (Response, Volume) {
    match FilePathOf(req.url)
    case Some(p) => ServeFile(v, p, req)
    case None =>
      match DirectoryPathOf(req.url)
      case Some(d) => ServeDirectory(v, d, req)
      case None => (Answer(404), v)
  }

  /** After a write, the file holds what was written last. */
  lemma LookupAfterWrite(es: seq<Entry>, p: string, d: Bytes)
    ensures Lookup(Without(es, p) + [Entry(p, d)], p) == Some(d)
  {
    var es' := Without(es, p) + [Entry(p, d)];
    if |Without(es, p)| > 0 {
      assert Without(es, p)[0] in Without(es, p);
    }
    LookupLastOnly(Without(es, p), Entry(p, d));
  }

  lemma {:induction false} LookupLastOnly(es: seq<Entry>, e: Entry)
    requires forall i | 0 <= i < |es| :: es[i].path != e.path
    ensures Lookup(es + [e], e.path) == Some(e.data)
    decreases |es|
  {
    if |es| > 0 {
      assert (es + [e])[1..] == es[1..] + [e];
      LookupLastOnly(es[1..], e);
    }
  }

  /** Writing a file through `open(path, "wb")` and closing it, then
      opening it with "rb", reads back exactly the bytes written. */
  lemma WriteThenRead(fs: Filesystem, path: string, data: Bytes, v: Volume)
    ensures var (handle, c1) := Open(IdealServe, fs, path, "wb", Conn(v, []));
      handle.Ok? && handle.value.Writer? && Write(handle.value.file, data).Ok?
      && var closing := Close(IdealServe, Write(handle.value.file, data).value, c1);
      closing.result.Ok? && Open(IdealServe, fs, path, "rb", closing.conn).0 == Ok(Reader(data))
  {
    UrlsParse(path);
    if ParentToCreate(fs, path).Some? {
      UrlsParse(ParentToCreate(fs, path).value);
    }
    var (handle, c1) := Open(IdealServe, fs, path, "wb", Conn(v, []));
    assert handle.Ok?;
    var f := Write(handle.value.file, data).value;
    assert f == UploadFile(path, data, false);
    var closing := Close(IdealServe, f, c1);
    assert closing.conn.state == Volume(Without(c1.state.entries, path) + [Entry(path, data)]);
    LookupAfterWrite(c1.state.entries, path, data);
  }

  /** `upload` with overwriting on, then a download, reads back the local
      file's content. */
  lemma UploadThenRead(fs: Filesystem, local: string -> Option<Bytes>, localPath: string, path: string, v: Volume)
    requires local(localPath).Some?
    ensures var (uploaded, c1) := Upload(IdealServe, fs, local, localPath, path, true, Conn(v, []));
      uploaded.Ok? && Open(IdealServe, fs, path, "rb", c1).0 == Ok(Reader(local(localPath).value))
  {
    UrlsParse(path);
    if ParentToCreate(fs, path).Some? {
      UrlsParse(ParentToCreate(fs, path).value);
    }
    var (made, c0) := EnsureParentDir(IdealServe, fs, path, Conn(v, []));
    assert made.Ok? && c0.state == v;
    var d := local(localPath).value;
    assert OverwriteParam(true) == "true";
    LookupAfterWrite(v.entries, path, d);
  }

  /** Deleting the listed files one by one on the ideal volume always
      succeeds and leaves exactly the other files. */
  lemma {:induction false} DeleteEachIdeal(ps: seq<string>, c: Conn<Volume>)
    requires forall i | 0 <= i < |ps| :: ps[i] != ""
    ensures var r := DeleteEach(IdealServe, PathItems(ps), c);
      r.0.Ok? && r.1.state == Volume(WithoutAll(c.state.entries, ps))
    decreases |ps|
  {
    if |ps| > 0 {
      var items := PathItems(ps);
      assert ItemPath(items[0]) == Ok(Some(ps[0]));
      UrlsParse(ps[0]);
      var (_, c') := Send(IdealServe, c, DeleteFile(ps[0]));
      assert c'.state == Volume(Without(c.state.entries, ps[0]));
      assert items[1..] == PathItems(ps[1..]);
      DeleteEachIdeal(ps[1..], c');
    }
  }

  /** A recursive `rm` of a directory on the ideal volume succeeds, removes
      every file directly in it, and keeps every other file. */
  lemma RmTreeIdeal(dir: string, v: Volume)
    requires dir != ""
    ensures var r := RmTree(IdealServe, dir, Conn(v, []));
      r.0.Ok?
      && (forall e | e in r.1.state.entries :: Dirname(e.path) != dir)
      && (forall e | e in v.entries && Dirname(e.path) != dir :: e in r.1.state.entries)
  {
    UrlsParse(dir);
    var ps := Children(v.entries, dir);
    forall i | 0 <= i < |ps|
      ensures ps[i] != ""
    {
      assert ps[i] in ps;
      assert Dirname(ps[i]) == dir;
    }
    var c1 := Conn(v, [ListDirectory(dir)]);
    var listing := Response(200, [], JObj(map["contents" := JList(PathItems(ps))]));
    assert ServeDirectory(v, dir, ListDirectory(dir)) == (listing, v);
    assert IdealServe(v, ListDirectory(dir)) == (listing, v);
    assert [] + [ListDirectory(dir)] == [ListDirectory(dir)];
    assert Send(IdealServe, Conn(v, []), ListDirectory(dir)) == (listing, c1);
    assert GetOr(listing.json, "contents", JList([])) == Ok(JList(PathItems(ps)));
    DeleteEachIdeal(ps, c1);
    var (deleted, c2) := DeleteEach(IdealServe, PathItems(ps), c1);
    var left := WithoutAll(v.entries, ps);
    assert c2.state == Volume(left);
    forall e | e in left
      ensures Dirname(e.path) != dir
    {
      assert e in v.entries && e.path !in ps;
    }
    ChildrenNone(left, dir);
    assert IdealServe(c2.state, DeleteDirectory(dir)) == (Answer(204), c2.state);
    RmTreeSteps(IdealServe, dir, Conn(v, []), listing, PathItems(ps));
  }
}

=== FILE: decorator_arguments.dfy ===
/** The arguments of the `remote` decorator (block_cascade/decorators.py,
    and its older variant block_cascade/remote.py): what decorating records,
    where the resource is looked up, and how `remote_<parameter>` keywords
    override the decorator's parameters at call time. */
module DecoratorArguments {
  import opened Wrappers
  import opened Strings
  import opened Json
  import opened Utils
  import opened VertexResource
  import DatabricksResource
  import opened Tune

  /** The two variants of the decorator: `decorators.remote` and the older
      `remote.remote`. */
  datatype Variant = Current | Legacy

  /** A resource object: a `GcpResource`, a `DatabricksResource`, an object
      of another class that has a `DatabricksResource`'s attributes, or an
      object of any other class. */
  datatype Resource =
    | GcpObject(gcp: GcpResource)
    | DatabricksObject(databricks: DatabricksResource.Resource)
    | Lookalike(className: string, databricks: DatabricksResource.Resource)
    | Foreign(className: string)

  /** A value a parameter of the decorator can hold: a plain value, a
      resource, or a `Tune`. */
  datatype Arg = Val(v: Value) | Res(r: Resource) | TuneArg(t: Tune)

  /** Python truthiness of a parameter value: objects are true. */
  predicate ArgTruthy(a: Arg) {
    match a
    case Val(v) => Truthy(v)
    case _ => true
  }

  /** An optional resource as a parameter value. */
  function OfResource(r: Option<Resource>): (a: Arg)
    ensures r.None? <==> a == Val(JNull)
  {
    match r
    case Some(x) => Res(x)
    case None => Val(JNull)
  }

  /** The parameters a call reads back from `remote_args`. */
  datatype Params = Params(resource: Arg, jobName: Arg, tune: Arg, codePackage: Arg, webConsoleAccess: Arg)

  /** A decorated function: the function, the names in `remote_args` (the
      decorator's local variables) and the parameters a call reads. */
  datatype Decorated = Decorated(func: Callable, names: set<string>, params: Params)

  /** What `remote(func=None, ...)` keeps in the partial it returns. */
  datatype Deferred = Deferred(resource: Arg, jobName: Option<string>, webConsoleAccess: bool, tune: Option<Tune>, codePackage: Option<string>)

  /** What applying the decorator gives: a decorated function, or a partial
      waiting for the function. */
  datatype Decoration = Wrapped(decorated: Decorated) | Waiting(deferred: Deferred)

  /** The prefix of an overriding keyword. */
  const ReservedPrefix := "remote_"

  /** The names `locals()` holds: the parameters, plus the configuration
      table when it was looked up. The older variant has no `config_name`. */
  function LocalNames(variant: Variant, lookedUp: bool): (names: set<string>)
    ensures "resource" in names && "job_name" in names && "tune" in names
    ensures "code_package" in names && "web_console_access" in names
    ensures "resource_configurations" in names <==> lookedUp
    ensures "config_name" in names <==> variant == Current
  {
    var parameters := {"func", "resource", "job_name", "web_console_access", "tune", "code_package", "args", "kwargs"};
    var withConfig := if variant == Current then parameters + {"config_name"} else parameters;
    if lookedUp then withConfig + {"resource_configurations"} else withConfig
  }

  /** The configuration key: `config_name` when it is non-empty, else
      `job_name`; the older variant always uses `job_name`. */
  function ConfigKey(variant: Variant, configName: Option<string>, jobName: Option<string>): Option<string> {
    if variant == Current && NonEmpty(configName) then configName else jobName
  }

  /** The resource found under a key of the configuration table; a missing
      key (or no key) finds nothing. */
  function Find(table: map<string, Resource>, key: Option<string>): Option<Resource> {
    if key.Some? && key.value in table then Some(table[key.value]) else None
  }

  /** `remote(func, resource, config_name, job_name, ...)`. Without a
      resource the configuration (`configs`, the outcome of
      `find_default_configuration()`) is searched. Without a function the
      result is a partial carrying the resource found, the job name, the
      console flag, the tune and the code package, but not `config_name`. */
  function Decorate(
    variant: Variant, func: Option<Callable>, resource: Arg, configName: Option<string>, jobName: Option<string>,
    webConsoleAccess: bool, tune: Option<Tune>, codePackage: Option<string>,
    configs: Result<Option<map<string, Resource>>>): (r: Result<Decoration>)
    ensures ArgTruthy(resource) ==> r.Ok?
    ensures !ArgTruthy(resource) ==> (r.Ok? <==> configs.Ok?)
    ensures r.Ok? ==> (r.value.Wrapped? <==> func.Some?)
    ensures r.Ok? && r.value.Wrapped? ==>
      var d := r.value.decorated;
      d.func == func.value
      && d.names == LocalNames(variant, !ArgTruthy(resource))
      && d.params.jobName == Val(OfOption(jobName)) && d.params.codePackage == Val(OfOption(codePackage))
      && d.params.webConsoleAccess == Val(JBool(webConsoleAccess))
      && (tune.Some? ==> d.params.tune == TuneArg(tune.value))
      && (tune.None? ==> d.params.tune == Val(JNull))
      && (ArgTruthy(resource) ==> d.params.resource == resource)
      && (!ArgTruthy(resource) ==>
            d.params.resource == OfResource(Find(configs.value.GetOr(map[]), ConfigKey(variant, configName, jobName))))
    ensures r.Ok? && r.value.Waiting? ==>
      r.value.deferred.jobName == jobName && r.value.deferred.tune == tune
      && r.value.deferred.codePackage == codePackage && r.value.deferred.webConsoleAccess == webConsoleAccess
      && (ArgTruthy(resource) ==> r.value.deferred.resource == resource)
      && (!ArgTruthy(resource) ==>
            r.value.deferred.resource == OfResource(Find(configs.value.GetOr(map[]), ConfigKey(variant, configName, jobName))))
  {
    var found :- if ArgTruthy(resource) then Ok(resource) else
      var table :- configs;
      Ok(OfResource(Find(table.GetOr(map[]), ConfigKey(variant, configName, jobName))));
    match func
    case None => Ok(Waiting(Deferred(found, jobName, webConsoleAccess, tune, codePackage)))
    case Some(f) =>
      var tuneArg := match tune case Some(t) => TuneArg(t) case None => Val(JNull);
      Ok(Wrapped(Decorated(f, LocalNames(variant, !ArgTruthy(resource)),
        Params(found, Val(OfOption(jobName)), tuneArg, Val(OfOption(codePackage)), Val(JBool(webConsoleAccess))))))
  }

  /** Applying the partial to a function: `remote` runs again with the
      kept parameters and no `config_name`. */
  function ApplyDeferred(
    variant: Variant, w: Deferred, func: Callable, configs: Result<Option<map<string, Resource>>>): Result<Decoration>
  {
    Decorate(variant, Some(func), w.resource, None, w.jobName, w.webConsoleAccess, w.tune, w.codePackage, configs)
  }

  /** A parameter after the overrides: the `remote_<name>` keyword's value
      when the name is in `remote_args` and the keyword was given. */
  function Overridden(names: set<string>, name: string, current: Arg, kwargs: map<string, Arg>): Arg {
    if name in names && ReservedPrefix + name in kwargs then kwargs[ReservedPrefix + name] else current
  }

  /** The overriding keywords `remote_<name>` for the names in `remote_args`. */
  function OverrideKeys(names: set<string>): set<string> {
    set n | n in names :: ReservedPrefix + n
  }

  /** The loop over `remote_args`: every `remote_<name>` keyword replaces
      that entry and is removed from the call's keywords. Each name owns a
      different keyword, so the order of the loop does not matter. */
  function ApplyOverrides(names: set<string>, params: Params, kwargs: map<string, Arg>): (r: (Params, map<string, Arg>))
    ensures r.1.Keys == kwargs.Keys - OverrideKeys(names)
    ensures forall k | k in r.1 :: r.1[k] == kwargs[k]
    ensures "resource" in names && ReservedPrefix + "resource" in kwargs ==> r.0.resource == kwargs[ReservedPrefix + "resource"]
    ensures ReservedPrefix + "resource" !in kwargs ==> r.0.resource == params.resource
    ensures "job_name" in names && ReservedPrefix + "job_name" in kwargs ==> r.0.jobName == kwargs[ReservedPrefix + "job_name"]
    ensures ReservedPrefix + "job_name" !in kwargs ==> r.0.jobName == params.jobName
    ensures (forall n | n in names :: ReservedPrefix + n !in kwargs) ==> r.0 == params && r.1 == kwargs
  {
    var p := Params(
      Overridden(names, "resource", params.resource, kwargs),
      Overridden(names, "job_name", params.jobName, kwargs),
      Overridden(names, "tune", params.tune, kwargs),
      Overridden(names, "code_package", params.codePackage, kwargs),
      Overridden(names, "web_console_access", params.webConsoleAccess, kwargs));
    var rest := map k | k in kwargs && k !in OverrideKeys(names) :: kwargs[k];
    (p, rest)
  }

  /** The keywords the function receives. Plain values pass through;
      resource and `Tune` objects are not values of this model and are
      dropped. */
  function FunctionKwargs(kwargs: map<string, Arg>): map<string, Value> {
    map k | k in kwargs && kwargs[k].Val? :: kwargs[k].v
  }

  /** A name-like parameter read back: a string, else `None`. */
  function NameOf(a: Arg): Option<string> {
    if a.Val? && a.v.JStr? then Some(a.v.s) else None
  }

  /** The `tune` parameter read back. */
  function TuneOf(a: Arg): Option<Tune> {
    if a.TuneArg? then Some(a.t) else None
  }

  /** A partial that found its resource decorates exactly as the direct
      call does: the resource it carries is truthy, so the configuration is
      not consulted again. */
  lemma DeferredKeepsFound(
    variant: Variant, resource: Arg, configName: Option<string>, jobName: Option<string>, webConsoleAccess: bool,
    tune: Option<Tune>, codePackage: Option<string>, configs: Result<Option<map<string, Resource>>>,
    func: Callable, laterConfigs: Result<Option<map<string, Resource>>>)
    requires Decorate(variant, None, resource, configName, jobName, webConsoleAccess, tune, codePackage, configs).Ok?
    requires ArgTruthy(Decorate(variant, None, resource, configName, jobName, webConsoleAccess, tune, codePackage, configs).value.deferred.resource)
    ensures var w := Decorate(variant, None, resource, configName, jobName, webConsoleAccess, tune, codePackage, configs).value.deferred;
      var direct := Decorate(variant, Some(func), resource, configName, jobName, webConsoleAccess, tune, codePackage, configs);
      ApplyDeferred(variant, w, func, laterConfigs).Ok? && direct.Ok?
      && ApplyDeferred(variant, w, func, laterConfigs).value.decorated.params == direct.value.decorated.params
  {
  }

  /** The partial forgets `config_name`: when no configuration has that
      name, applying the partial looks again under the job name and finds
      what the direct call would not. */
  lemma DeferredFallsBackToJobName(found: Resource, func: Callable)
    ensures var configs := Ok(Some(map["b" := found]));
      var direct := Decorate(Current, Some(func), Val(JNull), Some("a"), Some("b"), false, None, None, configs);
      var w := Decorate(Current, None, Val(JNull), Some("a"), Some("b"), false, None, None, configs);
      direct.Ok? && direct.value.decorated.params.resource == Val(JNull)
      && w.Ok? && w.value.deferred.resource == Val(JNull)
      && ApplyDeferred(Current, w.value.deferred, func, configs).Ok?
      && ApplyDeferred(Current, w.value.deferred, func, configs).value.decorated.params.resource == Res(found)
  {
    assert "a" != "b";
  }

  /** The older variant has no `config_name`: whatever is passed for it,
      the decoration is the same. */
  lemma LegacyIgnoresConfigName(
    func: Option<Callable>, resource: Arg, configName: Option<string>, jobName: Option<string>, webConsoleAccess: bool,
    tune: Option<Tune>, codePackage: Option<string>, configs: Result<Option<map<string, Resource>>>)
    ensures Decorate(Legacy, func, resource, configName, jobName, webConsoleAccess, tune, codePackage, configs)
         == Decorate(Legacy, func, resource, None, jobName, webConsoleAccess, tune, codePackage, configs)
  {
  }

  /** The function never receives an overriding keyword; every other plain
      keyword reaches it unchanged. */
  lemma OverridesNotPassedOn(names: set<string>, params: Params, kwargs: map<string, Arg>)
    ensures var passed := FunctionKwargs(ApplyOverrides(names, params, kwargs).1);
      (forall n | n in names :: ReservedPrefix + n !in passed)
      && (forall k | k in kwargs && k !in OverrideKeys(names) && kwargs[k].Val? :: k in passed && passed[k] == kwargs[k].v)
  {
    var passed := FunctionKwargs(ApplyOverrides(names, params, kwargs).1);
    forall n | n in names
      ensures ReservedPrefix + n !in passed
    {
      assert ReservedPrefix + n in OverrideKeys(names);
    }
  }
}

=== FILE: decorator_environment.dfy ===
/** How the `remote` decorator fills in a Vertex environment
    (block_cascade/decorators.py): each missing setting is asked of a
    provider in turn, and a provider that cannot be reached stops the
    filling. */
module DecoratorEnvironment {
  import opened Wrappers
  import opened Strings
  import opened Json
  import opened VertexResource
  import Gcp

  /** A provider's answer assigned to an `Optional[str]` field: a string or
      `None`; anything else fails validation. */
  function OptionalString(answer: Value, field: string): Result<Option<string>> {
    match answer
    case JNull => Ok(None)
    case JStr(s) => Ok(Some(s))
    case _ => Err(ValidationError(field))
  }

  /** How filling stopped: it ran through, a `ConnectionError` cut it short
      (and was swallowed), or another exception escaped. */
  datatype Stop = RanThrough | Disconnected | Escaped(error: Error)

  /** One step of the fill: `resource.environment.<field> = answer`. */
  datatype Filled = Filled(env: Environment, stop: Stop)

  /** Fill the image when it is empty; the assignment normalises it against
      the project as it stands. */
  function FillImage(env: Environment, answer: Gcp.Answer): (f: Filled)
    ensures NonEmpty(env.image) ==> f == Filled(env, RanThrough)
    ensures f.env.project == env.project && f.env.serviceAccount == env.serviceAccount && f.env.region == env.region
    ensures f.env.storageLocation == env.storageLocation && f.env.network == env.network
    ensures !NonEmpty(env.image) && answer.Ok? && answer.value.JStr? ==> f == Filled(SetImage(env, Some(answer.value.s)), RanThrough)
  {
    if NonEmpty(env.image) then Filled(env, RanThrough)
    else match answer
      case Err(ConnectionError) => Filled(env, Disconnected)
      case Err(e) => Filled(env, Escaped(e))
      case Ok(v) =>
        match OptionalString(v, "image")
        case Err(e) => Filled(env, Escaped(e))
        case Ok(image) => Filled(SetImage(env, image), RanThrough)
  }

  /** Fill the project when it is empty; the project is a required string,
      so `None` fails validation. */
  function FillProject(env: Environment, answer: Gcp.Answer): (f: Filled)
    ensures env.project != "" ==> f == Filled(env, RanThrough)
    ensures f.env == env || f.env == env.(project := f.env.project)
    ensures env.project == "" && answer.Ok? && answer.value.JStr? ==> f == Filled(env.(project := answer.value.s), RanThrough)
  {
    if env.project != "" then Filled(env, RanThrough)
    else match answer
      case Err(ConnectionError) => Filled(env, Disconnected)
      case Err(e) => Filled(env, Escaped(e))
      case Ok(JStr(s)) => Filled(env.(project := s), RanThrough)
      case Ok(_) => Filled(env, Escaped(ValidationError("project")))
  }

  /** Fill the service account when it is empty. */
  function FillServiceAccount(env: Environment, answer: Gcp.Answer): (f: Filled)
    ensures NonEmpty(env.serviceAccount) ==> f == Filled(env, RanThrough)
    ensures f.env == env || f.env == env.(serviceAccount := f.env.serviceAccount)
    ensures !NonEmpty(env.serviceAccount) && answer.Ok? && answer.value.JStr? ==>
      f == Filled(env.(serviceAccount := Some(answer.value.s)), RanThrough)
  {
    if NonEmpty(env.serviceAccount) then Filled(env, RanThrough)
    else match answer
      case Err(ConnectionError) => Filled(env, Disconnected)
      case Err(e) => Filled(env, Escaped(e))
      case Ok(v) =>
        match OptionalString(v, "service_account")
        case Err(e) => Filled(env, Escaped(e))
        case Ok(account) => Filled(env.(serviceAccount := account), RanThrough)
  }

  /** Fill the region when it is empty. */
  function FillRegion(env: Environment, answer: Gcp.Answer): (f: Filled)
    ensures NonEmpty(env.region) ==> f == Filled(env, RanThrough)
    ensures f.env == env || f.env == env.(region := f.env.region)
    ensures !NonEmpty(env.region) && answer.Ok? && answer.value.JStr? ==>
      f == Filled(env.(region := Some(answer.value.s)), RanThrough)
  {
    if NonEmpty(env.region) then Filled(env, RanThrough)
    else match answer
      case Err(ConnectionError) => Filled(env, Disconnected)
      case Err(e) => Filled(env, Escaped(e))
      case Ok(v) =>
        match OptionalString(v, "region")
        case Err(e) => Filled(env, Escaped(e))
        case Ok(region) => Filled(env.(region := region), RanThrough)
  }

  /** The `try` block: image, project, service account and region, each
      only when empty, stopping at the first step that does not run
      through. */
  function Fill(env: Environment, p: Gcp.Provider): (f: Filled)
    ensures NonEmpty(env.image) ==> f.env.image == env.image
    ensures env.project != "" ==> f.env.project == env.project
    ensures NonEmpty(env.serviceAccount) ==> f.env.serviceAccount == env.serviceAccount
    ensures NonEmpty(env.region) ==> f.env.region == env.region
    ensures f.env.storageLocation == env.storageLocation && f.env.network == env.network
    ensures IsComplete(env) ==> f == Filled(env, RanThrough)
    ensures !NonEmpty(env.image) && p.containerImage == Err(ConnectionError) ==> f == Filled(env, Disconnected)
  {
    var image := FillImage(env, p.containerImage);
    if !image.stop.RanThrough? then image else
    var project := FillProject(image.env, p.project);
    if !project.stop.RanThrough? then project else
    var account := FillServiceAccount(project.env, p.serviceAccount);
    if !account.stop.RanThrough? then account else
    FillRegion(account.env, p.region)
  }

  /** The message raised when the environment is still incomplete. */
  const IncompleteEnvironment := "Unable to infer remaining environment for GcpResource. "
    + "Please provide a complete environment to the configured GcpResource."

  /** `GcpEnvironmentConfig()` without a project. */
  function MissingProject(): Error {
    TypeError("__init__() missing 1 required positional argument: 'project'")
  }

  /** A provider that cannot connect fills nothing in an incomplete
      environment: the first empty field's getter raises `ConnectionError`,
      which ends the filling. */
  lemma {:induction false} FillDisconnected(env: Environment, p: Gcp.Provider)
    requires p.containerImage == Err(ConnectionError) && p.project == Err(ConnectionError)
    requires p.serviceAccount == Err(ConnectionError) && p.region == Err(ConnectionError)
    requires !IsComplete(env)
    ensures Fill(env, p) == Filled(env, Disconnected)
  {
    if NonEmpty(env.image) {
      assert FillImage(env, p.containerImage) == Filled(env, RanThrough);
      if env.project != "" {
        assert FillProject(env, p.project) == Filled(env, RanThrough);
        if NonEmpty(env.serviceAccount) {
          assert FillServiceAccount(env, p.serviceAccount) == Filled(env, RanThrough);
        }
      }
    }
  }

  /** A provider that answers every getter with a non-empty string
      completes an environment that had nothing set. The image is
      normalised against the project as it stood, empty, before the
      project was filled in: a bare tag becomes `us.gcr.io//<tag>`. */
  lemma FillFromFullProvider(env: Environment, p: Gcp.Provider, image: string, project: string, account: string, region: string)
    requires env.project == "" && !NonEmpty(env.image) && !NonEmpty(env.serviceAccount) && !NonEmpty(env.region)
    requires image != "" && project != "" && account != "" && region != ""
    requires p.containerImage == Ok(JStr(image)) && p.project == Ok(JStr(project))
    requires p.serviceAccount == Ok(JStr(account)) && p.region == Ok(JStr(region))
    ensures Fill(env, p).stop == RanThrough && IsComplete(Fill(env, p).env)
    ensures Fill(env, p).env == env.(image := NormaliseImage("", Some(image)), project := project,
                                     serviceAccount := Some(account), region := Some(region))
    ensures '/' !in image ==> Fill(env, p).env.image == Some("us.gcr.io//" + image)
  {
    assert "us.gcr.io/" + "" + "/" + image == "us.gcr.io//" + image;
  }
}

=== FILE: decorators.dfy ===
/** The `remote` decorator (block_cascade/decorators.py, and its older
    variant block_cascade/remote.py) at call time: it picks the executor
    that runs the call. The decorator's arguments are in
    `DecoratorArguments` and the filling of a Vertex environment is in
    `DecoratorEnvironment`. Building and running the executor is modelled
    by the executor modules; here a call ends with the executor it picks. */
module Decorators {
  import opened Wrappers
  import opened Strings
  import opened Json
  import opened Utils
  import opened VertexResource
  import DatabricksResource
  import opened Tune
  import Gcp
  import Prefect
  import opened DecoratorArguments
  import opened DecoratorEnvironment

  /** What a call needs from its surroundings: the Prefect run contexts,
      the runtime deployment id, the installed version of the package, the
      Prefect environment client and the VM metadata client. */
  datatype Surroundings = Surroundings(
    contexts: Prefect.RunContexts,
    deploymentId: Option<string>,
    version: Result<string>,
    prefectClient: Gcp.Provider,
    metadataClient: Gcp.Provider)

  /** The executor a call picks, with what it is built from. */
  datatype Choice =
    | RunLocally(func: Callable)
    | RunOnVertex(resource: GcpResource, name: Option<string>, func: Callable, tune: Option<Tune>,
                  labels: seq<(string, string)>, codePackage: Option<string>, webConsole: bool)
    | RunOnDatabricks(func: Callable, databricks: DatabricksResource.Resource, name: Option<string>)

  /** A run-context value for a label, `"LOCAL"` outside a run. */
  function ContextLabel(ctx: Prefect.RunContexts, attr: string): string
    requires Prefect.SupportedAttribute(attr)
  {
    Prefect.GetFromPrefectContext(ctx, attr, "LOCAL").value
  }

  /** The Vertex job labels: the flow run id and name, the task name and id,
      and the package version. */
  function Labels(ctx: Prefect.RunContexts, version: string): (labels: seq<(string, string)>)
    ensures |labels| == 5
    ensures ctx.flow.None? || ctx.task.None? ==> labels == [
      ("prefect-io_flow-run-id", "LOCAL"), ("prefect-io_flow-name", "LOCAL"), ("prefect-io_task-name", "LOCAL"),
      ("prefect-io_task-id", "LOCAL"), ("block_cascade-version", version)]
  {
    [("prefect-io_flow-run-id", ContextLabel(ctx, "flow_id")),
     ("prefect-io_flow-name", ContextLabel(ctx, "flow_name")),
     ("prefect-io_task-name", ContextLabel(ctx, "task_run")),
     ("prefect-io_task-id", ContextLabel(ctx, "task_run_id")),
     ("block_cascade-version", version)]
  }

  /** Inside a flow and task run the labels carry what the run context
      reports: the flow run's id and name and the task run's name and id,
      each `LOCAL` only where the run has none. */
  lemma LabelsInRun(ctx: Prefect.RunContexts, version: string)
    requires ctx.flow.Some? && ctx.task.Some?
    ensures Labels(ctx, version) == [
      ("prefect-io_flow-run-id", Prefect.IdOr(ctx.flow.value, "LOCAL")),
      ("prefect-io_flow-name", Prefect.NameOr(ctx.flow.value, "LOCAL")),
      ("prefect-io_task-name", Prefect.NameOr(ctx.task.value, "LOCAL")),
      ("prefect-io_task-id", Prefect.IdOr(ctx.task.value, "LOCAL")),
      ("block_cascade-version", version)]
  {
  }

  /** The Vertex branch: the labels, then the environment (which must
      exist), then, if it is incomplete, filling from the Prefect client
      when running from a deployment and from the metadata server
      otherwise. The resource after the branch is returned too: assigned
      fields stay assigned, whatever happens next. */
  function VertexBranch(g: GcpResource, params: Params, packed: Callable, s: Surroundings): (r: (Result<Choice>, GcpResource))
    ensures s.version.Err? ==> r == (Err(s.version.error), g)
    ensures s.version.Ok? && g.environment.None? ==> r == (Err(MissingProject()), g)
    ensures s.version.Ok? && g.environment.Some? && IsComplete(g.environment.value) ==>
      r.1 == g && r.0.Ok? && r.0.value.RunOnVertex? && r.0.value.resource == g
    ensures r.0.Ok? ==> (r.0.value.RunOnVertex? && r.0.value.resource == r.1
                         && r.1.environment.Some? && IsComplete(r.1.environment.value))
    ensures r.1 == g || (g.environment.Some? && r.1 == g.(environment := r.1.environment))
  {
    match s.version
    case Err(e) => (Err(e), g)
    case Ok(version) =>
      var labels := Labels(s.contexts, version);
      var choose := (resource: GcpResource) =>
        RunOnVertex(resource, NameOf(params.jobName), packed, TuneOf(params.tune), labels,
                    NameOf(params.codePackage), ArgTruthy(params.webConsoleAccess));
      match g.environment
      case None => (Err(MissingProject()), g)
      case Some(env) =>
        if IsComplete(env) then (Ok(choose(g)), g)
        else
          var provider := if Prefect.IsPrefectCloudDeployment(s.deploymentId) then s.prefectClient else s.metadataClient;
          var filled := Fill(env, provider);
          var g' := g.(environment := Some(filled.env));
          if filled.stop.Escaped? then (Err(filled.stop.error), g')
          else if !IsComplete(filled.env) then (Err(RuntimeError(IncompleteEnvironment)), g')
          else (Ok(choose(g')), g')
  }

  /** The Databricks branch: with base-module inference on, the function's
      base module joins the by-value list unless there is none or it starts
      with `__`. The older variant tests the prefix first, so a missing
      module raises `AttributeError`. The list is the resource's own and
      keeps the addition. */
  function DatabricksBranch(variant: Variant, db: DatabricksResource.Resource, func: Callable, packed: Callable, name: Option<string>)
    : (r: (Result<Choice>, DatabricksResource.Resource))
    ensures r.0.Ok? ==> r.0 == Ok(RunOnDatabricks(packed, r.1, name))
    ensures r.1 == db || r.1 == db.(cloudPickleByValue := r.1.cloudPickleByValue)
    ensures variant == Current && r.0.Err? ==> r.0 == Err(AttributeError("append")) && db.cloudPickleByValue.None?
    ensures r.1 != db ==> (db.inferBaseModule == Some(true) && db.cloudPickleByValue.Some? && InferBaseModule(func).Some?
                           && r.1.cloudPickleByValue == Some(db.cloudPickleByValue.value + [InferBaseModule(func).value]))
  {
    if db.inferBaseModule != Some(true) then (Ok(RunOnDatabricks(packed, db, name)), db)
    else
      match InferBaseModule(func)
      case None =>
        if variant == Legacy then (Err(AttributeError("startswith")), db)
        else (Ok(RunOnDatabricks(packed, db, name)), db)
      case Some(base) =>
        if StartsWith(base, "__") then (Ok(RunOnDatabricks(packed, db, name)), db)
        else match db.cloudPickleByValue
          case None => (Err(AttributeError("append")), db)
          case Some(modules) =>
            var db' := db.(cloudPickleByValue := Some(modules + [base]));
            (Ok(RunOnDatabricks(packed, db', name)), db')
  }

  /** The name check that lets a look-alike class through. */
  predicate NamedLikeDatabricks(className: string) {
    Contains(className, "DatabricksResource")
  }

  /** `remote_func(*args, **kwargs)`: apply the overrides (they stay in
      `remote_args`), pack the function with its arguments, and dispatch:
      no resource runs locally, a `GcpResource` on Vertex, a Databricks
      resource (or a class named like one) on Databricks, anything else
      raises `ValueError`. The decorated function after the call is
      returned too: overrides and changes to the resource object persist. */
  function CallWrapper(variant: Variant, d: Decorated, args: seq<Value>, kwargs: map<string, Arg>, s: Surroundings)
    : (r: (Result<Choice>, Decorated))
    ensures var (params, rest) := ApplyOverrides(d.names, d.params, kwargs);
      r.1.func == d.func && r.1.names == d.names
      && r.1.params.(resource := params.resource) == params
      && (r.1.params.resource == params.resource || (params.resource.Res? && r.1.params.resource.Res?))
    ensures var (params, rest) := ApplyOverrides(d.names, d.params, kwargs);
      var packed := WrappedPartial(d.func, args, FunctionKwargs(rest));
      && (packed.Err? ==> r.0 == Err(packed.error))
      && (packed.Ok? && params.resource == Val(JNull) ==> r.0 == Ok(RunLocally(packed.value)))
      && (packed.Ok? && params.resource.Val? && params.resource != Val(JNull) ==>
            r.0 == Err(ValueError("No valid resource provided.")))
      && (r.0.Ok? ==> (r.0.value.RunLocally? <==> params.resource == Val(JNull)))
      && (r.0.Ok? && r.0.value.RunOnVertex? ==> params.resource.Res? && params.resource.r.GcpObject?)
      && (r.0.Ok? && r.0.value.RunOnDatabricks? ==>
            params.resource.Res? && (params.resource.r.DatabricksObject? || params.resource.r.Lookalike?))
  {
    var (params, rest) := ApplyOverrides(d.names, d.params, kwargs);
    var d' := d.(params := params);
    match WrappedPartial(d.func, args, FunctionKwargs(rest))
    case Err(e) => (Err(e), d')
    case Ok(packed) =>
      match params.resource
      case Val(JNull) => (Ok(RunLocally(packed)), d')
      case Res(GcpObject(g)) =>
        var (r, g') := VertexBranch(g, params, packed, s);
        (r, d'.(params := params.(resource := Res(GcpObject(g')))))
      case Res(DatabricksObject(db)) =>
        var (r, db') := DatabricksBranch(variant, db, d.func, packed, NameOf(params.jobName));
        (r, d'.(params := params.(resource := Res(DatabricksObject(db')))))
      case Res(Lookalike(className, db)) =>
        if NamedLikeDatabricks(className) then
          var (r, db') := DatabricksBranch(variant, db, d.func, packed, NameOf(params.jobName));
          (r, d'.(params := params.(resource := Res(Lookalike(className, db')))))
        else (Err(ValueError("No valid resource provided.")), d')
      case Res(Foreign(className)) =>
        if NamedLikeDatabricks(className) then (Err(AttributeError("cloud_pickle_infer_base_module")), d')
        else (Err(ValueError("No valid resource provided.")), d')
      case _ => (Err(ValueError("No valid resource provided.")), d')
  }

  /** An override is written into `remote_args`, so it holds for the call
      that gave it and for every later call that does not override again. */
  lemma OverrideSticks(
    variant: Variant, d: Decorated, args: seq<Value>, kwargs: map<string, Arg>, s: Surroundings,
    laterArgs: seq<Value>, laterKwargs: map<string, Arg>, later: Surroundings)
    requires "job_name" in d.names && ReservedPrefix + "job_name" in kwargs
    requires ReservedPrefix + "job_name" !in laterKwargs
    ensures var d1 := CallWrapper(variant, d, args, kwargs, s).1;
      d1.params.jobName == kwargs[ReservedPrefix + "job_name"]
      && CallWrapper(variant, d1, laterArgs, laterKwargs, later).1.params.jobName == kwargs[ReservedPrefix + "job_name"]
  {
  }

  /** Running from a Prefect Cloud deployment, the environment comes from
      the Prefect client; the metadata server is never asked. */
  lemma CloudDeploymentAsksPrefect(g: GcpResource, params: Params, packed: Callable, s: Surroundings, other: Gcp.Provider)
    requires Prefect.IsPrefectCloudDeployment(s.deploymentId)
    ensures VertexBranch(g, params, packed, s) == VertexBranch(g, params, packed, s.(metadataClient := other))
  {
  }

  /** Anywhere else the environment comes from the metadata server; the
      Prefect client is never asked. */
  lemma ElsewhereAsksMetadataServer(g: GcpResource, params: Params, packed: Callable, s: Surroundings, other: Gcp.Provider)
    requires !Prefect.IsPrefectCloudDeployment(s.deploymentId)
    ensures VertexBranch(g, params, packed, s) == VertexBranch(g, params, packed, s.(prefectClient := other))
  {
  }

  /** A complete environment is used as given: neither provider, nor where
      the call runs from, makes a difference. */
  lemma CompleteEnvironmentAsGiven(
    g: GcpResource, params: Params, packed: Callable, s: Surroundings,
    deploymentId: Option<string>, prefectClient: Gcp.Provider, metadataClient: Gcp.Provider)
    requires g.environment.Some? && IsComplete(g.environment.value)
    ensures VertexBranch(g, params, packed, s)
         == VertexBranch(g, params, packed, s.(deploymentId := deploymentId, prefectClient := prefectClient, metadataClient := metadataClient))
  {
  }

  /** Outside a GCP VM, and not from a Prefect Cloud deployment, an
      incomplete environment cannot be inferred: the call raises the
      incomplete-environment `RuntimeError` and the resource is left as it
      was. */
  lemma OutsideGcpIncomplete(g: GcpResource, params: Params, packed: Callable, s: Surroundings, server: Gcp.Server)
    requires s.version.Ok? && !Prefect.IsPrefectCloudDeployment(s.deploymentId)
    requires forall url :: server(url) == Gcp.Unreachable
    requires s.metadataClient == Gcp.MetadataProvider(server)
    requires g.environment.Some? && !IsComplete(g.environment.value)
    ensures VertexBranch(g, params, packed, s) == (Err(RuntimeError(IncompleteEnvironment)), g)
  {
    Gcp.UnreachableServer(server);
    FillDisconnected(g.environment.value, s.metadataClient);
  }

  /** With base-module inference on, each call appends the function's base
      module to the resource's by-value list once more: the list keeps
      growing over calls. */
  lemma BaseModuleEachCall(variant: Variant, d: Decorated, db: DatabricksResource.Resource, modules: seq<string>, base: string,
                           s: Surroundings, later: Surroundings)
    requires d.params.resource == Res(DatabricksObject(db))
    requires db.inferBaseModule == Some(true) && db.cloudPickleByValue == Some(modules)
    requires Name(d.func).Some? && InferBaseModule(d.func) == Some(base) && !StartsWith(base, "__")
    ensures var d1 := CallWrapper(variant, d, [], map[], s).1;
      d1.params.resource == Res(DatabricksObject(db.(cloudPickleByValue := Some(modules + [base]))))
      && CallWrapper(variant, d1, [], map[], later).1.params.resource
         == Res(DatabricksObject(db.(cloudPickleByValue := Some(modules + [base] + [base]))))
  {
  }

  /** The older variant asks a missing module whether it starts with `__`
      before checking it is missing, so a function with no module raises
      `AttributeError`; the current variant skips the inference instead. */
  lemma ModulelessFunction(db: DatabricksResource.Resource, func: Callable, packed: Callable, name: Option<string>)
    requires db.inferBaseModule == Some(true) && ModuleOf(func).None?
    ensures DatabricksBranch(Legacy, db, func, packed, name) == (Err(AttributeError("startswith")), db)
    ensures DatabricksBranch(Current, db, func, packed, name) == (Ok(RunOnDatabricks(packed, db, name)), db)
  {
  }
}

=== FILE: distributed_job.dfy ===
/** Distributed-job descriptors and the per-node logic that does not touch
    storage (block_cascade/executors/vertex/distributed/distributed_job.py):
    reading the worker-pool number from CLUSTER_SPEC, the Dask logger label
    set on unpickling, the chief IP file and address, the wait for the chief,
    and the Dask process command lines. */
module DistributedJob {
  import opened Wrappers
  import opened Strings
  import opened Json

  const VertexDashboardPort := "8888"
  const DefaultChiefPort := "8786"
  /** `max_retries`: the worker gives up after this many failed retries,
      that is after `MaxRetries + 1` attempts. */
  const MaxRetries := 36
  /** The `TimeoutError` a worker raises when the chief never shows up. */
  function ChiefTimeout(): Error {
    TimeoutError("Timed out waiting for chief to stage IP file.")
  }

  /** The three concrete distributed jobs. `userLogger` says whether the
      caller passed a logger to `DaskJob`; `machineLabel` is the label of
      the logger unpickling sets, present only once it found a pool number. */
  datatype Job =
    | Basic
    | Dask(chiefPort: string, schedulerCliArgs: seq<string>, workerCliArgs: seq<string>, userLogger: bool, machineLabel: Option<string>)
    | Torch(inputDataGcsPath: Option<string>)

  /** `DaskJob()` with its defaults. */
  function DefaultDask(): (j: Job)
    ensures j.Dask? && j.chiefPort == DefaultChiefPort && !j.userLogger && j.machineLabel.None?
  {
    Dask(DefaultChiefPort, [], [], false, None)
  }

  /** The Dask job has a logger to call: the caller's, or the one
      unpickling set. */
  predicate HasLogger(job: Job)
    requires job.Dask?
  {
    job.userLogger || job.machineLabel.Some?
  }

  /** The CLUSTER_SPEC environment variable: absent, not JSON, or a document. */
  datatype ClusterSpec = Absent | Undecodable | Decoded(doc: Value)

  /** What the bootstraps read from a node's process environment: the
      CLUSTER_SPEC variable and the plain variables such as RANK. */
  datatype NodeEnv = NodeEnv(clusterSpec: ClusterSpec, vars: map<string, string>)

  /** `os.environ[name]`: a missing variable is a `KeyError`. */
  function EnvVar(env: NodeEnv, name: string): (r: Result<string>)
    ensures r.Ok? <==> name in env.vars
    ensures r.Ok? ==> r.value == env.vars[name]
    ensures r.Err? ==> r.error == KeyError(name)
  {
    if name in env.vars then Ok(env.vars[name]) else Err(KeyError(name))
  }

  /** `json.loads(os.environ["CLUSTER_SPEC"])`. */
  function LoadClusterSpec(env: NodeEnv): (r: Result<Value>)
    ensures r.Ok? <==> env.clusterSpec.Decoded?
    ensures r.Ok? ==> r.value == env.clusterSpec.doc
    ensures env.clusterSpec.Absent? ==> r == Err(KeyError("CLUSTER_SPEC"))
  {
    match env.clusterSpec
    case Absent => Err(KeyError("CLUSTER_SPEC"))
    case Undecodable => Err(JsonDecodeError)
    case Decoded(doc) => Ok(doc)
  }

  /** `get_pool_number()`: `None` without CLUSTER_SPEC; otherwise
      `task.type` with every "workerpool" removed, as an integer. */
  function PoolNumber(spec: ClusterSpec): (r: Result<Option<int>>)
    ensures spec.Absent? <==> r == Ok(None)
    ensures spec.Undecodable? ==> r == Err(JsonDecodeError)
    ensures r.Ok? && r.value.Some? ==> spec.Decoded?
  {
    match spec
    case Absent => Ok(None)
    case Undecodable => Err(JsonDecodeError)
    case Decoded(doc) =>
      var task :- GetOr(doc, "task", JObj(map[]));
      var poolType :- GetOr(task, "type", JStr(""));
      if !poolType.JStr? then Err(AttributeError("replace"))
      else
        var digits := ReplaceAll(poolType.s, "workerpool", "");
        match ParseInt(digits)
        case Some(n) => Ok(Some(n))
        case None => Err(ValueError("invalid literal for int(): " + digits))
  }

  /** The CLUSTER_SPEC Vertex gives a node of worker pool `n`. */
  function SpecForPool(n: nat): ClusterSpec {
    Decoded(JObj(map["task" := JObj(map["type" := JStr("workerpool" + NatToString(n))])]))
  }

  /** A node of worker pool `n` attempts back pool number `n`. */
  lemma PoolNumberOfWorkerpool(n: nat)
    ensures PoolNumber(SpecForPool(n)) == Ok(Some(n))
  {
    var digits := NatToString(n);
    assert "workerpool"[0] !in digits by {
      assert forall k | 0 <= k < |digits| :: IsDigit(digits[k]);
    }
    ReplaceLeadingPattern("workerpool", digits);
    ParseIntToString(n);
    assert ParseInt(digits) == Some(n);
  }

  /** `DaskJob.__setstate__`: unpickling a Dask job labels its logger
      "chief" on pool 0 and "worker<n>" elsewhere; without a pool number the
      logger stays as pickled, the caller's or none. Other jobs unpickle
      unchanged. */
  function SetState(job: Job, spec: ClusterSpec): (r: Result<Job>)
    ensures !job.Dask? ==> r == Ok(job)
    ensures job.Dask? && r.Ok? ==>
      r.value.Dask? && r.value == job.(machineLabel := r.value.machineLabel)
    ensures PoolNumber(spec) == Ok(None) ==> r == Ok(job)
    ensures job.Dask? && PoolNumber(spec).Ok? && PoolNumber(spec).value.Some? ==> r.Ok? && r.value.machineLabel.Some?
    ensures job.Dask? && PoolNumber(spec) == Ok(Some(0)) ==> r == Ok(job.(machineLabel := Some("chief")))
  {
    match job
    case Dask(_, _, _, _, _) =>
      var pool :- PoolNumber(spec);
      (match pool
       case None => Ok(job)
       case Some(n) =>
         Ok(job.(machineLabel := Some(if n == 0 then "chief" else "worker" + IntToString(n)))))
    case _ => Ok(job)
  }

  /** `get_chief_ip_file()`. */
  function ChiefIpFile(storagePath: string): string {
    PathJoin(storagePath, "chief_ip.txt")
  }

  /** `get_chief_address()`: host and port joined by a colon. */
  function ChiefAddress(ip: string, port: string): (r: string)
    ensures ':' !in ip ==> SplitOnce(r, ':') == [ip, port]
  {
    var r := ip + ":" + port;
    assert ':' !in ip ==> IndexOf(r, ':') == |ip| by {
      assert forall k | 0 <= k < |ip| :: r[k] == ip[k];
      assert r[|ip|] == ':';
    }
    assert r[..|ip|] == ip && r[|ip| + 1..] == port;
    r
  }

  /** How a wait for the chief's IP file ended: the text of the read that
      found it, if any, and the number of reads made. */
  datatype Wait = Wait(found: Option<string>, attempts: nat)

  /** Reference for the worker's wait: starting at read number `start`,
      the first of `remaining` reads that finds the file ends the wait. */
  function FirstRead(read: nat -> Option<string>, start: nat, remaining: nat): (w: Wait)
    ensures w.attempts <= remaining
    ensures w.found.Some? ==> w.attempts >= 1 && read(start + w.attempts - 1) == w.found
    ensures forall k | start <= k < start + w.attempts - (if w.found.Some? then 1 else 0) :: read(k).None?
    ensures w.found.None? ==> w.attempts == remaining
    decreases remaining
  {
    if remaining == 0 then Wait(None, 0)
    else match read(start)
      case Some(text) => Wait(Some(text), 1)
      case None =>
        var rest := FirstRead(read, start + 1, remaining - 1);
        Wait(rest.found, rest.attempts + 1)
  }

  /** What `chief_ip` returns for a wait: the file's text without trailing
      newlines, or the `TimeoutError` when no read found it. */
  function ChiefIp(w: Wait): (r: Result<string>)
    ensures r.Ok? <==> w.found.Some?
    ensures r.Ok? ==> r.value == RStrip(w.found.value, '\n')
    ensures r.Err? ==> r.error == ChiefTimeout()
  {
    match w.found
    case Some(text) => Ok(RStrip(text, '\n'))
    case None => Err(ChiefTimeout())
  }

  /** The reference wait ends at the first read that finds the file. */
  lemma {:induction false} FirstReadFound(read: nat -> Option<string>, start: nat, remaining: nat, j: nat)
    requires j < remaining && read(start + j).Some?
    requires forall k | start <= k < start + j :: read(k).None?
    ensures FirstRead(read, start, remaining) == Wait(read(start + j), j + 1)
    decreases j
  {
    if j > 0 {
      assert read(start).None?;
      FirstReadFound(read, start + 1, remaining - 1, j - 1);
    }
  }

  /** The reference wait gives up after `remaining` reads that all miss. */
  lemma {:induction false} FirstReadTimeout(read: nat -> Option<string>, start: nat, remaining: nat)
    requires forall k | start <= k < start + remaining :: read(k).None?
    ensures FirstRead(read, start, remaining) == Wait(None, remaining)
    decreases remaining
  {
    if remaining > 0 {
      FirstReadTimeout(read, start + 1, remaining - 1);
    }
  }

  /** The worker side of `chief_ip`: read the chief's IP file, retrying
      after each miss, and raise `TimeoutError` once the read after the
      36th retry misses too. `read(k)` is what the k-th read finds. */
  method WaitForChiefIp(read: nat -> Option<string>, start: nat) returns (ip: Result<string>, attempts: nat)
    ensures 1 <= attempts <= MaxRetries + 1
    ensures ip.Err? <==> forall k | start <= k < start + MaxRetries + 1 :: read(k).None?
    ensures var w := FirstRead(read, start, MaxRetries + 1);
      ip == ChiefIp(w) && attempts == w.attempts
  {
    var timesTried := 0;
    while timesTried <= MaxRetries
      invariant 0 <= timesTried <= MaxRetries + 1
      invariant forall k | start <= k < start + timesTried :: read(k).None?
    {
      var found := read(start + timesTried);
      if found.Some? {
        FirstReadFound(read, start, MaxRetries + 1, timesTried);
        return Ok(RStrip(found.value, '\n')), timesTried + 1;
      }
      timesTried := timesTried + 1;
    }
    FirstReadTimeout(read, start, MaxRetries + 1);
    return Err(ChiefTimeout()), MaxRetries + 1;
  }

  /** The `dask scheduler` command the chief launches. */
  function SchedulerCommand(chiefPort: string, schedulerCliArgs: seq<string>): (cmd: seq<string>)
    ensures |cmd| == |schedulerCliArgs| + 8
    ensures cmd[..6] == ["dask", "scheduler", "--protocol", "tcp", "--port", chiefPort]
    ensures cmd[6..|cmd| - 2] == schedulerCliArgs
    ensures cmd[|cmd| - 2..] == ["--dashboard-address", ":" + VertexDashboardPort]
  {
    ["dask", "scheduler", "--protocol", "tcp", "--port", chiefPort]
      + schedulerCliArgs + ["--dashboard-address", ":" + VertexDashboardPort]
  }

  /** The `dask worker` command a worker runs against the chief's address. */
  function WorkerCommand(address: string, workerCliArgs: seq<string>): (cmd: seq<string>)
    ensures |cmd| == |workerCliArgs| + 3
    ensures cmd[..3] == ["dask", "worker", address] && cmd[3..] == workerCliArgs
  {
    ["dask", "worker", address] + workerCliArgs
  }
}

=== FILE: distributed_run.dfy ===
/** What a distributed job does on one node once the run script has loaded
    it (block_cascade/executors/vertex/distributed/distributed_job.py):
    `run_function`, `run` and the role dispatch of each job kind by worker
    pool number. */
module DistributedRun {
  import opened Wrappers
  import opened Strings
  import opened Json
  import opened Utils
  import opened DistributedJob
  import opened Codec
  import TorchJob

  /** One node as the bootstraps see it: its environment, the address
      `gethostbyname` gives for its own host, and what successive reads of
      the chief's IP file find (`None` while the file is missing). */
  datatype Node = Node(env: NodeEnv, hostIp: string, chiefIpReads: nat -> Option<string>)

  /** `run_function(dump_output)`: call the loaded function once; on
      success, and only when asked to, pickle its result to
      `{storage_path}/output.pkl`. A loaded object that is not a function
      raises when it is called; a result that cannot be pickled raises after
      the output file was created, leaving it empty. */
  function RunFunction(sem: Semantics, pickle: Pickler, func: Payload, storagePath: string, dumpOutput: bool, store: Store): (r: Step<()>)
    ensures Invocations(r.trace) == (if func.PFunc? then 1 else 0)
    ensures r.result.Ok? <==>
      CallPayload(sem, func).Ok? && (dumpOutput ==> pickle(CallPayload(sem, func).value).None?)
    ensures CallPayload(sem, func).Err? ==> r.result == Err(CallPayload(sem, func).error)
    ensures CallPayload(sem, func).Ok? && r.result.Err? ==> r.result.error == pickle(CallPayload(sem, func).value).value
    ensures var out := SlashJoin(storagePath, OutputFilename);
      dumpOutput && CallPayload(sem, func).Ok? ==>
        && r.store.Keys == store.Keys + {out}
        && (r.result.Ok? ==> Load(r.store, out) == Ok(PValue(CallPayload(sem, func).value)))
        && (r.result.Err? ==> Load(r.store, out) == Err(UnpicklingError))
    ensures !(dumpOutput && CallPayload(sem, func).Ok?) ==> r.store == store
    ensures forall p | p in store && p != SlashJoin(storagePath, OutputFilename) :: p in r.store && r.store[p] == store[p]
  {
    var called := if func.PFunc? then [Invoked] else [];
    assert Invocations(called) == (if func.PFunc? then 1 else 0) by {
      InvocationsOne(Invoked);
    }
    match CallPayload(sem, func)
    case Err(e) => Step(Err(e), store, called)
    case Ok(v) =>
      if dumpOutput then
        var out := SlashJoin(storagePath, OutputFilename);
        var saved := Dump(pickle, v, out, store);
        assert Invocations(called + saved.trace) == Invocations(called) by {
          InvocationsAppend(called, saved.trace);
          InvocationsOne(Wrote(out));
        }
        Step(saved.result, saved.store, called + saved.trace)
      else Step(Ok(()), store, called)
  }

  /** `DistributedJob._run()`: the chief (pool 0) runs the function and
      saves the output, a worker of pool 1 runs it without saving, and any
      other node (or one without a pool number) does nothing. */
  function BasicRun(sem: Semantics, pickle: Pickler, func: Payload, storagePath: string, env: NodeEnv, store: Store): (r: Step<()>)
    ensures var pool := PoolNumber(env.clusterSpec);
      Invocations(r.trace) == (if (pool == Ok(Some(0)) || pool == Ok(Some(1))) && func.PFunc? then 1 else 0)
    ensures r.store != store ==> PoolNumber(env.clusterSpec) == Ok(Some(0))
    ensures var called := CallPayload(sem, func);
      PoolNumber(env.clusterSpec) == Ok(Some(0)) && called.Ok? && pickle(called.value).None? ==>
      r.result.Ok? && Load(r.store, SlashJoin(storagePath, OutputFilename)) == Ok(PValue(CallPayload(sem, func).value))
    ensures PoolNumber(env.clusterSpec) == Ok(Some(1)) ==>
      r.store == store && (r.result.Ok? <==> CallPayload(sem, func).Ok?)
    ensures PoolNumber(env.clusterSpec).Err? ==> r.result == Err(PoolNumber(env.clusterSpec).error)
  {
    match PoolNumber(env.clusterSpec)
    case Err(e) => Step(Err(e), store, [])
    case Ok(pool) =>
      if pool == Some(0) then RunFunction(sem, pickle, func, storagePath, true, store)
      else if pool == Some(1) then RunFunction(sem, pickle, func, storagePath, false, store)
      else Step(Ok(()), store, [])
  }

  /** The chief of a Dask cluster: publish its IP in the chief IP file,
      launch the scheduler, then run the function and save its output. */
  function DaskChief(sem: Semantics, pickle: Pickler, job: Job, func: Payload, storagePath: string, hostIp: string, store: Store): (r: Step<()>)
    requires job.Dask?
    ensures |r.trace| >= (if func.PFunc? then 3 else 2)
    ensures r.trace[0] == Wrote(ChiefIpFile(storagePath))
    ensures r.trace[1] == Launched(SchedulerCommand(job.chiefPort, job.schedulerCliArgs))
    ensures Invocations(r.trace) == (if func.PFunc? then 1 else 0)
    ensures r.result == RunFunction(sem, pickle, func, storagePath, true, store[ChiefIpFile(storagePath) := Text(hostIp)]).result
    ensures ChiefIpFile(storagePath) in r.store && r.store[ChiefIpFile(storagePath)] == Text(hostIp)
  {
    var ipFile := ChiefIpFile(storagePath);
    var started := [Wrote(ipFile), Launched(SchedulerCommand(job.chiefPort, job.schedulerCliArgs))];
    var run := RunFunction(sem, pickle, func, storagePath, true, store[ipFile := Text(hostIp)]);
    ChiefIpFileIsNotOutput(storagePath);
    InvocationsAppend(started, run.trace);
    InvocationsTwo(started[0], started[1]);
    Step(run.result, run.store, started + run.trace)
  }

  /** The chief's IP file and the output are different objects. */
  lemma ChiefIpFileIsNotOutput(storagePath: string)
    ensures ChiefIpFile(storagePath) != SlashJoin(storagePath, OutputFilename)
  {
    var a, b := ChiefIpFile(storagePath), SlashJoin(storagePath, OutputFilename);
    assert EndsWith(a, "chief_ip.txt");
    assert a[|a| - 1] == 't';
    assert b[|b| - 1] == 'l';
  }

  /** A Dask worker: wait for the chief's IP file for the log line, wait
      again when building the chief's address, and run `dask worker`
      against that address. The function itself is never called here. */
  function DaskWorker(job: Job, storagePath: string, ipReads: nat -> Option<string>, store: Store): (r: Step<()>)
    requires job.Dask?
    ensures r.store == store && Invocations(r.trace) == 0
    ensures r.result.Ok? ==> |r.trace| == 3 && r.trace[2].Launched?
  {
    var (result, trace) := WorkerSteps(job, ChiefIpFile(storagePath), ipReads);
    InvocationsZero(trace);
    Step(result, store, trace)
  }

  /** The events of a worker's start: each wait, then the launch. */
  function WorkerSteps(job: Job, ipFile: string, ipReads: nat -> Option<string>): (r: (Result<()>, seq<Event>))
    requires job.Dask?
    ensures forall k | 0 <= k < |r.1| :: !r.1[k].Invoked?
    ensures r.0.Ok? ==> |r.1| == 3 && r.1[2].Launched?
  {
    var first := FirstRead(ipReads, 0, MaxRetries + 1);
    match ChiefIp(first)
    case Err(e) => (Err(e), [WaitedForFile(ipFile, first.attempts)])
    case Ok(_) =>
      var second := FirstRead(ipReads, first.attempts, MaxRetries + 1);
      var waited := [WaitedForFile(ipFile, first.attempts), WaitedForFile(ipFile, second.attempts)];
      match ChiefIp(second)
      case Err(e) => (Err(e), waited)
      case Ok(ip) =>
        (Ok(()), waited + [Launched(WorkerCommand(ChiefAddress(ip, job.chiefPort), job.workerCliArgs))])
  }

  /** A worker whose chief never publishes its IP gives up after the 37
      reads of its first wait, with the chief timeout and no command run. */
  lemma WorkerTimesOut(job: Job, storagePath: string, ipReads: nat -> Option<string>, store: Store)
    requires job.Dask?
    requires forall k | 0 <= k <= MaxRetries :: ipReads(k).None?
    ensures DaskWorker(job, storagePath, ipReads, store)
      == Step(Err(ChiefTimeout()), store, [WaitedForFile(ChiefIpFile(storagePath), MaxRetries + 1)])
  {
    FirstReadTimeout(ipReads, 0, MaxRetries + 1);
  }

  /** A worker that finds the chief's IP file on read `j` reads it again at
      once and launches `dask worker` at that IP and the chief's port. */
  lemma WorkerJoinsChief(job: Job, storagePath: string, ipReads: nat -> Option<string>, store: Store, j: nat, ip: string)
    requires job.Dask? && j <= MaxRetries
    requires forall k | 0 <= k < j :: ipReads(k).None?
    requires ipReads(j) == Some(ip) && ipReads(j + 1) == Some(ip)
    ensures var r := DaskWorker(job, storagePath, ipReads, store);
      r.result.Ok?
      && r.trace == [WaitedForFile(ChiefIpFile(storagePath), j + 1), WaitedForFile(ChiefIpFile(storagePath), 1),
                     Launched(WorkerCommand(ChiefAddress(RStrip(ip, '\n'), job.chiefPort), job.workerCliArgs))]
  {
    FirstReadFound(ipReads, 0, MaxRetries + 1, j);
    FirstReadFound(ipReads, j + 1, MaxRetries + 1, 0);
  }

  /** `DaskJob._run()`: the logger is used first, so a job with neither
      the caller's logger nor one set on unpickling fails there; then pool 0
      is the chief, pool 1 a worker, and any other pool, or none, does
      nothing. */
  function DaskRun(sem: Semantics, pickle: Pickler, job: Job, func: Payload, storagePath: string, node: Node, store: Store): (r: Step<()>)
    requires job.Dask?
    ensures !HasLogger(job) ==> r == Step(Err(AttributeError("info")), store, [])
    ensures HasLogger(job) && PoolNumber(node.env.clusterSpec) == Ok(Some(0)) ==>
      r == DaskChief(sem, pickle, job, func, storagePath, node.hostIp, store)
    ensures HasLogger(job) && PoolNumber(node.env.clusterSpec) == Ok(Some(1)) ==>
      r == DaskWorker(job, storagePath, node.chiefIpReads, store)
    ensures HasLogger(job) && PoolNumber(node.env.clusterSpec) == Ok(None) ==> r == Step(Ok(()), store, [])
    ensures Invocations(r.trace) > 0 ==> HasLogger(job) && PoolNumber(node.env.clusterSpec) == Ok(Some(0))
  {
    if !HasLogger(job) then Step(Err(AttributeError("info")), store, [])
    else match PoolNumber(node.env.clusterSpec)
      case Err(e) => Step(Err(e), store, [])
      case Ok(pool) =>
        if pool == Some(0) then DaskChief(sem, pickle, job, func, storagePath, node.hostIp, store)
        else if pool == Some(1) then DaskWorker(job, storagePath, node.chiefIpReads, store)
        else Step(Ok(()), store, [])
  }

  /** `DistributedJobBase.run(func, storage_path)`: bind the function and
      the storage path, then run the node's part of the job kind at hand. A
      PyTorch node only launches `torchrun`; the function runs in the
      processes it starts. */
  function JobRun(sem: Semantics, pickle: Pickler, job: Job, func: Payload, storagePath: string, node: Node, store: Store): (r: Step<()>)
    ensures !job.Dask? ==> r.store == store || PoolNumber(node.env.clusterSpec) == Ok(Some(0))
    ensures job.Torch? ==> r.store == store && Invocations(r.trace) == 0
    ensures job.Torch? ==> (r.result.Ok? <==> TorchJob.CliArgs(storagePath, node.env).Ok?)
  {
    match job
    case Basic => BasicRun(sem, pickle, func, storagePath, node.env, store)
    case Dask(_, _, _, _, _) => DaskRun(sem, pickle, job, func, storagePath, node, store)
    case Torch(inputDataGcsPath) =>
      var (result, trace) := TorchJob.Run(inputDataGcsPath, storagePath, node.env);
      InvocationsZero(trace);
      Step(result, store, trace)
  }

  /** Unpickled on a node without CLUSTER_SPEC, a Dask job as its caller
      built it (no label yet) keeps the logger it was given, so its run logs, finds no pool number and returns
      without calling the function or writing; without a logger of its own
      it fails at the first log call. */
  lemma DaskOffCluster(sem: Semantics, pickle: Pickler, job: Job, func: Payload, storagePath: string, node: Node, store: Store)
    requires job.Dask? && job.machineLabel.None? && node.env.clusterSpec.Absent?
    ensures SetState(job, node.env.clusterSpec) == Ok(job)
    ensures var r := JobRun(sem, pickle, job, func, storagePath, node, store);
      r == (if job.userLogger then Step(Ok(()), store, []) else Step(Err(AttributeError("info")), store, []))
  {
  }
}

=== FILE: executor.dfy ===
/** The executor base class (block_cascade/executors/executor.py): the
    storage layout of one run, staging the function, collecting and cleaning
    up its result, the function's display name, and `with_` copies. */
module BaseExecutor {
  import opened Wrappers
  import opened Strings
  import opened Json
  import opened Utils
  import opened Codec

  /** The state an executor shares with every subclass. `storageKey` is the
      `uuid4` drawn when the executor was built; the storage location is
      supplied by the concrete executor. */
  datatype Executor = Executor(func: Callable, name: Option<string>, storageKey: string)

  /** `func_name`: an explicit (non-empty) name, else the function's
      `__name__`, else "unnamed" when the function has none. */
  function FuncName(e: Executor): (r: string)
    ensures NonEmpty(e.name) ==> r == e.name.value
    ensures !NonEmpty(e.name) && Name(e.func).Some? ==> r == Name(e.func).value
    ensures !NonEmpty(e.name) && Name(e.func).None? ==> r == "unnamed"
  {
    if NonEmpty(e.name) then e.name.value
    else match Name(e.func)
      case Some(n) => n
      case None => "unnamed"
  }

  /** `storage_path`: the run's directory under the storage location. */
  function StoragePath(location: string, e: Executor): string {
    PathJoin(location, e.storageKey)
  }

  /** `output_filepath`: where the pickled result is written. */
  function OutputPath(location: string, e: Executor): string {
    PathJoin(StoragePath(location, e), OutputFilename)
  }

  /** `staged_filepath`: where the pickled function is staged. */
  function StagedPath(location: string, e: Executor): string {
    PathJoin(StoragePath(location, e), InputFilename)
  }

  /** Both files of a run live in its storage directory, under different
      names. */
  lemma RunLayout(location: string, e: Executor)
    requires e.storageKey != "" && !StartsWith(e.storageKey, "/")
    ensures StagedPath(location, e) != OutputPath(location, e)
    ensures Under(StagedPath(location, e), StoragePath(location, e))
    ensures Under(OutputPath(location, e), StoragePath(location, e))
  {
    var sp := StoragePath(location, e);
    assert sp != "" by {
      assert EndsWith(sp, e.storageKey);
    }
    assert !StartsWith(InputFilename, "/") && !StartsWith(OutputFilename, "/");
    assert InputFilename[0] != OutputFilename[0];
    PathJoinInjective(sp, InputFilename, OutputFilename);
    UnderJoin(sp, InputFilename);
    UnderJoin(sp, OutputFilename);
  }

  /** `_stage`: the pickled function is written to the staged path, and
      nothing else in storage changes. */
  function Stage(location: string, e: Executor, store: Store): (r: Store)
    ensures StagedPath(location, e) in r
    ensures Load(r, StagedPath(location, e)) == Ok(PFunc(e.func))
    ensures forall p | p in store && p != StagedPath(location, e) :: p in r && r[p] == store[p]
    ensures r.Keys == store.Keys + {StagedPath(location, e)}
  {
    store[StagedPath(location, e) := Encode(PFunc(e.func))]
  }

  /** `_stage` with the dump's outcome: `fs.open(path, "wb")` creates the
      staged file before `cloudpickle.dump` writes into it, so a function
      that cannot be pickled leaves an empty, unreadable file there and the
      error propagates. A function that pickles is staged as `Stage` says. */
  function TryStage(cloudpickle: FuncPickler, location: string, e: Executor, store: Store): (r: Step<()>)
    ensures r.result.Ok? <==> cloudpickle(e.func).None?
    ensures r.result.Ok? ==> r.store == Stage(location, e, store)
    ensures r.result.Err? ==> r.result.error == cloudpickle(e.func).value
    ensures r.result.Err? ==> Load(r.store, StagedPath(location, e)) == Err(UnpicklingError)
    ensures r.store.Keys == store.Keys + {StagedPath(location, e)}
    ensures forall p | p in store && p != StagedPath(location, e) :: r.store[p] == store[p]
    ensures r.trace == [Wrote(StagedPath(location, e))]
  {
    var staged := StagedPath(location, e);
    match cloudpickle(e.func)
    case None => Step(Ok(()), Stage(location, e, store), [Wrote(staged)])
    case Some(err) => Step(Err(err), store[staged := Text("")], [Wrote(staged)])
  }

  /** The message `_result` raises when the output is missing. */
  function MissingOutput(path: string): Error {
    FileNotFoundError("Could not find output file " + path)
  }

  /** `Executor._result`: load the output, then delete the whole run
      directory. A missing output raises with the path in the message and
      leaves storage as it was. */
  function CollectResult(location: string, e: Executor, store: Store): (r: Step<Payload>)
    ensures OutputPath(location, e) !in store ==>
      r.result == Err(MissingOutput(OutputPath(location, e))) && r.store == store && r.trace == []
    ensures r.result.Ok? ==> Load(store, OutputPath(location, e)) == r.result
    ensures r.result.Ok? ==> r.store == RemoveTree(store, StoragePath(location, e))
    ensures r.result.Ok? ==> r.trace == [Removed(StoragePath(location, e))]
  {
    var out := OutputPath(location, e);
    match Load(store, out)
    case Err(FileNotFoundError(_)) => Step(Err(MissingOutput(out)), store, [])
    case Err(err) => Step(Err(err), store, [])
    case Ok(p) =>
      var sp := StoragePath(location, e);
      Step(Ok(p), RemoveTree(store, sp), [Removed(sp)])
  }

  /** After a successful collection no file of the run is left behind. */
  lemma CollectResultCleansUp(location: string, e: Executor, store: Store)
    requires e.storageKey != "" && !StartsWith(e.storageKey, "/")
    requires CollectResult(location, e, store).result.Ok?
    ensures StagedPath(location, e) !in CollectResult(location, e, store).store
    ensures OutputPath(location, e) !in CollectResult(location, e, store).store
  {
    RunLayout(location, e);
  }

  /** One attribute `with_` may set. */
  datatype Attribute = SetFunc(f: Callable) | SetName(n: Option<string>) | SetStorageKey(k: string)

  /** `with_(**kwargs)`: a copy with the given attributes set in order. The
      copy is shallow, so unless it is set explicitly the storage key is
      shared with the original. */
  function With(e: Executor, attrs: seq<Attribute>): (r: Executor)
    ensures (forall i | 0 <= i < |attrs| :: !attrs[i].SetStorageKey?) ==> r.storageKey == e.storageKey
    ensures (forall i | 0 <= i < |attrs| :: !attrs[i].SetFunc?) ==> r.func == e.func
    ensures (forall i | 0 <= i < |attrs| :: !attrs[i].SetName?) ==> r.name == e.name
    decreases |attrs|
  {
    if |attrs| == 0 then e
    else
      var next := match attrs[0]
        case SetFunc(f) => e.(func := f)
        case SetName(n) => e.(name := n)
        case SetStorageKey(k) => e.(storageKey := k);
      With(next, attrs[1..])
  }

  /** Setting attributes in two batches is setting them all at once. */
  lemma {:induction false} WithAppend(e: Executor, a: seq<Attribute>, b: seq<Attribute>)
    ensures With(With(e, a), b) == With(e, a + b)
    decreases |a|
  {
    if |a| == 0 {
      assert a + b == b;
    } else {
      assert (a + b)[1..] == a[1..] + b;
      var next := match a[0]
        case SetFunc(f) => e.(func := f)
        case SetName(n) => e.(name := n)
        case SetStorageKey(k) => e.(storageKey := k);
      WithAppend(next, a[1..], b);
    }
  }
}

=== FILE: gcp.dfy ===
/** The environment-information providers of block_cascade/gcp/__init__.py:
    the five-getter interface that fills in a Vertex job's missing settings,
    and the client that reads those settings from a GCP VM's metadata
    server. */
module Gcp {
  import opened Wrappers
  import opened Strings
  import opened Json

  /** What one getter returns, or the exception it raises. The interface
      promises an optional string; dictionary-backed providers hand back
      whatever their dictionary holds. */
  type Answer = Result<Value>

  /** `VertexAIEnvironmentInfoProvider`: the answers of its five getters.
      Every provider of the project answers a getter the same way each time
      it is asked (caches only save fetches), so a provider is its answers. */
  datatype Provider = Provider(
    containerImage: Answer,
    network: Answer,
    project: Answer,
    region: Answer,
    serviceAccount: Answer)

  /** One reply of the metadata server: the status, the body as text, and
      the body parsed as JSON (`None` when it is not JSON). `Unreachable`
      is a connection that could not be made. */
  datatype Reply = Reply(status: int, text: string, json: Option<Value>) | Unreachable

  /** The metadata server: its reply to a GET of each URL. */
  type Server = string -> Reply

  const MetadataRoot := "http://metadata.google.internal/computeMetadata/v1/"
  /** The attributes are read recursively; `requests` encodes the flag as `True`. */
  const AttributesUrl := MetadataRoot + "instance/attributes/?recursive=True"
  const NetworkUrl := MetadataRoot + "instance/network-interfaces/0/network"
  const ProjectUrl := MetadataRoot + "project/project-id"
  const ZoneUrl := MetadataRoot + "instance/zone"
  const ServiceAccountUrl := MetadataRoot + "instance/service-accounts/default/email"

  /** A status `raise_for_status` rejects. */
  predicate ErrorStatus(status: int) {
    400 <= status < 600
  }

  /** `session.get(url)` followed by `raise_for_status()`. */
  function Fetch(server: Server, url: string): (r: Result<Reply>)
    ensures r.Ok? <==> server(url).Reply? && !ErrorStatus(server(url).status)
    ensures r.Ok? ==> r.value == server(url)
    ensures server(url).Unreachable? ==> r == Err(ConnectionError)
    ensures server(url).Reply? && ErrorStatus(server(url).status) ==> r == Err(HttpError(url))
  {
    match server(url)
    case Unreachable => Err(ConnectionError)
    case Reply(status, _, _) => if ErrorStatus(status) then Err(HttpError(url)) else Ok(server(url))
  }

  /** `get_container_image`: the `container` instance attribute. */
  function GetContainerImage(server: Server): (r: Answer)
    ensures Fetch(server, AttributesUrl).Err? ==> r == Err(Fetch(server, AttributesUrl).error)
    ensures r.Ok? <==> (Fetch(server, AttributesUrl).Ok? && server(AttributesUrl).json.Some?
                        && server(AttributesUrl).json.value.JObj? && "container" in server(AttributesUrl).json.value.fields)
    ensures r.Ok? ==> r.value == server(AttributesUrl).json.value.fields["container"]
    ensures (Fetch(server, AttributesUrl).Ok? && server(AttributesUrl).json.Some? && server(AttributesUrl).json.value.JObj?
             && "container" !in server(AttributesUrl).json.value.fields) ==> r == Err(KeyError("container"))
  {
    var reply :- Fetch(server, AttributesUrl);
    match reply.json
    case None => Err(JsonDecodeError)
    case Some(attributes) => Get(attributes, "container")
  }

  /** The network path the metadata server's `projects/<number>/networks/<name>`
      stands for. */
  function NetworkPath(project: string, network: string): string {
    "projects/" + project + "/global/networks/" + network
  }

  /** `get_network`: the reply must have exactly four slash-separated parts;
      the second and fourth are the project and the network. */
  function GetNetwork(server: Server): (r: Answer)
    ensures Fetch(server, NetworkUrl).Err? ==> r == Err(Fetch(server, NetworkUrl).error)
    ensures r.Ok? <==> Fetch(server, NetworkUrl).Ok? && |Split(server(NetworkUrl).text, '/')| == 4
    ensures Fetch(server, NetworkUrl).Ok? && |Split(server(NetworkUrl).text, '/')| != 4 ==> r.Err? && r.error.ValueError?
  {
    var reply :- Fetch(server, NetworkUrl);
    var parts := Split(reply.text, '/');
    if |parts| < 4 then Err(ValueError("not enough values to unpack (expected 4, got " + NatToString(|parts|) + ")"))
    else if |parts| > 4 then Err(ValueError("too many values to unpack (expected 4)"))
    else Ok(JStr(NetworkPath(parts[1], parts[3])))
  }

  /** `get_project`: the reply text. */
  function GetProject(server: Server): (r: Answer)
    ensures r.Ok? <==> Fetch(server, ProjectUrl).Ok?
    ensures r.Ok? ==> r.value == JStr(server(ProjectUrl).text)
  {
    var reply :- Fetch(server, ProjectUrl);
    Ok(JStr(reply.text))
  }

  /** The region of a zone path `projects/<id>/zones/<region>-<zone>`: the
      last path segment up to its last dash. */
  function RegionOfZone(zonePath: string): (r: string)
    ensures '/' !in r
  {
    var zone := AfterLast(zonePath, '/');
    var r := BeforeLast(zone, '-');
    assert '/' !in r by {
      if '-' in zone {
        var tail :| zone == r + ['-'] + tail && '-' !in tail;
        assert forall k | 0 <= k < |r| :: r[k] == zone[k];
      }
    }
    r
  }

  /** `get_region`: the region of the instance's zone. */
  function GetRegion(server: Server): (r: Answer)
    ensures r.Ok? <==> Fetch(server, ZoneUrl).Ok?
    ensures r.Ok? ==> r.value.JStr? && '/' !in r.value.s
  {
    var reply :- Fetch(server, ZoneUrl);
    Ok(JStr(RegionOfZone(reply.text)))
  }

  /** `get_service_account`: the reply text. */
  function GetServiceAccount(server: Server): (r: Answer)
    ensures r.Ok? <==> Fetch(server, ServiceAccountUrl).Ok?
    ensures r.Ok? ==> r.value == JStr(server(ServiceAccountUrl).text)
  {
    var reply :- Fetch(server, ServiceAccountUrl);
    Ok(JStr(reply.text))
  }

  /** `VMMetadataServerClient()` as a provider. */
  function MetadataProvider(server: Server): (p: Provider)
    ensures p.containerImage == GetContainerImage(server) && p.network == GetNetwork(server)
    ensures p.project == GetProject(server) && p.region == GetRegion(server)
    ensures p.serviceAccount == GetServiceAccount(server)
  {
    Provider(GetContainerImage(server), GetNetwork(server), GetProject(server), GetRegion(server), GetServiceAccount(server))
  }

  /** The zone path names the region as its last segment up to the zone
      letter: `<path>/<region>-<zone>` reads back as `<region>`, dashes
      inside the region included. */
  lemma RegionOfZonePath(path: string, region: string, zone: string)
    requires '/' !in region && '/' !in zone && '-' !in zone
    ensures RegionOfZone(path + "/" + (region + "-" + zone)) == region
  {
    var last := region + "-" + zone;
    assert '/' !in last;
    SplitAtLast(path, '/', last);
    SplitAtLast(region, '-', zone);
  }

  /** The metadata server's zone example: `us-central1-a` is in `us-central1`. */
  lemma RegionExample()
    ensures RegionOfZone("projects/123/zones" + "/" + ("us-central1" + "-" + "a")) == "us-central1"
  {
    var region := "us-central1";
    assert '/' !in region by {
      assert forall k | 0 <= k < |region| :: region[k] != '/';
    }
    RegionOfZonePath("projects/123/zones", region, "a");
  }

  /** A network reply `projects/<number>/networks/<name>` reads back as the
      global network path of that project and name. */
  lemma NetworkOfReply(server: Server, project: string, network: string)
    requires '/' !in project && '/' !in network
    requires server(NetworkUrl) == Reply(200, Join(["projects", project, "networks", network], '/'), None)
    ensures GetNetwork(server) == Ok(JStr(NetworkPath(project, network)))
  {
    var parts := ["projects", project, "networks", network];
    assert '/' !in parts[0] by {
      assert forall k | 0 <= k < |parts[0]| :: parts[0][k] != '/';
    }
    assert '/' !in parts[2] by {
      assert forall k | 0 <= k < |parts[2]| :: parts[2][k] != '/';
    }
    SplitJoin(parts, '/');
  }

  /** With no metadata server to reach (outside a GCP VM) every getter
      raises `ConnectionError`. */
  lemma UnreachableServer(server: Server)
    requires forall url :: server(url) == Unreachable
    ensures var p := MetadataProvider(server);
      p.containerImage == Err(ConnectionError) && p.network == Err(ConnectionError)
      && p.project == Err(ConnectionError) && p.region == Err(ConnectionError)
      && p.serviceAccount == Err(ConnectionError)
  {
    assert server(AttributesUrl) == Unreachable;
    assert server(NetworkUrl) == Unreachable;
    assert server(ProjectUrl) == Unreachable;
    assert server(ZoneUrl) == Unreachable;
    assert server(ServiceAccountUrl) == Unreachable;
  }
}

=== FILE: json.dfy ===
/** A JSON-shaped value tree. It stands for the request and response payloads
    the executors build and read, for parsed YAML/JSON documents, and for the
    plain Python values user functions return. */
module Json {
  import opened Wrappers
  import opened Strings

  datatype Value =
    | JNull
    | JBool(b: bool)
    | JInt(i: int)
    | JStr(s: string)
    | JList(items: seq<Value>)
    | JObj(fields: map<string, Value>)

  /** Python truthiness: `None`, `False`, `0`, `""`, `[]` and `{}` are false. */
  predicate Truthy(v: Value) {
    match v
    case JNull => false
    case JBool(b) => b
    case JInt(i) => i != 0
    case JStr(s) => s != ""
    case JList(items) => |items| > 0
    case JObj(fields) => |fields| > 0
  }

  /** `v[key]`: a missing key is a `KeyError`, a non-dict a `TypeError`. */
  function Get(v: Value, key: string): (r: Result<Value>)
    ensures r.Ok? <==> v.JObj? && key in v.fields
    ensures r.Ok? ==> r.value == v.fields[key]
    ensures v.JObj? && key !in v.fields ==> r == Err(KeyError(key))
  {
    match v
    case JObj(fields) => if key in fields then Ok(fields[key]) else Err(KeyError(key))
    case _ => Err(TypeError("object is not subscriptable"))
  }

  /** `v.get(key, default)`: only dicts have `.get`. */
  function GetOr(v: Value, key: string, default: Value): (r: Result<Value>)
    ensures r.Ok? <==> v.JObj?
    ensures v.JObj? && key in v.fields ==> r == Ok(v.fields[key])
    ensures v.JObj? && key !in v.fields ==> r == Ok(default)
  {
    match v
    case JObj(fields) => Ok(if key in fields then fields[key] else default)
    case _ => Err(AttributeError("get"))
  }

  /** An optional string as JSON: `None` becomes `null`. */
  function OfOption(o: Option<string>): (r: Value)
    ensures o.None? <==> r == JNull
    ensures o.Some? ==> r == JStr(o.value)
  {
    match o
    case Some(s) => JStr(s)
    case None => JNull
  }

  /** A list of strings as JSON. */
  function OfStrings(xs: seq<string>): (r: Value)
    ensures r.JList? && |r.items| == |xs|
    ensures forall k | 0 <= k < |xs| :: r.items[k] == JStr(xs[k])
  {
    JList(seq(|xs|, k requires 0 <= k < |xs| => JStr(xs[k])))
  }

  /** `len(v)` for the JSON kinds that have a length. */
  function Len(v: Value): (r: Result<nat>)
    ensures r.Ok? <==> v.JList? || v.JObj? || v.JStr?
    ensures v.JList? ==> r == Ok(|v.items|)
  {
    match v
    case JList(items) => Ok(|items|)
    case JObj(fields) => Ok(|fields|)
    case JStr(s) => Ok(|s|)
    case _ => Err(TypeError("object has no len()"))
  }

  /** `key in v`: a dict's keys, a list's elements, or a substring of a
      string; other values do not support `in`. */
  function In(key: string, v: Value): (r: Result<bool>)
    ensures r.Ok? <==> v.JObj? || v.JList? || v.JStr?
    ensures v.JObj? ==> r == Ok(key in v.fields)
  {
    match v
    case JObj(fields) => Ok(key in fields)
    case JList(items) => Ok(JStr(key) in items)
    case JStr(s) => Ok(Contains(s, key))
    case _ => Err(TypeError("argument of type is not iterable"))
  }

  /** `v[i]` with a non-negative integer index: lists and strings are
      indexed, a dict looks the integer up as a key (and JSON keys are
      strings, so it is missing), anything else is not subscriptable. */
  function At(v: Value, i: nat): (r: Result<Value>)
    ensures r.Ok? <==> (v.JList? && i < |v.items|) || (v.JStr? && i < |v.s|)
    ensures v.JList? && i < |v.items| ==> r == Ok(v.items[i])
    ensures v.JList? && i >= |v.items| ==> r == Err(IndexError)
  {
    match v
    case JList(items) => if i < |items| then Ok(items[i]) else Err(IndexError)
    case JStr(s) => if i < |s| then Ok(JStr([s[i]])) else Err(IndexError)
    case JObj(_) => Err(KeyError(NatToString(i)))
    case _ => Err(TypeError("object is not subscriptable"))
  }
}

=== FILE: local_executor.dfy ===
/** The local executor (block_cascade/executors/local/executor.py): it calls
    the function in-process and pickles the result to the run's output path;
    nothing is staged and nothing is deleted. */
module LocalExecutor {
  import opened Wrappers
  import opened Strings
  import opened Json
  import opened Utils
  import opened Codec
  import opened BaseExecutor

  /** `storage_location`: `~/cascade-storage/` under the given home directory. */
  function StorageLocation(home: string): (r: string)
    ensures StartsWith(r, home) && EndsWith(r, "/cascade-storage/")
  {
    var r := home + "/cascade-storage/";
    assert r[..|home|] == home;
    assert r[|r| - |"/cascade-storage/"|..] == "/cascade-storage/";
    r
  }

  /** `run()` → `_run()` → `_start()` → `_result()`: call the function once;
      on success pickle its result to the output path. A raising function
      writes nothing; a result that cannot be pickled raises after the
      output file was created, leaving it empty. */
  function Run(sem: Semantics, pickle: Pickler, e: Executor, home: string, store: Store): (r: Step<Value>)
    ensures r.result.Ok? <==> Call(sem, e.func).Ok? && pickle(Call(sem, e.func).value).None?
    ensures r.result.Ok? ==> r.result == Call(sem, e.func)
    ensures Call(sem, e.func).Err? ==> r.result == Call(sem, e.func) && r.store == store
    ensures Call(sem, e.func).Ok? && r.result.Err? ==> r.result.error == pickle(Call(sem, e.func).value).value
    ensures Invocations(r.trace) == 1
    ensures var out := OutputPath(StorageLocation(home), e);
      r.result.Ok? ==> r.store.Keys == store.Keys + {out} && Load(r.store, out) == Ok(PValue(r.result.value))
    ensures var out := OutputPath(StorageLocation(home), e);
      Call(sem, e.func).Ok? && r.result.Err? ==> r.store.Keys == store.Keys + {out} && Load(r.store, out) == Err(UnpicklingError)
    ensures forall p | p in store && p != OutputPath(StorageLocation(home), e) :: p in r.store && r.store[p] == store[p]
  {
    match Call(sem, e.func)
    case Err(err) => Step(Err(err), store, [Invoked])
    case Ok(v) =>
      var out := OutputPath(StorageLocation(home), e);
      InvokedThenWrote(out);
      var saved := Dump(pickle, v, out, store);
      Step(if saved.result.Ok? then Ok(v) else Err(saved.result.error), saved.store, [Invoked] + saved.trace)
  }

  /** A call followed by a write invokes user code once. */
  lemma InvokedThenWrote(out: string)
    ensures Invocations([Invoked, Wrote(out)]) == 1
  {
    assert [Invoked, Wrote(out)][1..] == [Wrote(out)];
    InvocationsOne(Wrote(out));
  }

  /** Running the same executor twice calls the function twice, gives the
      same result both times, and leaves storage as after the first run. */
  lemma RunTwice(sem: Semantics, pickle: Pickler, e: Executor, home: string, store: Store)
    ensures var first := Run(sem, pickle, e, home, store);
      var second := Run(sem, pickle, e, home, first.store);
      second.result == first.result
      && second.store == first.store
      && Invocations(first.trace + second.trace) == 2
  {
    var first := Run(sem, pickle, e, home, store);
    var second := Run(sem, pickle, e, home, first.store);
    InvocationsAppend(first.trace, second.trace);
    match Call(sem, e.func)
    case Err(_) =>
      assert second.store == first.store;
    case Ok(v) =>
      var out := OutputPath(StorageLocation(home), e);
      var blob := if pickle(v).None? then Encode(PValue(v)) else Text("");
      assert first.store == store[out := blob];
      assert second.store == first.store[out := blob];
      assert first.store[out] == blob;
      RewriteSame(first.store, out);
  }

  /** Writing back the bytes a path already holds leaves storage as it was. */
  lemma RewriteSame(store: Store, p: string)
    requires p in store
    ensures store[p := store[p]] == store
  {
  }

  /** A copy made by `with_()` runs exactly like the original. */
  lemma WithCopyRunsAlike(sem: Semantics, pickle: Pickler, e: Executor, home: string, store: Store)
    ensures Run(sem, pickle, With(e, []), home, store) == Run(sem, pickle, e, home, store)
  {
  }

  /** User code of the local examples: `addition(a, b)` returns `a + b`. */
  function AdditionSemantics(code: string, args: seq<Value>, kwargs: map<string, Value>): Result<Value> {
    if code == "addition" && |args| == 2 && args[0].JInt? && args[1].JInt? && |kwargs| == 0
    then Ok(JInt(args[0].i + args[1].i))
    else Err(Raised("TypeError"))
  }

  /** `LocalExecutor(func=wrapped_partial(addition, 1, 2)).run()` returns 3. */
  lemma AdditionExample(home: string, store: Store)
    ensures var addition := Function("addition", "addition", Some("tests"));
      var f := WrappedPartial(addition, [JInt(1), JInt(2)], map[]);
      f.Ok? && Run(AdditionSemantics, v => None, Executor(f.value, None, "12345"), home, store).result == Ok(JInt(3))
  {
    var addition := Function("addition", "addition", Some("tests"));
    WrappedPartialCall(AdditionSemantics, addition, [JInt(1), JInt(2)], map[]);
  }

  /** The staged path of a run keyed "12345" is
      `<home>/cascade-storage/12345/function.pkl`. */
  lemma StagedPathExample(home: string, f: Callable)
    ensures StagedPath(StorageLocation(home), Executor(f, None, "12345")) == home + "/cascade-storage/12345/function.pkl"
  {
    var sp := home + "/cascade-storage/12345";
    KeyDirectoryExample(home);
    assert !EndsWith(sp, "/") by {
      assert sp[|sp| - 1..] == "5";
    }
    assert !StartsWith(InputFilename, "/") by {
      assert InputFilename[..1] == "f";
    }
    assert PathJoin(sp, InputFilename) == sp + "/" + InputFilename;
  }

  /** The run keyed "12345" keeps its files in `<home>/cascade-storage/12345`. */
  lemma KeyDirectoryExample(home: string)
    ensures PathJoin(StorageLocation(home), "12345") == home + "/cascade-storage/12345"
  {
    var loc := StorageLocation(home);
    assert EndsWith(loc, "/") by {
      assert loc[|loc| - 1..] == "/";
    }
    assert !StartsWith("12345", "/") by {
      assert "12345"[..1] == "1";
    }
    assert PathJoin(loc, "12345") == loc + "12345";
  }
}

=== FILE: monitoring.dfy ===
/** The quota bookkeeping of block_cascade/gcp/monitoring.py: which quota
    metric each machine family and accelerator counts against, how many
    units a `GcpResource` asks for under each, how a quota reading is
    shown, and the strings the quota log line is made of. */
module Monitoring {
  import opened Wrappers
  import opened Strings
  import opened VertexResource

  const Service := "aiplatform.googleapis.com"
  const ResourceCategory := "custom_model_training"

  /** The CPU quota metric of each supported machine family; `n1` machines
      count against the plain `cpus` quota. */
  const CpuToQuota: map<string, string> := map[
    "a2" := "a2_cpus", "n1" := "cpus", "n2" := "n2_cpus",
    "c2" := "c2_cpus", "m1" := "m1_cpus", "g2" := "g2_cpus"]

  /** `_create_quota_metric_suffix_from_cpu_type`: an unsupported family
      raises `KeyError`. */
  function CpuQuotaSuffix(family: string): (r: Result<string>)
    ensures r.Ok? <==> family in {"a2", "n1", "n2", "c2", "m1", "g2"}
    ensures r.Err? ==> r == Err(KeyError(family))
    ensures r.Ok? ==> EndsWith(r.value, "cpus")
    ensures r.Ok? && family != "n1" ==> r.value == family + "_cpus"
  {
    if family in CpuToQuota then Ok(CpuToQuota[family]) else Err(KeyError(family))
  }

  /** `_create_quota_metric_suffix_from_gpu_type`: the lower-cased type
      followed by `_gpus`; every accelerator type has one. */
  function GpuQuotaSuffix(acceleratorType: string): (r: string)
    ensures EndsWith(r, "_gpus")
    ensures |r| == |acceleratorType| + 5
    ensures forall k | 0 <= k < |acceleratorType| :: r[k] == LowerChar(acceleratorType[k])
  {
    Lower(acceleratorType) + "_gpus"
  }

  /** A CPU quota and a GPU quota are never the same metric, so CPU and GPU
      amounts are never added together. */
  lemma CpuGpuDistinct(family: string, acceleratorType: string)
    requires CpuQuotaSuffix(family).Ok?
    ensures CpuQuotaSuffix(family).value != GpuQuotaSuffix(acceleratorType)
  {
    var c := CpuQuotaSuffix(family).value;
    var g := GpuQuotaSuffix(acceleratorType);
    assert c[|c| - 4] == 'c';
    assert g[|g| - 4] == 'g';
  }

  /** `_get_most_recent_point`: the first point's value, shown as
      `unlimited` above a million and as its decimal string otherwise; a
      series with no point reads `unknown`. */
  function MostRecentPoint(points: seq<int>): (r: string)
    ensures points == [] <==> r == "unknown"
    ensures points != [] && points[0] > 1000000 <==> r == "unlimited"
    ensures points != [] && points[0] <= 1000000 ==> ParseInt(r) == Some(points[0])
  {
    if points == [] then "unknown"
    else if points[0] > 1000000 then "unlimited"
    else
      var s := IntToString(points[0]);
      ParseIntToString(points[0]);
      assert s != "unknown" && s != "unlimited" by {
        assert ParseInt("unknown") == None by { assert !IsDigit("unknown"[0]); }
        assert ParseInt("unlimited") == None by { assert !IsDigit("unlimited"[0]); }
      }
      s
  }

  /** One pool's contribution to a quota: the quota metric and the amount. */
  type Contribution = (string, int)

  /** The sum of the amounts a list of contributions adds to `key`. */
  function Total(cs: seq<Contribution>, key: string): int
  {
    if cs == [] then 0
    else Total(cs[..|cs| - 1], key) + (if cs[|cs| - 1].0 == key then cs[|cs| - 1].1 else 0)
  }

  /** The `defaultdict(lambda: 0)` the `+=` loops fill in: one entry per
      metric that was added to, holding the sum of its amounts. */
  function Tally(cs: seq<Contribution>): (m: map<string, int>)
    ensures m.Keys == set k | 0 <= k < |cs| :: cs[k].0
    ensures forall key | key in m :: m[key] == Total(cs, key)
  {
    if cs == [] then map[]
    else
      var m := Tally(cs[..|cs| - 1]);
      var (key, amount) := cs[|cs| - 1];
      assert forall k | 0 <= k < |cs| - 1 :: cs[..|cs| - 1][k] == cs[k];
      assert key !in m ==> Total(cs[..|cs| - 1], key) == 0 by {
        if key !in m {
          TotalAbsent(cs[..|cs| - 1], key);
        }
      }
      m[key := (if key in m then m[key] else 0) + amount]
  }

  /** A metric no contribution names totals zero. */
  lemma {:induction false} TotalAbsent(cs: seq<Contribution>, key: string)
    requires forall k | 0 <= k < |cs| :: cs[k].0 != key
    ensures Total(cs, key) == 0
  {
    if cs != [] {
      TotalAbsent(cs[..|cs| - 1], key);
    }
  }

  /** `cpu_type, _, num_cores = str.split(pool.type, "-")` followed by the
      `+=` for that pool: the family's quota metric is looked up before the
      core count is parsed, and the amount is cores times machines. */
  function CpuContribution(pool: Machine): (r: Result<Contribution>)
    ensures r.Ok? <==> (|Split(pool.machineType, '-')| == 3
                        && CpuQuotaSuffix(Split(pool.machineType, '-')[0]).Ok?
                        && ParseInt(Split(pool.machineType, '-')[2]).Some?)
    ensures r.Ok? ==> r.value == (CpuQuotaSuffix(Split(pool.machineType, '-')[0]).value,
                                  ParseInt(Split(pool.machineType, '-')[2]).value * pool.count)
  {
    var parts := Split(pool.machineType, '-');
    if |parts| < 3 then Err(ValueError("not enough values to unpack (expected 3, got " + NatToString(|parts|) + ")"))
    else if |parts| > 3 then Err(ValueError("too many values to unpack (expected 3)"))
    else
      var suffix :- CpuQuotaSuffix(parts[0]);
      match ParseInt(parts[2])
      case None => Err(ValueError("invalid literal for int() with base 10: '" + parts[2] + "'"))
      case Some(cores) => Ok((suffix, cores * pool.count))
  }

  /** The pools whose machines count against CPU quotas: the chief, and the
      workers when there are any. */
  function CpuPools(r: GcpResource): seq<Machine> {
    [r.chief] + (match r.workers case Some(w) => [w] case None => [])
  }

  /** The accelerators that count against GPU quotas: the chief's and the
      workers', once each, whatever the number of machines. */
  function GpuContributions(r: GcpResource): (cs: seq<Contribution>)
    ensures |cs| <= 2
    ensures forall k | 0 <= k < |cs| :: EndsWith(cs[k].0, "_gpus")
  {
    (match r.chief.accelerator case Some(a) => [(GpuQuotaSuffix(a.acceleratorType), a.count)] case None => [])
    + (match r.workers
       case Some(w) => (match w.accelerator case Some(a) => [(GpuQuotaSuffix(a.acceleratorType), a.count)] case None => [])
       case None => [])
  }

  /** The CPU contributions of the pools, in order; the first pool that
      fails stops the loop. */
  function CpuContributions(pools: seq<Machine>): (r: Result<seq<Contribution>>)
    ensures r.Ok? <==> forall k | 0 <= k < |pools| :: CpuContribution(pools[k]).Ok?
    ensures r.Ok? ==> |r.value| == |pools| && forall k | 0 <= k < |pools| :: r.value[k] == CpuContribution(pools[k]).value
    ensures r.Ok? ==> forall k | 0 <= k < |r.value| :: EndsWith(r.value[k].0, "cpus")
  {
    if pools == [] then Ok([])
    else
      var first :- CpuContribution(pools[0]);
      var rest :- CpuContributions(pools[1..]);
      assert forall k | 1 <= k < |pools| :: pools[k] == pools[1..][k - 1];
      Ok([first] + rest)
  }

  /** `_get_resources_by_metric`: the units a resource asks for under each
      quota metric, CPUs first. */
  function ResourcesByMetric(r: GcpResource): (m: Result<map<string, int>>)
    ensures m.Ok? <==> forall k | 0 <= k < |CpuPools(r)| :: CpuContribution(CpuPools(r)[k]).Ok?
    ensures m.Ok? ==> m.value == Tally(CpuContributions(CpuPools(r)).value + GpuContributions(r))
  {
    var cpus :- CpuContributions(CpuPools(r));
    Ok(Tally(cpus + GpuContributions(r)))
  }

  /** Only CPU contributions add to a CPU quota. */
  lemma {:induction false} TotalIgnoresOtherKeys(cs: seq<Contribution>, ds: seq<Contribution>, key: string)
    requires forall k | 0 <= k < |ds| :: ds[k].0 != key
    ensures Total(cs + ds, key) == Total(cs, key)
    decreases |ds|
  {
    if ds != [] {
      var front := ds[..|ds| - 1];
      assert (cs + ds)[..|cs + ds| - 1] == cs + front;
      TotalIgnoresOtherKeys(cs, front, key);
    } else {
      assert cs + ds == cs;
    }
  }

  /** The GPU amounts are the accelerators' own counts: changing how many
      machines a pool has changes no GPU quota. */
  lemma GpuIgnoresReplicaCount(r: GcpResource, count: int, acceleratorType: string)
    requires ResourcesByMetric(r).Ok? && ResourcesByMetric(r.(chief := r.chief.(count := count))).Ok?
    ensures var key := GpuQuotaSuffix(acceleratorType);
      var before := ResourcesByMetric(r).value;
      var after := ResourcesByMetric(r.(chief := r.chief.(count := count))).value;
      (key in before <==> key in after) && (key in before ==> before[key] == after[key])
  {
    var key := GpuQuotaSuffix(acceleratorType);
    var r' := r.(chief := r.chief.(count := count));
    var cpu := CpuContributions(CpuPools(r)).value;
    var cpu' := CpuContributions(CpuPools(r')).value;
    var gpu := GpuContributions(r);
    assert GpuContributions(r') == gpu;
    forall k | 0 <= k < |cpu| ensures cpu[k].0 != key {
      assert EndsWith(cpu[k].0, "cpus");
      assert CpuContribution(CpuPools(r)[k]).Ok?;
      var fam := Split(CpuPools(r)[k].machineType, '-')[0];
      CpuGpuDistinct(fam, acceleratorType);
    }
    forall k | 0 <= k < |cpu'| ensures cpu'[k].0 != key {
      assert CpuContribution(CpuPools(r')[k]).Ok?;
      var fam := Split(CpuPools(r')[k].machineType, '-')[0];
      CpuGpuDistinct(fam, acceleratorType);
    }
    TotalGpuOnly(cpu, gpu, key);
    TotalGpuOnly(cpu', gpu, key);
    KeysOfAppend(cpu, gpu, key);
    KeysOfAppend(cpu', gpu, key);
  }

  /** The total of a GPU metric over CPU contributions followed by GPU ones
      is the GPU ones' total. */
  lemma {:induction false} TotalGpuOnly(cpu: seq<Contribution>, gpu: seq<Contribution>, key: string)
    requires forall k | 0 <= k < |cpu| :: cpu[k].0 != key
    ensures Total(cpu + gpu, key) == Total(gpu, key)
    decreases |gpu|
  {
    if gpu == [] {
      assert cpu + gpu == cpu;
      TotalIgnoresOtherKeys([], cpu, key);
      assert [] + cpu == cpu;
    } else {
      var front := gpu[..|gpu| - 1];
      assert (cpu + gpu)[..|cpu + gpu| - 1] == cpu + front;
      TotalGpuOnly(cpu, front, key);
    }
  }

  /** A key that no CPU contribution has is in the tally exactly when a GPU
      contribution has it. */
  lemma KeysOfAppend(cpu: seq<Contribution>, gpu: seq<Contribution>, key: string)
    requires forall k | 0 <= k < |cpu| :: cpu[k].0 != key
    ensures key in Tally(cpu + gpu) <==> exists k | 0 <= k < |gpu| :: gpu[k].0 == key
  {
    var cs := cpu + gpu;
    if exists k | 0 <= k < |gpu| :: gpu[k].0 == key {
      var k :| 0 <= k < |gpu| && gpu[k].0 == key;
      assert cs[|cpu| + k].0 == key;
    }
    if key in Tally(cs) {
      var j :| 0 <= j < |cs| && cs[j].0 == key;
      assert j >= |cpu|;
      assert gpu[j - |cpu|].0 == key;
    }
  }

  /** A chief-only resource of `<family>-<kind>-<cores>` machines asks for
      cores times machines under its family's CPU quota, and for nothing
      else. */
  lemma ChiefOnlyCpuTotal(r: GcpResource, family: string, kind: string, cores: nat)
    requires r.workers.None? && r.chief.accelerator.None?
    requires '-' !in family && '-' !in kind && CpuQuotaSuffix(family).Ok?
    requires r.chief.machineType == Join([family, kind, NatToString(cores)], '-')
    ensures ResourcesByMetric(r) == Ok(map[CpuQuotaSuffix(family).value := cores * r.chief.count])
  {
    var c := (CpuQuotaSuffix(family).value, cores * r.chief.count);
    ChiefContribution(r.chief, family, kind, cores);
    assert CpuPools(r) == [r.chief];
    assert CpuContributions([r.chief]) == Ok([c]) by {
      var pools := [r.chief];
      assert forall k | 0 <= k < |pools| :: CpuContribution(pools[k]).Ok?;
      var cs := CpuContributions(pools).value;
      assert |cs| == 1 && cs[0] == c;
      assert cs == [c];
    }
    assert GpuContributions(r) == [];
    assert [c] + [] == [c];
    assert Tally([c]) == map[c.0 := c.1] by {
      assert [c][..0] == [];
    }
  }

  /** The CPU contribution of one `<family>-<kind>-<cores>` pool. */
  lemma ChiefContribution(pool: Machine, family: string, kind: string, cores: nat)
    requires '-' !in family && '-' !in kind && CpuQuotaSuffix(family).Ok?
    requires pool.machineType == Join([family, kind, NatToString(cores)], '-')
    ensures CpuContribution(pool) == Ok((CpuQuotaSuffix(family).value, cores * pool.count))
  {
    var digits := NatToString(cores);
    assert '-' !in digits by {
      assert forall k | 0 <= k < |digits| :: IsDigit(digits[k]);
    }
    SplitJoin([family, kind, digits], '-');
    ParseIntToString(cores);
    assert IntToString(cores) == digits;
  }

  /** The unit shown in the log line: the metric without one trailing `s`.
      An empty metric has no last character. */
  function LogUnit(suffix: string): (r: Result<string>)
    ensures r.Ok? <==> suffix != []
    ensures r.Ok? ==> r.value + (if EndsWith(suffix, "s") then "s" else "") == suffix
  {
    if suffix == [] then Err(IndexError)
    else if suffix[|suffix| - 1] == 's' then Ok(suffix[..|suffix| - 1])
    else Ok(suffix)
  }

  /** The quota metric queried for a suffix. */
  function QuotaMetric(suffix: string): (r: string)
    ensures StartsWith(r, Service + "/" + ResourceCategory + "_")
    ensures r[|Service + "/" + ResourceCategory + "_"|..] == suffix
  {
    var prefix := Service + "/" + ResourceCategory + "_";
    var r := prefix + suffix;
    assert r[..|prefix|] == prefix;
    assert r[|prefix|..] == suffix;
    r
  }

  /** Different suffixes are different metrics. */
  lemma QuotaMetricInjective(a: string, b: string)
    requires QuotaMetric(a) == QuotaMetric(b)
    ensures a == b
  {
  }

  /** The first sentence of a quota log line. */
  function ConsumptionMessage(amount: int, suffix: string): (r: Result<string>)
    ensures r.Ok? <==> suffix != []
  {
    var unit :- LogUnit(suffix);
    Ok("VertexJob will consume " + IntToString(amount) + " " + unit + " resources.")
  }

  /** The `n1` CPU quota's log unit is `cpu`, a GPU quota's `<type>_gpu`. */
  lemma LogUnitExamples(acceleratorType: string)
    ensures LogUnit("cpus") == Ok("cpu")
    ensures LogUnit(GpuQuotaSuffix(acceleratorType)) == Ok(Lower(acceleratorType) + "_gpu")
  {
    assert "cpus"[..3] == "cpu";
    var g := GpuQuotaSuffix(acceleratorType);
    assert g[..|g| - 1] == Lower(acceleratorType) + "_gpu";
  }
}

=== FILE: prefect.dfy ===
/** The Prefect 2 helpers of block_cascade/prefect/v2/__init__.py: reading
    run metadata from the flow and task contexts, the module-wide caches of
    the current deployment and its storage block, and whether the code runs
    from a deployment. The Prefect API is an oracle; every request made to
    it is recorded. */
module Prefect {
  import opened Wrappers
  import opened Strings
  import opened Json

  /** A flow run or task run as a run context exposes it. */
  datatype RunInfo = RunInfo(name: string, id: string)

  /** The flow-run and task-run contexts: each may be missing, and a
      present context may hold no run. */
  datatype RunContexts = RunContexts(flow: Option<Option<RunInfo>>, task: Option<Option<RunInfo>>)

  /** `str(getattr(run, "name", default))`: a missing run has no name. */
  function NameOr(run: Option<RunInfo>, default: string): string {
    match run
    case Some(r) => r.name
    case None => default
  }

  /** `str(getattr(run, "id", default))`. */
  function IdOr(run: Option<RunInfo>, default: string): string {
    match run
    case Some(r) => r.id
    case None => default
  }

  /** The attribute names `get_from_prefect_context` knows. */
  predicate SupportedAttribute(attr: string) {
    attr in {"flow_name", "flow_run_name", "flow_id", "flow_run_id", "task_run", "task_full_name", "task_run_id"}
  }

  /** `get_from_prefect_context(attr, default)` as written: an unknown
      attribute raises a `RuntimeError` whose message is the literal text
      `Unsupported attribute: {attr}.`, because the string lacks its `f`
      prefix. */
  function GetFromPrefectContextAsWritten(ctx: RunContexts, attr: string, default: string): (r: Result<string>)
    ensures r.Err? ==> r.error == RuntimeError("Unsupported attribute: {attr}.")
    ensures r == Err(RuntimeError("Unsupported attribute: {attr}."))
            || r == GetFromPrefectContext(ctx, attr, default)
  {
    if ctx.flow.None? || ctx.task.None? then Ok(default)
    else if attr == "flow_name" || attr == "flow_run_name" then Ok(NameOr(ctx.flow.value, default))
    else if attr == "flow_id" || attr == "flow_run_id" then Ok(IdOr(ctx.flow.value, default))
    else if attr == "task_run" || attr == "task_full_name" then Ok(NameOr(ctx.task.value, default))
    else if attr == "task_run_id" then Ok(IdOr(ctx.task.value, default))
    else Err(RuntimeError("Unsupported attribute: {attr}."))
  }

  /** The message the unsupported-attribute error evidently means to carry. */
  function UnsupportedAttributeMessage(attr: string): string {
    "Unsupported attribute: " + attr + "."
  }

  /** `get_from_prefect_context(attr, default)` with the message
      interpolated: the default whenever either context is missing (checked
      before the attribute is), else the named field of the flow run or
      task run under its two aliases, else a `RuntimeError` naming the
      attribute. */
  function GetFromPrefectContext(ctx: RunContexts, attr: string, default: string): (r: Result<string>)
    ensures ctx.flow.None? || ctx.task.None? ==> r == Ok(default)
    ensures ctx.flow.Some? && ctx.task.Some? ==> (r.Ok? <==> SupportedAttribute(attr))
    ensures r.Err? ==> r.error == RuntimeError(UnsupportedAttributeMessage(attr))
    ensures ctx.flow.Some? && ctx.task.Some? && (attr == "flow_name" || attr == "flow_run_name") ==>
      r == Ok(NameOr(ctx.flow.value, default))
    ensures ctx.flow.Some? && ctx.task.Some? && (attr == "flow_id" || attr == "flow_run_id") ==>
      r == Ok(IdOr(ctx.flow.value, default))
    ensures ctx.flow.Some? && ctx.task.Some? && (attr == "task_run" || attr == "task_full_name") ==>
      r == Ok(NameOr(ctx.task.value, default))
    ensures ctx.flow.Some? && ctx.task.Some? && attr == "task_run_id" ==> r == Ok(IdOr(ctx.task.value, default))
  {
    if ctx.flow.None? || ctx.task.None? then Ok(default)
    else if attr == "flow_name" || attr == "flow_run_name" then Ok(NameOr(ctx.flow.value, default))
    else if attr == "flow_id" || attr == "flow_run_id" then Ok(IdOr(ctx.flow.value, default))
    else if attr == "task_run" || attr == "task_full_name" then Ok(NameOr(ctx.task.value, default))
    else if attr == "task_run_id" then Ok(IdOr(ctx.task.value, default))
    else Err(RuntimeError(UnsupportedAttributeMessage(attr)))
  }

  /** The as-written error does not name the attribute: asked for `flow`
      inside a run, it reports the placeholder text instead, while the
      corrected message names `flow`. */
  lemma UnsupportedAttributeNotNamed()
    ensures var ctx := RunContexts(Some(None), Some(None));
      GetFromPrefectContextAsWritten(ctx, "flow", "LOCAL") == Err(RuntimeError("Unsupported attribute: {attr}."))
      && GetFromPrefectContext(ctx, "flow", "LOCAL") == Err(RuntimeError("Unsupported attribute: flow."))
      && "Unsupported attribute: {attr}." != "Unsupported attribute: flow."
  {
    var ctx := RunContexts(Some(None), Some(None));
    assert !SupportedAttribute("flow");
    assert "Unsupported attribute: {attr}."[23] == '{';
    assert "Unsupported attribute: flow."[23] == 'f';
  }

  /** The corrected error names the attribute that was asked for: it can
      be read back from the message. */
  lemma UnsupportedAttributeNamed(attr: string)
    ensures var m := UnsupportedAttributeMessage(attr);
      |m| == |"Unsupported attribute: "| + |attr| + 1 && m[|"Unsupported attribute: "|..|m| - 1] == attr
  {
  }

  /** A deployment as the API returns it: its job variables, the documents
      of its infrastructure and storage blocks, and its pull steps. */
  datatype Deployment = Deployment(
    jobVariables: Value,
    infrastructureDocumentId: string,
    storageDocumentId: string,
    pullSteps: Value)

  /** A block document; its settings are in `data`. */
  datatype Block = Block(data: Value)

  /** The Prefect API: reading a deployment, a block document by id, and a
      block document by name. */
  datatype Api = Api(
    readDeployment: string -> Result<Deployment>,
    readBlock: string -> Result<Option<Block>>,
    readBlockByName: Value -> Result<Option<Block>>)

  /** A request made to the API. */
  datatype Request = ReadDeployment(id: string) | ReadBlock(blockId: string) | ReadBlockByName(name: Value, blockType: string)

  /** The module-wide caches `_CACHED_DEPLOYMENT` and `_CACHED_STORAGE`. */
  datatype Cache = Cache(deployment: Option<Deployment>, storage: Option<Block>)

  /** What one call returns, the caches after it, and the requests it made. */
  datatype Outcome<T> = Outcome(result: Result<T>, cache: Cache, requests: seq<Request>)

  /** `runtime.deployment.id` names a deployment only when it is set and non-empty. */
  predicate HasDeployment(deploymentId: Option<string>) {
    deploymentId.Some? && deploymentId.value != ""
  }

  /** `get_current_deployment()`: `None` without a deployment id; otherwise
      the cached deployment, fetched on first use. The cache is module-wide
      and is not keyed by the id. */
  function GetCurrentDeployment(deploymentId: Option<string>, api: Api, cache: Cache): (o: Outcome<Option<Deployment>>)
    ensures !HasDeployment(deploymentId) ==> o == Outcome(Ok(None), cache, [])
    ensures HasDeployment(deploymentId) && cache.deployment.Some? ==> o == Outcome(Ok(cache.deployment), cache, [])
    ensures HasDeployment(deploymentId) && cache.deployment.None? ==>
      o.requests == [ReadDeployment(deploymentId.value)]
      && (o.result.Ok? <==> api.readDeployment(deploymentId.value).Ok?)
      && (o.result.Ok? ==> (o.result.value == Some(api.readDeployment(deploymentId.value).value)
                            && o.cache == cache.(deployment := o.result.value)))
      && (o.result.Err? ==> o.cache == cache)
    ensures o.result.Ok? && o.result.value.Some? ==> o.cache.deployment == o.result.value
  {
    if !HasDeployment(deploymentId) then Outcome(Ok(None), cache, [])
    else if cache.deployment.Some? then Outcome(Ok(cache.deployment), cache, [])
    else
      var id := deploymentId.value;
      match api.readDeployment(id)
      case Err(e) => Outcome(Err(e), cache, [ReadDeployment(id)])
      case Ok(d) => Outcome(Ok(Some(d)), cache.(deployment := Some(d)), [ReadDeployment(id)])
  }

  /** The key of the first pull step that names the storage block. */
  const PullWithBlock := "prefect.deployments.steps.pull_with_block"

  /** The block type a storage block is looked up under by name. */
  const StorageBlockType := "gcs-bucket"

  /** `pull_steps[0][PullWithBlock]["block_document_name"]`. */
  function StorageBlockName(pullSteps: Value): (r: Result<Value>)
    ensures pullSteps.JList? && |pullSteps.items| > 0 && pullSteps.items[0].JObj?
      && PullWithBlock in pullSteps.items[0].fields
      && pullSteps.items[0].fields[PullWithBlock].JObj?
      && "block_document_name" in pullSteps.items[0].fields[PullWithBlock].fields
      ==> r == Ok(pullSteps.items[0].fields[PullWithBlock].fields["block_document_name"])
  {
    var step :- At(pullSteps, 0);
    var pull :- Get(step, PullWithBlock);
    Get(pull, "block_document_name")
  }

  /** `get_storage_block()`: `None` without a deployment; otherwise the
      cached block, fetched on first use by the name in the first pull step
      when there are pull steps, else by the deployment's storage document.
      A fetch that finds no block leaves the cache empty. */
  function GetStorageBlock(deploymentId: Option<string>, api: Api, cache: Cache): (o: Outcome<Option<Block>>)
    ensures !HasDeployment(deploymentId) ==> o == Outcome(Ok(None), cache, [])
    ensures HasDeployment(deploymentId) && cache.deployment.Some? && cache.storage.Some? ==>
      o == Outcome(Ok(cache.storage), cache, [])
    ensures o.result.Ok? && o.result.value.Some? ==> o.cache.storage == o.result.value
  {
    var current := GetCurrentDeployment(deploymentId, api, cache);
    match current.result
    case Err(e) => Outcome(Err(e), current.cache, current.requests)
    case Ok(None) => Outcome(Ok(None), current.cache, current.requests)
    case Ok(Some(d)) =>
      var c := current.cache;
      if c.storage.Some? then Outcome(Ok(c.storage), c, current.requests)
      else if Truthy(d.pullSteps) then
        match StorageBlockName(d.pullSteps)
        case Err(e) => Outcome(Err(e), c, current.requests)
        case Ok(name) =>
          var reqs := current.requests + [ReadBlockByName(name, StorageBlockType)];
          match api.readBlockByName(name)
          case Err(e) => Outcome(Err(e), c, reqs)
          case Ok(b) => Outcome(Ok(b), c.(storage := b), reqs)
      else
        var reqs := current.requests + [ReadBlock(d.storageDocumentId)];
        match api.readBlock(d.storageDocumentId)
        case Err(e) => Outcome(Err(e), c, reqs)
        case Ok(b) => Outcome(Ok(b), c.(storage := b), reqs)
  }

  /** `is_prefect_cloud_deployment()`: the deployment id is set. */
  predicate IsPrefectCloudDeployment(deploymentId: Option<string>) {
    deploymentId.Some?
  }

  /** An empty deployment id counts as a cloud deployment, yet no
      deployment is read for it: the two checks disagree on `""`. */
  lemma EmptyDeploymentId(api: Api, cache: Cache)
    ensures IsPrefectCloudDeployment(Some(""))
    ensures GetCurrentDeployment(Some(""), api, cache) == Outcome(Ok(None), cache, [])
    ensures GetStorageBlock(Some(""), api, cache) == Outcome(Ok(None), cache, [])
  {
  }

  /** The deployment is read at most once: a second call after a successful
      first one makes no request and returns the same deployment, even for
      another deployment id. */
  lemma DeploymentReadOnce(id: Option<string>, otherId: Option<string>, api: Api, cache: Cache)
    requires HasDeployment(id) && HasDeployment(otherId)
    requires GetCurrentDeployment(id, api, cache).result.Ok?
    ensures var first := GetCurrentDeployment(id, api, cache);
      var second := GetCurrentDeployment(otherId, api, first.cache);
      second.requests == [] && second.result == first.result && second.cache == first.cache
      && |first.requests| <= 1
  {
  }

  /** The storage block is read at most once: once a block was found, a
      second call makes no request and returns it again. */
  lemma StorageBlockReadOnce(id: Option<string>, api: Api, cache: Cache)
    requires HasDeployment(id)
    requires GetStorageBlock(id, api, cache).result.Ok? && GetStorageBlock(id, api, cache).result.value.Some?
    ensures var first := GetStorageBlock(id, api, cache);
      var second := GetStorageBlock(id, api, first.cache);
      second.requests == [] && second.result == first.result
  {
    var first := GetStorageBlock(id, api, cache);
    assert first.cache.storage == first.result.value;
    var current := GetCurrentDeployment(id, api, cache);
    assert current.result.Ok? && current.result.value.Some?;
    assert first.cache.deployment.Some?;
  }

  /** With pull steps the block is looked up by the name in the first step,
      as a `gcs-bucket`; without them by the storage document id. */
  lemma StorageBlockRequest(id: Option<string>, api: Api, d: Deployment, name: string)
    requires HasDeployment(id) && api.readDeployment(id.value) == Ok(d)
    ensures var o := GetStorageBlock(id, api, Cache(None, None));
      (d.pullSteps == JList([JObj(map[PullWithBlock := JObj(map["block_document_name" := JStr(name)])])]) ==>
        o.requests == [ReadDeployment(id.value), ReadBlockByName(JStr(name), StorageBlockType)]
        && o.result == api.readBlockByName(JStr(name)))
      && (!Truthy(d.pullSteps) ==>
        o.requests == [ReadDeployment(id.value), ReadBlock(d.storageDocumentId)]
        && o.result == api.readBlock(d.storageDocumentId))
  {
    var current := GetCurrentDeployment(id, api, Cache(None, None));
    assert current.result == Ok(Some(d));
    assert current.requests == [ReadDeployment(id.value)];
  }
}

=== FILE: prefect_environment.dfy ===
/** The Prefect environment clients (block_cascade/prefect/v2/environment.py
    and block_cascade/prefect/v3/environment.py): providers that read a
    Vertex job's settings from the current deployment's job variables and,
    under Prefect 2 only, from its infrastructure block. */
module PrefectEnvironment {
  import opened Wrappers
  import opened Json
  import opened Prefect
  import Gcp

  /** The five settings a provider answers. */
  datatype Field = Image | Network | Project | Region | ServiceAccount

  /** A client's caches: the deployment, its job variables and its
      infrastructure block. */
  datatype Client = Client(deployment: Option<Deployment>, jobVariables: Value, infrastructure: Option<Block>)

  /** A newly constructed client. */
  const Fresh := Client(None, JNull, None)

  /** What one call returns, the client after it, and the requests it made. */
  datatype Step<T> = Step(result: Result<T>, client: Client, requests: seq<Request>)

  /** `_get_current_deployment()`: the same lookup as the module-wide one,
      cached on the client. */
  function CurrentDeployment(id: Option<string>, api: Api, c: Client): (s: Step<Option<Deployment>>)
    ensures !HasDeployment(id) ==> s == Step(Ok(None), c, [])
    ensures HasDeployment(id) && c.deployment.Some? ==> s == Step(Ok(c.deployment), c, [])
    ensures HasDeployment(id) && c.deployment.None? ==>
      s.requests == [ReadDeployment(id.value)]
      && (api.readDeployment(id.value).Ok? ==>
            s.result == Ok(Some(api.readDeployment(id.value).value)) && s.client == c.(deployment := s.result.value))
      && (api.readDeployment(id.value).Err? ==> s == Step(Err(api.readDeployment(id.value).error), c, s.requests))
  {
    var o := GetCurrentDeployment(id, api, Cache(c.deployment, None));
    Step(o.result, c.(deployment := o.cache.deployment), o.requests)
  }

  /** `_get_job_variables()`: the deployment's job variables (`None` without
      a deployment), cached unless they are empty. */
  function JobVariables(id: Option<string>, api: Api, c: Client): (s: Step<Value>)
    ensures var cur := CurrentDeployment(id, api, c);
      s.requests == cur.requests
      && (cur.result.Err? ==> s.result == Err(cur.result.error))
      && (cur.result == Ok(None) ==> s.result == Ok(JNull))
      && (cur.result.Ok? && cur.result.value.Some? ==>
            s.client.deployment == cur.client.deployment && s.client.infrastructure == c.infrastructure
            && (Truthy(c.jobVariables) ==> s.result == Ok(c.jobVariables))
            && (!Truthy(c.jobVariables) ==> s.result == Ok(cur.result.value.value.jobVariables)))
  {
    var cur := CurrentDeployment(id, api, c);
    match cur.result
    case Err(e) => Step(Err(e), cur.client, cur.requests)
    case Ok(None) => Step(Ok(JNull), cur.client, cur.requests)
    case Ok(Some(d)) =>
      var c' := if Truthy(cur.client.jobVariables) then cur.client else cur.client.(jobVariables := d.jobVariables);
      Step(Ok(c'.jobVariables), c', cur.requests)
  }

  /** `_get_infrastructure_block()`: the deployment's infrastructure block
      (`None` without a deployment), fetched on first use; a fetch that
      finds no block is tried again next time. */
  function Infrastructure(id: Option<string>, api: Api, c: Client): (s: Step<Option<Block>>)
    ensures var cur := CurrentDeployment(id, api, c);
      (cur.result.Err? ==> s.result == Err(cur.result.error) && s.requests == cur.requests)
      && (cur.result == Ok(None) ==> s.result == Ok(None) && s.requests == cur.requests)
      && (cur.result.Ok? && cur.result.value.Some? && c.infrastructure.Some? ==>
            s == Step(Ok(c.infrastructure), cur.client, cur.requests))
      && (cur.result.Ok? && cur.result.value.Some? && c.infrastructure.None? ==>
            var blockId := cur.result.value.value.infrastructureDocumentId;
            s.requests == cur.requests + [ReadBlock(blockId)]
            && s.result == api.readBlock(blockId)
            && s.client.deployment == cur.client.deployment && s.client.jobVariables == c.jobVariables
            && (s.result.Ok? ==> s.client.infrastructure == s.result.value))
  {
    var cur := CurrentDeployment(id, api, c);
    match cur.result
    case Err(e) => Step(Err(e), cur.client, cur.requests)
    case Ok(None) => Step(Ok(None), cur.client, cur.requests)
    case Ok(Some(d)) =>
      if cur.client.infrastructure.Some? then Step(Ok(cur.client.infrastructure), cur.client, cur.requests)
      else
        var reqs := cur.requests + [ReadBlock(d.infrastructureDocumentId)];
        match api.readBlock(d.infrastructureDocumentId)
        case Err(e) => Step(Err(e), cur.client, reqs)
        case Ok(b) => Step(Ok(b), cur.client.(infrastructure := b), reqs)
  }

  /** A setting read from non-empty job variables: the project sits under
      `credentials` and the service account is `service_account_name`; a
      missing key is `None`. */
  function JobVariableOf(field: Field, jv: Value): (r: Result<Value>)
    requires jv.JObj?
    ensures field == Image ==> r == Ok(if "image" in jv.fields then jv.fields["image"] else JNull)
    ensures field == Network ==> r == Ok(if "network" in jv.fields then jv.fields["network"] else JNull)
    ensures field == Region ==> r == Ok(if "region" in jv.fields then jv.fields["region"] else JNull)
    ensures field == ServiceAccount ==>
      r == Ok(if "service_account_name" in jv.fields then jv.fields["service_account_name"] else JNull)
    ensures field == Project ==>
      r == (if "credentials" !in jv.fields then Ok(JNull) else GetOr(jv.fields["credentials"], "project", JNull))
  {
    match field
    case Image => GetOr(jv, "image", JNull)
    case Network => GetOr(jv, "network", JNull)
    case Project =>
      var credentials := if "credentials" in jv.fields then jv.fields["credentials"] else JObj(map[]);
      GetOr(credentials, "project", JNull)
    case Region => GetOr(jv, "region", JNull)
    case ServiceAccount => GetOr(jv, "service_account_name", JNull)
  }

  /** The same setting read from job variables of any shape: non-dict
      variables have no `get`. */
  function JobVariable(field: Field, jv: Value): (r: Result<Value>)
    ensures jv.JObj? ==> r == JobVariableOf(field, jv)
    ensures !jv.JObj? ==> r == Err(AttributeError("get"))
  {
    if jv.JObj? then JobVariableOf(field, jv) else Err(AttributeError("get"))
  }

  /** A setting read from the infrastructure block's data: the project sits
      under `gcp_credentials` and the service account is `service_account`. */
  function InfrastructureOf(field: Field, data: Value): (r: Result<Value>)
    ensures !data.JObj? ==> r == Err(AttributeError("get"))
    ensures data.JObj? && field == ServiceAccount ==>
      r == Ok(if "service_account" in data.fields then data.fields["service_account"] else JNull)
    ensures data.JObj? && field == Project ==>
      r == (if "gcp_credentials" !in data.fields then Ok(JNull) else GetOr(data.fields["gcp_credentials"], "project", JNull))
  {
    match field
    case Image => GetOr(data, "image", JNull)
    case Network => GetOr(data, "network", JNull)
    case Project =>
      var credentials :- GetOr(data, "gcp_credentials", JObj(map[]));
      GetOr(credentials, "project", JNull)
    case Region => GetOr(data, "region", JNull)
    case ServiceAccount => GetOr(data, "service_account", JNull)
  }

  /** A Prefect 2 getter: non-empty job variables answer alone (a missing
      key is `None`, with no fall-through); otherwise the infrastructure
      block answers; otherwise `None`. */
  function GetV2(field: Field, id: Option<string>, api: Api, c: Client): (s: Step<Value>)
  {
    var jv := JobVariables(id, api, c);
    match jv.result
    case Err(e) => Step(Err(e), jv.client, jv.requests)
    case Ok(vars) =>
      if Truthy(vars) then Step(JobVariable(field, vars), jv.client, jv.requests)
      else
        var infra := Infrastructure(id, api, jv.client);
        var reqs := jv.requests + infra.requests;
        match infra.result
        case Err(e) => Step(Err(e), infra.client, reqs)
        case Ok(None) => Step(Ok(JNull), infra.client, reqs)
        case Ok(Some(b)) => Step(InfrastructureOf(field, b.data), infra.client, reqs)
  }

  /** A Prefect 3 getter: the job variables alone. */
  function GetV3(field: Field, id: Option<string>, api: Api, c: Client): (s: Step<Value>)
  {
    var jv := JobVariables(id, api, c);
    match jv.result
    case Err(e) => Step(Err(e), jv.client, jv.requests)
    case Ok(vars) => Step(if Truthy(vars) then JobVariable(field, vars) else Ok(JNull), jv.client, jv.requests)
  }

  /** Without a deployment id every getter of either version answers `None`
      and asks the API nothing. */
  lemma NoDeploymentNoAnswer(field: Field, id: Option<string>, api: Api)
    requires !HasDeployment(id)
    ensures GetV2(field, id, api, Fresh) == Step(Ok(JNull), Fresh, [])
    ensures GetV3(field, id, api, Fresh) == Step(Ok(JNull), Fresh, [])
  {
  }

  /** Non-empty job variables answer every getter of both versions alike,
      and the infrastructure block is never read. */
  lemma JobVariablesAnswer(field: Field, id: Option<string>, api: Api, d: Deployment)
    requires HasDeployment(id) && api.readDeployment(id.value) == Ok(d) && Truthy(d.jobVariables)
    ensures GetV2(field, id, api, Fresh).result == JobVariable(field, d.jobVariables)
    ensures GetV3(field, id, api, Fresh).result == JobVariable(field, d.jobVariables)
    ensures GetV2(field, id, api, Fresh).requests == [ReadDeployment(id.value)]
  {
    var jv := JobVariables(id, api, Fresh);
    assert jv.result == Ok(d.jobVariables);
  }

  /** Empty job variables: Prefect 2 answers from the infrastructure block,
      Prefect 3 answers `None`. */
  lemma InfrastructureFallback(field: Field, id: Option<string>, api: Api, d: Deployment, b: Block)
    requires HasDeployment(id) && api.readDeployment(id.value) == Ok(d) && !Truthy(d.jobVariables)
    requires api.readBlock(d.infrastructureDocumentId) == Ok(Some(b))
    ensures GetV2(field, id, api, Fresh).result == InfrastructureOf(field, b.data)
    ensures GetV2(field, id, api, Fresh).requests == [ReadDeployment(id.value), ReadBlock(d.infrastructureDocumentId)]
    ensures GetV3(field, id, api, Fresh).result == Ok(JNull)
  {
    var jv := JobVariables(id, api, Fresh);
    assert jv.result == Ok(d.jobVariables);
    assert jv.client == Fresh.(deployment := Some(d), jobVariables := d.jobVariables);
    var infra := Infrastructure(id, api, jv.client);
    assert infra.requests == [ReadBlock(d.infrastructureDocumentId)];
  }

  /** A client whose caches hold what the API would return. */
  predicate Consistent(c: Client, id: Option<string>, api: Api) {
    && (c.deployment.Some? ==> HasDeployment(id) && api.readDeployment(id.value) == Ok(c.deployment.value))
    && (Truthy(c.jobVariables) ==> c.deployment.Some? && c.jobVariables == c.deployment.value.jobVariables)
    && (c.infrastructure.Some? ==>
          c.deployment.Some? && api.readBlock(c.deployment.value.infrastructureDocumentId) == Ok(c.infrastructure))
  }

  /** The number of deployment reads among some requests. */
  function DeploymentReads(reqs: seq<Request>): nat {
    if |reqs| == 0 then 0 else (if reqs[0].ReadDeployment? then 1 else 0) + DeploymentReads(reqs[1..])
  }

  /** The number of infrastructure-block reads among some requests. */
  function BlockReads(reqs: seq<Request>): nat {
    if |reqs| == 0 then 0 else (if reqs[0].ReadBlock? then 1 else 0) + BlockReads(reqs[1..])
  }

  lemma {:induction false} ReadsAppend(a: seq<Request>, b: seq<Request>)
    ensures DeploymentReads(a + b) == DeploymentReads(a) + DeploymentReads(b)
    ensures BlockReads(a + b) == BlockReads(a) + BlockReads(b)
  {
    if |a| > 0 {
      ReadsAppend(a[1..], b);
      assert (a + b)[1..] == a[1..] + b;
    } else {
      assert a + b == b;
    }
  }

  /** The deployment is read and its infrastructure block found. */
  predicate BlockFound(id: Option<string>, api: Api) {
    HasDeployment(id) && api.readDeployment(id.value).Ok?
    && var b := api.readBlock(api.readDeployment(id.value).value.infrastructureDocumentId);
    b.Ok? && b.value.Some?
  }

  /** One Prefect 2 getter on a consistent client: it answers as a fresh
      client would, keeps the client consistent, reads the deployment only
      when none is cached and the block only when none is cached; after a
      successful read both stay cached. */
  lemma GetV2Cached(field: Field, id: Option<string>, api: Api, c: Client)
    requires Consistent(c, id, api)
    ensures var s := GetV2(field, id, api, c);
      s.result == GetV2(field, id, api, Fresh).result
      && Consistent(s.client, id, api)
      && DeploymentReads(s.requests) <= (if c.deployment.Some? then 0 else 1)
      && BlockReads(s.requests) <= (if c.infrastructure.Some? then 0 else 1)
      && (c.deployment.Some? ==> s.client.deployment == c.deployment)
      && (c.infrastructure.Some? ==> s.client.infrastructure == c.infrastructure)
      && (HasDeployment(id) && api.readDeployment(id.value).Ok? ==> s.client.deployment.Some?)
      && (!HasDeployment(id) ==> s.requests == [] && s.client == c)
      && (BlockReads(s.requests) > 0 && BlockFound(id, api) ==> s.client.infrastructure.Some?)
  {
    var s := GetV2(field, id, api, c);
    var f := GetV2(field, id, api, Fresh);
    if HasDeployment(id) {
      var cur := CurrentDeployment(id, api, c);
      var fcur := CurrentDeployment(id, api, Fresh);
      assert DeploymentReads([ReadDeployment(id.value)]) == 1;
      assert BlockReads([ReadDeployment(id.value)]) == 0;
      assert DeploymentReads([]) == 0 && BlockReads([]) == 0;
      match api.readDeployment(id.value)
      case Err(e) =>
        assert c.deployment.None?;
      case Ok(d) =>
        assert cur.result == Ok(Some(d)) && fcur.result == Ok(Some(d));
        var jv := JobVariables(id, api, c);
        var fjv := JobVariables(id, api, Fresh);
        assert jv.result == fjv.result == Ok(d.jobVariables);
        if !Truthy(d.jobVariables) {
          var infra := Infrastructure(id, api, jv.client);
          var finfra := Infrastructure(id, api, fjv.client);
          assert jv.client.infrastructure == c.infrastructure;
          assert fjv.client.infrastructure.None?;
          assert DeploymentReads([ReadBlock(d.infrastructureDocumentId)]) == 0;
          assert BlockReads([ReadBlock(d.infrastructureDocumentId)]) == 1;
          ReadsAppend(jv.requests, infra.requests);
          if c.infrastructure.Some? {
            assert infra.result == Ok(c.infrastructure);
            assert finfra.result == api.readBlock(d.infrastructureDocumentId);
          } else {
            ReadsAppend(cur.requests, [ReadBlock(d.infrastructureDocumentId)]);
          }
        }
    }
  }

  /** Several Prefect 2 getters asked in turn of one client, stopping at the
      first that raises. */
  function GetManyV2(fields: seq<Field>, id: Option<string>, api: Api, c: Client): (s: Step<seq<Value>>)
    decreases |fields|
  {
    if |fields| == 0 then Step(Ok([]), c, [])
    else
      var first := GetV2(fields[0], id, api, c);
      match first.result
      case Err(e) => Step(Err(e), first.client, first.requests)
      case Ok(v) =>
        var rest := GetManyV2(fields[1..], id, api, first.client);
        match rest.result
        case Err(e) => Step(Err(e), rest.client, first.requests + rest.requests)
        case Ok(vs) => Step(Ok([v] + vs), rest.client, first.requests + rest.requests)
  }

  /** The answers fresh clients would give, one per field, up to the first
      error. */
  function FreshAnswers(fields: seq<Field>, id: Option<string>, api: Api): Result<seq<Value>>
    decreases |fields|
  {
    if |fields| == 0 then Ok([])
    else
      var v :- GetV2(fields[0], id, api, Fresh).result;
      var vs :- FreshAnswers(fields[1..], id, api);
      Ok([v] + vs)
  }

  /** Caching is invisible to callers: one client asked several times
      answers as fresh clients would, yet reads the deployment at most
      once, and the infrastructure block at most once when it exists. */
  lemma {:induction false} GetManyV2Caches(fields: seq<Field>, id: Option<string>, api: Api, c: Client)
    requires Consistent(c, id, api)
    requires HasDeployment(id) ==> api.readDeployment(id.value).Ok?
    ensures var s := GetManyV2(fields, id, api, c);
      s.result == FreshAnswers(fields, id, api)
      && DeploymentReads(s.requests) <= (if c.deployment.Some? then 0 else 1)
      && (BlockFound(id, api) ==> BlockReads(s.requests) <= (if c.infrastructure.Some? then 0 else 1))
    decreases |fields|
  {
    if |fields| > 0 {
      var first := GetV2(fields[0], id, api, c);
      GetV2Cached(fields[0], id, api, c);
      if first.result.Ok? {
        var rest := GetManyV2(fields[1..], id, api, first.client);
        GetManyV2Caches(fields[1..], id, api, first.client);
        ReadsAppend(first.requests, rest.requests);
      }
    }
  }

  /** The four settings the decorator asks for, in its order. */
  const FillOrder := [Image, Project, ServiceAccount, Region]

  /** A Prefect 2 client as a provider: its answers are a fresh client's. */
  function ProviderV2(id: Option<string>, api: Api): (p: Gcp.Provider)
    ensures p.containerImage == GetV2(Image, id, api, Fresh).result
    ensures p.project == GetV2(Project, id, api, Fresh).result
    ensures p.serviceAccount == GetV2(ServiceAccount, id, api, Fresh).result
    ensures p.region == GetV2(Region, id, api, Fresh).result
    ensures p.network == GetV2(Network, id, api, Fresh).result
  {
    Gcp.Provider(
      GetV2(Image, id, api, Fresh).result, GetV2(Network, id, api, Fresh).result, GetV2(Project, id, api, Fresh).result,
      GetV2(Region, id, api, Fresh).result, GetV2(ServiceAccount, id, api, Fresh).result)
  }

  /** A Prefect 3 client as a provider. */
  function ProviderV3(id: Option<string>, api: Api): (p: Gcp.Provider)
    ensures p.containerImage == GetV3(Image, id, api, Fresh).result
    ensures p.project == GetV3(Project, id, api, Fresh).result
    ensures p.serviceAccount == GetV3(ServiceAccount, id, api, Fresh).result
    ensures p.region == GetV3(Region, id, api, Fresh).result
    ensures p.network == GetV3(Network, id, api, Fresh).result
  {
    Gcp.Provider(
      GetV3(Image, id, api, Fresh).result, GetV3(Network, id, api, Fresh).result, GetV3(Project, id, api, Fresh).result,
      GetV3(Region, id, api, Fresh).result, GetV3(ServiceAccount, id, api, Fresh).result)
  }
}

=== FILE: slugify.dfy ===
/** The `slugify` call the Vertex labels and the Databricks job names go
    through, on ASCII text: lower-case, replace every run of characters
    outside the allowed set by one dash, trim dashes from both ends, and cut
    to a maximum length (trimming again). */
module Slug {
  import opened Strings

  /** The characters a slug may hold: lower-case letters, digits and dashes,
      plus underscores when the pattern allows them. */
  predicate SlugChar(c: char, allowUnderscore: bool) {
    IsLower(c) || IsDigit(c) || c == '-' || (allowUnderscore && c == '_')
  }

  predicate NoDoubleDash(s: string) {
    forall k | 0 <= k < |s| - 1 :: !(s[k] == '-' && s[k + 1] == '-')
  }

  /** What every slug looks like: only allowed characters, no two dashes in
      a row, no dash at either end, and no longer than `maxLength` (0 means
      no limit). */
  predicate IsSlug(s: string, allowUnderscore: bool, maxLength: nat) {
    (forall k | 0 <= k < |s| :: SlugChar(s[k], allowUnderscore))
    && NoDoubleDash(s)
    && (s == [] || (s[0] != '-' && s[|s| - 1] != '-'))
    && (maxLength > 0 ==> |s| <= maxLength)
  }

  /** Lower-case, then turn each disallowed character into a dash. */
  function Sanitise(s: string, allowUnderscore: bool): (r: string)
    ensures |r| == |s|
    ensures forall k | 0 <= k < |r| :: SlugChar(r[k], allowUnderscore)
    ensures forall k | 0 <= k < |s| && SlugChar(s[k], allowUnderscore) :: r[k] == s[k]
  {
    seq(|s|, k requires 0 <= k < |s| =>
      if SlugChar(LowerChar(s[k]), allowUnderscore) then LowerChar(s[k]) else '-')
  }

  /** Every run of dashes becomes a single dash. */
  function CollapseDashes(s: string): (r: string)
    ensures NoDoubleDash(r)
    ensures |r| <= |s|
    ensures |s| > 0 ==> |r| > 0 && r[0] == s[0]
    ensures forall k | 0 <= k < |r| :: r[k] in s
    ensures NoDoubleDash(s) ==> r == s
    decreases |s|
  {
    if |s| <= 1 then s
    else if s[0] == '-' && s[1] == '-' then CollapseDashes(s[1..])
    else
      var rest := CollapseDashes(s[1..]);
      assert rest[0] == s[1];
      assert forall k | 0 <= k < |rest| :: rest[k] in s[1..];
      [s[0]] + rest
  }

  /** A piece of a slug-shaped string keeps its characters and has no
      double dash. */
  lemma SliceKeeps(s: string, i: nat, j: nat, allowUnderscore: bool)
    requires i <= j <= |s|
    requires forall k | 0 <= k < |s| :: SlugChar(s[k], allowUnderscore)
    requires NoDoubleDash(s)
    ensures forall k | 0 <= k < j - i :: SlugChar(s[i..j][k], allowUnderscore)
    ensures NoDoubleDash(s[i..j])
  {
    assert forall k | 0 <= k < j - i :: s[i..j][k] == s[i + k];
  }

  /** Trimming dashes keeps the characters and the absence of double dashes. */
  lemma StripKeeps(s: string, allowUnderscore: bool)
    requires forall k | 0 <= k < |s| :: SlugChar(s[k], allowUnderscore)
    requires NoDoubleDash(s)
    ensures var r := Strip(s, '-');
      (forall k | 0 <= k < |r| :: SlugChar(r[k], allowUnderscore)) && NoDoubleDash(r) && |r| <= |s|
  {
    var l := LStrip(s, '-');
    SliceKeeps(s, |s| - |l|, |s|, allowUnderscore);
    var r := RStrip(l, '-');
    SliceKeeps(l, 0, |r|, allowUnderscore);
  }

  /** Lower-case, replace disallowed runs by one dash and trim dashes. */
  function Clean(text: string, allowUnderscore: bool): (r: string)
    ensures forall k | 0 <= k < |r| :: SlugChar(r[k], allowUnderscore)
    ensures NoDoubleDash(r)
    ensures r == [] || (r[0] != '-' && r[|r| - 1] != '-')
  {
    var collapsed := CollapseDashes(Sanitise(text, allowUnderscore));
    assert forall k | 0 <= k < |collapsed| :: SlugChar(collapsed[k], allowUnderscore);
    StripKeeps(collapsed, allowUnderscore);
    Strip(collapsed, '-')
  }

  /** Cut to `maxLength` (0 means no limit) and trim dashes again. */
  function Truncate(s: string, allowUnderscore: bool, maxLength: nat): (r: string)
    requires forall k | 0 <= k < |s| :: SlugChar(s[k], allowUnderscore)
    requires NoDoubleDash(s)
    requires s == [] || (s[0] != '-' && s[|s| - 1] != '-')
    ensures IsSlug(r, allowUnderscore, maxLength)
    ensures maxLength == 0 || |s| <= maxLength ==> r == s
  {
    if maxLength > 0 && |s| >= maxLength then
      SliceKeeps(s, 0, maxLength, allowUnderscore);
      StripKeeps(s[..maxLength], allowUnderscore);
      var r := Strip(s[..maxLength], '-');
      assert |s| == maxLength ==> s[..maxLength] == s;
      r
    else s
  }

  /** `slugify(text, max_length=maxLength, regex_pattern=...)`. */
  function Slugify(text: string, allowUnderscore: bool, maxLength: nat): (r: string)
    ensures IsSlug(r, allowUnderscore, maxLength)
  {
    Truncate(Clean(text, allowUnderscore), allowUnderscore, maxLength)
  }

  /** A slug is its own slug. */
  lemma SlugifyOfSlug(s: string, allowUnderscore: bool, maxLength: nat)
    requires IsSlug(s, allowUnderscore, maxLength)
    ensures Slugify(s, allowUnderscore, maxLength) == s
  {
    var sanitised := Sanitise(s, allowUnderscore);
    assert sanitised == s by {
      forall k | 0 <= k < |s| ensures sanitised[k] == s[k] {
        assert SlugChar(s[k], allowUnderscore);
      }
    }
    assert CollapseDashes(sanitised) == s;
    assert Clean(s, allowUnderscore) == s;
  }

  /** Slugifying twice is slugifying once. */
  lemma SlugifyIdempotent(text: string, allowUnderscore: bool, maxLength: nat)
    ensures Slugify(Slugify(text, allowUnderscore, maxLength), allowUnderscore, maxLength)
      == Slugify(text, allowUnderscore, maxLength)
  {
    SlugifyOfSlug(Slugify(text, allowUnderscore, maxLength), allowUnderscore, maxLength);
  }
}

=== FILE: strings.dfy ===
/** The handful of Python `str` operations the modelled code relies on,
    defined over `seq<char>` (ASCII semantics for case and digits). */
module Strings {
  import opened Wrappers

  predicate StartsWith(s: string, prefix: string) {
    |prefix| <= |s| && s[..|prefix|] == prefix
  }

  predicate EndsWith(s: string, suffix: string) {
    |suffix| <= |s| && s[|s| - |suffix|..] == suffix
  }

  /** Python's `sub in s` for strings. */
  predicate Contains(s: string, sub: string)
    decreases |s|
  {
    StartsWith(s, sub) || (|s| > 0 && Contains(s[1..], sub))
  }

  lemma {:induction false} ContainsAt(s: string, sub: string, i: nat)
    requires i + |sub| <= |s| && s[i..i + |sub|] == sub
    ensures Contains(s, sub)
    decreases i
  {
    if i == 0 {
      assert s[..|sub|] == sub;
    } else {
      assert s[1..][i - 1..i - 1 + |sub|] == s[i..i + |sub|];
      ContainsAt(s[1..], sub, i - 1);
    }
  }

  /** Where `sub` occurs in `s` (the first occurrence). */
  function FindIndex(s: string, sub: string): (i: nat)
    requires Contains(s, sub)
    ensures i + |sub| <= |s| && s[i..i + |sub|] == sub
    decreases |s|
  {
    if StartsWith(s, sub) then 0
    else
      var t := s[1..];
      var j := FindIndex(t, sub);
      var a, b := s[j + 1..j + 1 + |sub|], t[j..j + |sub|];
      assert forall k | 0 <= k < |sub| :: a[k] == b[k];
      assert a == b;
      j + 1
  }

  /** A string that holds no character of `sub`'s first letter cannot contain `sub`. */
  lemma {:induction false} NotContainsByFirst(s: string, sub: string)
    requires |sub| > 0 && sub[0] !in s
    ensures !Contains(s, sub)
    decreases |s|
  {
    if |s| > 0 {
      assert s[0] != sub[0];
      assert sub[0] !in s[1..] by {
        assert forall k | 0 <= k < |s[1..]| :: s[1..][k] == s[k + 1];
      }
      NotContainsByFirst(s[1..], sub);
      assert |sub| <= |s| ==> s[..|sub|][0] == s[0];
    }
  }

  /** Index of the first occurrence of `c`. */
  function IndexOf(s: string, c: char): (i: nat)
    requires c in s
    ensures i < |s| && s[i] == c && c !in s[..i]
    ensures forall k | 0 <= k < i :: s[k] != c
  {
    if s[0] == c then 0
    else
      var j := IndexOf(s[1..], c);
      assert s[..j + 1] == [s[0]] + s[1..][..j];
      j + 1
  }

  /** Index of the last occurrence of `c`. */
  function LastIndexOf(s: string, c: char): (i: nat)
    requires c in s
    ensures i < |s| && s[i] == c && c !in s[i + 1..]
    ensures forall k | i < k < |s| :: s[k] != c
  {
    if s[|s| - 1] == c then |s| - 1
    else
      assert c in s[..|s| - 1] by {
        var k :| 0 <= k < |s| && s[k] == c;
        assert s[..|s| - 1][k] == c;
      }
      var j := LastIndexOf(s[..|s| - 1], c);
      assert s[j + 1..] == s[..|s| - 1][j + 1..] + [s[|s| - 1]];
      j
  }

  /** Python's `s.split(c)` for a one-character separator. */
  function Split(s: string, c: char): (parts: seq<string>)
    ensures |parts| >= 1
    ensures forall k | 0 <= k < |parts| :: c !in parts[k]
    ensures c !in s ==> parts == [s]
    decreases |s|
  {
    if c in s then
      var i := IndexOf(s, c);
      [s[..i]] + Split(s[i + 1..], c)
    else [s]
  }

  /** Python's `c.join(parts)` for a one-character separator. */
  function Join(parts: seq<string>, c: char): string {
    if |parts| == 0 then ""
    else if |parts| == 1 then parts[0]
    else parts[0] + [c] + Join(parts[1..], c)
  }

  /** Splitting and joining on the same separator gives back the string. */
  lemma {:induction false} JoinSplit(s: string, c: char)
    ensures Join(Split(s, c), c) == s
    decreases |s|
  {
    if c in s {
      var i := IndexOf(s, c);
      JoinSplit(s[i + 1..], c);
      assert s == s[..i] + [c] + s[i + 1..];
    }
  }

  /** Joining separator-free parts and splitting again gives back the parts. */
  lemma {:induction false} SplitJoin(parts: seq<string>, c: char)
    requires |parts| >= 1
    requires forall k | 0 <= k < |parts| :: c !in parts[k]
    ensures Split(Join(parts, c), c) == parts
    decreases |parts|
  {
    if |parts| > 1 {
      var rest := parts[1..];
      assert forall k | 0 <= k < |rest| :: c !in rest[k] by {
        forall k | 0 <= k < |rest| ensures c !in rest[k] {
          assert rest[k] == parts[k + 1];
        }
      }
      SplitJoin(rest, c);
      assert Join(parts, c) == parts[0] + [c] + Join(rest, c);
      SplitCons(parts[0], c, Join(rest, c));
      assert [parts[0]] + rest == parts;
    }
  }

  /** Splitting a separator-free head, the separator and a rest gives the
      head followed by the rest's parts. */
  lemma SplitCons(head: string, c: char, rest: string)
    requires c !in head
    ensures Split(head + [c] + rest, c) == [head] + Split(rest, c)
  {
    var s := head + [c] + rest;
    assert s[|head|] == c;
    var i := IndexOf(s, c);
    assert i == |head| by {
      assert forall k | 0 <= k < |head| :: s[k] == head[k];
    }
    assert s[..i] == head;
    assert s[i + 1..] == rest;
  }

  /** Python's `s.split(c, 1)`. */
  function SplitOnce(s: string, c: char): (parts: seq<string>)
    ensures c !in s ==> parts == [s]
    ensures c in s ==> |parts| == 2 && c !in parts[0] && s == parts[0] + [c] + parts[1]
  {
    if c in s then
      var i := IndexOf(s, c);
      assert s == s[..i] + [c] + s[i + 1..];
      [s[..i], s[i + 1..]]
    else [s]
  }

  /** Python's `s.rsplit(c, 1)[0]`: everything before the last `c`. */
  function BeforeLast(s: string, c: char): (r: string)
    ensures c !in s ==> r == s
    ensures c in s ==> exists tail :: s == r + [c] + tail && c !in tail
  {
    if c in s then
      var i := LastIndexOf(s, c);
      assert s == s[..i] + [c] + s[i + 1..];
      s[..i]
    else s
  }

  /** Python's `s.split(c)[-1]`: everything after the last `c`. */
  function AfterLast(s: string, c: char): (r: string)
    ensures c !in r
    ensures c !in s ==> r == s
    ensures c in s ==> exists head :: s == head + [c] + r
  {
    if c in s then
      var i := LastIndexOf(s, c);
      assert s == s[..i] + [c] + s[i + 1..];
      s[i + 1..]
    else s
  }

  /** Python's `s.lstrip(c)` for a single character. */
  function LStrip(s: string, c: char): (r: string)
    ensures |r| <= |s| && r == s[|s| - |r|..]
    ensures forall k | 0 <= k < |s| - |r| :: s[k] == c
    ensures r == [] || r[0] != c
  {
    if |s| > 0 && s[0] == c then LStrip(s[1..], c) else s
  }

  /** Python's `s.rstrip(c)` for a single character. */
  function RStrip(s: string, c: char): (r: string)
    ensures |r| <= |s| && r == s[..|r|]
    ensures forall k | |r| <= k < |s| :: s[k] == c
    ensures r == [] || r[|r| - 1] != c
  {
    if |s| > 0 && s[|s| - 1] == c then RStrip(s[..|s| - 1], c) else s
  }

  /** Python's `s.strip(c)` for a single character. */
  function Strip(s: string, c: char): (r: string)
    ensures r == [] || (r[0] != c && r[|r| - 1] != c)
  {
    RStrip(LStrip(s, c), c)
  }

  /** Python's `s.replace(pat, rep)`: non-overlapping occurrences, left to right. */
  function ReplaceAll(s: string, pat: string, rep: string): string
    requires |pat| > 0
    decreases |s|
  {
    if |s| == 0 then ""
    else if StartsWith(s, pat) then rep + ReplaceAll(s[|pat|..], pat, rep)
    else [s[0]] + ReplaceAll(s[1..], pat, rep)
  }

  /** Removing a pattern from the pattern followed by text that cannot start
      it leaves the text. */
  lemma ReplaceLeadingPattern(pat: string, rest: string)
    requires |pat| > 0 && pat[0] !in rest
    ensures ReplaceAll(pat + rest, pat, "") == rest
  {
    var s := pat + rest;
    assert StartsWith(s, pat) by {
      assert s[..|pat|] == pat;
    }
    assert s[|pat|..] == rest;
    NotContainsByFirst(rest, pat);
    ReplaceAbsent(rest, pat, "");
  }

  /** Replacing a pattern that does not occur changes nothing. */
  lemma {:induction false} ReplaceAbsent(s: string, pat: string, rep: string)
    requires |pat| > 0 && !Contains(s, pat)
    ensures ReplaceAll(s, pat, rep) == s
    decreases |s|
  {
    if |s| > 0 {
      ReplaceAbsent(s[1..], pat, rep);
      assert s == [s[0]] + s[1..];
    }
  }

  predicate IsUpper(c: char) { 'A' <= c <= 'Z' }
  predicate IsLower(c: char) { 'a' <= c <= 'z' }
  predicate IsDigit(c: char) { '0' <= c <= '9' }
  /** `str.isalpha` on one character (ASCII letters). */
  predicate IsAlpha(c: char) { IsUpper(c) || IsLower(c) }

  function LowerChar(c: char): (r: char)
    ensures !IsUpper(r)
    ensures !IsUpper(c) ==> r == c
  {
    if IsUpper(c) then (c as int + 32) as char else c
  }

  /** Python's `s.lower()` (ASCII letters only). */
  function Lower(s: string): (r: string)
    ensures |r| == |s|
    ensures forall k | 0 <= k < |s| :: r[k] == LowerChar(s[k])
  {
    seq(|s|, k requires 0 <= k < |s| => LowerChar(s[k]))
  }

  predicate AllDigits(s: string) {
    forall k | 0 <= k < |s| :: IsDigit(s[k])
  }

  function DigitChar(d: nat): (c: char)
    requires d < 10
    ensures IsDigit(c)
  {
    ('0' as int + d) as char
  }

  function DigitValue(c: char): (d: nat)
    requires IsDigit(c)
    ensures d < 10 && DigitChar(d) == c
  {
    c as int - '0' as int
  }

  /** Python's `str(n)` for a natural number. */
  function NatToString(n: nat): (s: string)
    ensures |s| >= 1 && AllDigits(s)
    decreases n
  {
    if n < 10 then [DigitChar(n)] else NatToString(n / 10) + [DigitChar(n % 10)]
  }

  /** Python's `str(i)` for an integer. */
  function IntToString(i: int): string {
    if i < 0 then "-" + NatToString(-i) else NatToString(i)
  }

  /** The value of a run of decimal digits. */
  function DigitsValue(s: string): nat
    requires AllDigits(s)
    decreases |s|
  {
    if |s| == 0 then 0 else DigitsValue(s[..|s| - 1]) * 10 + DigitValue(s[|s| - 1])
  }

  /** Python's `int(s)` on an optionally signed run of ASCII digits; `None`
      where Python raises `ValueError`. */
  function ParseInt(s: string): (r: Option<int>)
    ensures r.Some? ==> |s| > 0
  {
    if |s| > 0 && (s[0] == '-' || s[0] == '+') then
      var digits := s[1..];
      if |digits| > 0 && AllDigits(digits) then
        var v: int := DigitsValue(digits);
        Some(if s[0] == '-' then -v else v)
      else None
    else if |s| > 0 && AllDigits(s) then Some(DigitsValue(s))
    else None
  }

  lemma {:induction false} DigitsValueOfNat(n: nat)
    ensures DigitsValue(NatToString(n)) == n
    decreases n
  {
    if n >= 10 {
      DigitsValueOfNat(n / 10);
      var s := NatToString(n);
      assert s[..|s| - 1] == NatToString(n / 10);
    }
  }

  /** `int(str(i)) == i`. */
  lemma ParseIntToString(i: int)
    ensures ParseInt(IntToString(i)) == Some(i)
  {
    if i < 0 {
      var digits := NatToString(-i);
      DigitsValueOfNat(-i);
      var s := "-" + digits;
      assert s == IntToString(i);
      assert s[0] == '-' && s[1..] == digits;
      var v: int := DigitsValue(digits);
      assert ParseInt(s) == Some(-v);
    } else {
      var digits := NatToString(i);
      DigitsValueOfNat(i);
      assert digits[0] != '-' && digits[0] != '+' by {
        assert IsDigit(digits[0]);
      }
      assert ParseInt(digits) == Some(DigitsValue(digits));
    }
  }

  /** Rendering of an optional string inside a Python f-string. */
  function PyStr(o: Option<string>): (r: string)
    ensures o.Some? ==> r == o.value
    ensures o.None? ==> r == "None"
  {
    match o
    case Some(s) => s
    case None => "None"
  }

  /** Python truthiness of an optional string: neither `None` nor empty. */
  predicate NonEmpty(o: Option<string>) {
    o.Some? && o.value != ""
  }

  /** `os.path.join(a, b)` on POSIX. */
  function PathJoin(a: string, b: string): (r: string)
    ensures StartsWith(b, "/") ==> r == b
    ensures !StartsWith(b, "/") ==> r == a + b || r == a + "/" + b
    ensures EndsWith(r, b)
  {
    if StartsWith(b, "/") then b
    else if a == "" || EndsWith(a, "/") then a + b
    else a + "/" + b
  }

  /** An f-string path `f"{a}/{b}"`, which always inserts the slash. */
  function SlashJoin(a: string, b: string): string {
    a + "/" + b
  }

  /** Under a non-empty directory without a trailing slash, the f-string
      path and `os.path.join` agree. */
  lemma SlashJoinIsPathJoin(a: string, b: string)
    requires a != "" && !EndsWith(a, "/") && !StartsWith(b, "/")
    ensures SlashJoin(a, b) == PathJoin(a, b)
  {
  }

  /** Joining two different relative names under one directory gives two different paths. */
  lemma PathJoinInjective(d: string, x: string, y: string)
    requires !StartsWith(x, "/") && !StartsWith(y, "/")
    ensures PathJoin(d, x) == PathJoin(d, y) <==> x == y
  {
    var sep := if d == "" || EndsWith(d, "/") then "" else "/";
    assert PathJoin(d, x) == (d + sep) + x;
    assert PathJoin(d, y) == (d + sep) + y;
    assert x == PathJoin(d, x)[|d + sep|..];
    assert y == PathJoin(d, y)[|d + sep|..];
  }

  predicate AllChar(s: string, c: char) {
    forall k | 0 <= k < |s| :: s[k] == c
  }

  /** `os.path.dirname(p)` on POSIX. */
  function Dirname(p: string): (r: string)
    ensures '/' !in p ==> r == ""
    ensures '/' in p ==> |r| > 0 && StartsWith(p, r)
  {
    if '/' !in p then ""
    else
      var i := LastIndexOf(p, '/');
      var head := p[..i + 1];
      if AllChar(head, '/') then head
      else
        var r := RStrip(head, '/');
        assert p[..|r|] == r;
        r
  }

  /** The parent of `d/name` is `d` when `d` does not end in a slash and
      `name` holds none. */
  lemma DirnameOfJoin(d: string, name: string)
    requires d != "" && d[|d| - 1] != '/' && '/' !in name
    ensures Dirname(PathJoin(d, name)) == d
  {
    var p := d + "/" + name;
    assert !StartsWith(name, "/");
    assert PathJoin(d, name) == p;
    LastIndexAt(d, '/', name);
    var head := p[..|d| + 1];
    assert head == d + "/";
    RStripOnce(d, '/');
  }

  /** A character that does not occur after position `|head|` is found last
      there. */
  lemma LastIndexAt(head: string, c: char, tail: string)
    requires c !in tail
    ensures LastIndexOf(head + [c] + tail, c) == |head|
  {
    var s := head + [c] + tail;
    assert s[|head|] == c;
    var i := LastIndexOf(s, c);
    assert |head| <= i;
    assert s[|head| + 1..] == tail;
    assert c !in s[i + 1..];
    assert i <= |head| by {
      assert s[|head| + 1..] == tail;
      assert forall k | |head| < k < |s| :: s[k] in tail;
    }
  }

  /** Stripping `c` from `d + [c]` gives `d` back when `d` does not end in
      `c`. */
  lemma RStripOnce(d: string, c: char)
    requires d != "" && d[|d| - 1] != c
    ensures !AllChar(d + [c], c) && RStrip(d + [c], c) == d
  {
    var h := d + [c];
    assert h[|d| - 1] == d[|d| - 1];
    assert h[..|h| - 1] == d;
  }


  /** Splitting at a separator whose tail holds no further separator: the
      text before the last separator is the head and the text after it the
      tail. */
  lemma SplitAtLast(head: string, c: char, tail: string)
    requires c !in tail
    ensures AfterLast(head + [c] + tail, c) == tail
    ensures BeforeLast(head + [c] + tail, c) == head
  {
    var s := head + [c] + tail;
    LastIndexAt(head, c, tail);
    assert s[|head| + 1..] == tail;
    assert s[..|head|] == head;
  }
}

=== FILE: torch_job.dfy ===
/** The PyTorch distributed job
    (block_cascade/executors/vertex/distributed/torch_job.py): every node
    optionally downloads its input data and then launches `torchrun` on the
    target script with arguments derived from CLUSTER_SPEC and RANK. */
module TorchJob {
  import opened Wrappers
  import opened Strings
  import opened Json
  import opened Utils
  import opened DistributedJob
  import opened Codec

  /** The rendezvous port, fixed for the Vertex AI proxy. */
  const MasterPort := "3333"
  const RdzvId := "123456"
  const RdzvBackend := "c10d"
  const TargetModule := "block_cascade.executors.vertex.distributed.torchrun_target"
  /** Where `get_data_from_gcs` copies the input data. */
  const DataDestination := "/app/data"

  /** `str(rank == "0").lower()`. */
  function IsHost(rank: string): (r: string)
    ensures r == "true" <==> rank == "0"
    ensures r == "true" || r == "false"
  {
    if rank == "0" then "true" else "false"
  }

  /** `cluster_spec["cluster"]["workerpool0"][0].split(":")` unpacked into
      two names: the first chief address as host and port. */
  function ChiefHostPort(cluster: Value): (r: Result<(string, string)>)
    ensures r.Ok? ==> ':' !in r.value.0 && ':' !in r.value.1
    ensures r.Ok? ==> cluster.JObj? && "workerpool0" in cluster.fields
    ensures r.Ok? ==> At(cluster.fields["workerpool0"], 0) == Ok(JStr(r.value.0 + ":" + r.value.1))
  {
    var pool :- Get(cluster, "workerpool0");
    var first :- At(pool, 0);
    if !first.JStr? then Err(AttributeError("split"))
    else
      var parts := Split(first.s, ':');
      if |parts| != 2 then Err(ValueError("expected 2 values to unpack"))
      else
        assert parts[0] in parts && parts[1] in parts;
        SplitJoin2(first.s, ':');
        Ok((parts[0], parts[1]))
  }

  /** A string that splits into two parts is the two parts joined. */
  lemma SplitJoin2(s: string, c: char)
    requires |Split(s, c)| == 2
    ensures s == Split(s, c)[0] + [c] + Split(s, c)[1]
  {
    JoinSplit(s, c);
    var parts := Split(s, c);
    assert Join(parts[1..], c) == parts[1] by {
      assert parts[1..] == [parts[1]];
    }
  }

  /** `get_cli_args()`: the multi-node form when the cluster has a
      `workerpool1`, with the rendezvous on the chief's host at the fixed
      port and `nnodes` one more than the workers; otherwise the standalone
      form. Both end with the target module and the run's input and output
      paths. */
  function CliArgs(storagePath: string, env: NodeEnv): (r: Result<seq<string>>)
    ensures r.Ok? ==> |r.value| >= 7 && r.value[0] == "torchrun"
    ensures r.Ok? ==>
      r.value[|r.value| - 3..] == [TargetModule, SlashJoin(storagePath, InputFilename), SlashJoin(storagePath, OutputFilename)]
    ensures r.Ok? ==> |r.value| == 7 || |r.value| == 11
    ensures env.clusterSpec.Absent? ==> r == Err(KeyError("CLUSTER_SPEC"))
  {
    var spec :- LoadClusterSpec(env);
    var cluster :- Get(spec, "cluster");
    var input := SlashJoin(storagePath, InputFilename);
    var output := SlashJoin(storagePath, OutputFilename);
    var multiNode :- In("workerpool1", cluster);
    if multiNode then
      var (host, _) :- ChiefHostPort(cluster);
      var count :- Len(cluster.fields["workerpool1"]);
      var rank :- EnvVar(env, "RANK");
      Ok(["torchrun", "--nproc_per_node=auto", "--rdzv_id=" + RdzvId, "--rdzv_backend=" + RdzvBackend,
          "--rdzv_endpoint=" + host + ":" + MasterPort, "--rdzv_conf=is_host=" + IsHost(rank),
          "--nnodes=" + NatToString(count + 1), "-m", TargetModule, input, output])
    else
      Ok(["torchrun", "--standalone", "--nproc_per_node=auto", "-m", TargetModule, input, output])
  }

  /** A node of a cluster with `workers` worker machines whose chief is at
      `host:port`. */
  function MultiNodeEnv(host: string, port: string, workers: nat, rank: string): NodeEnv {
    NodeEnv(
      ClusterSpec.Decoded(JObj(map["cluster" := JObj(map[
        "workerpool0" := JList([JStr(host + ":" + port)]),
        "workerpool1" := JList(seq(workers, _ => JStr("worker")))])])),
      map["RANK" := rank])
  }

  /** On a multi-node cluster the rendezvous endpoint is the chief's host
      at the fixed port 3333, whatever port the spec gives; `is_host` is
      true exactly on rank "0"; and `nnodes` counts the chief too. */
  lemma CliArgsMultiNode(storagePath: string, host: string, port: string, workers: nat, rank: string)
    requires ':' !in host && ':' !in port
    ensures var r := CliArgs(storagePath, MultiNodeEnv(host, port, workers, rank));
      r.Ok? && |r.value| == 11
      && r.value[4] == "--rdzv_endpoint=" + host + ":" + MasterPort
      && (r.value[5] == "--rdzv_conf=is_host=true" <==> rank == "0")
      && r.value[6] == "--nnodes=" + NatToString(workers + 1)
  {
    var address := host + ":" + port;
    assert IndexOf(address, ':') == |host| by {
      assert forall k | 0 <= k < |host| :: address[k] == host[k];
      assert address[|host|] == ':';
    }
    assert address[..|host|] == host && address[|host| + 1..] == port;
    assert Split(port, ':') == [port];
    assert Split(address, ':') == [host, port];
    var r := CliArgs(storagePath, MultiNodeEnv(host, port, workers, rank));
    var suffix := IsHost(rank);
    if rank != "0" {
      assert r.value[5] == "--rdzv_conf=is_host=" + "false";
      assert ("--rdzv_conf=is_host=" + "false")[20..] != "true";
    }
  }

  /** Without `workerpool1` the arguments are the standalone form. */
  lemma CliArgsStandalone(storagePath: string, cluster: map<string, Value>, vars: map<string, string>)
    requires "workerpool1" !in cluster
    ensures CliArgs(storagePath, NodeEnv(ClusterSpec.Decoded(JObj(map["cluster" := JObj(cluster)])), vars))
      == Ok(["torchrun", "--standalone", "--nproc_per_node=auto", "-m", TargetModule,
             SlashJoin(storagePath, InputFilename), SlashJoin(storagePath, OutputFilename)])
  {
  }

  /** The `gsutil` command that copies the input data. */
  function DownloadCommand(gcsPath: string): seq<string> {
    ["gsutil", "-m", "cp", "-r", gcsPath, DataDestination]
  }

  /** `TorchJob._run()`: download the input data when a path is set, then
      launch `torchrun` with the arguments above. There is no branching by
      role: every node runs the same command. */
  function Run(inputDataGcsPath: Option<string>, storagePath: string, env: NodeEnv): (r: (Result<()>, seq<Event>))
    ensures r.0.Ok? <==> CliArgs(storagePath, env).Ok?
    ensures |r.1| == (if NonEmpty(inputDataGcsPath) then 1 else 0) + (if r.0.Ok? then 1 else 0)
    ensures NonEmpty(inputDataGcsPath) ==> r.1[0] == Launched(DownloadCommand(inputDataGcsPath.value))
    ensures r.0.Ok? ==> r.1[|r.1| - 1] == Launched(CliArgs(storagePath, env).value)
    ensures forall k | 0 <= k < |r.1| :: r.1[k].Launched?
  {
    var download := if NonEmpty(inputDataGcsPath) then [Launched(DownloadCommand(inputDataGcsPath.value))] else [];
    match CliArgs(storagePath, env)
    case Err(e) => (Err(e), download)
    case Ok(args) => (Ok(()), download + [Launched(args)])
  }
}

=== FILE: torchrun_target.dfy ===
/** The script `torchrun` runs on every process of a PyTorch job
    (cascade/executors/vertex/distributed/torchrun_target.py): load the
    staged object, set up the process group around the training call,
    check the returned dictionary and let rank "0" write it out. */
module TorchrunTarget {
  import opened Wrappers
  import opened Strings
  import opened Json
  import opened Utils
  import opened DistributedJob
  import opened Codec
  import opened TorchJob

  /** The key a training function's dictionary must carry. */
  const ModelState := "MODEL_STATE"

  /** What `DistributedSetup()` sets up: the chief's address and port for
      MASTER_ADDR and MASTER_PORT, and the local rank of the device. */
  datatype Setup = Setup(masterAddr: string, masterPort: string, localRank: int)

  /** `DistributedSetup.__init__`: the first chief address is split at its
      colon and both halves are kept, so the port is the spec's own (unlike
      the fixed rendezvous port of the launcher); LOCAL_RANK must be an
      integer. */
  function DistributedSetup(env: NodeEnv): (r: Result<Setup>)
    ensures r.Ok? ==> env.clusterSpec.Decoded? && Get(env.clusterSpec.doc, "cluster").Ok?
    ensures r.Ok? ==> var cluster := Get(env.clusterSpec.doc, "cluster").value;
      ChiefHostPort(cluster) == Ok((r.value.masterAddr, r.value.masterPort))
    ensures r.Ok? ==> EnvVar(env, "LOCAL_RANK").Ok? && ParseInt(EnvVar(env, "LOCAL_RANK").value) == Some(r.value.localRank)
    ensures env.clusterSpec.Absent? ==> r == Err(KeyError("CLUSTER_SPEC"))
  {
    var spec :- LoadClusterSpec(env);
    var cluster :- Get(spec, "cluster");
    var (host, port) :- ChiefHostPort(cluster);
    var localRank :- EnvVar(env, "LOCAL_RANK");
    match ParseInt(localRank)
    case None => Err(ValueError("invalid literal for int(): " + localRank))
    case Some(n) => Ok(Setup(host, port, n))
  }

  /** The chief's address as MASTER_ADDR and MASTER_PORT: the port the spec
      names survives, where the launcher would use its fixed port. */
  lemma SetupKeepsSpecPort(host: string, port: string, workers: nat, rank: string)
    requires ':' !in host && ':' !in port && port != MasterPort
    ensures var env := MultiNodeEnv(host, port, workers, rank);
      var env' := env.(vars := env.vars["LOCAL_RANK" := "0"]);
      DistributedSetup(env') == Ok(Setup(host, port, 0))
  {
    var address := host + ":" + port;
    assert IndexOf(address, ':') == |host| by {
      assert forall k | 0 <= k < |host| :: address[k] == host[k];
      assert address[|host|] == ':';
    }
    assert address[..|host|] == host && address[|host| + 1..] == port;
    assert Split(port, ':') == [port];
    assert Split(address, ':') == [host, port];
    ParseIntToString(0);
  }

  /** `job.func()`: the script calls the `func` attribute of the loaded
      object with no arguments. For the staged `functools.partial` that is
      the wrapped function itself, so the bound arguments are dropped; a
      plain function, or an object that is not a function at all, has no
      such attribute. */
  function CallFunc(sem: Semantics, job: Payload): (r: Result<Value>)
    ensures job.PFunc? && job.f.Partial? ==> r == Call(sem, job.f.func)
    ensures !(job.PFunc? && job.f.Partial?) ==> r == Err(AttributeError("func"))
  {
    match job
    case PFunc(Partial(f, _, _, _)) => Call(sem, f)
    case _ => Err(AttributeError("func"))
  }

  /** The model state moved to the CPU on rank "0": every entry of the
      state passes through `cpu` and the rest of the dictionary stays. */
  function MoveToCpu(snapshot: map<string, Value>, cpu: Value -> Value): (r: Result<map<string, Value>>)
    requires ModelState in snapshot
    ensures r.Ok? <==> snapshot[ModelState].JObj?
    ensures r.Ok? ==> r.value.Keys == snapshot.Keys
    ensures r.Ok? ==> forall k | k in snapshot && k != ModelState :: r.value[k] == snapshot[k]
    ensures r.Ok? ==> r.value[ModelState].JObj? && r.value[ModelState].fields.Keys == snapshot[ModelState].fields.Keys
    ensures r.Ok? ==> forall k | k in snapshot[ModelState].fields ::
      r.value[ModelState].fields[k] == cpu(snapshot[ModelState].fields[k])
  {
    match snapshot[ModelState]
    case JObj(state) =>
      Ok(snapshot[ModelState := JObj(map k | k in state :: cpu(state[k]))])
    case _ => Err(AttributeError("items"))
  }

  /** `run_job_function()`: read the input path and output path from
      argv[1] and argv[2], load the staged object, call `job.func()` inside
      the process group (set up on entry and torn down on exit, even when
      the call raises), insist on a dictionary with MODEL_STATE on every
      rank, and pickle it with its state on the CPU from rank "0" only. */
  function RunJobFunction(sem: Semantics, pickle: Pickler, argv: seq<string>, env: NodeEnv, cpu: Value -> Value, store: Store): (r: Step<()>)
    ensures |argv| < 3 ==> r == Step(Err(IndexError), store, [])
    ensures r.store != store ==> |argv| >= 3 && EnvVar(env, "RANK") == Ok("0") && r.store.Keys == store.Keys + {argv[2]}
    ensures forall p | p in store && (|argv| < 3 || p != argv[2]) :: p in r.store && r.store[p] == store[p]
    ensures r.result.Ok? ==> Invocations(r.trace) == 1
    ensures InitProcessGroup in r.trace ==>
      (r.trace[|r.trace| - 1] == DestroyProcessGroup || (|r.trace| >= 2 && r.trace[|r.trace| - 2] == DestroyProcessGroup))
  {
    if |argv| < 3 then Step(Err(IndexError), store, [])
    else
      var input, output := argv[1], argv[2];
      match Load(store, input)
      case Err(e) => Step(Err(e), store, [])
      case Ok(payload) =>
        match DistributedSetup(env)
          case Err(e) => Step(Err(e), store, [])
          case Ok(setup) =>
            var entered := [SetDevice(setup.localRank), InitProcessGroup];
            var snapshot := CallFunc(sem, payload);
            var invoked := if payload.PFunc? && payload.f.Partial? then [Invoked] else [];
            var exited := entered + invoked + [DestroyProcessGroup];
            assert Invocations(exited) == |invoked| by {
              InvocationsAppend(entered + invoked, [DestroyProcessGroup]);
              InvocationsAppend(entered, invoked);
              InvocationsTwo(SetDevice(setup.localRank), InitProcessGroup);
              InvocationsOne(DestroyProcessGroup);
              if payload.PFunc? && payload.f.Partial? {
                InvocationsOne(Invoked);
              }
            }
            match snapshot
            case Err(e) => Step(Err(e), store, exited)
            case Ok(value) =>
              if !value.JObj? || ModelState !in value.fields then
                Step(Err(InvalidReturnDictionaryError), store, exited)
              else match EnvVar(env, "RANK")
                case Err(e) => Step(Err(e), store, exited)
                case Ok(rank) =>
                  if rank != "0" then Step(Ok(()), store, exited)
                  else match MoveToCpu(value.fields, cpu)
                    case Err(e) => Step(Err(e), store, exited)
                    case Ok(moved) =>
                      var saved := Dump(pickle, JObj(moved), output, store);
                      InvocationsAppend(exited, saved.trace);
                      InvocationsOne(Wrote(output));
                      Step(saved.result, saved.store, exited + saved.trace)
  }

  /** A call that does not return a dictionary with MODEL_STATE raises on
      every rank, after the process group is torn down, and writes nothing. */
  lemma InvalidReturnRaises(sem: Semantics, pickle: Pickler, argv: seq<string>, env: NodeEnv, cpu: Value -> Value, store: Store)
    requires |argv| >= 3 && Load(store, argv[1]).Ok?
    requires DistributedSetup(env).Ok?
    requires var snapshot := CallFunc(sem, Load(store, argv[1]).value);
      snapshot.Ok? && (!snapshot.value.JObj? || ModelState !in snapshot.value.fields)
    ensures var r := RunJobFunction(sem, pickle, argv, env, cpu, store);
      r.result == Err(InvalidReturnDictionaryError) && r.store == store
      && r.trace[|r.trace| - 1] == DestroyProcessGroup
  {
  }

  /** A successful run on rank "0" leaves the returned dictionary, with its
      model state moved to the CPU, at the output path argv[2]; so that
      dictionary could be pickled. */
  lemma RankZeroWrites(sem: Semantics, pickle: Pickler, argv: seq<string>, env: NodeEnv, cpu: Value -> Value, store: Store)
    requires |argv| >= 3 && EnvVar(env, "RANK") == Ok("0")
    requires RunJobFunction(sem, pickle, argv, env, cpu, store).result.Ok?
    ensures Load(store, argv[1]).Ok? && Load(store, argv[1]).value.PFunc? && Load(store, argv[1]).value.f.Partial?
    ensures var snapshot := CallFunc(sem, Load(store, argv[1]).value);
      snapshot.Ok? && snapshot.value.JObj? && ModelState in snapshot.value.fields
      && MoveToCpu(snapshot.value.fields, cpu).Ok?
      && pickle(JObj(MoveToCpu(snapshot.value.fields, cpu).value)).None?
      && Load(RunJobFunction(sem, pickle, argv, env, cpu, store).store, argv[2]) == Ok(PValue(JObj(MoveToCpu(snapshot.value.fields, cpu).value)))
  {
  }

  /** On rank "0", a dictionary that cannot be pickled raises the pickling
      error after the output file was opened, which is left empty. */
  lemma RankZeroUnpicklable(sem: Semantics, pickle: Pickler, argv: seq<string>, env: NodeEnv, cpu: Value -> Value, store: Store)
    requires |argv| >= 3 && EnvVar(env, "RANK") == Ok("0")
    requires Load(store, argv[1]).Ok? && DistributedSetup(env).Ok?
    requires var snapshot := CallFunc(sem, Load(store, argv[1]).value);
      snapshot.Ok? && snapshot.value.JObj? && ModelState in snapshot.value.fields
      && MoveToCpu(snapshot.value.fields, cpu).Ok?
      && pickle(JObj(MoveToCpu(snapshot.value.fields, cpu).value)).Some?
    ensures var snapshot := CallFunc(sem, Load(store, argv[1]).value);
      var r := RunJobFunction(sem, pickle, argv, env, cpu, store);
      r.result == Err(pickle(JObj(MoveToCpu(snapshot.value.fields, cpu).value)).value)
      && Load(r.store, argv[2]) == Err(UnpicklingError)
  {
  }

  /** A loaded object without a `func` attribute fails only inside the
      process group: set-up runs, the attribute lookup raises, the group is
      torn down, and nothing is written. */
  lemma NotAJobFailsAfterSetup(sem: Semantics, pickle: Pickler, argv: seq<string>, env: NodeEnv, cpu: Value -> Value, store: Store)
    requires |argv| >= 3 && Load(store, argv[1]).Ok?
    requires !(Load(store, argv[1]).value.PFunc? && Load(store, argv[1]).value.f.Partial?)
    requires DistributedSetup(env).Ok?
    ensures var r := RunJobFunction(sem, pickle, argv, env, cpu, store);
      r.result == Err(AttributeError("func")) && r.store == store
      && InitProcessGroup in r.trace && r.trace[|r.trace| - 1] == DestroyProcessGroup
      && Invocations(r.trace) == 0
  {
    var setup := DistributedSetup(env).value;
    var exited := [SetDevice(setup.localRank), InitProcessGroup] + [] + [DestroyProcessGroup];
    assert exited[1] == InitProcessGroup;
    InvocationsAppend([SetDevice(setup.localRank), InitProcessGroup], [DestroyProcessGroup]);
    InvocationsTwo(SetDevice(setup.localRank), InitProcessGroup);
    InvocationsOne(DestroyProcessGroup);
  }

  /** Any other rank writes nothing, whatever the call returns. */
  lemma OtherRanksWriteNothing(sem: Semantics, pickle: Pickler, argv: seq<string>, env: NodeEnv, cpu: Value -> Value, store: Store)
    requires EnvVar(env, "RANK").Ok? && EnvVar(env, "RANK").value != "0"
    ensures RunJobFunction(sem, pickle, argv, env, cpu, store).store == store
  {
  }
}

=== FILE: utils.dfy ===
/** Shared helpers of block_cascade/utils.py: file-name constants, callables
    and partial application, base-module inference and hyperparameter parsing. */
module Utils {
  import opened Wrappers
  import opened Strings
  import opened Json

  const InputFilename := "function.pkl"
  const DistributedJobFilename := "distributed_job.pkl"
  const OutputFilename := "output.pkl"

  /** A Python callable as the model sees it: a plain function, identified by
      its code, or a `functools.partial` over another callable. A plain
      function always has a `__name__`; a partial has one only when it was
      set explicitly. */
  datatype Callable =
    | Function(code: string, fname: string, moduleName: Option<string>)
    | Partial(func: Callable, args: seq<Value>, kwargs: map<string, Value>, pname: Option<string>)

  /** What calling a function's code with given arguments does; user code is
      outside the model, so callers pass its meaning in. */
  type Semantics = (string, seq<Value>, map<string, Value>) -> Result<Value>

  /** `getattr(c, "__name__")`, `None` when the attribute is missing. */
  function Name(c: Callable): (r: Option<string>)
    ensures c.Function? ==> r == Some(c.fname)
  {
    match c
    case Function(_, n, _) => Some(n)
    case Partial(_, _, _, n) => n
  }

  /** `inspect.getmodule(c).__name__`; a partial object belongs to no module. */
  function ModuleOf(c: Callable): Option<string> {
    match c
    case Function(_, _, m) => m
    case Partial(_, _, _, _) => None
  }

  /** Calling `c(*args, **kwargs)`: a partial prepends its bound positional
      arguments and lets call-site keywords override its bound ones. */
  function Invoke(sem: Semantics, c: Callable, args: seq<Value>, kwargs: map<string, Value>): Result<Value>
    decreases c
  {
    match c
    case Function(code, _, _) => sem(code, args, kwargs)
    case Partial(f, a, k, _) => Invoke(sem, f, a + args, k + kwargs)
  }

  /** `c()`. */
  function Call(sem: Semantics, c: Callable): Result<Value> {
    Invoke(sem, c, [], map[])
  }

  /** `wrapped_partial(f, *args, **kwargs)`: a partial that also carries
      `f.__name__`; reading a missing `__name__` raises `AttributeError`. */
  function WrappedPartial(f: Callable, args: seq<Value>, kwargs: map<string, Value>): (r: Result<Callable>)
    ensures r.Ok? <==> Name(f).Some?
    ensures r.Ok? ==> Name(r.value) == Name(f) && r.value.Partial? && r.value.func == f
    ensures r.Err? ==> r.error.AttributeError?
  {
    match Name(f)
    case Some(n) => Ok(Partial(f, args, kwargs, Some(n)))
    case None => Err(AttributeError("__name__"))
  }

  /** Calling the wrapped partial with no arguments is calling `f(*args, **kwargs)`. */
  lemma WrappedPartialCall(sem: Semantics, f: Callable, args: seq<Value>, kwargs: map<string, Value>)
    requires WrappedPartial(f, args, kwargs).Ok?
    ensures Call(sem, WrappedPartial(f, args, kwargs).value) == Invoke(sem, f, args, kwargs)
  {
    assert args + [] == args;
    assert kwargs + map[] == kwargs;
  }

  /** `_infer_base_module(func)`: the first dotted component of the module
      the callable was defined in, or `None` when it has no module. */
  function InferBaseModule(c: Callable): (r: Option<string>)
    ensures ModuleOf(c).None? <==> r.None?
    ensures r.Some? ==> '.' !in r.value
    ensures r.Some? ==> r.value == ModuleOf(c).value || StartsWith(ModuleOf(c).value, r.value + ".")
  {
    match ModuleOf(c)
    case None => None
    case Some(m) =>
      var parts := Split(m, '.');
      JoinSplit(m, '.');
      assert |parts| > 1 ==> m == parts[0] + "." + Join(parts[1..], '.');
      assert |parts| > 1 ==> m[..|parts[0] + "."|] == parts[0] + ".";
      Some(parts[0])
  }

  /** The outcome of `ast.literal_eval` on a string: a literal, a
      `ValueError` (the text parses but is not a literal), or any other
      exception (a `SyntaxError`, say). */
  datatype Literal = Parsed(value: Value) | Malformed | Unparsable(kind: string)

  /** `maybe_convert(arg)`: only `ValueError` falls back to the raw string;
      every other exception of `literal_eval` propagates. */
  function MaybeConvert(literalEval: string -> Literal, arg: string): (r: Result<Value>)
    ensures literalEval(arg).Parsed? ==> r == Ok(literalEval(arg).value)
    ensures literalEval(arg).Malformed? ==> r == Ok(JStr(arg))
    ensures r.Err? <==> literalEval(arg).Unparsable?
  {
    match literalEval(arg)
    case Parsed(v) => Ok(v)
    case Malformed => Ok(JStr(arg))
    case Unparsable(kind) => Err(Raised(kind))
  }

  /** The argument list split on every `=` and flattened, so that `--a=3`
      and `--a 3` give the same tokens. */
  function Tokens(args: seq<string>): (t: seq<string>)
    ensures forall k | 0 <= k < |t| :: '=' !in t[k]
  {
    if |args| == 0 then [] else Split(args[0], '=') + Tokens(args[1..])
  }

  lemma {:induction false} TokensAppend(a: seq<string>, b: seq<string>)
    ensures Tokens(a + b) == Tokens(a) + Tokens(b)
    decreases |a|
  {
    if |a| > 0 {
      assert (a + b)[1..] == a[1..] + b;
      TokensAppend(a[1..], b);
    } else {
      assert a + b == b;
    }
  }

  /** Splitting already-split tokens again changes nothing. */
  lemma {:induction false} TokensIdempotent(args: seq<string>)
    ensures Tokens(Tokens(args)) == Tokens(args)
    decreases |args|
  {
    if |args| > 0 {
      var head := Split(args[0], '=');
      TokensAppend(head, Tokens(args[1..]));
      TokensIdempotent(args[1..]);
      TokensOfSplitFree(head);
    }
  }

  lemma {:induction false} TokensOfSplitFree(xs: seq<string>)
    requires forall k | 0 <= k < |xs| :: '=' !in xs[k]
    ensures Tokens(xs) == xs
    decreases |xs|
  {
    if |xs| > 0 {
      TokensOfSplitFree(xs[1..]);
      assert xs == [xs[0]] + xs[1..];
    }
  }

  /** The dictionary comprehension of `parse_hyperparameters`, pair by pair,
      left to right: the key is the token with its leading dashes removed, a
      later key overwrites an earlier one, and a dangling last token is an
      `IndexError` reached after the earlier pairs were converted. */
  function CollectPairs(literalEval: string -> Literal, tokens: seq<string>, acc: map<string, Value>): (r: Result<map<string, Value>>)
    ensures r.Ok? ==> |tokens| % 2 == 0 && acc.Keys <= r.value.Keys
    ensures r.Ok? ==> forall k | k in r.value && k !in acc :: k == [] || k[0] != '-'
    decreases |tokens|
  {
    if |tokens| == 0 then Ok(acc)
    else if |tokens| == 1 then Err(IndexError)
    else
      var v :- MaybeConvert(literalEval, tokens[1]);
      CollectPairs(literalEval, tokens[2..], acc[LStrip(tokens[0], '-') := v])
  }

  /** `parse_hyperparameters(args)`: the keys are the stripped even-position
      tokens, and each maps to the converted token after its last
      occurrence. */
  function ParseHyperparameters(literalEval: string -> Literal, args: seq<string>): (r: Result<map<string, Value>>)
    ensures r.Ok? ==> |Tokens(args)| % 2 == 0
    ensures r.Ok? ==> forall k | k in r.value :: k == [] || k[0] != '-'
    ensures r.Ok? ==> r.value.Keys == PairKeys(Tokens(args))
    ensures r.Ok? ==> forall j | PairAt(Tokens(args), j) && LastPairAt(Tokens(args), j) ::
      LStrip(Tokens(args)[j], '-') in r.value
      && Ok(r.value[LStrip(Tokens(args)[j], '-')]) == MaybeConvert(literalEval, Tokens(args)[j + 1])
  {
    var r := CollectPairs(literalEval, Tokens(args), map[]);
    if r.Ok? then
      CollectPairsKeys(literalEval, Tokens(args), map[]);
      CollectPairsValues(literalEval, Tokens(args), map[]);
      r
    else r
  }

  /** Index `j` starts a key/value pair of the token list. */
  predicate PairAt(tokens: seq<string>, j: int) {
    0 <= j && j + 1 < |tokens| && j % 2 == 0
  }

  /** The key of the pair at `j` names no later pair. */
  predicate LastPairAt(tokens: seq<string>, j: int)
    requires PairAt(tokens, j)
  {
    forall i | j < i < |tokens| && PairAt(tokens, i) :: LStrip(tokens[i], '-') != LStrip(tokens[j], '-')
  }

  /** No pair of the token list has the key `k`. */
  predicate Unnamed(tokens: seq<string>, k: string) {
    forall i | 0 <= i < |tokens| && PairAt(tokens, i) :: LStrip(tokens[i], '-') != k
  }

  /** Every pair whose key is not repeated later gives its key the converted
      value. */
  lemma {:induction false} CollectPairsValues(literalEval: string -> Literal, tokens: seq<string>, acc: map<string, Value>)
    requires CollectPairs(literalEval, tokens, acc).Ok?
    ensures var m := CollectPairs(literalEval, tokens, acc).value;
      forall j | PairAt(tokens, j) && LastPairAt(tokens, j) ::
        LStrip(tokens[j], '-') in m && Ok(m[LStrip(tokens[j], '-')]) == MaybeConvert(literalEval, tokens[j + 1])
    decreases |tokens|
  {
    if |tokens| >= 2 {
      var rest := tokens[2..];
      var v := MaybeConvert(literalEval, tokens[1]).value;
      var acc' := acc[LStrip(tokens[0], '-') := v];
      CollectPairsValues(literalEval, rest, acc');
      var m := CollectPairs(literalEval, rest, acc').value;
      assert CollectPairs(literalEval, tokens, acc).value == m;
      forall j | PairAt(tokens, j) && LastPairAt(tokens, j)
        ensures LStrip(tokens[j], '-') in m && Ok(m[LStrip(tokens[j], '-')]) == MaybeConvert(literalEval, tokens[j + 1])
      {
        if j == 0 {
          FirstPairUnnamed(tokens);
          CollectPairsKept(literalEval, rest, acc');
        } else {
          LaterPairLast(tokens, j);
        }
      }
    }
  }

  /** An entry of `acc` that no pair names is kept. */
  lemma {:induction false} CollectPairsKept(literalEval: string -> Literal, tokens: seq<string>, acc: map<string, Value>)
    requires CollectPairs(literalEval, tokens, acc).Ok?
    ensures var m := CollectPairs(literalEval, tokens, acc).value;
      forall k | k in acc && Unnamed(tokens, k) :: k in m && m[k] == acc[k]
    decreases |tokens|
  {
    if |tokens| >= 2 {
      var rest := tokens[2..];
      var v := MaybeConvert(literalEval, tokens[1]).value;
      var acc' := acc[LStrip(tokens[0], '-') := v];
      CollectPairsKept(literalEval, rest, acc');
      forall k | k in acc && Unnamed(tokens, k)
        ensures k in acc' && acc'[k] == acc[k] && Unnamed(rest, k)
      {
        assert PairAt(tokens, 0);
        UnnamedShift(tokens, k);
      }
    }
  }

  /** A pair whose key is not repeated later has a key the remainder does
      not name. */
  lemma FirstPairUnnamed(tokens: seq<string>)
    requires PairAt(tokens, 0) && LastPairAt(tokens, 0)
    ensures Unnamed(tokens[2..], LStrip(tokens[0], '-'))
  {
    forall i | 0 <= i < |tokens[2..]| && PairAt(tokens[2..], i)
      ensures LStrip(tokens[2..][i], '-') != LStrip(tokens[0], '-')
    {
      assert PairAt(tokens, i + 2) && tokens[2..][i] == tokens[i + 2];
    }
  }

  /** A later last pair is a last pair of the remainder. */
  lemma LaterPairLast(tokens: seq<string>, j: int)
    requires PairAt(tokens, j) && LastPairAt(tokens, j) && j > 0
    ensures PairAt(tokens[2..], j - 2) && LastPairAt(tokens[2..], j - 2)
    ensures tokens[2..][j - 2] == tokens[j] && tokens[2..][j - 1] == tokens[j + 1]
  {
    var rest := tokens[2..];
    forall i | j - 2 < i < |rest| && PairAt(rest, i)
      ensures LStrip(rest[i], '-') != LStrip(rest[j - 2], '-')
    {
      assert PairAt(tokens, i + 2) && rest[i] == tokens[i + 2];
    }
  }

  /** A key no pair names is not the first key and is not named by the
      remainder. */
  lemma UnnamedShift(tokens: seq<string>, k: string)
    requires |tokens| >= 2 && Unnamed(tokens, k)
    ensures LStrip(tokens[0], '-') != k && Unnamed(tokens[2..], k)
  {
    assert PairAt(tokens, 0);
    forall i | 0 <= i < |tokens[2..]| && PairAt(tokens[2..], i)
      ensures LStrip(tokens[2..][i], '-') != k
    {
      assert PairAt(tokens, i + 2) && tokens[2..][i] == tokens[i + 2];
    }
  }


  /** `--a=3` and `--a 3` spellings give the same dictionary: parsing the
      pre-split argument list is parsing the original one. */
  lemma ParseHyperparametersSpellings(literalEval: string -> Literal, args: seq<string>)
    ensures ParseHyperparameters(literalEval, Tokens(args)) == ParseHyperparameters(literalEval, args)
  {
    TokensIdempotent(args);
  }

  /** When no token is a `SyntaxError` for `literal_eval`, the parse fails
      exactly when the token count is odd. */
  lemma {:induction false} CollectPairsTotal(literalEval: string -> Literal, tokens: seq<string>, acc: map<string, Value>)
    requires forall k | 0 <= k < |tokens| :: !literalEval(tokens[k]).Unparsable?
    ensures CollectPairs(literalEval, tokens, acc).Ok? <==> |tokens| % 2 == 0
    decreases |tokens|
  {
    if |tokens| >= 2 {
      assert !literalEval(tokens[1]).Unparsable?;
      var v := MaybeConvert(literalEval, tokens[1]).value;
      CollectPairsTotal(literalEval, tokens[2..], acc[LStrip(tokens[0], '-') := v]);
    }
  }

  /** The last pair always wins its key. */
  lemma CollectPairsLastWins(literalEval: string -> Literal, tokens: seq<string>, acc: map<string, Value>)
    requires CollectPairs(literalEval, tokens, acc).Ok?
    requires |tokens| >= 2
    ensures var m := CollectPairs(literalEval, tokens, acc).value;
      var key := LStrip(tokens[|tokens| - 2], '-');
      key in m && Ok(m[key]) == MaybeConvert(literalEval, tokens[|tokens| - 1])
  {
    CollectPairsValues(literalEval, tokens, acc);
    assert PairAt(tokens, |tokens| - 2) && LastPairAt(tokens, |tokens| - 2);
  }

  /** The keys a token list names: its stripped even-position tokens. */
  function PairKeys(tokens: seq<string>): set<string>
    decreases |tokens|
  {
    if |tokens| < 2 then {} else {LStrip(tokens[0], '-')} + PairKeys(tokens[2..])
  }

  /** A key that is not a pair key is named by no pair. */
  lemma {:induction false} NotPairKeyUnnamed(tokens: seq<string>, k: string)
    requires k !in PairKeys(tokens)
    ensures Unnamed(tokens, k)
    decreases |tokens|
  {
    if |tokens| >= 2 {
      NotPairKeyUnnamed(tokens[2..], k);
      UnnamedOfRest(tokens, k);
    }
  }

  lemma UnnamedOfRest(tokens: seq<string>, k: string)
    requires |tokens| >= 2 && LStrip(tokens[0], '-') != k && Unnamed(tokens[2..], k)
    ensures Unnamed(tokens, k)
  {
    forall i | 0 <= i < |tokens| && PairAt(tokens, i) ensures LStrip(tokens[i], '-') != k {
      if i > 0 {
        assert PairAt(tokens[2..], i - 2) && tokens[2..][i - 2] == tokens[i];
      }
    }
  }

  /** A last pair of the remainder is a last pair of the whole list, two
      places on. */
  lemma LastPairLifts(tokens: seq<string>, j: int)
    requires |tokens| >= 2 && PairAt(tokens[2..], j) && LastPairAt(tokens[2..], j)
    ensures PairAt(tokens, j + 2) && LastPairAt(tokens, j + 2) && tokens[j + 2] == tokens[2..][j]
  {
    var rest := tokens[2..];
    forall i | j + 2 < i < |tokens| && PairAt(tokens, i)
      ensures LStrip(tokens[i], '-') != LStrip(tokens[j + 2], '-')
    {
      assert PairAt(rest, i - 2) && rest[i - 2] == tokens[i];
    }
  }

  /** The first pair is the last one naming its key when the remainder does
      not name it. */
  lemma FirstPairLast(tokens: seq<string>)
    requires |tokens| >= 2 && Unnamed(tokens[2..], LStrip(tokens[0], '-'))
    ensures PairAt(tokens, 0) && LastPairAt(tokens, 0)
  {
    var rest := tokens[2..];
    forall i | 0 < i < |tokens| && PairAt(tokens, i)
      ensures LStrip(tokens[i], '-') != LStrip(tokens[0], '-')
    {
      assert PairAt(rest, i - 2) && rest[i - 2] == tokens[i];
    }
  }

  /** Every pair key has a last pair naming it: the index `j`. */
  lemma {:induction false} KeyHasLastPair(tokens: seq<string>, k: string) returns (j: int)
    requires k in PairKeys(tokens)
    ensures PairAt(tokens, j) && LastPairAt(tokens, j) && LStrip(tokens[j], '-') == k
    decreases |tokens|
  {
    assert |tokens| >= 2 && PairKeys(tokens) == {LStrip(tokens[0], '-')} + PairKeys(tokens[2..]);
    var rest := tokens[2..];
    if k in PairKeys(rest) {
      var j' := KeyHasLastPair(rest, k);
      LastPairLifts(tokens, j');
      j := j' + 2;
    } else {
      NotPairKeyUnnamed(rest, k);
      assert k == LStrip(tokens[0], '-');
      FirstPairLast(tokens);
      j := 0;
    }
  }

  /** Each parsed key has a last pair `j` naming it, and holds the
      converted token after that pair. */
  lemma ParsedKeyPair(literalEval: string -> Literal, args: seq<string>, k: string) returns (j: int)
    requires ParseHyperparameters(literalEval, args).Ok? && k in ParseHyperparameters(literalEval, args).value
    ensures PairAt(Tokens(args), j) && LastPairAt(Tokens(args), j) && LStrip(Tokens(args)[j], '-') == k
    ensures Ok(ParseHyperparameters(literalEval, args).value[k]) == MaybeConvert(literalEval, Tokens(args)[j + 1])
  {
    j := KeyHasLastPair(Tokens(args), k);
  }

  /** The keys of the parsed dictionary are exactly the accumulator's keys
      plus the stripped even-position tokens. */
  lemma {:induction false} CollectPairsKeys(literalEval: string -> Literal, tokens: seq<string>, acc: map<string, Value>)
    requires CollectPairs(literalEval, tokens, acc).Ok?
    ensures CollectPairs(literalEval, tokens, acc).value.Keys == acc.Keys + PairKeys(tokens)
    decreases |tokens|
  {
    if |tokens| >= 2 {
      var v := MaybeConvert(literalEval, tokens[1]).value;
      CollectPairsKeys(literalEval, tokens[2..], acc[LStrip(tokens[0], '-') := v]);
    }
  }
}

=== FILE: vertex_executor.dfy ===
/** The Vertex AI executor (block_cascade/executors/vertex/executor.py): job
    status classes, the display name, locating the code package, building
    the job, submitting it, polling it to a final state, and reading back the
    result. The Vertex API is a pair of oracles: one answers a submission
    with the job's resource name, the other is the sequence of statuses
    successive queries return. */
module VertexExecutor {
  import opened Wrappers
  import opened Strings
  import opened Json
  import opened Utils
  import opened Tune
  import opened DistributedJob
  import opened Codec
  import opened BaseExecutor
  import opened VertexResource
  import opened VertexJob
  import opened VertexTuneResult

  /** The states of a Vertex job. */
  datatype JobState =
    | JobStateUnspecified
    | JobStateQueued
    | JobStatePending
    | JobStateRunning
    | JobStateSucceeded
    | JobStateFailed
    | JobStateCancelling
    | JobStateCancelled
    | JobStatePaused
    | JobStateExpired
    | JobStateUpdating
    | JobStatePartiallySucceeded

  /** A status query's answer: the state and the job's error message. */
  datatype Status = Status(state: JobState, message: string)

  predicate IsExecuting(s: Status) {
    s.state in {JobStateUnspecified, JobStateQueued, JobStatePending, JobStateRunning, JobStatePaused}
  }

  predicate IsCancelled(s: Status) {
    s.state in {JobStateCancelling, JobStateCancelled}
  }

  predicate IsSuccessful(s: Status) {
    s.state == JobStateSucceeded
  }

  /** The three status classes never overlap, and a state outside all three
      (failed, expired, updating, partially succeeded) is a failure. */
  lemma StatusClassesDisjoint(s: Status)
    ensures !(IsExecuting(s) && IsCancelled(s))
    ensures !(IsExecuting(s) && IsSuccessful(s))
    ensures !(IsCancelled(s) && IsSuccessful(s))
    ensures !IsExecuting(s) && !IsCancelled(s) && !IsSuccessful(s) <==>
      s.state in {JobStateFailed, JobStateExpired, JobStateUpdating, JobStatePartiallySucceeded}
  {
  }

  /** The executor's state once constructed. `location` is the environment's
      storage location; `job` is a job passed in by the caller, if any. */
  datatype Vertex = Vertex(
    base: Executor,
    resource: GcpResource,
    tune: Option<Tune>,
    dashboard: bool,
    webConsole: bool,
    labels: seq<(string, string)>,
    codePackage: Option<string>,
    job: Option<VertexJob>,
    location: string)

  /** `VertexExecutor(...)`: a code package that names a file is refused,
      and the storage location is read from the resource's environment. */
  function MakeVertex(
    func: Callable, resource: GcpResource, name: Option<string>, tune: Option<Tune>,
    dashboard: bool, webConsole: bool, labels: seq<(string, string)>,
    codePackage: Option<string>, codePackageIsFile: bool, storageKey: string): (r: Result<Vertex>)
    ensures r.Ok? <==> !(codePackage.Some? && codePackageIsFile) && resource.environment.Some?
    ensures codePackage.Some? && codePackageIsFile ==> r.Err? && r.error.RuntimeError?
    ensures r.Ok? ==> r.value.location == resource.environment.value.storageLocation
    ensures r.Ok? ==> r.value.base == Executor(func, name, storageKey) && r.value.job.None?
  {
    if codePackage.Some? && codePackageIsFile then
      Err(RuntimeError(codePackage.value + " references a file. "
        + "Please reference a directory representing a Python package."))
    else if resource.environment.None? then Err(AttributeError("storage_location"))
    else
      Ok(Vertex(Executor(func, name, storageKey), resource, tune, dashboard, webConsole, labels,
                codePackage, None, resource.environment.value.storageLocation))
  }

  /** `display_name`: the explicit name (even an empty one), else the
      function's name with a suffix saying whether this is a tuning job. */
  function DisplayName(v: Vertex): (r: Result<string>)
    ensures v.base.name.Some? ==> r == Ok(v.base.name.value)
    ensures v.base.name.None? && Name(v.base.func).None? ==> r.Err? && r.error.AttributeError?
    ensures v.base.name.None? && Name(v.base.func).Some? ==>
      r.Ok? && StartsWith(r.value, Name(v.base.func).value)
      && (v.tune.None? <==> r.value == Name(v.base.func).value + "-cascade")
      && (v.tune.Some? <==> r.value == Name(v.base.func).value + "-hyperparameter-tuning")
  {
    if v.base.name.Some? then Ok(v.base.name.value)
    else match Name(v.base.func)
      case None => Err(AttributeError("__name__"))
      case Some(n) =>
        var r := if v.tune.None? then n + "-cascade" else n + "-hyperparameter-tuning";
        assert r[..|n|] == n;
        assert |n + "-cascade"| != |n + "-hyperparameter-tuning"|;
        Ok(r)
  }

  /** `code_path`: where an uploaded code package goes. */
  function CodePath(v: Vertex): string {
    PathJoin(StoragePath(v.location, v.base), "code")
  }

  /** The module a Prefect deployment's entrypoint names: the text before
      the first `/`, else before the first `:`, else all of it, with leading
      slashes removed. */
  function DeploymentModule(entrypoint: string): (r: string)
    ensures StartsWith(entrypoint, r)
    ensures '/' !in r
    ensures '/' !in entrypoint && ':' in entrypoint ==> ':' !in r && StartsWith(entrypoint, r + ":")
    ensures '/' !in entrypoint && ':' !in entrypoint ==> r == entrypoint
  {
    var head :=
      if '/' in entrypoint then Split(entrypoint, '/')[0]
      else if ':' in entrypoint then Split(entrypoint, ':')[0]
      else entrypoint;
    assert '/' in entrypoint ==> head == entrypoint[..IndexOf(entrypoint, '/')];
    assert '/' !in entrypoint && ':' in entrypoint ==> head == entrypoint[..IndexOf(entrypoint, ':')];
    assert '/' !in head;
    LStrip(head, '/')
  }

  /** The current Prefect deployment: its entrypoint and its path in the
      storage bucket. */
  datatype Deployment = Deployment(entrypoint: string, path: string)

  /** Where the code package is, as `create_job` works it out, and the
      upload it performs. Without an explicit package, under Prefect 2, a
      deployment's package lives at `bucket/path/module`; an explicit
      package is uploaded under the run's code directory. The storage block
      is a missing object or its data fields. */
  function PackagePath(
    v: Vertex, prefectV2: bool, deployment: Option<Deployment>,
    storageBlock: Option<map<string, string>>): (r: Result<(Option<string>, seq<Event>)>)
    ensures v.codePackage.Some? ==>
      var upload := PathJoin(CodePath(v), AfterLast(v.codePackage.value, '/'));
      r == Ok((Some(upload), [Uploaded(upload)]))
    ensures v.codePackage.None? && (!prefectV2 || deployment.None?) ==> r == Ok((None, []))
    ensures (v.codePackage.None? && prefectV2 && deployment.Some? && storageBlock.Some?
               && "bucket_path" in storageBlock.value) ==>
      r == Ok((Some(storageBlock.value["bucket_path"] + "/" + RStrip(deployment.value.path, '/')
                    + "/" + DeploymentModule(deployment.value.entrypoint)), []))
    ensures r.Err? <==> (v.codePackage.None? && prefectV2 && deployment.Some?
                         && (storageBlock.None? || "bucket_path" !in storageBlock.value))
  {
    if v.codePackage.None? && prefectV2 then
      match deployment
      case None => Ok((None, []))
      case Some(d) =>
        match storageBlock
        case None => Err(AttributeError("data"))
        case Some(data) =>
          if "bucket_path" !in data then Err(KeyError("bucket_path"))
          else Ok((Some(data["bucket_path"] + "/" + RStrip(d.path, '/') + "/" + DeploymentModule(d.entrypoint)), []))
    else if v.codePackage.Some? then
      var upload := PathJoin(CodePath(v), AfterLast(v.codePackage.value, '/'));
      Ok((Some(upload), [Uploaded(upload)]))
    else Ok((None, []))
  }

  /** `create_job`: the job carries the executor's display name, resource,
      storage path, tuning and labels; the dashboard is on when asked for or
      when the distributed job is a Dask cluster. */
  function CreateJob(
    v: Vertex, prefectV2: bool, deployment: Option<Deployment>,
    storageBlock: Option<map<string, string>>): (r: Result<(VertexJob, seq<Event>)>)
    ensures r.Ok? <==> PackagePath(v, prefectV2, deployment, storageBlock).Ok? && DisplayName(v).Ok?
    ensures r.Ok? ==> r.value.1 == PackagePath(v, prefectV2, deployment, storageBlock).value.1
    ensures r.Ok? ==> var job := r.value.0;
      job.displayName == DisplayName(v).value
      && job.resource == v.resource && job.tune == v.tune && job.labels == v.labels
      && job.storagePath == StoragePath(v.location, v.base)
      && job.codePackage == PackagePath(v, prefectV2, deployment, storageBlock).value.0
      && job.webConsole == v.webConsole
      && (job.dashboard <==> v.dashboard || (v.resource.distributedJob.Some? && v.resource.distributedJob.value.Dask?))
  {
    var (package, trace) :- PackagePath(v, prefectV2, deployment, storageBlock);
    var displayName :- DisplayName(v);
    var dashboard := v.dashboard || (v.resource.distributedJob.Some? && v.resource.distributedJob.value.Dask?);
    Ok((VertexJob(displayName, v.resource, StoragePath(v.location, v.base), v.tune, dashboard,
                  v.webConsole, v.labels, package), trace))
  }

  /** The API call `_start` submits with. */
  function Endpoint(job: VertexJob): string {
    if job.tune.None? then "create_custom_job" else "create_hyperparameter_tuning_job"
  }

  /** The resource name of the location a job is created in. */
  function Parent(env: Environment): (r: string)
    ensures StartsWith(r, "projects/" + env.project + "/locations/")
    ensures EndsWith(r, PyStr(env.region))
  {
    var prefix := "projects/" + env.project + "/locations/";
    var r := prefix + PyStr(env.region);
    assert r[..|prefix|] == prefix;
    assert r[|r| - |PyStr(env.region)|..] == PyStr(env.region);
    r
  }

  /** The Vertex API's answer to a submission: the created job's resource
      name, or an error. */
  type Submit = (string, string, Value) -> Result<string>

  /** What `_start` produced: the job it submitted, the job's resource name
      and the effects on the way. */
  datatype Started = Started(job: VertexJob, name: string, trace: seq<Event>)

  /** `_start`: build the job unless one was given, build its payload,
      submit it to the endpoint its tuning selects, and check that the
      returned name has the six segments
      `projects/{p}/locations/{l}/{kind}/{id}`. Failing to log quotas never
      stops a submission, so quota logging is not part of this step. */
  function Start(
    v: Vertex, prefectV2: bool, deployment: Option<Deployment>,
    storageBlock: Option<map<string, string>>, submit: Submit): (r: Result<Started>)
    ensures v.job.Some? ==> (r.Ok? ==> r.value.job == v.job.value)
    ensures v.job.None? && CreateJob(v, prefectV2, deployment, storageBlock).Err? ==> r.Err?
    ensures v.job.None? && r.Ok? ==> r.value.job == CreateJob(v, prefectV2, deployment, storageBlock).value.0
    ensures r.Ok? ==> CreatePayload(r.value.job).Ok? && r.value.job.resource.environment.Some?
    ensures r.Ok? ==> var env := r.value.job.resource.environment.value;
      submit(Endpoint(r.value.job), Parent(env), CreatePayload(r.value.job).value) == Ok(r.value.name)
    ensures r.Ok? ==> |Split(r.value.name, '/')| == 6
    ensures r.Ok? ==> |r.value.trace| > 0 && r.value.trace[|r.value.trace| - 1] == Submitted(Endpoint(r.value.job))
  {
    var (job, created) :- JobToSubmit(v, prefectV2, deployment, storageBlock);
    var r := Submission(job, created, submit);
    assert r.Ok? ==> r.value.trace[|r.value.trace| - 1] == Submitted(Endpoint(job));
    r
  }

  /** The job `_start` submits: the one given, or a freshly created one. */
  function JobToSubmit(
    v: Vertex, prefectV2: bool, deployment: Option<Deployment>,
    storageBlock: Option<map<string, string>>): (r: Result<(VertexJob, seq<Event>)>)
    ensures v.job.Some? ==> r == Ok((v.job.value, []))
    ensures v.job.None? ==> r == CreateJob(v, prefectV2, deployment, storageBlock)
  {
    match v.job
    case Some(j) => Ok((j, []))
    case None => CreateJob(v, prefectV2, deployment, storageBlock)
  }

  /** The part of `_start` after the job is known: build its payload,
      submit it, and unpack the returned name. */
  function Submission(job: VertexJob, created: seq<Event>, submit: Submit): (r: Result<Started>)
    ensures r.Ok? ==> r.value.job == job && r.value.trace == created + [Submitted(Endpoint(job))]
    ensures r.Ok? ==> CreatePayload(job).Ok? && job.resource.environment.Some?
    ensures r.Ok? ==> var env := job.resource.environment.value;
      submit(Endpoint(job), Parent(env), CreatePayload(job).value) == Ok(r.value.name)
    ensures r.Ok? ==> |Split(r.value.name, '/')| == 6
  {
    var payload :- CreatePayload(job);
    if job.resource.environment.None? then Err(AttributeError("project"))
    else
      var env := job.resource.environment.value;
      var name :- submit(Endpoint(job), Parent(env), payload);
      if |Split(name, '/')| != 6 then
        Err(ValueError("expected 6 values to unpack, got " + NatToString(|Split(name, '/')|)))
      else Ok(Started(job, name, created + [Submitted(Endpoint(job))]))
  }

  /** Position of the first status that is no longer executing. */
  function FirstSettled(statuses: seq<Status>): (i: nat)
    requires exists k | 0 <= k < |statuses| :: !IsExecuting(statuses[k])
    ensures i < |statuses| && !IsExecuting(statuses[i])
    ensures forall k | 0 <= k < i :: IsExecuting(statuses[k])
    decreases |statuses|
  {
    if !IsExecuting(statuses[0]) then 0
    else
      assert exists k | 0 <= k < |statuses[1..]| :: !IsExecuting(statuses[1..][k]) by {
        var k :| 0 <= k < |statuses| && !IsExecuting(statuses[k]);
        assert statuses[1..][k - 1] == statuses[k];
      }
      1 + FirstSettled(statuses[1..])
  }

  /** What polling ends with: the settled status and how many times the
      status was queried. */
  datatype Polled = Polled(settled: Status, queries: nat)

  /** `polled` is what polling `statuses` ends with: the first status that
      is no longer executing, after one query per status up to it. */
  predicate PolledFrom(statuses: seq<Status>, polled: Polled) {
    1 <= polled.queries <= |statuses|
    && polled.settled == statuses[polled.queries - 1]
    && !IsExecuting(polled.settled)
    && forall k | 0 <= k < polled.queries - 1 :: IsExecuting(statuses[k])
  }

  /** For statuses that eventually settle, exactly one outcome is polled
      from them: the first settled status, after that many queries. */
  lemma PolledFromFirstSettled(statuses: seq<Status>, polled: Polled)
    requires exists k | 0 <= k < |statuses| :: !IsExecuting(statuses[k])
    ensures PolledFrom(statuses, polled)
      <==> polled == Polled(statuses[FirstSettled(statuses)], FirstSettled(statuses) + 1)
  {
    var f := FirstSettled(statuses);
    if PolledFrom(statuses, polled) {
      var i := polled.queries - 1;
      assert !IsExecuting(statuses[f]);
      assert !(f < i);
      assert !(i < f);
    }
  }

  /** The poll loop of `_run`: query once, then again while the job is still
      executing. Returns the settled status and the number of queries. */
  method Poll(statuses: seq<Status>) returns (p: Polled)
    requires exists k | 0 <= k < |statuses| :: !IsExecuting(statuses[k])
    ensures p.queries == FirstSettled(statuses) + 1
    ensures p.settled == statuses[p.queries - 1] && !IsExecuting(p.settled)
    ensures PolledFrom(statuses, p)
  {
    var w :| 0 <= w < |statuses| && !IsExecuting(statuses[w]);
    var k := 0;
    var status := statuses[0];
    while IsExecuting(status)
      invariant 0 <= k <= w
      invariant status == statuses[k]
      invariant forall j | 0 <= j < k :: IsExecuting(statuses[j])
      decreases w - k
    {
      k := k + 1;
      status := statuses[k];
    }
    var f := FirstSettled(statuses);
    assert !(f < k) && !(k < f);
    p := Polled(status, k + 1);
  }

  /** The check after polling: a cancelled job and any other unsuccessful
      job raise, each naming the job and carrying its message. */
  function Settle(name: string, status: Status): (r: Result<()>)
    ensures r.Ok? <==> IsSuccessful(status)
    ensures IsCancelled(status) ==> r == Err(VertexCancelledError("Job " + name + " was cancelled: " + status.message))
    ensures !IsCancelled(status) && !IsSuccessful(status) ==> r == Err(VertexError("Job " + name + " failed: " + status.message))
  {
    if IsCancelled(status) then Err(VertexCancelledError("Job " + name + " was cancelled: " + status.message))
    else if !IsSuccessful(status) then Err(VertexError("Job " + name + " failed: " + status.message))
    else Ok(())
  }

  /** Whether the job's resource name marks a tuning job; status queries
      and the result both branch on it. */
  predicate IsTuningName(name: string) {
    Contains(name, "hyperparameter")
  }

  /** What a finished tuning job reports: its goal and its trials. */
  datatype Study = Study(goal: string, trials: seq<ReportedTrial>)

  /** `VertexExecutor._result`: a tuning job's result is assembled from its
      trials and written to the output path before it is returned; any other
      job's output is read. Unlike the base executor's, nothing is deleted. */
  function VertexResult(v: Vertex, name: string, literalEval: string -> Literal, study: Study, store: Store): (r: Step<Payload>)
    ensures var out := OutputPath(v.location, v.base);
      !IsTuningName(name) ==> r == Step(Load(store, out), store, [])
    ensures IsTuningName(name) ==> (r.result.Ok? <==> TuneResultOf(literalEval, study.goal, study.trials).Ok?)
    ensures var out := OutputPath(v.location, v.base);
      IsTuningName(name) && r.result.Ok? ==>
        r.result.value.PTune? && r.result.value.t == TuneResultOf(literalEval, study.goal, study.trials).value
        && r.store == store[out := Encode(r.result.value)] && r.trace == [Wrote(out)]
    ensures forall p | p in store :: p in r.store
  {
    var out := OutputPath(v.location, v.base);
    if IsTuningName(name) then
      match TuneResultOf(literalEval, study.goal, study.trials)
      case Err(e) => Step(Err(e), store, [])
      case Ok(t) => Step(Ok(PTune(t)), store[out := Encode(PTune(t))], [Wrote(out)])
    else Step(Load(store, out), store, [])
  }

  /** A distributed job that `cloudpickle` cannot dump. */
  predicate JobUnpicklable(v: Vertex, jobPickle: JobPickler) {
    v.resource.distributedJob.Some? && jobPickle(v.resource.distributedJob.value).Some?
  }

  /** Staging before the start: the distributed job (if any), then the
      function. A job that cannot be pickled raises after its file was
      opened, which is left empty, and the function is not staged. */
  function StageAll(v: Vertex, jobPickle: JobPickler, store: Store): (r: Step<()>)
    ensures r.result.Ok? <==> !JobUnpicklable(v, jobPickle)
    ensures var dist := PathJoin(StoragePath(v.location, v.base), DistributedJobFilename);
      v.resource.distributedJob.Some? ==> dist in r.store
    ensures var dist := PathJoin(StoragePath(v.location, v.base), DistributedJobFilename);
      r.result.Ok? && v.resource.distributedJob.Some? && dist != StagedPath(v.location, v.base) ==>
        Load(r.store, dist) == Ok(PJob(v.resource.distributedJob.value))
    ensures r.result.Ok? ==> Load(r.store, StagedPath(v.location, v.base)) == Ok(PFunc(v.base.func))
    ensures var dist := PathJoin(StoragePath(v.location, v.base), DistributedJobFilename);
      r.result.Ok? ==>
        r.trace == (if v.resource.distributedJob.Some? then [Wrote(dist)] else []) + [Wrote(StagedPath(v.location, v.base))]
    ensures var dist := PathJoin(StoragePath(v.location, v.base), DistributedJobFilename);
      r.result.Err? ==>
        && r.result.error == jobPickle(v.resource.distributedJob.value).value
        && r.store == store[dist := Text("")] && r.trace == [Wrote(dist)]
    ensures forall p | p in store :: p in r.store
  {
    var dist := PathJoin(StoragePath(v.location, v.base), DistributedJobFilename);
    var staged := Wrote(StagedPath(v.location, v.base));
    match v.resource.distributedJob
    case None => Step(Ok(()), Stage(v.location, v.base, store), [staged])
    case Some(j) =>
      match jobPickle(j)
      case Some(e) => Step(Err(e), store[dist := Text("")], [Wrote(dist)])
      case None => Step(Ok(()), Stage(v.location, v.base, store[dist := Encode(PJob(j))]), [Wrote(dist), staged])
  }

  /** The run's outcome together with its storage and effects. */
  datatype Outcome = Outcome(step: Step<Payload>, name: Option<string>)

  /** `run()` → `_run()`: stage, start, poll until the job settles, check
      the settled status, and collect the result. The status oracle
      `statuses` must eventually report a settled job, as the loop would
      otherwise poll forever; `polled` is what polling it ends with. */
  function Run(
    v: Vertex, prefectV2: bool, deployment: Option<Deployment>,
    storageBlock: Option<map<string, string>>, submit: Submit, jobPickle: JobPickler,
    statuses: seq<Status>, polled: Polled, literalEval: string -> Literal, study: Study, store: Store): (r: Outcome)
    requires PolledFrom(statuses, polled)
    ensures var staged := StageAll(v, jobPickle, store);
      staged.result.Err? ==> r == Outcome(Step(Err(staged.result.error), staged.store, staged.trace), None)
    ensures var started := Start(v, prefectV2, deployment, storageBlock, submit);
      !JobUnpicklable(v, jobPickle) && started.Err? ==>
        r.step.result == Err(started.error) && r.step.store == StageAll(v, jobPickle, store).store && r.name.None?
    ensures r.step.result.Ok? ==> IsSuccessful(polled.settled) && IsSuccessful(statuses[polled.queries - 1])
    ensures r.step.result.Ok? ==> Start(v, prefectV2, deployment, storageBlock, submit).Ok? && !JobUnpicklable(v, jobPickle)
    ensures forall p | p in store :: p in r.step.store
  {
    var stagedAll := StageAll(v, jobPickle, store);
    var (staged, stageTrace) := (stagedAll.store, stagedAll.trace);
    if stagedAll.result.Err? then Outcome(Step(Err(stagedAll.result.error), staged, stageTrace), None)
    else
      match Start(v, prefectV2, deployment, storageBlock, submit)
      case Err(e) => Outcome(Step(Err(e), staged, stageTrace), None)
      case Ok(started) =>
        var trace := stageTrace + started.trace + Queries(polled.queries);
        match Settle(started.name, polled.settled)
        case Err(e) => Outcome(Step(Err(e), staged, trace), Some(started.name))
        case Ok(_) =>
          var res := VertexResult(v, started.name, literalEval, study, staged);
          Outcome(Step(res.result, res.store, trace + res.trace), Some(started.name))
  }

  /** After the job settles, a cancelled job raises VertexCancelledError
      and any other unsuccessful job VertexError; only a successful job
      reaches the result. */
  lemma RunSettles(
    v: Vertex, prefectV2: bool, deployment: Option<Deployment>,
    storageBlock: Option<map<string, string>>, submit: Submit, jobPickle: JobPickler,
    statuses: seq<Status>, polled: Polled, literalEval: string -> Literal, study: Study, store: Store)
    requires Start(v, prefectV2, deployment, storageBlock, submit).Ok? && !JobUnpicklable(v, jobPickle)
    requires PolledFrom(statuses, polled)
    ensures var r := Run(v, prefectV2, deployment, storageBlock, submit, jobPickle, statuses, polled, literalEval, study, store);
      var started := Start(v, prefectV2, deployment, storageBlock, submit).value;
      var settled := polled.settled;
      r.name == Some(started.name)
      && (r.step.result.Err? && r.step.result.error.VertexCancelledError? <== IsCancelled(settled))
      && (r.step.result.Err? && r.step.result.error.VertexError? <== !IsCancelled(settled) && !IsSuccessful(settled))
  {
  }

  /** A successful job's run is: staging, the submission, the status
      queries, then the result, with the storage the result leaves. */
  lemma RunSucceeds(
    v: Vertex, prefectV2: bool, deployment: Option<Deployment>,
    storageBlock: Option<map<string, string>>, submit: Submit, jobPickle: JobPickler,
    statuses: seq<Status>, polled: Polled, literalEval: string -> Literal, study: Study, store: Store)
    requires Start(v, prefectV2, deployment, storageBlock, submit).Ok? && !JobUnpicklable(v, jobPickle)
    requires PolledFrom(statuses, polled)
    requires IsSuccessful(polled.settled)
    ensures var r := Run(v, prefectV2, deployment, storageBlock, submit, jobPickle, statuses, polled, literalEval, study, store);
      var started := Start(v, prefectV2, deployment, storageBlock, submit).value;
      var res := VertexResult(v, started.name, literalEval, study, StageAll(v, jobPickle, store).store);
      r.step.result == res.result && r.step.store == res.store
      && r.step.trace == StageAll(v, jobPickle, store).trace + started.trace + Queries(polled.queries) + res.trace
  {
    var started := Start(v, prefectV2, deployment, storageBlock, submit).value;
  }

  /** A successful run submits after both files are staged and leaves the
      staged function in storage. */
  lemma RunStagesBeforeSubmitting(
    v: Vertex, prefectV2: bool, deployment: Option<Deployment>,
    storageBlock: Option<map<string, string>>, submit: Submit, jobPickle: JobPickler,
    statuses: seq<Status>, polled: Polled, literalEval: string -> Literal, study: Study, store: Store)
    requires PolledFrom(statuses, polled)
    requires Run(v, prefectV2, deployment, storageBlock, submit, jobPickle, statuses, polled, literalEval, study, store).step.result.Ok?
    ensures var r := Run(v, prefectV2, deployment, storageBlock, submit, jobPickle, statuses, polled, literalEval, study, store);
      var stagedAt := |StageAll(v, jobPickle, store).trace| - 1;
      r.step.trace[stagedAt] == Wrote(StagedPath(v.location, v.base))
      && exists i | stagedAt < i < |r.step.trace| :: r.step.trace[i].Submitted?
    ensures var r := Run(v, prefectV2, deployment, storageBlock, submit, jobPickle, statuses, polled, literalEval, study, store);
      StagedPath(v.location, v.base) in r.step.store
  {
    var stageTrace := StageAll(v, jobPickle, store).trace;
    var started := Start(v, prefectV2, deployment, storageBlock, submit).value;
    RunSucceeds(v, prefectV2, deployment, storageBlock, submit, jobPickle, statuses, polled, literalEval, study, store);
    var r := Run(v, prefectV2, deployment, storageBlock, submit, jobPickle, statuses, polled, literalEval, study, store);
    var i := |stageTrace| + |started.trace| - 1;
    assert r.step.trace[i] == started.trace[|started.trace| - 1];
    assert r.step.trace[|stageTrace| - 1] == stageTrace[|stageTrace| - 1];
  }

  /** A distributed job that cannot be pickled fails the run before the
      function is staged or anything is submitted: its file is left empty
      and every other path keeps its contents. */
  lemma RunJobUnpicklable(
    v: Vertex, prefectV2: bool, deployment: Option<Deployment>,
    storageBlock: Option<map<string, string>>, submit: Submit, jobPickle: JobPickler,
    statuses: seq<Status>, polled: Polled, literalEval: string -> Literal, study: Study, store: Store)
    requires PolledFrom(statuses, polled)
    requires JobUnpicklable(v, jobPickle)
    ensures var r := Run(v, prefectV2, deployment, storageBlock, submit, jobPickle, statuses, polled, literalEval, study, store);
      var dist := PathJoin(StoragePath(v.location, v.base), DistributedJobFilename);
      && r.step.result == Err(jobPickle(v.resource.distributedJob.value).value)
      && r.name.None? && r.step.trace == [Wrote(dist)]
      && Load(r.step.store, dist) == Err(UnpicklingError)
      && (forall p | p in store && p != dist :: p in r.step.store && r.step.store[p] == store[p])
  {
  }

  /** A name the Vertex API gives a tuning job selects the tuning path. */
  lemma TuningNameExample()
    ensures IsTuningName("projects/1/locations/us-central1/hyperparameterTuningJobs/2")
  {
    var prefix, sub, suffix := "projects/1/locations/us-central1/", "hyperparameter", "TuningJobs/2";
    var name := prefix + sub + suffix;
    assert name == "projects/1/locations/us-central1/hyperparameterTuningJobs/2";
    assert name[|prefix|..|prefix| + |sub|] == sub;
    ContainsAt(name, sub, |prefix|);
  }
}

=== FILE: vertex_job.dfy ===
/** The Vertex AI CustomJob / HyperparameterTuningJob request body
    (block_cascade/executors/vertex/job.py): label conversion, the job spec
    with its worker pools and container command, and the study spec of a
    tuning job. */
module VertexJob {
  import opened Wrappers
  import opened Strings
  import opened Json
  import opened Utils
  import opened Slug
  import opened Tune
  import opened DistributedJob
  import opened VertexResource

  /** GCP label values and keys hold at most this many characters. */
  const LabelMaxLength := 63
  const RunModule := "block_cascade.executors.vertex.run"

  /** `_convert_to_gcp_compatible_label(val, is_key)`: slugify to the label
      alphabet; a key must also be non-empty and start with a letter. */
  function ConvertLabel(val: string, isKey: bool): (r: Result<string>)
    ensures r.Ok? ==> r.value == Slugify(val, true, LabelMaxLength)
    ensures r.Err? <==> isKey && (Slugify(val, true, LabelMaxLength) == [] || !IsAlpha(Slugify(val, true, LabelMaxLength)[0]))
    ensures r.Err? ==> r.error.RuntimeError?
    ensures r.Ok? && isKey ==> ValidLabelKey(r.value)
  {
    var converted := Slugify(val, true, LabelMaxLength);
    if isKey && converted == [] then Err(RuntimeError("Keys for GCP resources must be at least 1 character."))
    else if isKey && !IsAlpha(converted[0]) then Err(RuntimeError("Keys for GCP resources must start with a lowercase letter."))
    else Ok(converted)
  }

  /** A converted label key starts with a lower-case letter. */
  predicate ValidLabelKey(k: string) {
    IsSlug(k, true, LabelMaxLength) && |k| > 0 && IsLower(k[0])
  }

  /** Every key of a label map is a valid key and every value a label slug. */
  predicate ValidLabels(m: map<string, string>) {
    forall k | k in m :: ValidLabelKey(k) && IsSlug(m[k], true, LabelMaxLength)
  }

  /** A label key that converts. */
  predicate KeyConverts(key: string) {
    ConvertLabel(key, true).Ok?
  }

  /** Every label key converts. */
  predicate KeysConvert(labels: seq<(string, string)>)
    decreases |labels|
  {
    |labels| == 0 || (KeyConverts(labels[0].0) && KeysConvert(labels[1..]))
  }

  lemma {:induction false} KeysConvertAll(labels: seq<(string, string)>)
    ensures KeysConvert(labels) <==> forall i | 0 <= i < |labels| :: KeyConverts(labels[i].0)
    decreases |labels|
  {
    if |labels| > 0 {
      var rest := labels[1..];
      KeysConvertAll(rest);
      KeysConvertCons(labels);
    }
  }

  /** Every key converts exactly when the first one does and every later
      one does. */
  lemma KeysConvertCons(labels: seq<(string, string)>)
    requires |labels| > 0
    ensures (forall i | 0 <= i < |labels| :: KeyConverts(labels[i].0))
        <==> KeyConverts(labels[0].0) && forall i | 0 <= i < |labels[1..]| :: KeyConverts(labels[1..][i].0)
  {
    var rest := labels[1..];
    assert forall i | 0 <= i < |rest| :: rest[i] == labels[i + 1];
    assert forall i | 0 < i < |labels| :: labels[i] == rest[i - 1];
  }

  /** The text a label key or value converts to when it converts. */
  function LabelSlug(s: string): string {
    Slugify(s, true, LabelMaxLength)
  }

  /** No later label's key converts to the same text as label `i`'s. */
  predicate LastKeyAt(labels: seq<(string, string)>, i: int)
    requires 0 <= i < |labels|
  {
    forall j | i < j < |labels| :: LabelSlug(labels[j].0) != LabelSlug(labels[i].0)
  }

  /** `m` holds what converting `labels` over `acc` leaves: the keys of
      `acc` and the converted keys of the labels; each label whose converted
      key is not repeated later maps to its converted value; an entry of
      `acc` that no label's key reaches is kept. */
  ghost predicate Converted(labels: seq<(string, string)>, acc: map<string, string>, m: map<string, string>) {
    ConvertedKeys(labels, acc, m) && ConvertedLast(labels, m) && ConvertedKept(labels, acc, m)
  }

  ghost predicate ConvertedKeys(labels: seq<(string, string)>, acc: map<string, string>, m: map<string, string>) {
    forall k :: k in m <==> k in acc || exists i | 0 <= i < |labels| :: LabelSlug(labels[i].0) == k
  }

  predicate ConvertedLast(labels: seq<(string, string)>, m: map<string, string>) {
    forall i | 0 <= i < |labels| && LastKeyAt(labels, i) :: LabelSlug(labels[i].0) in m && m[LabelSlug(labels[i].0)] == LabelSlug(labels[i].1)
  }

  /** No label's key converts to `k`. */
  predicate Unreached(labels: seq<(string, string)>, k: string) {
    forall i | 0 <= i < |labels| :: LabelSlug(labels[i].0) != k
  }

  predicate ConvertedKept(labels: seq<(string, string)>, acc: map<string, string>, m: map<string, string>) {
    forall k | k in acc && Unreached(labels, k) :: k in m && m[k] == acc[k]
  }

  /** One step of the comprehension: converting the first label into `acc`
      and the rest over that gives what converting all of them over `acc`
      gives. */
  lemma ConvertedCons(labels: seq<(string, string)>, acc: map<string, string>, m: map<string, string>)
    requires |labels| > 0
    requires Converted(labels[1..], acc[LabelSlug(labels[0].0) := LabelSlug(labels[0].1)], m)
    ensures Converted(labels, acc, m)
  {
    ConvertedKeysCons(labels, acc, m);
    ConvertedLastCons(labels, acc, m);
    ConvertedKeptCons(labels, acc, m);
  }

  lemma ConvertedKeysCons(labels: seq<(string, string)>, acc: map<string, string>, m: map<string, string>)
    requires |labels| > 0
    requires ConvertedKeys(labels[1..], acc[LabelSlug(labels[0].0) := LabelSlug(labels[0].1)], m)
    ensures ConvertedKeys(labels, acc, m)
  {
    var rest := labels[1..];
    forall k
      ensures k in m <==> k in acc || exists i | 0 <= i < |labels| :: LabelSlug(labels[i].0) == k
    {
      if exists i | 0 <= i < |rest| :: LabelSlug(rest[i].0) == k {
        var i :| 0 <= i < |rest| && LabelSlug(rest[i].0) == k;
        assert labels[i + 1] == rest[i];
      }
      if exists i | 0 <= i < |labels| :: LabelSlug(labels[i].0) == k {
        var i :| 0 <= i < |labels| && LabelSlug(labels[i].0) == k;
        if i > 0 {
          assert rest[i - 1] == labels[i];
        }
      }
    }
  }

  lemma ConvertedLastCons(labels: seq<(string, string)>, acc: map<string, string>, m: map<string, string>)
    requires |labels| > 0
    requires ConvertedLast(labels[1..], m)
    requires ConvertedKept(labels[1..], acc[LabelSlug(labels[0].0) := LabelSlug(labels[0].1)], m)
    ensures ConvertedLast(labels, m)
  {
    var rest := labels[1..];
    forall i | 0 <= i < |labels| && LastKeyAt(labels, i)
      ensures LabelSlug(labels[i].0) in m && m[LabelSlug(labels[i].0)] == LabelSlug(labels[i].1)
    {
      if i == 0 {
        assert Unreached(rest, LabelSlug(labels[0].0)) by {
          forall j | 0 <= j < |rest| ensures LabelSlug(rest[j].0) != LabelSlug(labels[0].0) {
            assert rest[j] == labels[j + 1];
          }
        }
      } else {
        assert rest[i - 1] == labels[i];
        assert LastKeyAt(rest, i - 1) by {
          forall j | i - 1 < j < |rest| ensures LabelSlug(rest[j].0) != LabelSlug(rest[i - 1].0) {
            assert rest[j] == labels[j + 1];
          }
        }
      }
    }
  }

  lemma ConvertedKeptCons(labels: seq<(string, string)>, acc: map<string, string>, m: map<string, string>)
    requires |labels| > 0
    requires ConvertedKept(labels[1..], acc[LabelSlug(labels[0].0) := LabelSlug(labels[0].1)], m)
    ensures ConvertedKept(labels, acc, m)
  {
    var rest := labels[1..];
    forall k | k in acc && Unreached(labels, k)
      ensures k in m && m[k] == acc[k]
    {
      assert LabelSlug(labels[0].0) != k;
      assert Unreached(rest, k) by {
        forall j | 0 <= j < |rest| ensures LabelSlug(rest[j].0) != k {
          assert rest[j] == labels[j + 1];
        }
      }
    }
  }

  /** The label dictionary comprehension, over the labels in order: a later
      label whose key converts to the same text replaces an earlier one. The
      first key that does not convert raises. */
  function ConvertLabels(labels: seq<(string, string)>, acc: map<string, string>): (r: Result<map<string, string>>)
    ensures r.Ok? <==> KeysConvert(labels)
    ensures r.Err? ==> r.error.RuntimeError?
    ensures r.Ok? ==> Converted(labels, acc, r.value)
    ensures r.Ok? && ValidLabels(acc) ==> ValidLabels(r.value)
    decreases |labels|
  {
    if |labels| == 0 then Ok(acc)
    else
      var key := ConvertLabel(labels[0].0, true);
      if key.Err? then Err(key.error)
      else
        var acc' := acc[key.value := Slugify(labels[0].1, true, LabelMaxLength)];
        assert ValidLabels(acc) ==> ValidLabels(acc');
        var r := ConvertLabels(labels[1..], acc');
        if r.Ok? then ConvertedCons(labels, acc, r.value); r else r
  }

  /** Lower-casing first changes nothing about the slug. */
  lemma SanitiseLower(s: string, allowUnderscore: bool)
    ensures Sanitise(Lower(s), allowUnderscore) == Sanitise(s, allowUnderscore)
  {
    assert forall k | 0 <= k < |s| :: LowerChar(Lower(s)[k]) == LowerChar(s[k]);
  }

  /** A label value is lower-cased: "WORLD" becomes "world". */
  lemma LabelValueExample()
    ensures ConvertLabel("WORLD", false) == Ok("world")
  {
    var world := "world";
    assert Lower("WORLD") == world by {
      assert forall k | 0 <= k < 5 :: Lower("WORLD")[k] == LowerChar("WORLD"[k]);
      assert LowerChar('W') == 'w' && LowerChar('O') == 'o' && LowerChar('R') == 'r';
      assert LowerChar('L') == 'l' && LowerChar('D') == 'd';
    }
    SanitiseLower("WORLD", true);
    assert IsSlug(world, true, LabelMaxLength);
    SlugifyOfSlug(world, true, LabelMaxLength);
    assert Clean("WORLD", true) == Clean(world, true);
  }

  /** Keys that are empty or start with a digit are refused. */
  lemma LabelKeyExamples()
    ensures ConvertLabel("1key", true).Err?
    ensures ConvertLabel("", true).Err?
  {
    var key := "1key";
    assert IsSlug(key, true, LabelMaxLength);
    SlugifyOfSlug(key, true, LabelMaxLength);
    SlugifyOfSlug("", true, LabelMaxLength);
  }

  /** The job description a `VertexExecutor` builds. */
  datatype VertexJob = VertexJob(
    displayName: string,
    resource: GcpResource,
    storagePath: string,
    tune: Option<Tune>,
    dashboard: bool,
    webConsole: bool,
    labels: seq<(string, string)>,
    codePackage: Option<string>)

  /** `distributed_job_path`. */
  function DistributedJobPath(job: VertexJob): string {
    PathJoin(job.storagePath, DistributedJobFilename)
  }

  /** The container's command line: run the bootstrap module on the storage
      path, with a flag saying whether a distributed job was staged and the
      code package path ("" when there is none). */
  function ContainerCommand(storagePath: string, distributed: bool, codePackage: Option<string>): (cmd: seq<string>)
    ensures |cmd| == 6 && cmd[..3] == ["python", "-m", RunModule]
    ensures cmd[3] == storagePath
    ensures cmd[4] == (if distributed then "True" else "False")
    ensures cmd[5] == (if codePackage.Some? then codePackage.value else "")
  {
    ["python", "-m", RunModule, storagePath, if distributed then "True" else "False",
     match codePackage case Some(p) => p case None => ""]
  }

  /** `_create_container_spec`. */
  function ContainerSpec(job: VertexJob, env: Environment): (r: Value)
    ensures r.JObj? && r.fields.Keys == {"image_uri", "command", "args"}
    ensures r.fields["image_uri"] == OfOption(env.image)
    ensures r.fields["command"] == OfStrings(ContainerCommand(job.storagePath, job.resource.distributedJob.Some?, job.codePackage))
    ensures r.fields["args"] == JList([])
  {
    JObj(map[
      "image_uri" := OfOption(env.image),
      "command" := OfStrings(ContainerCommand(job.storagePath, job.resource.distributedJob.Some?, job.codePackage)),
      "args" := JList([])])
  }

  /** `_create_machine_spec`: the accelerator type and count appear exactly
      when the machine has an accelerator. */
  function MachineSpec(m: Machine): (r: Value)
    ensures r.JObj? && "machine_type" in r.fields && r.fields["machine_type"] == JStr(m.machineType)
    ensures "accelerator_type" in r.fields <==> m.accelerator.Some?
    ensures "accelerator_count" in r.fields <==> m.accelerator.Some?
    ensures r.fields.Keys <= {"machine_type", "accelerator_type", "accelerator_count"}
    ensures m.accelerator.Some? ==> r.fields["accelerator_type"] == JStr(m.accelerator.value.acceleratorType)
    ensures m.accelerator.Some? ==> r.fields["accelerator_count"] == JInt(m.accelerator.value.count)
  {
    match m.accelerator
    case None => JObj(map["machine_type" := JStr(m.machineType)])
    case Some(a) => JObj(map[
      "machine_type" := JStr(m.machineType),
      "accelerator_type" := JStr(a.acceleratorType),
      "accelerator_count" := JInt(a.count)])
  }

  function NfsSpec(n: NfsMount): Value {
    JObj(map["server" := JStr(n.server), "path" := JStr(n.path), "mount_point" := JStr(n.mountPoint)])
  }

  /** `_create_nfs_specs`: one entry per mount, in order. */
  function NfsSpecs(m: Machine): (r: seq<Value>)
    ensures m.nfsMounts.None? ==> r == []
    ensures m.nfsMounts.Some? ==> |r| == |m.nfsMounts.value|
    ensures m.nfsMounts.Some? ==> forall i | 0 <= i < |r| :: r[i] == NfsSpec(m.nfsMounts.value[i])
  {
    match m.nfsMounts
    case None => []
    case Some(mounts) => seq(|mounts|, i requires 0 <= i < |mounts| => NfsSpec(mounts[i]))
  }

  /** `_create_machine_pool_spec`: the disk spec appears exactly when a disk
      size is set. */
  function PoolSpec(job: VertexJob, env: Environment, m: Machine): (r: Value)
    ensures r.JObj?
    ensures r.fields.Keys == {"replica_count", "container_spec", "machine_spec", "nfs_mounts"}
      + (if m.diskSizeGb.Some? then {"disk_spec"} else {})
    ensures r.fields["replica_count"] == JInt(m.count)
    ensures r.fields["container_spec"] == ContainerSpec(job, env)
    ensures r.fields["machine_spec"] == MachineSpec(m)
    ensures r.fields["nfs_mounts"] == JList(NfsSpecs(m))
    ensures m.diskSizeGb.Some? ==> r.fields["disk_spec"] == JObj(map["boot_disk_size_gb" := JInt(m.diskSizeGb.value)])
  {
    var base := map[
      "replica_count" := JInt(m.count),
      "container_spec" := ContainerSpec(job, env),
      "machine_spec" := MachineSpec(m),
      "nfs_mounts" := JList(NfsSpecs(m))];
    match m.diskSizeGb
    case None => JObj(base)
    case Some(size) => JObj(base["disk_spec" := JObj(map["boot_disk_size_gb" := JInt(size)])])
  }

  /** `_create_cluster_spec`: the chief pool must have exactly one replica;
      the worker pool follows it when there is one. Reading the image of a
      missing environment is an `AttributeError`. */
  function PoolSpecs(job: VertexJob): (r: Result<seq<Value>>)
    ensures job.resource.chief.count != 1 ==> r.Err? && r.error.ValueError?
    ensures r.Ok? <==> job.resource.chief.count == 1 && job.resource.environment.Some?
    ensures r.Ok? ==> |r.value| == (if job.resource.workers.Some? then 2 else 1)
    ensures r.Ok? ==> r.value[0] == PoolSpec(job, job.resource.environment.value, job.resource.chief)
    ensures r.Ok? && job.resource.workers.Some? ==>
      r.value[1] == PoolSpec(job, job.resource.environment.value, job.resource.workers.value)
  {
    if job.resource.chief.count != 1 then
      Err(ValueError("Chief pool must have exactly one replica, got " + IntToString(job.resource.chief.count)))
    else match job.resource.environment
      case None => Err(AttributeError("image"))
      case Some(env) =>
        var chief := PoolSpec(job, env, job.resource.chief);
        match job.resource.workers
        case None => Ok([chief])
        case Some(w) => Ok([chief, PoolSpec(job, env, w)])
  }

  /** A request field that is present only when its value is. */
  function Optional(key: string, value: Option<Value>): (r: map<string, Value>)
    ensures r.Keys == if value.Some? then {key} else {}
    ensures value.Some? ==> r[key] == value.value
  {
    match value
    case Some(v) => map[key := v]
    case None => map[]
  }

  function OptionalStr(o: Option<string>): Option<Value> {
    match o
    case Some(s) => Some(JStr(s))
    case None => None
  }

  function Flag(b: bool): Option<Value> {
    if b then Some(JBool(true)) else None
  }

  /** The optional fields of a job spec, each present exactly when set. */
  function JobSpecOptions(env: Environment, dashboard: bool, webConsole: bool, persistentResourceId: Option<string>): (r: map<string, Value>)
    ensures "network" in r <==> env.network.Some?
    ensures "service_account" in r <==> env.serviceAccount.Some?
    ensures "enable_dashboard_access" in r <==> dashboard
    ensures "enable_web_access" in r <==> webConsole
    ensures "persistent_resource_id" in r <==> persistentResourceId.Some?
    ensures r.Keys <= {"network", "service_account", "enable_dashboard_access", "enable_web_access", "persistent_resource_id"}
    ensures env.network.Some? ==> r["network"] == JStr(env.network.value)
    ensures env.serviceAccount.Some? ==> r["service_account"] == JStr(env.serviceAccount.value)
    ensures dashboard ==> r["enable_dashboard_access"] == JBool(true)
    ensures webConsole ==> r["enable_web_access"] == JBool(true)
    ensures persistentResourceId.Some? ==> r["persistent_resource_id"] == JStr(persistentResourceId.value)
  {
    Optional("persistent_resource_id", OptionalStr(persistentResourceId))
      + Optional("enable_web_access", Flag(webConsole))
      + Optional("enable_dashboard_access", Flag(dashboard))
      + Optional("service_account", OptionalStr(env.serviceAccount))
      + Optional("network", OptionalStr(env.network))
  }

  /** Adding a new key and removing it again gives the map back. */
  lemma AddedThenRemoved(m: map<string, Value>, k: string, v: Value)
    requires k !in m
    ensures m[k := v] - {k} == m
  {
  }

  /** `_create_job_spec`: the worker pools, plus the network, service
      account, dashboard and web access flags and persistent resource, each
      present exactly when set. */
  function JobSpec(job: VertexJob): (r: Result<Value>)
    ensures r.Ok? <==> PoolSpecs(job).Ok?
    ensures r.Ok? ==> r.value.JObj?
    ensures r.Ok? ==> "worker_pool_specs" in r.value.fields && r.value.fields["worker_pool_specs"] == JList(PoolSpecs(job).value)
    ensures r.Ok? ==>
      r.value.fields - {"worker_pool_specs"} == JobSpecOptions(job.resource.environment.value, job.dashboard, job.webConsole, job.resource.persistentResourceId)
  {
    var pools :- PoolSpecs(job);
    var options := JobSpecOptions(job.resource.environment.value, job.dashboard, job.webConsole, job.resource.persistentResourceId);
    assert "worker_pool_specs" !in options;
    AddedThenRemoved(options, "worker_pool_specs", JList(pools));
    Ok(JObj(options["worker_pool_specs" := JList(pools)]))
  }

  /** The value-spec key Vertex expects for each kind of parameter. */
  function ValueSpecKey(p: Param): string {
    match p
    case ParamDouble(_, _, _, _) => "double_value_spec"
    case ParamInteger(_, _, _, _) => "integer_value_spec"
    case ParamCategorical(_, _) => "categorical_value_spec"
    case ParamDiscrete(_, _) => "discrete_value_spec"
  }

  /** The scale a parameter carries, if its kind has one. */
  function ScaleOf(p: Param): Option<Scale> {
    match p
    case ParamDouble(_, _, _, s) => s
    case ParamInteger(_, _, _, s) => s
    case _ => None
  }

  /** `_create_parameter_spec`: the parameter id, the scale type when one is
      set, and the one value spec matching the parameter's kind. */
  function ParameterSpec(p: Param): (r: Value)
    ensures r.JObj?
    ensures r.fields.Keys == {"parameter_id", ValueSpecKey(p)} + (if ScaleOf(p).Some? then {"scale_type"} else {})
    ensures r.fields["parameter_id"] == JStr(p.name)
    ensures ScaleOf(p).Some? ==> r.fields["scale_type"] == JStr(ScaleName(ScaleOf(p).value))
    ensures p.ParamDouble? || p.ParamInteger? ==>
      r.fields[ValueSpecKey(p)] == JObj(map["min_value" := JInt(p.min), "max_value" := JInt(p.max)])
    ensures p.ParamCategorical? ==> r.fields[ValueSpecKey(p)] == JObj(map["values" := OfStrings(p.categories)])
    ensures p.ParamDiscrete? ==> r.fields[ValueSpecKey(p)].JObj? && r.fields[ValueSpecKey(p)].fields.Keys == {"values"}
    ensures p.ParamDiscrete? ==>
      && r.fields[ValueSpecKey(p)].fields["values"].JList?
      && |r.fields[ValueSpecKey(p)].fields["values"].items| == |p.discreteValues|
      && forall i | 0 <= i < |p.discreteValues| :: r.fields[ValueSpecKey(p)].fields["values"].items[i] == JInt(p.discreteValues[i])
  {
    var s := map["parameter_id" := JStr(p.name)];
    var s := s + Optional("scale_type", match ScaleOf(p) case Some(sc) => Some(JStr(ScaleName(sc))) case None => None);
    var spec := match p
      case ParamDouble(_, lo, hi, _) => JObj(map["min_value" := JInt(lo), "max_value" := JInt(hi)])
      case ParamInteger(_, lo, hi, _) => JObj(map["min_value" := JInt(lo), "max_value" := JInt(hi)])
      case ParamCategorical(_, vs) => JObj(map["values" := OfStrings(vs)])
      case ParamDiscrete(_, vs) => JObj(map["values" := JList(seq(|vs|, i requires 0 <= i < |vs| => JInt(vs[i])))]);
    JObj(s[ValueSpecKey(p) := spec])
  }

  /** `_create_study_spec`: the single metric with its goal, one parameter
      spec per parameter in order, and the algorithm when one is set. */
  function StudySpec(t: Tune): (r: Value)
    ensures r.JObj?
    ensures r.fields.Keys == {"metrics", "parameters"} + (if t.algorithm.Some? then {"algorithm"} else {})
    ensures r.fields["metrics"] == JList([JObj(map["metric_id" := JStr(t.metric), "goal" := JStr(t.goal)])])
    ensures r.fields["parameters"].JList? && |r.fields["parameters"].items| == |t.params|
    ensures forall i | 0 <= i < |t.params| :: r.fields["parameters"].items[i] == ParameterSpec(t.params[i])
  {
    var fields := map[
      "metrics" := JList([JObj(map["metric_id" := JStr(t.metric), "goal" := JStr(t.goal)])]),
      "parameters" := JList(seq(|t.params|, i requires 0 <= i < |t.params| => ParameterSpec(t.params[i])))];
    JObj(fields + Optional("algorithm", OptionalStr(t.algorithm)))
  }

  /** The converted labels as a request value. */
  function LabelsValue(labels: map<string, string>): (r: Value)
    ensures r.JObj? && r.fields.Keys == labels.Keys
    ensures forall k | k in labels :: r.fields[k] == JStr(labels[k])
  {
    JObj(map k | k in labels :: JStr(labels[k]))
  }

  /** The request body of a custom job. */
  function CustomJobBody(displayName: string, spec: Value, labels: Value): (r: Value)
    ensures r.JObj? && r.fields.Keys == {"display_name", "job_spec", "labels"}
    ensures r.fields["display_name"] == JStr(displayName) && r.fields["job_spec"] == spec && r.fields["labels"] == labels
  {
    JObj(map["display_name" := JStr(displayName), "job_spec" := spec, "labels" := labels])
  }

  /** The request body of a hyperparameter-tuning job. */
  function TuningJobBody(displayName: string, spec: Value, t: Tune, labels: Value): (r: Value)
    ensures r.JObj?
    ensures r.fields.Keys == {"display_name", "trial_job_spec", "max_trial_count", "parallel_trial_count", "study_spec", "labels"}
    ensures r.fields["display_name"] == JStr(displayName) && r.fields["trial_job_spec"] == spec && r.fields["labels"] == labels
    ensures r.fields["max_trial_count"] == JInt(t.trials) && r.fields["parallel_trial_count"] == JInt(t.parallel)
    ensures r.fields["study_spec"] == StudySpec(t)
  {
    JObj(map[
      "display_name" := JStr(displayName),
      "trial_job_spec" := spec,
      "max_trial_count" := JInt(t.trials),
      "parallel_trial_count" := JInt(t.parallel),
      "study_spec" := StudySpec(t),
      "labels" := labels])
  }

  /** `create_payload`: a custom job without tuning, a tuning job with its
      trial counts and study otherwise; labels are converted first, so a bad
      label key fails before anything else. */
  function CreatePayload(job: VertexJob): (r: Result<Value>)
    ensures !KeysConvert(job.labels) ==> r.Err? && r.error.RuntimeError?
    ensures r.Ok? <==> KeysConvert(job.labels) && JobSpec(job).Ok?
    ensures r.Ok? && job.tune.None? ==>
      r.value == CustomJobBody(job.displayName, JobSpec(job).value, LabelsValue(ConvertLabels(job.labels, map[]).value))
    ensures r.Ok? && job.tune.Some? ==>
      r.value == TuningJobBody(job.displayName, JobSpec(job).value, job.tune.value, LabelsValue(ConvertLabels(job.labels, map[]).value))
  {
    var converted :- ConvertLabels(job.labels, map[]);
    var labels := LabelsValue(converted);
    var spec :- JobSpec(job);
    match job.tune
    case None => Ok(CustomJobBody(job.displayName, spec, labels))
    case Some(t) => Ok(TuningJobBody(job.displayName, spec, t, labels))
  }
}

=== FILE: vertex_resource.dfy ===
/** The Vertex AI resource description
    (block_cascade/executors/vertex/resource.py): machines, accelerators,
    NFS mounts, the GCP environment with its derived storage location and
    image normalisation, and the resource that ties them together. */
module VertexResource {
  import opened Wrappers
  import opened Strings
  import opened DistributedJob

  /** A GPU attached to a machine. */
  datatype Accelerator = Accelerator(count: int, acceleratorType: string)

  function DefaultAccelerator(): Accelerator {
    Accelerator(1, "NVIDIA_TESLA_T4")
  }

  datatype NfsMount = NfsMount(server: string, path: string, mountPoint: string)

  /** One worker pool's machines. */
  datatype Machine = Machine(
    machineType: string,
    count: int,
    minReplicaCount: Option<int>,
    maxReplicaCount: Option<int>,
    accelerator: Option<Accelerator>,
    diskSizeGb: Option<int>,
    nfsMounts: Option<seq<NfsMount>>)

  /** `GcpMachineConfig()` with every default. */
  function DefaultMachine(): (m: Machine)
    ensures m.machineType == "n2-standard-4" && m.count == 1
    ensures m.accelerator.None? && m.diskSizeGb.None? && m.nfsMounts.None?
  {
    Machine("n2-standard-4", 1, None, None, None, None, None)
  }

  /** The GCP environment a job runs in. The storage location is always set
      once the environment exists. */
  datatype Environment = Environment(
    project: string,
    storageLocation: string,
    serviceAccount: Option<string>,
    region: Option<string>,
    network: Option<string>,
    image: Option<string>)

  /** `image_setter`: no image stays unset; a non-empty value with a slash is
      a full URL and is kept; anything else is a tag in the project's
      `us.gcr.io` registry. */
  function NormaliseImage(project: string, image: Option<string>): (r: Option<string>)
    ensures image.None? <==> r.None?
    ensures image.Some? && image.value != "" && '/' in image.value ==> r == image
    ensures image.Some? && (image.value == "" || '/' !in image.value) ==>
      r == Some("us.gcr.io/" + project + "/" + image.value)
  {
    match image
    case None => None
    case Some(s) =>
      if s != "" && '/' in s then Some(s) else Some("us.gcr.io/" + project + "/" + s)
  }

  /** Normalising an image a second time changes nothing. */
  lemma NormaliseImageIdempotent(project: string, image: Option<string>)
    ensures NormaliseImage(project, NormaliseImage(project, image)) == NormaliseImage(project, image)
  {
    if image.Some? && !(image.value != "" && '/' in image.value) {
      var t := "us.gcr.io/" + project + "/" + image.value;
      assert t[9] == '/';
    }
  }

  /** The default storage location of a project. */
  function DefaultStorageLocation(project: string): string {
    "gs://cascade-" + project + "/"
  }

  /** `GcpEnvironmentConfig(...)`: the storage location defaults to the
      project's bucket and the image is normalised. */
  function MakeEnvironment(
    project: string, storageLocation: Option<string>, serviceAccount: Option<string>,
    region: Option<string>, network: Option<string>, image: Option<string>): (e: Environment)
    ensures storageLocation.None? ==> e.storageLocation == DefaultStorageLocation(project)
    ensures storageLocation.Some? ==> e.storageLocation == storageLocation.value
    ensures e.image == NormaliseImage(project, image)
    ensures e.project == project && e.serviceAccount == serviceAccount && e.region == region && e.network == network
  {
    var location := match storageLocation
      case Some(l) => l
      case None => DefaultStorageLocation(project);
    Environment(project, location, serviceAccount, region, network, NormaliseImage(project, image))
  }

  /** The network `with_shared_vpc` preselects. */
  const SharedVpcNetwork := "projects/603986066384/global/networks/neteng-shared-vpc-prod"

  /** `GcpEnvironmentConfig.with_shared_vpc(...)`. */
  function WithSharedVpc(
    project: string, storageLocation: Option<string>, serviceAccount: Option<string>,
    region: Option<string>, image: Option<string>): (e: Environment)
    ensures e.network == Some(SharedVpcNetwork)
    ensures e == MakeEnvironment(project, storageLocation, serviceAccount, region, Some(SharedVpcNetwork), image)
  {
    MakeEnvironment(project, storageLocation, serviceAccount, region, Some(SharedVpcNetwork), image)
  }

  /** `environment.image = image`: assignment runs the validator again. */
  function SetImage(e: Environment, image: Option<string>): (r: Environment)
    ensures r == e.(image := NormaliseImage(e.project, image))
  {
    e.(image := NormaliseImage(e.project, image))
  }

  /** `is_complete`: project, service account, region and image are all
      set and non-empty; the network is optional. */
  predicate IsComplete(e: Environment) {
    e.project != "" && NonEmpty(e.serviceAccount) && NonEmpty(e.region) && NonEmpty(e.image)
  }

  /** An environment is complete exactly when its required fields are; the
      image and network play their parts: clearing the image makes it
      incomplete, setting the network changes nothing. */
  lemma IsCompleteImage(e: Environment, network: Option<string>)
    ensures !IsComplete(SetImage(e, None))
    ensures IsComplete(e.(network := network)) == IsComplete(e)
    ensures IsComplete(e) && e.project != "" ==> IsComplete(SetImage(e, Some("cascade")))
  {
  }

  /** The examples of the resource tests: a tag becomes a `us.gcr.io` image
      of the project, a full URL is kept, and no image stays unset. */
  lemma ImageExamples(e: Environment)
    requires e.project == "test-project"
    ensures SetImage(e, Some("cascade:latest")).image == Some("us.gcr.io/test-project/cascade:latest")
    ensures SetImage(e, Some("gcr.io/test-project/rapids")).image == Some("gcr.io/test-project/rapids")
    ensures MakeEnvironment("test-project", Some("gs://bucket/path/to/file"), None, None, None, None).image.None?
  {
    var tag := "cascade:latest";
    assert forall k | 0 <= k < |tag| :: tag[k] != '/';
    assert '/' !in tag;
    assert "us.gcr.io/" + e.project + "/" + tag == "us.gcr.io/test-project/cascade:latest";
    assert "gcr.io/test-project/rapids"[6] == '/';
  }

  /** A complete Vertex resource: the chief pool, optional workers, the
      environment (inferred later when absent), the distributed job and an
      optional persistent resource. */
  datatype GcpResource = GcpResource(
    chief: Machine,
    workers: Option<Machine>,
    environment: Option<Environment>,
    distributedJob: Option<Job>,
    persistentResourceId: Option<string>)

  /** `GcpResource()` with every default. */
  function DefaultResource(): (r: GcpResource)
    ensures r.chief == DefaultMachine() && r.workers.None? && r.environment.None?
    ensures r.distributedJob.None? && r.persistentResourceId.None?
  {
    GcpResource(DefaultMachine(), None, None, None, None)
  }
}

=== FILE: vertex_run.dfy ===
/** The entry point a Vertex AI container runs
    (block_cascade/executors/vertex/run.py): read the storage prefix, the
    distributed flag, the code path and the hyperparameters from argv, fetch
    the code, load the staged function, and then report tuning metrics, run
    a distributed job, or call the function and save its output. */
module VertexRun {
  import opened Wrappers
  import opened Strings
  import opened Json
  import opened Utils
  import opened DistributedJob
  import opened Codec
  import opened BaseExecutor
  import VertexJob
  import VertexExecutor
  import DistributedRun

  /** `sys.argv[1]`, `sys.argv[2]`, `sys.argv[3]` and `sys.argv[4:]`. */
  datatype RunArgs = RunArgs(prefix: string, distributed: string, codePath: string, hyperparameters: seq<string>)

  /** Unpacking argv: the first three arguments must be there, the
      hyperparameter arguments may be none. */
  function ParseArgv(argv: seq<string>): (r: Result<RunArgs>)
    ensures r.Ok? <==> |argv| >= 4
    ensures r.Err? ==> r.error == IndexError
    ensures r.Ok? ==> argv == [argv[0], r.value.prefix, r.value.distributed, r.value.codePath] + r.value.hyperparameters
  {
    if |argv| < 4 then Err(IndexError)
    else
      assert argv == argv[..4] + argv[4..];
      Ok(RunArgs(argv[1], argv[2], argv[3], argv[4..]))
  }

  /** The argv of `python -m <module> a b ...`: the module's path (here its
      name) and then the arguments, followed by the container's `args`. */
  function ModuleArgv(command: seq<string>, args: seq<string>): (argv: seq<string>)
    requires |command| >= 3
    ensures |argv| == |command| - 2 + |args|
    ensures argv[0] == command[2] && argv[1..|command| - 2] == command[3..] && argv[|command| - 2..] == args
  {
    [command[2]] + command[3..] + args
  }

  /** The command the job builds for its container and the unpacking here
      agree: the prefix is the storage path, the flag reads "True" exactly
      for a distributed job, the code path is the code package (or empty),
      and the container's arguments are the hyperparameter arguments. */
  lemma ContainerArgvParses(storagePath: string, distributed: bool, codePackage: Option<string>, args: seq<string>)
    ensures var argv := ModuleArgv(VertexJob.ContainerCommand(storagePath, distributed, codePackage), args);
      ParseArgv(argv) == Ok(RunArgs(storagePath, if distributed then "True" else "False",
                                    if codePackage.Some? then codePackage.value else "", args))
  {
    var command := VertexJob.ContainerCommand(storagePath, distributed, codePackage);
    var argv := ModuleArgv(command, args);
    assert argv[1] == command[3] && argv[2] == command[4] && argv[3] == command[5];
    assert argv[4..] == args;
  }

  /** The flag is "True" exactly when the job was built as distributed. */
  lemma DistributedFlag(storagePath: string, distributed: bool, codePackage: Option<string>, args: seq<string>)
    ensures var argv := ModuleArgv(VertexJob.ContainerCommand(storagePath, distributed, codePackage), args);
      ParseArgv(argv).Ok? && (ParseArgv(argv).value.distributed == "True" <==> distributed)
  {
    ContainerArgvParses(storagePath, distributed, codePackage, args);
    assert "False" != "True" by {
      assert "False"[0] != "True"[0];
    }
  }

  /** `f"{path_prefix}/function.pkl"`. */
  function StagedFile(prefix: string): string {
    SlashJoin(prefix, InputFilename)
  }

  /** `f"{path_prefix}/distributed_job.pkl"`. */
  function DistributedJobFile(prefix: string): string {
    SlashJoin(prefix, DistributedJobFilename)
  }

  /** `f"{path_prefix}/output.pkl"`. */
  function OutputFile(prefix: string): string {
    SlashJoin(prefix, OutputFilename)
  }

  /** The files the script reads and writes are the ones the executor
      stages and collects, as long as the storage key is a relative name
      that does not end in a slash (the script always inserts one). */
  lemma PathsAgree(location: string, e: Executor)
    requires e.storageKey != "" && !StartsWith(e.storageKey, "/") && !EndsWith(e.storageKey, "/")
    ensures StagedFile(StoragePath(location, e)) == StagedPath(location, e)
    ensures OutputFile(StoragePath(location, e)) == OutputPath(location, e)
    ensures DistributedJobFile(StoragePath(location, e)) == PathJoin(StoragePath(location, e), DistributedJobFilename)
  {
    var sp := StoragePath(location, e);
    var key := e.storageKey;
    assert EndsWith(sp, key);
    assert sp[|sp| - 1] == key[|key| - 1];
    assert !EndsWith(sp, "/") by {
      assert key[|key| - 1..] != "/";
    }
    SlashJoinIsPathJoin(sp, InputFilename);
    SlashJoinIsPathJoin(sp, OutputFilename);
    SlashJoinIsPathJoin(sp, DistributedJobFilename);
  }

  /** The code fetch, recorded only when a code path was given. */
  function Fetch(codePath: string): (r: seq<Event>)
    ensures |r| <= 1 && (|r| == 1 <==> codePath != "")
    ensures codePath != "" ==> r[0] == FetchedCode(codePath)
    ensures Invocations(r) == 0
  {
    if codePath != "" then
      InvocationsOne(FetchedCode(codePath));
      [FetchedCode(codePath)]
    else []
  }

  /** The tuning branch: call the function with the parsed hyperparameters
      as the keyword `hyperparameters` and report every metric it returns.
      Nothing is written to storage. */
  function Tune(sem: Semantics, f: Callable, hp: map<string, Value>): (r: (Result<()>, seq<Event>))
    ensures Invocations(r.1) == 1 && r.1[0] == Invoked
    ensures var metrics := Invoke(sem, f, [], map["hyperparameters" := JObj(hp)]);
      r.0.Ok? <==> metrics.Ok? && metrics.value.JObj?
    ensures var metrics := Invoke(sem, f, [], map["hyperparameters" := JObj(hp)]);
      r.0.Ok? ==> r.1 == [Invoked, Reported(metrics.value.fields)]
  {
    InvocationsOne(Invoked);
    match Invoke(sem, f, [], map["hyperparameters" := JObj(hp)])
    case Err(e) => (Err(e), [Invoked])
    case Ok(metrics) =>
      if !metrics.JObj? then (Err(AttributeError("items")), [Invoked])
      else
        InvocationsAppend([Invoked], [Reported(metrics.fields)]);
        InvocationsOne(Reported(metrics.fields));
        assert [Invoked] + [Reported(metrics.fields)] == [Invoked, Reported(metrics.fields)];
        (Ok(()), [Invoked, Reported(metrics.fields)])
  }

  /** The distributed branch: load the pickled job (unpickling sets its
      machine label from the node's cluster spec) and run it with the loaded
      function and the storage prefix. The loaded object is called, if at
      all, only by the node's part of the job. */
  function Distributed(sem: Semantics, pickle: Pickler, func: Payload, prefix: string, node: DistributedRun.Node, store: Store): (r: Step<()>)
    ensures Load(store, DistributedJobFile(prefix)).Err? ==> r == Step(Err(Load(store, DistributedJobFile(prefix)).error), store, [])
    ensures Load(store, DistributedJobFile(prefix)).Ok? && !Load(store, DistributedJobFile(prefix)).value.PJob? ==>
      r == Step(Err(AttributeError("run")), store, [])
    ensures var loaded := Load(store, DistributedJobFile(prefix));
      loaded.Ok? && loaded.value.PJob? && SetState(loaded.value.job, node.env.clusterSpec).Ok? ==>
        r == DistributedRun.JobRun(sem, pickle, SetState(loaded.value.job, node.env.clusterSpec).value, func, prefix, node, store)
  {
    match Load(store, DistributedJobFile(prefix))
    case Err(e) => Step(Err(e), store, [])
    case Ok(payload) =>
      if !payload.PJob? then Step(Err(AttributeError("run")), store, [])
      else match SetState(payload.job, node.env.clusterSpec)
        case Err(e) => Step(Err(e), store, [])
        case Ok(job) => DistributedRun.JobRun(sem, pickle, job, func, prefix, node, store)
  }

  /** The single-node branch: call the loaded function and pickle its
      result to the output file. A loaded object that is not a function
      raises `TypeError` when called; a result that cannot be pickled raises
      after the output file was created, leaving it empty. */
  function Single(sem: Semantics, pickle: Pickler, func: Payload, prefix: string, store: Store): (r: Step<()>)
    ensures Invocations(r.trace) == (if func.PFunc? then 1 else 0)
    ensures r.result.Ok? <==> CallPayload(sem, func).Ok? && pickle(CallPayload(sem, func).value).None?
    ensures !func.PFunc? ==> r.result == Err(TypeError("object is not callable"))
    ensures r.result.Ok? ==> Load(r.store, OutputFile(prefix)) == Ok(PValue(CallPayload(sem, func).value))
    ensures CallPayload(sem, func).Ok? ==> r.store.Keys == store.Keys + {OutputFile(prefix)}
    ensures CallPayload(sem, func).Ok? && r.result.Err? ==>
      r.result.error == pickle(CallPayload(sem, func).value).value
      && Load(r.store, OutputFile(prefix)) == Err(UnpicklingError)
    ensures CallPayload(sem, func).Err? ==> r.result.Err? && r.store == store
    ensures forall p | p in store && p != OutputFile(prefix) :: p in r.store && r.store[p] == store[p]
  {
    DistributedRun.RunFunction(sem, pickle, func, prefix, true, store)
  }

  /** `run()`: unpack argv, fetch the code if a path is given, load the
      staged function, parse the hyperparameters, and dispatch: a non-empty
      set of hyperparameters means a tuning trial, otherwise the flag "True"
      means a distributed job, otherwise a single-node call. */
  function Run(sem: Semantics, pickle: Pickler, literalEval: string -> Literal, argv: seq<string>, node: DistributedRun.Node, store: Store): (r: Step<()>)
    ensures ParseArgv(argv).Err? ==> r == Step(Err(IndexError), store, [])
    ensures ParseArgv(argv).Ok? ==> var fetch := Fetch(ParseArgv(argv).value.codePath);
      |r.trace| >= |fetch| && r.trace[..|fetch|] == fetch
    ensures ParseArgv(argv).Ok? && Load(store, StagedFile(ParseArgv(argv).value.prefix)).Err? ==>
      r.result.Err? && r.store == store && Invocations(r.trace) == 0
    ensures r.store != store ==>
      ParseArgv(argv).Ok? && ParseHyperparameters(literalEval, ParseArgv(argv).value.hyperparameters) == Ok(map[])
  {
    match ParseArgv(argv)
    case Err(e) => Step(Err(e), store, [])
    case Ok(args) =>
      var fetch := Fetch(args.codePath);
      var step := Dispatch(sem, pickle, literalEval, args, node, store);
      assert (fetch + step.trace)[..|fetch|] == fetch;
      InvocationsAppend(fetch, step.trace);
      Step(step.result, step.store, fetch + step.trace)
  }

  /** Everything after the code fetch. The loaded object is checked only
      where it is called: the tuning and single-node branches call it at
      once, while a distributed job is loaded and run first. */
  function Dispatch(sem: Semantics, pickle: Pickler, literalEval: string -> Literal, args: RunArgs, node: DistributedRun.Node, store: Store): (r: Step<()>)
    ensures Load(store, StagedFile(args.prefix)).Err? ==>
      r == Step(Err(Load(store, StagedFile(args.prefix)).error), store, [])
    ensures r.store != store ==> ParseHyperparameters(literalEval, args.hyperparameters) == Ok(map[])
    ensures var loaded := Load(store, StagedFile(args.prefix));
      loaded.Ok? && ParseHyperparameters(literalEval, args.hyperparameters) == Ok(map[]) && args.distributed == "True" ==>
        r == Distributed(sem, pickle, loaded.value, args.prefix, node, store)
    ensures var loaded := Load(store, StagedFile(args.prefix));
      loaded.Ok? && !loaded.value.PFunc? && ParseHyperparameters(literalEval, args.hyperparameters).Ok? ==>
        (args.distributed != "True" || ParseHyperparameters(literalEval, args.hyperparameters) != Ok(map[])) ==>
          r.result == Err(TypeError("object is not callable")) && r.store == store
  {
    match Load(store, StagedFile(args.prefix))
    case Err(e) => Step(Err(e), store, [])
    case Ok(payload) =>
      match ParseHyperparameters(literalEval, args.hyperparameters)
      case Err(e) => Step(Err(e), store, [])
      case Ok(hp) =>
        if hp != map[] then
          if !payload.PFunc? then Step(Err(TypeError("object is not callable")), store, [])
          else
            var (result, trace) := Tune(sem, payload.f, hp);
            Step(result, store, trace)
        else if args.distributed == "True" then Distributed(sem, pickle, payload, args.prefix, node, store)
        else Single(sem, pickle, payload, args.prefix, store)
  }

  /** A tuning trial reports the metrics the function returns and leaves
      storage as it was. */
  lemma TuneReports(sem: Semantics, pickle: Pickler, literalEval: string -> Literal, args: RunArgs, node: DistributedRun.Node, store: Store, f: Callable)
    requires Load(store, StagedFile(args.prefix)) == Ok(PFunc(f))
    requires ParseHyperparameters(literalEval, args.hyperparameters).Ok?
    requires var hp := ParseHyperparameters(literalEval, args.hyperparameters).value;
      hp != map[] && Invoke(sem, f, [], map["hyperparameters" := JObj(hp)]).Ok?
      && Invoke(sem, f, [], map["hyperparameters" := JObj(hp)]).value.JObj?
    ensures var hp := ParseHyperparameters(literalEval, args.hyperparameters).value;
      var r := Dispatch(sem, pickle, literalEval, args, node, store);
      r.result.Ok? && r.store == store
      && r.trace == [Invoked, Reported(Invoke(sem, f, [], map["hyperparameters" := JObj(hp)]).value.fields)]
  {
  }

  /** The hyperparameters of a run without hyperparameter arguments. */
  lemma NoHyperparameters(literalEval: string -> Literal)
    ensures ParseHyperparameters(literalEval, []) == Ok(map[])
  {
    assert Tokens([]) == [];
  }

  /** End to end on one node: once the executor has staged its function,
      the container the job describes runs it and leaves its result where
      the executor reads it, so the executor's result is the call's value. */
  lemma SingleNodeDelivers(
    sem: Semantics, pickle: Pickler, literalEval: string -> Literal, v: VertexExecutor.Vertex, node: DistributedRun.Node,
    store: Store, name: string, study: VertexExecutor.Study)
    requires v.base.storageKey != "" && !StartsWith(v.base.storageKey, "/") && !EndsWith(v.base.storageKey, "/")
    requires Call(sem, v.base.func).Ok? && pickle(Call(sem, v.base.func).value).None?
    requires !VertexExecutor.IsTuningName(name)
    ensures var sp := StoragePath(v.location, v.base);
      var argv := ModuleArgv(VertexJob.ContainerCommand(sp, false, v.codePackage), []);
      var r := Run(sem, pickle, literalEval, argv, node, Stage(v.location, v.base, store));
      r.result.Ok?
      && VertexExecutor.VertexResult(v, name, literalEval, study, r.store).result == Ok(PValue(Call(sem, v.base.func).value))
  {
    var sp := StoragePath(v.location, v.base);
    var argv := ModuleArgv(VertexJob.ContainerCommand(sp, false, v.codePackage), []);
    var staged := Stage(v.location, v.base, store);
    ContainerArgvParses(sp, false, v.codePackage, []);
    PathsAgree(v.location, v.base);
    NoHyperparameters(literalEval);
    assert "False" != "True" by {
      assert "False"[0] != "True"[0];
    }
    var args := ParseArgv(argv).value;
    assert Load(staged, StagedFile(args.prefix)) == Ok(PFunc(v.base.func));
    var step := Dispatch(sem, pickle, literalEval, args, node, staged);
    assert step == Single(sem, pickle, PFunc(v.base.func), sp, staged);
  }

  /** The same run when the function's result cannot be pickled: the
      container fails with the pickling error, and the output file it opened
      is left empty, so the executor's read of it fails to unpickle. */
  lemma SingleNodeUnpicklable(
    sem: Semantics, pickle: Pickler, literalEval: string -> Literal, v: VertexExecutor.Vertex, node: DistributedRun.Node,
    store: Store, name: string, study: VertexExecutor.Study)
    requires v.base.storageKey != "" && !StartsWith(v.base.storageKey, "/") && !EndsWith(v.base.storageKey, "/")
    requires Call(sem, v.base.func).Ok? && pickle(Call(sem, v.base.func).value).Some?
    requires !VertexExecutor.IsTuningName(name)
    ensures var sp := StoragePath(v.location, v.base);
      var argv := ModuleArgv(VertexJob.ContainerCommand(sp, false, v.codePackage), []);
      var r := Run(sem, pickle, literalEval, argv, node, Stage(v.location, v.base, store));
      r.result == Err(pickle(Call(sem, v.base.func).value).value)
      && VertexExecutor.VertexResult(v, name, literalEval, study, r.store).result == Err(UnpicklingError)
  {
    var sp := StoragePath(v.location, v.base);
    var argv := ModuleArgv(VertexJob.ContainerCommand(sp, false, v.codePackage), []);
    var staged := Stage(v.location, v.base, store);
    ContainerArgvParses(sp, false, v.codePackage, []);
    PathsAgree(v.location, v.base);
    NoHyperparameters(literalEval);
    assert "False" != "True" by {
      assert "False"[0] != "True"[0];
    }
    var args := ParseArgv(argv).value;
    assert Load(staged, StagedFile(args.prefix)) == Ok(PFunc(v.base.func));
    var step := Dispatch(sem, pickle, literalEval, args, node, staged);
    assert step == Single(sem, pickle, PFunc(v.base.func), sp, staged);
  }
}

=== FILE: vertex_tune.dfy ===
/** Hyperparameter-tuning descriptors (cascade/executors/vertex/tune.py).
    Floating-point bounds and values are modelled as integers. */
module Tune {
  import opened Wrappers
  import opened Json

  /** The three scale types a numeric parameter can carry. */
  datatype Scale = UnitLinearScale | UnitLogScale | UnitReverseLogScale

  /** `scale.name`, the enum member's name sent to Vertex as `scale_type`. */
  function ScaleName(s: Scale): string {
    match s
    case UnitLinearScale => "UNIT_LINEAR_SCALE"
    case UnitLogScale => "UNIT_LOG_SCALE"
    case UnitReverseLogScale => "UNIT_REVERSE_LOG_SCALE"
  }

  /** Distinct scales have distinct names, so the name identifies the scale. */
  lemma ScaleNameInjective(a: Scale, b: Scale)
    ensures ScaleName(a) == ScaleName(b) ==> a == b
  {
    if a != b {
      match a
      case UnitLinearScale =>
        assert ScaleName(a)[5] == 'L' && ScaleName(a)[6] == 'I';
        assert ScaleName(b)[6] == 'O' || ScaleName(b)[5] == 'R';
      case UnitLogScale =>
        assert ScaleName(a)[6] == 'O';
        assert ScaleName(b)[6] == 'I' || ScaleName(b)[5] == 'R';
      case UnitReverseLogScale =>
        assert ScaleName(a)[5] == 'R';
        assert ScaleName(b)[5] == 'L';
    }
  }

  /** One searched parameter: a discrete set of numbers, a set of
      categories, or a numeric range with an optional scale. */
  datatype Param =
    | ParamDiscrete(name: string, discreteValues: seq<int>)
    | ParamCategorical(name: string, categories: seq<string>)
    | ParamDouble(name: string, min: int, max: int, scale: Option<Scale>)
    | ParamInteger(name: string, min: int, max: int, scale: Option<Scale>)

  /** A tuning request. */
  datatype Tune = Tune(
    metric: string,
    params: seq<Param>,
    goal: string,
    trials: int,
    parallel: int,
    resumePreviousJobId: Option<string>,
    algorithm: Option<string>)

  /** `Tune(metric, params)` with every other field at its default. */
  function DefaultTune(metric: string, params: seq<Param>): (t: Tune)
    ensures t.goal == "MAXIMIZE" && t.trials == 1 && t.parallel == 1
    ensures t.resumePreviousJobId.None? && t.algorithm.None?
  {
    Tune(metric, params, "MAXIMIZE", 1, 1, None, None)
  }

  /** The outcome of a tuning job: the best metric, the best trial's
      hyperparameters, and every successful trial flattened to a dictionary. */
  datatype TuneResult = TuneResult(metric: Value, hyperparameters: map<string, Value>, trials: seq<map<string, Value>>)
}

=== FILE: vertex_tune_result.dfy ===
/** The reduction of a finished hyperparameter-tuning job to a `TuneResult`
    (`VertexExecutor._tune_result` in block_cascade/executors/vertex/executor.py):
    sort the trials by their first metric, keep the successful ones in that
    order, flatten each to a dictionary, and take the first as the best. */
module VertexTuneResult {
  import opened Wrappers
  import opened Strings
  import opened Json
  import opened Utils
  import opened Tune

  /** One trial as the tuning API reports it: its id, the values of its
      final measurement's metrics in order (none when the trial was never
      measured, as a failed trial may not be), its parameters in order and
      the name of its state. */
  datatype ReportedTrial = ReportedTrial(id: string, metrics: seq<int>, parameters: seq<(string, Value)>, state: string)

  /** A trial whose first final metric could be read: the sort key. */
  datatype Trial = Trial(id: string, metric: int, parameters: seq<(string, Value)>, state: string)

  /** Every trial has a first final metric, so the sort key can be computed
      for each. */
  predicate AllMeasured(ts: seq<ReportedTrial>) {
    forall i | 0 <= i < |ts| :: |ts[i].metrics| > 0
  }

  /** The trials with their sort keys read. */
  function Measured(ts: seq<ReportedTrial>): (r: seq<Trial>)
    requires AllMeasured(ts)
    ensures |r| == |ts|
    ensures forall i | 0 <= i < |ts| :: r[i] == Trial(ts[i].id, ts[i].metrics[0], ts[i].parameters, ts[i].state)
  {
    seq(|ts|, i requires 0 <= i < |ts| => Trial(ts[i].id, ts[i].metrics[0], ts[i].parameters, ts[i].state))
  }

  /** `a` may come before `b` in the sorted order: ascending by metric, or
      descending when `reverse`. */
  predicate InOrder(a: Trial, b: Trial, reverse: bool) {
    if reverse then a.metric >= b.metric else a.metric <= b.metric
  }

  predicate Sorted(s: seq<Trial>, reverse: bool) {
    forall i, j | 0 <= i < j < |s| :: InOrder(s[i], s[j], reverse)
  }

  /** The elements of `s` that satisfy `p`, in order. */
  function Filter(s: seq<Trial>, p: Trial -> bool): (r: seq<Trial>)
    ensures |r| <= |s|
    ensures forall t :: t in r <==> t in s && p(t)
    decreases |s|
  {
    if |s| == 0 then []
    else if p(s[0]) then [s[0]] + Filter(s[1..], p)
    else Filter(s[1..], p)
  }

  /** Insert `t` before the first element it may precede. */
  function Insert(t: Trial, s: seq<Trial>, reverse: bool): (r: seq<Trial>)
    ensures multiset(r) == multiset(s) + multiset{t}
    decreases |s|
  {
    if |s| == 0 then [t]
    else if InOrder(t, s[0], reverse) then [t] + s
    else
      assert s == [s[0]] + s[1..];
      [s[0]] + Insert(t, s[1..], reverse)
  }

  /** Inserting into a sorted sequence keeps it sorted. */
  lemma {:induction false} InsertSorted(t: Trial, s: seq<Trial>, reverse: bool)
    requires Sorted(s, reverse)
    ensures Sorted(Insert(t, s, reverse), reverse)
    decreases |s|
  {
    if |s| > 0 && !InOrder(t, s[0], reverse) {
      assert Sorted(s[1..], reverse);
      InsertSorted(t, s[1..], reverse);
      var rest := Insert(t, s[1..], reverse);
      assert forall k | 0 <= k < |rest| :: rest[k] in multiset(s[1..]) + multiset{t};
      assert forall k | 0 <= k < |rest| :: InOrder(s[0], rest[k], reverse);
    }
  }

  /** `sorted(trials, key=first metric, reverse=reverse)`. */
  function SortTrials(s: seq<Trial>, reverse: bool): (r: seq<Trial>)
    ensures multiset(r) == multiset(s)
    ensures Sorted(r, reverse)
    decreases |s|
  {
    if |s| == 0 then []
    else
      assert s == [s[0]] + s[1..];
      InsertSorted(s[0], SortTrials(s[1..], reverse), reverse);
      Insert(s[0], SortTrials(s[1..], reverse), reverse)
  }

  /** The trials whose metric is exactly `m`. */
  function WithMetric(m: int): Trial -> bool {
    (t: Trial) => t.metric == m
  }

  /** Inserting `t` places it before every element with the same metric. */
  lemma {:induction false} InsertStable(t: Trial, s: seq<Trial>, reverse: bool, m: int)
    ensures Filter(Insert(t, s, reverse), WithMetric(m))
      == (if t.metric == m then [t] else []) + Filter(s, WithMetric(m))
    decreases |s|
  {
    if |s| == 0 {
    } else if InOrder(t, s[0], reverse) {
    } else {
      InsertStable(t, s[1..], reverse, m);
      var rest := Insert(t, s[1..], reverse);
      assert ([s[0]] + rest)[1..] == rest;
    }
  }

  /** The sort is stable: trials with equal metrics keep their input order. */
  lemma {:induction false} SortTrialsStable(s: seq<Trial>, reverse: bool, m: int)
    ensures Filter(SortTrials(s, reverse), WithMetric(m)) == Filter(s, WithMetric(m))
    decreases |s|
  {
    if |s| > 0 {
      SortTrialsStable(s[1..], reverse, m);
      InsertStable(s[0], SortTrials(s[1..], reverse), reverse, m);
    }
  }

  /** The trials that finished in state SUCCEEDED. */
  function Succeeded(): Trial -> bool {
    (t: Trial) => t.state == "SUCCEEDED"
  }

  /** A subsequence of a sorted sequence is sorted. */
  lemma {:induction false} FilterSorted(s: seq<Trial>, p: Trial -> bool, reverse: bool)
    requires Sorted(s, reverse)
    ensures Sorted(Filter(s, p), reverse)
    decreases |s|
  {
    if |s| > 0 {
      assert Sorted(s[1..], reverse);
      FilterSorted(s[1..], p, reverse);
      var rest := Filter(s[1..], p);
      assert forall k | 0 <= k < |rest| :: rest[k] in s[1..];
    }
  }

  /** Nothing passes a filter no element satisfies. */
  lemma {:induction false} FilterNone(s: seq<Trial>, p: Trial -> bool)
    requires forall k | 0 <= k < |s| :: !p(s[k])
    ensures Filter(s, p) == []
    decreases |s|
  {
    if |s| > 0 {
      FilterNone(s[1..], p);
    }
  }

  /** The parameters of a trial as a dictionary; a later parameter with the
      same id replaces an earlier one. */
  function ParamsMap(ps: seq<(string, Value)>): (r: map<string, Value>)
    ensures forall k :: k in r <==> exists i | 0 <= i < |ps| :: ps[i].0 == k
    decreases |ps|
  {
    if |ps| == 0 then map[]
    else
      var rest := ParamsMap(ps[..|ps| - 1]);
      assert forall i | 0 <= i < |ps| - 1 :: ps[..|ps| - 1][i] == ps[i];
      rest[ps[|ps| - 1].0 := ps[|ps| - 1].1]
  }

  /** One flattened trial: its id through `maybe_convert`, its metric, then
      its parameters, which are spread last and so replace `trial_id` or
      `metric` if a parameter carries that name. The metric is not a string,
      so `maybe_convert` hands it back unchanged. */
  function Flatten(literalEval: string -> Literal, t: Trial): (r: Result<map<string, Value>>)
    ensures r.Ok? ==> r.value.Keys == {"trial_id", "metric"} + ParamsMap(t.parameters).Keys
    ensures r.Ok? ==> forall k | k in ParamsMap(t.parameters) :: r.value[k] == ParamsMap(t.parameters)[k]
    ensures r.Ok? && "metric" !in ParamsMap(t.parameters) ==> r.value["metric"] == JInt(t.metric)
    ensures r.Err? <==> MaybeConvert(literalEval, t.id).Err?
  {
    var id :- MaybeConvert(literalEval, t.id);
    Ok(map["trial_id" := id, "metric" := JInt(t.metric)] + ParamsMap(t.parameters))
  }

  /** Flatten every trial in order; the first failing conversion raises. */
  function FlattenAll(literalEval: string -> Literal, ts: seq<Trial>): (r: Result<seq<map<string, Value>>>)
    ensures r.Ok? <==> forall i | 0 <= i < |ts| :: Flatten(literalEval, ts[i]).Ok?
    ensures r.Ok? ==> |r.value| == |ts|
    ensures r.Ok? ==> forall i | 0 <= i < |ts| :: r.value[i] == Flatten(literalEval, ts[i]).value
    decreases |ts|
  {
    if |ts| == 0 then Ok([])
    else
      var head :- Flatten(literalEval, ts[0]);
      var rest :- FlattenAll(literalEval, ts[1..]);
      assert forall i | 1 <= i < |ts| :: ts[i] == ts[1..][i - 1];
      Ok([head] + rest)
  }

  /** Whether the goal's text asks for the largest metric. */
  predicate Maximize(goal: string) {
    Contains(goal, "MAXIMIZE")
  }

  /** The best trial's dictionary without its id and metric. */
  function Hyperparameters(best: map<string, Value>): (r: map<string, Value>)
    ensures forall k :: k in r <==> k in best && k != "trial_id" && k != "metric"
    ensures forall k | k in r :: r[k] == best[k]
  {
    map k | k in best && k != "trial_id" && k != "metric" :: best[k]
  }

  /** `_tune_result`: `sorted` computes the key of every trial first, so a
      trial without a final metric raises `IndexError` whatever its state;
      with no successful trial, indexing the empty list raises too. */
  function TuneResultOf(literalEval: string -> Literal, goal: string, trials: seq<ReportedTrial>): (r: Result<TuneResult>)
    ensures !AllMeasured(trials) ==> r == Err(IndexError)
    ensures AllMeasured(trials) ==> var kept := Filter(SortTrials(Measured(trials), Maximize(goal)), Succeeded());
      r.Ok? <==> FlattenAll(literalEval, kept).Ok? && |kept| > 0
    ensures AllMeasured(trials) ==> var kept := Filter(SortTrials(Measured(trials), Maximize(goal)), Succeeded());
      r.Ok? ==> r.value.trials == FlattenAll(literalEval, kept).value
    ensures r.Ok? ==> |r.value.trials| > 0 && "metric" in r.value.trials[0]
    ensures r.Ok? ==> r.value.metric == r.value.trials[0]["metric"]
    ensures r.Ok? ==> r.value.hyperparameters == Hyperparameters(r.value.trials[0])
  {
    if !AllMeasured(trials) then Err(IndexError)
    else
      var sorted := SortTrials(Measured(trials), Maximize(goal));
      var flattened :- FlattenAll(literalEval, Filter(sorted, Succeeded()));
      if |flattened| == 0 then Err(IndexError)
      else
        var best := flattened[0];
        Ok(TuneResult(best["metric"], Hyperparameters(best), flattened))
  }

  /** Without any successful trial there is no best one. */
  lemma NoSuccessNoResult(literalEval: string -> Literal, goal: string, trials: seq<ReportedTrial>)
    requires forall i | 0 <= i < |trials| :: trials[i].state != "SUCCEEDED"
    ensures TuneResultOf(literalEval, goal, trials) == Err(IndexError)
  {
    if AllMeasured(trials) {
      var measured := Measured(trials);
      var sorted := SortTrials(measured, Maximize(goal));
      assert forall k | 0 <= k < |sorted| :: sorted[k] in multiset(measured);
      FilterNone(sorted, Succeeded());
    }
  }

  /** A failed trial that was never measured makes the whole result fail,
      even when other trials succeeded. */
  lemma UnmeasuredFailsAll(literalEval: string -> Literal, goal: string, trials: seq<ReportedTrial>, i: int)
    requires 0 <= i < |trials| && trials[i].metrics == []
    ensures TuneResultOf(literalEval, goal, trials) == Err(IndexError)
  {
  }

  /** The reported metric is the best among the successful trials: no
      successful trial beats it in the goal's direction (provided no
      parameter is itself called "metric"). */
  lemma {:induction false} BestIsOptimal(literalEval: string -> Literal, goal: string, trials: seq<ReportedTrial>)
    requires TuneResultOf(literalEval, goal, trials).Ok?
    requires forall i, j | 0 <= i < |trials| && 0 <= j < |trials[i].parameters| :: trials[i].parameters[j].0 != "metric"
    ensures AllMeasured(trials)
    ensures var best := TuneResultOf(literalEval, goal, trials).value.metric;
      best.JInt? && forall i | 0 <= i < |trials| && trials[i].state == "SUCCEEDED" ::
        if Maximize(goal) then best.i >= trials[i].metrics[0] else best.i <= trials[i].metrics[0]
  {
    var reverse := Maximize(goal);
    var measured := Measured(trials);
    var sorted := SortTrials(measured, reverse);
    var kept := Filter(sorted, Succeeded());
    FilterSorted(sorted, Succeeded(), reverse);
    var first := kept[0];
    assert first in sorted;
    assert first in multiset(measured);
    var f :| 0 <= f < |measured| && measured[f] == first;
    assert "metric" !in ParamsMap(first.parameters) by {
      assert first.parameters == trials[f].parameters;
    }
    assert TuneResultOf(literalEval, goal, trials).value.metric == JInt(first.metric);
    forall i | 0 <= i < |trials| && trials[i].state == "SUCCEEDED"
      ensures InOrder(first, measured[i], reverse)
    {
      assert measured[i] in multiset(sorted);
      assert measured[i] in kept;
      var k :| 0 <= k < |kept| && kept[k] == measured[i];
      assert k == 0 || InOrder(kept[0], kept[k], reverse);
    }
  }
}

=== FILE: wrappers.dfy ===
/** Failure-compatible wrappers shared by every module of the model.

    Python signals failure by raising; here every operation that can raise
    returns a `Result` whose `Err` side names the exception class the source
    raises (with the message where the source fixes one). */
module Wrappers {

  /** The conventional optional value; stands for Python's `Optional[T]`. */
  datatype Option<+T> = None | Some(value: T) {

    predicate IsFailure() {
      None?
    }

    function PropagateFailure<U>(): Option<U>
      requires None?
    {
      None
    }

    function Extract(): T
      requires Some?
    {
      value
    }

    function GetOr(default: T): (r: T)
      ensures Some? ==> r == value
      ensures None? ==> r == default
    {
      match this
      case Some(v) => v
      case None => default
    }
  }

  /** The exceptions the modelled code raises, lets escape, or catches. */
  datatype Error =
    | KeyError(key: string)
    | ValueError(message: string)
    | TypeError(message: string)
    | RuntimeError(message: string)
    | AttributeError(name: string)
    | IndexError
    | FileNotFoundError(path: string)
    | TimeoutError(message: string)
    | JsonDecodeError
    | ConnectionError
    | HttpError(url: string)
    | ValidationError(field: string)
    | UnpicklingError
    | PackageNotFoundError(package: string)
    | VertexError(message: string)
    | VertexCancelledError(message: string)
    | DatabricksError(message: string)
    | DatabricksCancelledError(message: string)
    | InvalidReturnDictionaryError
    | NoSuchKey(key: string)
    | ImportError(moduleName: string)
    | UnboundLocalError(name: string)
    | MissingContextError
      /** Anything raised by code outside the model (user functions, SDKs). */
    | Raised(kind: string)

  /** Either a value or the exception that the source would raise instead. */
  datatype Result<+T> = Ok(value: T) | Err(error: Error) {

    predicate IsFailure() {
      Err?
    }

    function PropagateFailure<U>(): Result<U>
      requires Err?
    {
      Err(error)
    }

    function Extract(): T
      requires Ok?
    {
      value
    }
  }
}
